=== FILE: README.md ===
# ChessArena core, modelled in Dafny

ChessArena pits language models against each other, and against the Stockfish engine, at chess,
and benchmarks them on chess tasks. This project models the backend logic that decides scores,
rankings and access:

- **Move quality (Python steps).** Two parts are covered.
  - `evaluate-player-move` recovers the move played from two FENs. It asks the engine for
    evaluations, normalises the score to [-1, 1] and derives accuracy and swing.
  - `score-ai-move` reports the engine's score after an AI move.
  - The engine session is modelled as an event log: it is spawned once, analyses in request
    order and quits once.
- **Stockfish benchmark.** Two parts are covered.
  - Parsing the engine's output.
  - The game loop of a model against Stockfish, with its centipawn loss and its blunder,
    mistake and inaccuracy tallies. Step 10 then turns the games into a run and a per-model
    summary.
- **Game scoring and leaderboards.**
  - The per-player score of a finished game and its decisive moment.
  - The capture score and the move transition.
  - The PGN of a game.
  - The game-ended step's leaderboard update.
  - The player-strength analysis.
  - The history list and both history exports (JSON, and CSV that reads back to the values).
- **Benchmark scoring.**
  - The legal-move benchmark: position generation, precision, recall and F1 over the model's
    answer, the per-position score, the run aggregates and the steps that store runs and
    running-mean summaries.
  - The puzzle benchmark: answer checking, accuracy, per-theme summaries, and the run-all step
    that tops up a puzzle set and skips models that already ran it.
- **Validators, selectors and small state rules.**
  - Game roles and move access.
  - The create-game player check.
  - The weighted random AI selection and its displayed probabilities.
  - The provider options.
- **Infrastructure helpers.**
  - Retrying with `Retry-After` or capped exponential backoff.
  - `parsePositiveInt` and the worker count.
  - The Lichess puzzle fetch helpers.
  - The purge of stuck games.

Everything the code cannot decide by itself is a parameter of the model rather than an
assumption:

- chess.js and python-chess rules (a `Library`/`Rules` record of total functions);
- the engine's analyses and raw output;
- the language model's answers;
- clocks, random draws and ids;
- `Number`, `Date.parse` and `toISOString`;
- HTTP replies.

JavaScript `undefined` and `NaN` are `None`. Errors the code throws or catches are `Err`
values carrying the message.

## Model

| member | source | states |
|---|---|---|
| MoveRecovery.FindMove | api/steps/chess/evaluate-player-move.step.py:72-83 | the search returns the first legal move, in enumeration order, whose pushed FEN equals the later FEN, or none; every trial push is popped, so the board's move stack is empty again afterwards |
| MoveRecovery.FirstMatchIsFirst | api/steps/chess/evaluate-player-move.step.py:74-80 | no move is found exactly when no legal move leads to the later FEN; otherwise the move found sits at the smallest matching index |
| MoveRecovery.Recover | api/steps/chess/score-ai-move.step.py:38-54 | recovery fails exactly when the earlier FEN does not parse or no legal move leads to the later FEN; a recovered move is legal and leads to the later FEN |
| ScoreNormalizer.NormalizeCentipawns | api/steps/chess/evaluate-player-move.step.py:24-26 | the centipawn branch is cp/1000 clipped to [-1, 1], and it saturates at ±1 from ±1000 on |
| ScoreNormalizer.NormalizeCentipawnsMonotone | api/steps/chess/evaluate-player-move.step.py:26 | a larger centipawn score never normalises lower |
| ScoreNormalizer.MateMagnitude | api/steps/chess/evaluate-player-move.step.py:20-21 | the magnitude of a mate score lies in (0.8, 1.0] and is 1.0 exactly for mate in one |
| ScoreNormalizer.MateMagnitudeDecreasing | api/steps/chess/evaluate-player-move.step.py:20-21 | a nearer mate has a strictly larger magnitude |
| ScoreNormalizer.NormalizeScoreAsWritten | api/steps/chess/evaluate-player-move.step.py:16-26 | as written, normalisation fails (division by zero) exactly for a mate-0 score |
| ScoreNormalizer.CheckmatedPositionHasNoScore | api/steps/chess/evaluate-player-move.step.py:20-21 | mate 0 has no normalised score as written, while every other mate score does |
| ScoreNormalizer.NormalizeScore | api/steps/chess/evaluate-player-move.step.py:16-26 | the corrected normalisation lies in [-1, 1]; centipawns take the centipawn branch; a mate is positive exactly when the mover mates, and its magnitude is above 0.8 |
| ScoreNormalizer.NormalizeScoreAgrees | api/steps/chess/evaluate-player-move.step.py:16-26 | the corrected normalisation equals the written one wherever the written one has a value |
| ScoreNormalizer.MateOutranksCentipawns | api/steps/chess/evaluate-player-move.step.py:18-26 | a winning mate normalises above every centipawn score up to 800 |
| PlayerMoveEvaluation.EvaluatePosition | api/steps/chess/evaluate-player-move.step.py:28-48 | evaluating one answer fails exactly for a mate-0 score (division by zero) or an empty principal variation (index error); otherwise it keeps the relative score and its normalisation in [-1, 1] |
| PlayerMoveEvaluation.MoveAccuracy | api/steps/chess/evaluate-player-move.step.py:95-101 | accuracy is 100 for the engine's best move and otherwise 50 + 50·quality clipped to [0, 100]; it always lies in [0, 100] |
| PlayerMoveEvaluation.MoveAccuracyMonotone | api/steps/chess/evaluate-player-move.step.py:101 | a move that improves the position more is never rated less accurate |
| PlayerMoveEvaluation.MoveScore | api/steps/chess/evaluate-player-move.step.py:93-121 | the emitted payload: the evaluation and the mate flag are those of the position after the move; the quality is the normalised score after minus before; the accuracy is 100 for the engine's best move and otherwise 50 plus 50 times the quality, clamped to [0, 100]; the centipawn value is present exactly when the after-score is not a mate, the mate distance exactly when it is |
| PlayerMoveEvaluation.ScorePlayedMove | api/steps/chess/evaluate-player-move.step.py:68-125 | no move recovered means an error and no analysis; a result is the payload computed from the analyses of the positions before and after the move, in that order; a third analysis happens exactly when the move is not the best one |
| PlayerMoveEvaluation.MoveScoreOfAnswers | api/steps/chess/evaluate-player-move.step.py:93-118 | in terms of the engine's two answers: the evaluation is the normalised after-score, the quality the difference of the normalised scores, the mate flag follows the after-score, and the accuracy is 100 exactly when the move is the first of the principal variation before it or the quality is at least 1 |
| PlayerMoveEvaluation.BetterMoveMoreAccurate | api/steps/chess/evaluate-player-move.step.py:96-101 | of two moves that are not the best move from the same position, the one leading to the better normalised score is at least as accurate |
| PlayerMoveEvaluation.HandlePlayerMove | api/steps/chess/evaluate-player-move.step.py:50-127 | missing FENs or a missing engine path fail before the engine is spawned; otherwise the engine is spawned once and quit once, on every exit |
| SwingEvaluation.EvaluationSwing | api/steps/chess/evaluate_player_move_step.py:35-36 | the swing is never negative, is 0 when the played move is at least as good, and is otherwise the difference from the best move |
| SwingEvaluation.BlunderIffMoreThanAPawnWorse | api/steps/chess/evaluate_player_move_step.py:39-40 | a blunder is exactly a move more than 100 centipawns worse than the best, so exactly 100 is not one |
| SwingEvaluation.PlayerCentipawns | api/steps/chess/evaluate_player_move_step.py:47-52 | the score is taken from the named player's side, negated for the side not to move, and a mate score counts as 0 |
| SwingEvaluation.PlayerCentipawnsAntisymmetric | api/steps/chess/evaluate_player_move_step.py:48 | the two sides read the same centipawn score with opposite signs |
| SwingEvaluation.EvaluatePosition | api/steps/chess/evaluate_player_move_step.py:43-54 | evaluation fails exactly when the analysis fails or the principal variation is empty; the best move is absent exactly when there is no principal variation, and otherwise is its first move |
| SwingEvaluation.EvaluateSwing | api/steps/chess/evaluate_player_move_step.py:69-101 | the analyses run before, after, then before-plus-best-move; no best move fails before the third; the stored record changes only its evaluation: the after score, the before-position's best move, the swing against the best line and the blunder flag |
| SwingEvaluation.HandleSwing | api/steps/chess/evaluate_player_move_step.py:62-107 | a missing engine path fails before spawning; otherwise the engine is spawned once and quit once, on success and on a re-raised error |
| AiMoveScoring.ScoreAfterMove | api/steps/chess/score-ai-move.step.py:59-74 | the evaluation is the side-relative centipawn score after the move, and a mate score fails; the best move is the first move of a non-empty principal variation, else none |
| AiMoveScoring.HandleAiMove | api/steps/chess/score-ai-move.step.py:18-76 | missing FENs fail before the engine starts; a plain-dict payload fails at the first attribute read; a result means the move was recovered, exactly one position, the one after it, was analysed, and the result is the score record of that analysis for the game and move ids; the engine is quit on every exit |
| EngineSession.SessionLog | api/steps/chess/evaluate_player_move_step.py:64-107 | a session log spawns the engine once, analyses the given positions in order, and quits once |
| EngineSession.ScopedOpensAndClosesOnce | api/steps/chess/evaluate-player-move.step.py:66-127 | a well-scoped session spawns once and quits once, and analyses exactly the positions between |
| Chess.ScoreFor | api/steps/chess/evaluate_player_move_step.py:48 | reading a relative score from a side gives the score itself for the side to move and its negation for the other |
| StockfishEngine.MateToCentipawnsShape | api/services/benchmark/stockfish-game.ts:98-100 | the mate mapping is antisymmetric away from mate 0, ranks a nearer winning mate higher, gives a winning mate within 99 moves a score in (0, 10000), and maps mate 0 to -10000 |
| StockfishEngine.FirstMate | api/services/benchmark/stockfish-game.ts:94 | the first `score mate` in the output is found exactly when some line carries a mate score |
| StockfishEngine.EvaluateAsWritten | api/services/benchmark/stockfish-game.ts:85-109 | as written, the first mate line in the output wins and is mapped; without one the first centipawn line is used, and with neither the score is 0; the best move is the `bestmove` text or '' |
| StockfishEngine.EvaluateAsWrittenReadsShallowestLine | api/services/benchmark/stockfish-game.ts:93-94 | an output whose depth-1 line says +30 and whose final line says -200 is read as +30 as written and as -200 by the corrected reading |
| StockfishEngine.Evaluate | api/services/benchmark/stockfish-game.ts:85-109 | the corrected reading takes the last score line before `bestmove`, and 0 when there is none; the best move is as written |
| StockfishEngine.EvaluateIgnoresShallowerLines | api/services/benchmark/stockfish-game.ts:88-94 | lines printed before the final one do not change the corrected evaluation |
| StockfishEngine.EvaluateAgreesOnOneLine | api/services/benchmark/stockfish-game.ts:93-103 | with a single score line both readings agree |
| StockfishEngine.SkillLevel | api/services/benchmark/stockfish-game.ts:66-68 | the skill value sent always lies in [0, 20], equals the level inside that range, and is clamped outside it |
| StockfishEngine.SkillLevelIdempotentMonotone | api/services/benchmark/stockfish-game.ts:68 | clamping is idempotent and monotone |
| StockfishEngine.SplitUci | api/services/benchmark/stockfish-game.ts:272-275 | a UCI text of at least four characters splits into two 2-character squares, and a promotion letter is present exactly when the text is longer than four characters |
| StockfishEngine.SplitUciRoundTrip | api/services/benchmark/stockfish-game.ts:273-275 | gluing the three pieces back together gives the first five characters of the text |
| StockfishGame.CentipawnLossAsWritten | api/services/benchmark/stockfish-game.ts:218-221 | as written, the loss is the drop between the two scores, both negated for a black AI, and never negative |
| StockfishGame.CentipawnLossAsWrittenChargesKeptEdge | api/services/benchmark/stockfish-game.ts:219-221 | a White move that keeps a 60-centipawn edge is charged 120 as written and 0 by the corrected loss |
| StockfishGame.CentipawnLoss | api/services/benchmark/stockfish-game.ts:218-221 | the corrected loss from side-to-move scores is max(0, before + after), and it is 0 exactly when the AI's own score did not drop |
| StockfishGame.CentipawnLossFromWhiteView | api/services/benchmark/stockfish-game.ts:219-221 | the written formula, applied to scores first converted to White's view, gives exactly the corrected loss for either colour |
| StockfishGame.Classify | api/services/benchmark/stockfish-game.ts:226-228 | a loss over 100 is a blunder, over 50 a mistake, over 25 an inaccuracy, and anything else sound |
| StockfishGame.ClassifyMonotone | api/services/benchmark/stockfish-game.ts:226-228 | a larger loss is never classified as less severe |
| StockfishGame.Acpl | api/services/benchmark/stockfish-game.ts:315 | the ACPL is the total loss divided by the AI's moves, and 0 when there are none |
| StockfishGame.SeverityCountsBounded | api/services/benchmark/stockfish-game.ts:223-228 | blunders, mistakes and inaccuracies together never exceed the AI's moves |
| StockfishGame.FinalOutcome | api/services/benchmark/stockfish-game.ts:291-307 | with no earlier result, checkmate goes to the side not to move (as an AI win or a Stockfish win), a draw or the move limit is a draw, and otherwise there is no result |
| StockfishGame.LossIsScoreDrop | api/services/benchmark/stockfish-game.ts:219-221 | both readings charge exactly the drop in the AI's own score, never a negative amount |
| StockfishGame.AiAttempt | api/services/benchmark/stockfish-game.ts:206-256 | no answer plays nothing; a recorded AI move has its SAN played from the position, both evaluations succeeded, and it stores the after score, the loss max(0, before - after) and the before-position's best move |
| StockfishGame.StockfishTurn | api/services/benchmark/stockfish-game.ts:269-287 | an engine error is passed on with its message; a UCI move that chess.js rejects fails with chess.js's `Invalid move:` message for the split squares and promotion; a played move is recorded as not an AI move, by the side to move, at the current move number, with the played move's SAN and the position after it |
| StockfishGame.MoveObject | api/services/benchmark/stockfish-game.ts:273-277 | the JSON of the move object is a braced text whose `promotion` key is left out when there is no promotion |
| StockfishGame.InvalidMoveMessage | api/services/benchmark/stockfish-game.ts:277 | the rejection message is `Invalid move: ` followed by the JSON of the move object chess.js was handed |
| StockfishGame.InvalidMoveOfPlainSquares | api/services/benchmark/stockfish-game.ts:277 | for squares needing no escape and no promotion, the message is `Invalid move: {"from":"<from>","to":"<to>"}` |
| Json.EscapeChar | api/services/benchmark/stockfish-game.ts:277 | a character is written as a backslash escape exactly when JSON needs one, and as itself otherwise |
| Json.JsonString | api/services/benchmark/stockfish-game.ts:277 | a quoted text whose inside is the escaped string |
| Json.EscapePlain | api/services/benchmark/stockfish-game.ts:277 | text with no character needing an escape is written unchanged |
| Json.UnescapeEscape | api/services/benchmark/stockfish-game.ts:277 | reading back an escaped text gives the text |
| Json.JsonStringReadsBack | api/services/benchmark/stockfish-game.ts:277 | the inside of a quoted JSON string reads back as the original string |
| StockfishGame.PlayMoves | api/services/benchmark/stockfish-game.ts:163-289 | at most 200 records, numbered 1, 2, ... in order; the tally is that of the records; the loop ends on game over or the move limit unless the third consecutive AI failure sets `ai_illegal_move` or the engine fails |
| StockfishGame.PlayGame | api/services/benchmark/stockfish-game.ts:121-332 | the result is a finished game record of the AI's colour and level (a missing binary path fails without spawning; a failed game has no result and no moves; a completed game reports the counts, the total loss, the ACPL and the severity counts of its records); otherwise the engine is spawned and quit once; `ai_illegal_move` exactly after three consecutive AI failures |
| StockfishBenchmarkStep.AddGame | api/steps/benchmark/10-run-stockfish-benchmark.step.ts:63-67 | each game increments exactly one of wins, losses and draws: an AI win is a win, a Stockfish win a loss, and anything else a draw |
| StockfishBenchmarkStep.TallyCountsResults | api/steps/benchmark/10-run-stockfish-benchmark.step.ts:62-81 | the tally counts AI wins as wins, Stockfish wins as losses, and every other game as a draw |
| StockfishBenchmarkStep.OverallAcpl | api/steps/benchmark/10-run-stockfish-benchmark.step.ts:85-88 | the overall ACPL is the pooled loss over the pooled AI moves, and 0 when there are none |
| StockfishBenchmarkStep.PooledAcplBetween | api/steps/benchmark/10-run-stockfish-benchmark.step.ts:86-88 | pooling two non-empty samples gives a mean between the two samples' means |
| StockfishBenchmarkStep.OverallAcplBetweenGames | api/steps/benchmark/10-run-stockfish-benchmark.step.ts:86-88 | when the AI moved in both games, the overall ACPL lies between the two games' ACPLs |
| StockfishBenchmarkStep.UpdateSummary | api/steps/benchmark/10-run-stockfish-benchmark.step.ts:97-112 | the summary gains one run; the average is the running mean; the best ACPL is the minimum, with no previous summary counting as no bound; wins, losses and draws are added |
| StockfishBenchmarkStep.SummaryAverageIsMean | api/steps/benchmark/10-run-stockfish-benchmark.step.ts:104-106 | folding runs into a summary keeps the mean of all their ACPLs |
| StockfishBenchmarkStep.SummaryBestIsMinimum | api/steps/benchmark/10-run-stockfish-benchmark.step.ts:107 | folding runs into a summary keeps the lowest ACPL of all runs |
| StockfishBenchmarkStep.SummaryCountsGames | api/steps/benchmark/10-run-stockfish-benchmark.step.ts:108-110 | across folded runs, wins, losses and draws add up to every game played |
| StockfishBenchmarkStep.CompleteRun | api/steps/benchmark/10-run-stockfish-benchmark.step.ts:60-91 | a completed run keeps its identity and level, holds both games, and carries their tally and overall ACPL |
| StockfishBenchmarkStep.RecordRun | api/steps/benchmark/10-run-stockfish-benchmark.step.ts:93-112 | storing a run writes the completed run and the model's summary and keeps every other run and summary |
| StockfishBenchmarkStep.RunStockfishBenchmark | api/steps/benchmark/10-run-stockfish-benchmark.step.ts:11-133 | for a level in the request schema's range 1 to 20 (or the default 10): an unsupported model gets 400 and nothing is stored; otherwise two games are played, the first a finished game record with the AI as white and the second with the AI as black, both at the run's level, and the run and the summary are recorded from exactly those two games |
| StockfishBenchmarkStep.FailedGamesCountAsDraws | api/steps/benchmark/10-run-stockfish-benchmark.step.ts:62-88 | two failed games make a run of two draws with overall ACPL 0, which then becomes the model's best ACPL |
| GameScore.Evaluations | api/services/chess/generate-game-score.ts:6-9 | a player's evaluations are exactly those carried by that colour's evaluated moves |
| GameScore.PlayerScoreOf | api/services/chess/generate-game-score.ts:5-25 | the average swing is defined exactly when the player has an evaluated move; the highest swing is at least 0; blunders and checks are bounded by the moves; a missing game record gives zero illegal attempts, no captures and no promotions |
| GameScore.LastEvaluatedIndex | api/services/chess/generate-game-score.ts:12-18 | the index of the player's last evaluated move, absent exactly when the player has none |
| GameScore.FinalScoreIsLastEvaluated | api/services/chess/generate-game-score.ts:18 | the final centipawn score is that of the player's last evaluated move, and undefined exactly when there is none |
| GameScore.AverageSwingBounded | api/services/chess/generate-game-score.ts:16-17 | the rounded average swing lies between 0 and the highest swing |
| GameScore.HighestSwingIndexIsDecisive | api/services/chess/generate-game-score.ts:50-56 | when some move is evaluated, the reduce lands on a move of maximal swing, and on the later one in a tie; otherwise it stays on the first move |
| GameScore.DecisiveMomentOf | api/services/chess/generate-game-score.ts:50-71 | the decisive moment is absent exactly when no move is evaluated; otherwise it is a maximal-swing move with its 1-based number, swing, move and FEN |
| GameScore.GenerateGameScore | api/services/chess/generate-game-score.ts:27-72 | an empty game gives all-zero scores and no decisive moment; a non-empty game with no evaluated move fails on the non-null assertion; otherwise the total is the number of moves and both players' scores and the decisive moment are filled in |
| Stats.Average | api/services/chess/utils.ts:2 | the average times the length is the sum, and it is undefined (NaN) exactly for an empty array |
| Stats.AverageWithinBounds | api/services/chess/utils.ts:2 | the average of values in [lo, hi] lies in [lo, hi] |
| Stats.Mean | api/steps/benchmark/06-run-puzzle-benchmark.step.ts:76-80 | the mean times the length is the sum, and NaN for an empty list |
| Stats.RunningMean | api/steps/benchmark/01-run-legal-move-benchmark.step.ts:71-74 | the running mean after one more value times the new count equals the old mean times the old count plus the value |
| Stats.FoldRunningMeanIsMean | api/steps/benchmark/01-run-legal-move-benchmark.step.ts:71-74 | folding the running mean over a list gives the mean of the list |
| Stats.Highest | api/services/chess/utils.ts:3 | `highest` is at least 0 and at least every element, and it is 0 or one of the elements |
| Stats.Lowest | api/services/chess/utils.ts:4 | `lowest` is at most -10000 and at most every element, and it is -10000 or one of the elements |
| Stats.SeedsDominate | api/services/chess/utils.ts:3-4 | the seeds dominate: `highest` of non-positive values is 0, and `lowest` of values from -10000 up is -10000 |
| Stats.NumericSort | api/services/chess/utils.ts:1 | the numeric sort is an ascending permutation of its input |
| Stats.Median | api/services/chess/utils.ts:1 | the median is undefined exactly for an empty array |
| Stats.MedianSplitsValues | api/services/chess/utils.ts:1 | the median is one of the values, with floor(n/2) values at or below it and the rest at or above it |
| Stats.Round | api/services/chess/generate-game-score.ts:16 | `Math.round` gives the integer within half of x, with halves rounding up |
| GameEnded.DerivedWinner | api/steps/chess/08-game-ended.step.ts:79-87 | the winner is the game's winner if it has one, else the side with the higher final centipawn score, else nobody |
| GameEnded.OverrideLeaderboard | api/steps/chess/08-game-ended.step.ts:63-106 | one more game is played; checkmates, draws and early ends gain 1 exactly on their condition; illegal moves, the final centipawn score (NaN-propagating) and the highest swing are added; victories gain at most 1; an existing record keeps its id, provider and model |
| GameEnded.CheckmateIsVictory | api/steps/chess/08-game-ended.step.ts:98-99 | a checkmate credited to a side is always also a victory for it |
| GameEnded.AtMostOneVictory | api/steps/chess/08-game-ended.step.ts:79-98 | white and black never both gain a victory from the same game |
| GameEnded.VictoryByScore | api/steps/chess/08-game-ended.step.ts:81-87 | with no game winner, a side gains a victory exactly when its final centipawn score is higher |
| GameEnded.MissingRecordCountsAsZeros | api/steps/chess/08-game-ended.step.ts:96-104 | a missing record behaves exactly like an all-zero record named after the model |
| GameEnded.HandleGameEnded | api/steps/chess/08-game-ended.step.ts:33-118 | a missing game does nothing; scoring fails exactly when the score generation fails; the game is stored with its scoreboard; a non-AI game leaves the leaderboard untouched, and an AI game writes white's and then black's record |
| GameEnded.HandleGameEndedAsWritten | api/steps/chess/08-game-ended.step.ts:7-45 | as written, the game is stored with its scoreboard and then the call to the undefined `isAiGame` throws, so no leaderboard is written |
| GameEnded.AsWrittenStoresScoreOnly | api/steps/chess/08-game-ended.step.ts:41-47 | both handlers store the same scored game, and only the intended one goes on to write an AI game's leaderboard |
| GameEnded.WriteBoth | api/steps/chess/08-game-ended.step.ts:108-117 | writing white's record and then black's leaves both keys present, lets black's write win when the keys coincide, and keeps every other record |
| GameEnded.SameModelCountsOnce | api/steps/chess/08-game-ended.step.ts:58-117 | when both sides play the same model, the record counts the game once, from black's side, because both reads happen before either write |
| GameMoveTransition.CaptureScore | api/services/chess/get-capture-score.ts:3-27 | pawn 1, knight and bishop 3, rook 5, queen 9, king 10000000, anything else 0 |
| GameMoveTransition.KingOutweighsArmy | api/services/chess/get-capture-score.ts:21-23 | the king's value exceeds 39, the combined value of all the other pieces of a starting army |
| GameMoveTransition.EndedIffReason | api/services/chess/move.ts:51-60 | the game stops exactly when it gets an end reason, and a completed game's reason is checkmate |
| GameMoveTransition.LateCheckmateHasNoWinner | api/services/chess/move.ts:50-75 | a checkmate delivered once the turn limit applies is recorded as ended early, with reason "Checkmate" and no winner |
| GameMoveTransition.UpdatedPlayer | api/services/chess/move.ts:80-90 | the mover's record keeps its identity, adds the illegal attempts and one move, appends a scored capture only on a capture, and adds a promotion only on a promotion |
| GameMoveTransition.Move | api/services/chess/move.ts:38-137 | a player not to move is refused with "Invalid player"; otherwise the turn count grows by one and the turn flips, status and end reason follow their precedence, the mover wins exactly on a completed checkmate, the opponent's record is unchanged, and the evaluation is enqueued followed by either the next-move or the game-ended event |
| Pgn.ScanRow | api/services/chess/generate-pgn.ts:21-35 | whatever the scan returns is a lower-case queen, rook, bishop or knight |
| Pgn.ScanRowReadsSquare | api/services/chess/generate-pgn.ts:21-36 | on a well-formed rank, the scan reads exactly the requested square of the expanded rank: a promotion piece there comes back lower-cased, anything else gives nothing |
| Pgn.ScanRowNoneBeforeStart | api/services/chess/generate-pgn.ts:22-35 | a scan that has already passed the requested file finds nothing |
| Pgn.DetectPromotion | api/services/chess/generate-pgn.ts:10-37 | no promotion unless the destination rank is 1 or 8; any piece found is a promotion piece; rank 8 reads the first row of the placement and rank 1 the eighth |
| Pgn.QueenAfterEmptyRunDetected | api/services/chess/generate-pgn.ts:30-34 | a digit skips that many files: the queen on "4Q3" is found at the fifth file and not at the third |
| Pgn.ResultTag | api/services/chess/generate-pgn.ts:63 | "1-0" exactly for a white win, "0-1" exactly for a black win, "1/2-1/2" exactly when there is no winner |
| Pgn.PlayerTag | api/services/chess/generate-pgn.ts:61-62 | a side is "Human" exactly when it has no AI; an AI side is its provider's display name followed by the model in parentheses, or "unknown" when no model is filled in |
| Pgn.Headers | api/services/chess/generate-pgn.ts:56-69 | the first six tags are Event, Site, Date, Round, White and Black with the fixed event and site, the given date, round 1 and the two player tags; eight tags, plus a Termination tag exactly when an end reason is filled in; the Result tag follows the winner and the Variant tag defaults to "guided" |
| Pgn.Replay | api/services/chess/generate-pgn.ts:43-53 | the applied moves are a strictly increasing selection of the stored moves' indices |
| Pgn.ReplayAppliesAll | api/services/chess/generate-pgn.ts:43-53 | when every stored move applies in turn, none is skipped |
| Pgn.SkippedMoveChangesNothing | api/services/chess/generate-pgn.ts:47-52 | a move that fails to apply leaves the replayed game as it was |
| Pgn.GeneratePgn | api/services/chess/generate-pgn.ts:39-77 | the PGN is the replay of the stored moves from the start position, under at least eight headers, with a result tag for the winner and a Termination tag exactly when an end reason is filled in |
| LegalMoveScoring.FilterBy | api/services/benchmark/shared-utils.ts:64-66 | the filter keeps, in order, only elements of the input whose pool membership is the requested one |
| LegalMoveScoring.FilterByAppend | api/services/benchmark/shared-utils.ts:64-66 | filtering distributes over concatenation, so the kept moves keep the answer's order |
| LegalMoveScoring.FilterByCounts | api/services/benchmark/shared-utils.ts:64-66 | every occurrence of a kept move survives, and a dropped move does not occur at all |
| LegalMoveScoring.FilterByPartition | api/services/benchmark/shared-utils.ts:64-65 | the two filters on opposite sides of the pool split a sequence, with nothing lost and nothing doubled |
| LegalMoveScoring.AnswerPartition | api/services/benchmark/shared-utils.ts:64-66 | correct and illegal split the model's answer; a move is correct exactly when it was answered and legal, illegal exactly when answered and not legal |
| LegalMoveScoring.Recall | api/services/benchmark/shared-utils.ts:69 | recall is never negative |
| LegalMoveScoring.Precision | api/services/benchmark/shared-utils.ts:72 | precision is a percentage between 0 and 100 |
| LegalMoveScoring.F1Between | api/services/benchmark/shared-utils.ts:75 | the harmonic mean of two non-negative numbers lies between them |
| LegalMoveScoring.CalculateLegalMoveScore | api/services/benchmark/shared-utils.ts:50-83 | correct are exactly the answered moves that are legal and illegal exactly those that are not, in answer order, so together they partition the answer; missed are exactly the legal moves not answered; accuracy is recall, the penalty is 100 minus precision, and the final score is the F1 of the two |
| LegalMoveScoring.F1IsDice | api/services/benchmark/shared-utils.ts:68-75 | the F1 score is twice the correct answers over the legal moves and answers together, as a percentage |
| LegalMoveScoring.HarmonicOfShares | api/services/benchmark/shared-utils.ts:69-75 | the harmonic mean of the two shares of the same count is twice the count over the two totals |
| LegalMoveScoring.RepeatedAnswerExceedsFullRecall | api/services/benchmark/shared-utils.ts:64-69 | a repeated answer is counted once per repetition, so answering "e4" twice when it is the only legal move gives recall 200 |
| LegalMoveScoring.RecallAtMostHundred | api/services/benchmark/shared-utils.ts:64-69 | with no repeated answer, recall is at most 100 |
| LegalMoveScoring.CalculateScore | api/services/benchmark/run-legal-move-benchmark.ts:88-111 | correct are exactly the answered moves that are legal and illegal exactly those that are not, in answer order; missed are the legal moves not answered; accuracy is recall; each illegal answer costs 5 points; the final score is accuracy minus the penalty, floored at 0 |
| LegalMoveScoring.ApiKeyEnvVar | api/services/benchmark/benchmark-prompt.ts:65-70 | each provider's key is read from a variable whose name ends in "_API_KEY" |
| LegalMoveScoring.ApiKeyEnvVarInjective | api/services/benchmark/benchmark-prompt.ts:65-70 | no two providers share a key variable |
| LegalMoveBenchmark.Pick | api/services/benchmark/run-legal-move-benchmark.ts:40 | a draw in [0, 1) picks an index inside the list |
| LegalMoveBenchmark.Sans | api/services/benchmark/run-legal-move-benchmark.ts:38 | the move list is the SAN of each legal move, in order |
| LegalMoveBenchmark.TargetMoves | api/services/benchmark/run-legal-move-benchmark.ts:34-35 | the number of random moves lies between the minimum and the maximum move number |
| LegalMoveBenchmark.LexLeIsTotalPreorder | api/services/benchmark/run-legal-move-benchmark.ts:55 | the default string order used by `sort()` is a total preorder |
| LegalMoveBenchmark.RandomPosition | api/services/benchmark/run-legal-move-benchmark.ts:31-59 | a produced position is not over, has between the minimum and maximum number of legal moves, lists them sorted with their count, and carries its FEN, side to move and move number |
| LegalMoveBenchmark.CollectDistinct | api/services/benchmark/run-legal-move-benchmark.ts:66-82 | at most `count` positions with pairwise different FENs, each produced by one of the first `count * 100` attempts; fewer than `count` only when every attempt has been used |
| LegalMoveBenchmark.GenerateTestPositions | api/services/benchmark/run-legal-move-benchmark.ts:64-83 | at most `count` positions with pairwise different FENs, each a valid random position from one of the attempts |
| LegalMoveBenchmark.BenchmarkPosition | api/services/benchmark/run-legal-move-benchmark.ts:116-169 | the result keeps the position id, records an error exactly when the model call failed, holds the answer or nothing, and is scored by `calculateScore` |
| LegalMoveBenchmark.CompletedResults | api/services/benchmark/run-legal-move-benchmark.ts:221 | the completed results are the results without an error, and there are none exactly when every result failed |
| LegalMoveBenchmark.Measures | api/services/benchmark/run-legal-move-benchmark.ts:223-228 | the measure of each result, in order |
| LegalMoveBenchmark.PenaltiesCountIllegal | api/services/benchmark/run-legal-move-benchmark.ts:107 | the penalties add up to five per illegal answer |
| LegalMoveBenchmark.AggregatesOf | api/services/benchmark/run-legal-move-benchmark.ts:221-229 | the aggregates are absent exactly when no result completed |
| LegalMoveBenchmark.AggregatesBounds | api/services/benchmark/run-legal-move-benchmark.ts:221-229 | the mean final score lies between 0 and the mean accuracy, and the mean penalty is taken over penalties that add up to five per illegal answer |
| LegalMoveBenchmark.MeanFinalBounds | api/services/benchmark/run-legal-move-benchmark.ts:108 | the mean final score lies between 0 and the mean accuracy |
| LegalMoveBenchmark.Results | api/services/benchmark/run-legal-move-benchmark.ts:203-218 | one result per position, in order, each the benchmark of that position with the model's i-th answer |
| LegalMoveBenchmark.RunOnPositions | api/services/benchmark/run-legal-move-benchmark.ts:181-241 | the run keeps its id, provider, model and positions, holds one result per position in order, and completes with the aggregates of those results |
| LegalMoveBenchmark.RunLegalMoveBenchmark | api/services/benchmark/run-legal-move-benchmark.ts:174-242 | the run is over at most `positionCount` fresh positions with pairwise different FENs |
| LegalMoveSteps.UpdateSummary | api/steps/benchmark/01-run-legal-move-benchmark.step.ts:63-80 | the summary keeps its key, provider and model, counts one more run, and starts with the run's own score as average and worst |
| LegalMoveSteps.SummaryAfter | api/steps/benchmark/01-run-legal-move-benchmark.step.ts:64-82 | after a model's runs there is a summary exactly when there was a run, and it counts every run |
| LegalMoveSteps.SummaryAverageIsMean | api/steps/benchmark/01-run-legal-move-benchmark.step.ts:71-74 | the stored average is the mean of every run's score |
| LegalMoveSteps.SummaryBestIsMaximum | api/steps/benchmark/01-run-legal-move-benchmark.step.ts:75 | the stored best score is the highest run score, or 0 when every score is below it |
| LegalMoveSteps.SummaryWorstIsMinimum | api/steps/benchmark/01-run-legal-move-benchmark.step.ts:76-78 | the stored worst score is the lowest run score |
| LegalMoveSteps.RecordRun | api/steps/benchmark/01-run-legal-move-benchmark.step.ts:60-82 | the run is stored under its id, its model's summary is updated, and the position set and every other summary are unchanged |
| LegalMoveSteps.RecordRunsCommute | api/steps/benchmark/09-run-all-benchmarks.step.ts:65-102 | runs of two different models touch different summaries, so their order does not matter |
| LegalMoveSteps.EnsurePositionSet | api/steps/benchmark/09-run-all-benchmarks.step.ts:41-52 | a stored, non-empty set is kept unless forced; otherwise a new set of at most `count` positions with distinct FENs is made |
| LegalMoveSteps.RunLegalMoveStep | api/steps/benchmark/01-run-legal-move-benchmark.step.ts:28-94 | corrected on both counts below: an unsupported model gets a 400 with nothing stored; otherwise the position set is kept or generated and stored, and the run over its positions is answered with 200, stored, and folded into the model's summary |
| LegalMoveSteps.RunLegalMoveStepMisordered | api/steps/benchmark/01-run-legal-move-benchmark.step.ts:40-93 | with the support check corrected but the service call as written, a supported model gets a 400 with "logger.info is not a function": no run and no summary is stored, only a newly generated position set |
| LegalMoveSteps.RunLegalMoveStepAsWritten | api/steps/benchmark/01-run-legal-move-benchmark.step.ts:6-32 | as written, the handler fails on its first line with "getModelsForProvider is not a function" and leaves the store unchanged |
| LegalMoveSteps.AsWrittenNeverRecords | api/steps/benchmark/01-run-legal-move-benchmark.step.ts:32-82 | where the corrected step records a model's first run, the step as written leaves it without a summary |
| LegalMoveSteps.RunAllBenchmarks | api/steps/benchmark/09-run-all-benchmarks.step.ts:35-113 | the position set is kept or regenerated with at most `positionCount` positions; runs and summaries are untouched by the answer; exactly the supported (provider, model) pairs are queued |
| LegalMoveSteps.RunModelJob | api/steps/benchmark/09-run-all-benchmarks.step.ts:65-99 | a queued job stores the run over the stored positions and counts one more run in the model's summary |
| LegalMoveSteps.RunModelJobAsWritten | api/steps/benchmark/09-run-all-benchmarks.step.ts:68 | as written, the misordered call throws and the job leaves the store unchanged |
| PuzzleBenchmark.ThemeDescription | api/services/benchmark/run-puzzle-benchmark.ts:44-53 | the prompt spells a theme out ("Mate in 1", "One Move") rather than using its name |
| PuzzleBenchmark.ThemeDescriptionInjective | api/services/benchmark/run-puzzle-benchmark.ts:44-53 | the two themes get different descriptions |
| PuzzleBenchmark.BenchmarkPuzzle | api/services/benchmark/run-puzzle-benchmark.ts:58-116 | the result names the puzzle and its solution; it is correct exactly when the trimmed answer equals the solution; a failed call records its message, no move and no raw response, and is never correct |
| PuzzleBenchmark.PaddedAnswerSameVerdict | api/services/benchmark/run-puzzle-benchmark.ts:98-105 | spaces and line breaks around an answer never change whether it is correct |
| PuzzleBenchmark.TrimPadding | api/services/benchmark/run-puzzle-benchmark.ts:98 | `trim` removes a leading space and a trailing line break |
| PuzzleBenchmark.CountCorrect | api/services/benchmark/run-puzzle-benchmark.ts:175 | the number of correct results is at most the number of results |
| PuzzleBenchmark.CountCorrectAll | api/services/benchmark/run-puzzle-benchmark.ts:175 | the count reaches the number of results exactly when every result is correct |
| PuzzleBenchmark.CountCorrectNone | api/services/benchmark/run-puzzle-benchmark.ts:175 | the count is 0 exactly when no result is correct |
| PuzzleBenchmark.Accuracy | api/services/benchmark/run-puzzle-benchmark.ts:177 | the accuracy is a percentage, 0 for an empty run, and otherwise 100 times correct over total |
| PuzzleBenchmark.AccuracyExtremes | api/services/benchmark/run-puzzle-benchmark.ts:177 | a run scores 100 exactly when every answer is correct and 0 exactly when none is |
| PuzzleBenchmark.Results | api/services/benchmark/run-puzzle-benchmark.ts:152-172 | one result per puzzle |
| PuzzleBenchmark.ResultsPerPuzzle | api/services/benchmark/run-puzzle-benchmark.ts:152-172 | the k-th result is the benchmark of the k-th puzzle with the answer the service gave when asked k-th |
| PuzzleBenchmark.RunPuzzleBenchmark | api/services/benchmark/run-puzzle-benchmark.ts:121-188 | the run keeps its id, provider, model, theme and set, counts every puzzle, holds one result per puzzle, counts the correct ones, and derives the accuracy from that count |
| PuzzleBenchmark.RunVerdicts | api/services/benchmark/run-puzzle-benchmark.ts:152-179 | result k is about puzzle k and is correct exactly when the k-th answer solves it, and the run scores 100 exactly when every result is correct |
| PuzzleBenchmark.FailingServiceScoresZero | api/services/benchmark/run-puzzle-benchmark.ts:99-105 | a service that never answers scores 0 on a non-empty run |
| PuzzleSteps.OverallAccuracy | api/steps/benchmark/06-run-puzzle-benchmark.step.ts:75-80 | the mean of the two theme accuracies when both exist, otherwise the one that exists, otherwise 0 |
| PuzzleSteps.OverallAccuracyProperties | api/steps/benchmark/06-run-puzzle-benchmark.step.ts:75-80 | the overall accuracy treats the two themes alike and stays a percentage |
| PuzzleSteps.UpdatePuzzleSummary | api/steps/benchmark/06-run-puzzle-benchmark.step.ts:61-80 | one more run; the run's theme gets its accuracy, the other theme keeps its own, and the overall accuracy is recomputed from both |
| PuzzleSteps.ThemeUpdatesCommute | api/steps/benchmark/06-run-puzzle-benchmark.step.ts:64-80 | running the two themes in either order leaves the same accuracies |
| PuzzleSteps.SkipAfterRun | api/steps/benchmark/06b-run-all-puzzle-benchmarks.step.ts:36-41 | a model that has just run a theme is skipped by the next run-all of that theme, and not by the other theme unless it already had a score there |
| PuzzleSteps.RecordPuzzleRun | api/steps/benchmark/06-run-puzzle-benchmark.step.ts:57-82 | the run is stored under its id, its model is marked as done on the theme, and every other summary and the puzzle sets are unchanged |
| PuzzleSteps.FirstPuzzles | api/steps/benchmark/06-run-puzzle-benchmark.step.ts:51 | `slice(0, count)` is the prefix of length `count`, or all the puzzles when there are fewer |
| PuzzleSteps.RunPuzzleStep | api/steps/benchmark/06-run-puzzle-benchmark.step.ts:30-92 | an unsupported model, or a theme without a non-empty stored set, gets its 400 message with nothing stored; otherwise the run over the first `count` puzzles is answered with 200 and recorded |
| PuzzleSteps.RunPuzzleStepAsWritten | api/steps/benchmark/06-run-puzzle-benchmark.step.ts:34 | as written, the handler fails on its first line with "getModelsForProvider is not a function" and leaves the store unchanged |
| PuzzleSteps.Ids | api/steps/benchmark/06b-run-all-puzzle-benchmarks.step.ts:52 | the ids of the puzzles, in order |
| PuzzleSteps.WithNewIds | api/steps/benchmark/06b-run-all-puzzle-benchmarks.step.ts:53 | exactly the puzzles whose id is not already taken, in order |
| PuzzleSteps.IndexOfId | api/steps/benchmark/06b-run-all-puzzle-benchmarks.step.ts:70-71 | the position of the puzzle carrying an id, absent exactly when no puzzle carries it |
| PuzzleSteps.MapSet | api/steps/benchmark/06b-run-all-puzzle-benchmarks.step.ts:71 | `Map.set` keeps ids distinct, holds the new puzzle, and keeps every entry with a different id |
| PuzzleSteps.UniqueById | api/steps/benchmark/06b-run-all-puzzle-benchmarks.step.ts:70-72 | the map's values have distinct ids and come from the input |
| PuzzleSteps.IdsHolds | api/steps/benchmark/06b-run-all-puzzle-benchmarks.step.ts:52 | an id is listed exactly when some puzzle carries it |
| PuzzleSteps.UniqueByIdKeepsIds | api/steps/benchmark/06b-run-all-puzzle-benchmarks.step.ts:70-71 | keeping one puzzle per id keeps every id |
| PuzzleSteps.UniqueByIdKeepsLast | api/steps/benchmark/06b-run-all-puzzle-benchmarks.step.ts:71 | each kept puzzle is the last one given for its id |
| PuzzleSteps.PuzzlesToRun | api/steps/benchmark/06b-run-all-puzzle-benchmarks.step.ts:70-72 | the first `count` of the set's puzzles kept one per id (all of them when there are fewer), so each is from the set and the ids are distinct |
| PuzzleSteps.MergeNew | api/steps/benchmark/06b-run-all-puzzle-benchmarks.step.ts:52-54 | the stored puzzles come first, unchanged, followed by exactly the fetched puzzles whose id is not stored |
| PuzzleSteps.TopUpPuzzleSet | api/steps/benchmark/06b-run-all-puzzle-benchmarks.step.ts:48-68 | a set with at least `count` puzzles is kept; otherwise the missing number is fetched and the new puzzles are appended under a fresh id; a top-up that ends with no puzzle fails |
| PuzzleSteps.ModelsToBenchmark | api/steps/benchmark/06b-run-all-puzzle-benchmarks.step.ts:83-89 | exactly the supported models, all of them on a rerun and otherwise those not yet scored on the theme |
| PuzzleSteps.Selected | api/steps/benchmark/06b-run-all-puzzle-benchmarks.step.ts:89 | the filter keeps exactly the models not to be skipped |
| PuzzleSteps.ByProvider | api/steps/benchmark/06b-run-all-puzzle-benchmarks.step.ts:94-102 | one provider's group holds exactly that provider's models |
| PuzzleSteps.GroupedIsPermutation | api/steps/benchmark/06b-run-all-puzzle-benchmarks.step.ts:94-108 | grouping by provider rearranges the models, each as often as it was selected |
| PuzzleSteps.ByProviderSnoc | api/steps/benchmark/06b-run-all-puzzle-benchmarks.step.ts:97-99 | a model pushed by the reduce joins its own provider's group and no other |
| PuzzleSteps.RunAllPuzzleBenchmarks | api/steps/benchmark/06b-run-all-puzzle-benchmarks.step.ts:43-147 | a top-up that fetched nothing is the only 400, with nothing stored; otherwise the answer counts the models to run, the topped-up set is stored for the theme, the run table holds each picked model's run over the puzzles to run, each picked model's summary is its earlier summary updated with its own run's theme and accuracy and stamped with its own clock reading (so it is marked as done on the theme), and every other summary is unchanged |
| PuzzleSteps.RunAllOnSet | api/steps/benchmark/06b-run-all-puzzle-benchmarks.step.ts:60-147 | with the topped-up set known: the set is stored, one run per picked model is stored in provider-grouped order over the puzzles to run, each picked model's summary is its earlier summary updated with that model's run accuracy and clock reading, every other summary is unchanged, and the response counts the picked models |
| PuzzleSteps.RunAllPuzzleBenchmarksAsWritten | api/steps/benchmark/06b-run-all-puzzle-benchmarks.step.ts:4-83 | as written, the set is topped up and stored, then "getAllModels is not a function" is thrown: no run is stored and no summary changes |
| PuzzleSteps.RunQueue | api/steps/benchmark/06b-run-all-puzzle-benchmarks.step.ts:106-136 | the sets are unchanged, the run table holds each queued model's run in queue order, every queued model is marked as done on the theme, when no model is queued twice each queued model's summary is its earlier summary updated with its own run at its own clock reading, and every other summary is unchanged |
| PuzzleSteps.ModelRuns | api/steps/benchmark/06b-run-all-puzzle-benchmarks.step.ts:108-111 | one run per queued model, in queue order, the j-th with run id `ids(j)` and the clock readings `clock(j)` |
| PuzzleSteps.RecordRunsMarks | api/steps/benchmark/06b-run-all-puzzle-benchmarks.step.ts:112-134 | after the runs are stored, every model that ran is marked as done on the theme and every other model's summary is as before |
| PuzzleSteps.RecordRunsHolds | api/steps/benchmark/06b-run-all-puzzle-benchmarks.step.ts:112-134 | after the runs are stored one by one, the table holds the old ids and the runs' ids, each run that no later run overwrites is stored under its id, and every other stored run is unchanged |
| PuzzleSteps.RecordRunsSummaries | api/steps/benchmark/06b-run-all-puzzle-benchmarks.step.ts:112-134 | when no two runs belong to the same model, each run's model ends with its earlier summary updated with that run's theme and accuracy, stamped with that run's clock reading |
| PuzzleSteps.RecordRunsSummaryAt | api/steps/benchmark/06b-run-all-puzzle-benchmarks.step.ts:112-134 | the summary of one run's model after all runs are stored, when no other run belongs to that model |
| PuzzleSteps.RecordRunsKeepsOthers | api/steps/benchmark/06b-run-all-puzzle-benchmarks.step.ts:112-134 | storing runs leaves every model without a run with its summary as it was |
| PuzzleSteps.ModelsToBenchmarkDistinct | api/steps/benchmark/06b-run-all-puzzle-benchmarks.step.ts:83-101 | the picked models are listed once each, before and after grouping by provider |
| PuzzleSteps.GroupedDistinct | api/steps/benchmark/06b-run-all-puzzle-benchmarks.step.ts:94-108 | grouping a list without repeats by provider leaves it without repeats |
| PuzzleSteps.HoldsRunsSnoc | api/steps/benchmark/06b-run-all-puzzle-benchmarks.step.ts:112-134 | storing one more run keeps that description of the run table |
| PuzzleSteps.ModelRun | api/steps/benchmark/06b-run-all-puzzle-benchmarks.step.ts:111 | a model's run carries its provider, model and theme |
| PlayerStrength.EarlierOrSameIsTotalPreorder | api/services/chess/analyze-player-strength.ts:17-19 | ordering by timestamp, with a missing timestamp read as 0, is a total preorder |
| PlayerStrength.ByTime | api/services/chess/analyze-player-strength.ts:17-19 | the sorted evaluations are a permutation of the input in time order, and evaluations with equal times keep their input order |
| PlayerStrength.SumOfPermutation | api/services/chess/analyze-player-strength.ts:31-35 | a sum does not depend on the order of its terms |
| PlayerStrength.SumOfBounds | api/services/chess/analyze-player-strength.ts:35 | a sum of terms each in [lo, hi] lies between lo and hi times the number of terms |
| PlayerStrength.WeightTotalIsTriangle | api/services/chess/analyze-player-strength.ts:40-41 | the closed form n(n+1)/2 is the sum of the weights 1, 2, ..., n |
| PlayerStrength.WeightedSumAbove | api/services/chess/analyze-player-strength.ts:40-42 | a weighted sum of values of at least lo is at least lo times the total weight |
| PlayerStrength.WeightedSumBelow | api/services/chess/analyze-player-strength.ts:40-42 | a weighted sum of values of at most hi is at most hi times the total weight |
| PlayerStrength.Ratio | api/services/chess/analyze-player-strength.ts:35 | a quotient by a positive number is the number that many times gives the dividend |
| PlayerStrength.RatioBetween | api/services/chess/analyze-player-strength.ts:35-47 | a quotient of something between lo and hi times n, by n, lies between lo and hi |
| PlayerStrength.RatioExtremes | api/services/chess/analyze-player-strength.ts:47 | a share is 1 exactly for the whole and 0 exactly for nothing |
| PlayerStrength.ShareBounds | api/services/chess/analyze-player-strength.ts:47 | a part of a whole, as a percentage, lies in [0, 100] |
| PlayerStrength.CountWhite | api/services/chess/analyze-player-strength.ts:31 | the number of games played as white is at most the number of games |
| PlayerStrength.Summarize | api/services/chess/analyze-player-strength.ts:35-57 | the strength is the mean of the player-side evaluations, the trend their mean weighted 1 to n in time order, and the reliability the percentage of games with an advantage of at least one pawn |
| PlayerStrength.AnalyzePlayerStrength | api/services/chess/analyze-player-strength.ts:3-58 | no evaluations gives all zeros; otherwise every game is counted once, as white or as black, the reliability is a percentage, and the figures are those of the time-ordered list |
| PlayerStrength.AnalysisIgnoresOrder | api/services/chess/analyze-player-strength.ts:17-47 | sorting does not change the strength or the reliability: they are the mean and the strong-game percentage of the input in any order |
| PlayerStrength.PermutationKeepsBounds | api/services/chess/analyze-player-strength.ts:17-28 | reordering keeps every player-side evaluation within the same bounds |
| PlayerStrength.StrengthWithinRange | api/services/chess/analyze-player-strength.ts:24-35 | the strength lies between the lowest and the highest player-side evaluation |
| PlayerStrength.TrendWithinRange | api/services/chess/analyze-player-strength.ts:39-42 | the trend lies between the lowest and the highest player-side evaluation, whatever the order of the games |
| PlayerStrength.ReliabilityExtremes | api/services/chess/analyze-player-strength.ts:44-47 | the reliability is 100 exactly when every game is strong and 0 exactly when none is |
| PlayerStrength.SumOfIndicator | api/services/chess/analyze-player-strength.ts:46 | the count of strong games is between 0 and the number of games, reaching it exactly when all are strong and 0 exactly when none is |
| History.Summary | api/steps/chess/10-get-game-history.step.ts:82 | dropping the moves and messages loses nothing else: putting them back gives the game |
| History.Summaries | api/steps/chess/10-get-game-history.step.ts:82 | one summary per game |
| History.AllHoldGuarded | api/steps/chess/10-get-game-history.step.ts:52-68 | a condition is applied exactly when its parameter was supplied |
| History.CriteriaHoldExactly | api/steps/chess/10-get-game-history.step.ts:51-71 | the list of conditions holds exactly when each supplied filter holds |
| History.MatchesExactlyCriteria | api/steps/chess/10-get-game-history.step.ts:51-71 | a game is kept exactly when it meets every condition the query supplies |
| History.SelectBy | api/steps/chess/10-get-game-history.step.ts:51 | the filter keeps each kept game as often as it is stored, and no other game |
| History.SelectAll | api/steps/chess/10-get-game-history.step.ts:51-71 | a filter that keeps every game keeps the whole history, in its order |
| History.NoCriteriaMatchesAll | api/steps/chess/10-get-game-history.step.ts:51-71 | a query with no filtering parameter matches every game |
| History.NewestFirstIsTotalPreorder | api/steps/chess/10-get-game-history.step.ts:74 | most recent end first is a total preorder |
| History.ListingBy | api/steps/chess/10-get-game-history.step.ts:51-74 | the kept games, each as often as stored, sorted by end time, most recent first |
| History.Listing | api/steps/chess/10-get-game-history.step.ts:51-74 | the games matching the query, each as often as stored, most recent first |
| History.ListedGames | api/steps/chess/10-get-game-history.step.ts:51-71 | every listed game is a stored game that matches the query |
| History.NumberOr | api/steps/chess/10-get-game-history.step.ts:43-46 | an absent parameter gives the default, a numeral its value, and a non-numeric one NaN |
| History.SliceIndex | api/steps/chess/10-get-game-history.step.ts:79 | `slice` reads NaN as 0, a negative index from the end, and anything past the end as the end |
| History.Slice | api/steps/chess/10-get-game-history.step.ts:79 | the slice runs from the start index up to, not including, the end index, and is empty when the end comes first |
| History.SliceAt | api/steps/chess/10-get-game-history.step.ts:79 | the slice's elements are those of the list from the start index on |
| History.Page | api/steps/chess/10-get-game-history.step.ts:79-82 | a page is never longer than the list |
| History.PageContents | api/steps/chess/10-get-game-history.step.ts:79-82 | for a non-negative offset and limit, the page holds the summaries of the listed games from the offset on, at most `limit` of them, and exactly `limit` when the list is long enough |
| History.PageKeepsOrder | api/steps/chess/10-get-game-history.step.ts:74-82 | a page of a list ordered newest first is ordered newest first, whatever the paging |
| History.GetGameHistory | api/steps/chess/10-get-game-history.step.ts:34-90 | the total counts the matching games before paging; limit 50 and offset 0 by default; the games are the page of the newest-first listing |
| History.PageIsSlice | api/steps/chess/10-get-game-history.step.ts:79-82 | a page is the summaries of the slice from offset to offset plus limit |
| HistoryExport.HeadersArePlain | api/steps/chess/10b-export-game-history.step.ts:78-95 | no column name needs quoting, so the header line reads back as the sixteen names |
| HistoryExport.EscapeCsvField | api/steps/chess/10b-export-game-history.step.ts:27-34 | a missing value gives an empty field; any other field reads back as the value's text, and is that text itself when it holds no comma, quote or line break |
| HistoryExport.RowCells | api/steps/chess/10b-export-game-history.step.ts:97-114 | a row has one value per column |
| HistoryExport.EscapedCells | api/steps/chess/10b-export-game-history.step.ts:97-114 | each escaped field reads back as its value's text |
| HistoryExport.EscapedRows | api/steps/chess/10b-export-game-history.step.ts:97-114 | each game's escaped fields read back as that game's values |
| HistoryExport.Table | api/steps/chess/10b-export-game-history.step.ts:97-114 | one row of sixteen values per game |
| HistoryExport.CsvReadsBack | api/steps/chess/10b-export-game-history.step.ts:97-116 | the file reads back as the header and then each game's sixteen values, whatever commas, quotes or line breaks they hold |
| HistoryExport.Entry | api/steps/chess/10b-export-game-history.step.ts:129-133 | a JSON record counts the game's moves and messages and, with them put back, gives the game |
| HistoryExport.Entries | api/steps/chess/10b-export-game-history.step.ts:129-133 | one record per game, in order |
| HistoryExport.ExportGameHistory | api/steps/chess/10b-export-game-history.step.ts:36-143 | CSV exactly when the format asked for is "csv"; the CSV reads back as the header and the matching games' values, newest first; otherwise one JSON record per matching game, newest first |
| HistoryExportQuoted.RowFields | api/steps/chess/12-export-game-history.step.ts:85-102 | a row has one field per column |
| HistoryExportQuoted.Rows | api/steps/chess/12-export-game-history.step.ts:85-102 | one row per game, in order |
| HistoryExportQuoted.NumberIsPlain | api/steps/chess/12-export-game-history.step.ts:89-100 | a number's decimal text needs no quoting |
| HistoryExportQuoted.VariantNameIsPlain | api/steps/chess/12-export-game-history.step.ts:90 | a variant name needs no quoting |
| HistoryExportQuoted.StatusNameIsPlain | api/steps/chess/12-export-game-history.step.ts:91 | a status name needs no quoting |
| HistoryExportQuoted.SideNameIsPlain | api/steps/chess/12-export-game-history.step.ts:92 | a side name needs no quoting |
| HistoryExportQuoted.ProviderIsPlain | api/steps/chess/12-export-game-history.step.ts:95-98 | a provider name, or "human", needs no quoting |
| HistoryExportQuoted.RowEncodes | api/steps/chess/12-export-game-history.step.ts:85-102 | with plain free-text fields, each written field reads back as its column's value |
| HistoryExportQuoted.FieldEncodes | api/steps/chess/12-export-game-history.step.ts:85-102 | with plain free-text fields, the k-th written field reads back as the k-th value |
| HistoryExportQuoted.CsvReadsBack | api/steps/chess/12-export-game-history.step.ts:85-104 | when no game has a comma, quote or line break in a free-text field, the file reads back as the same table the escaping export gives |
| HistoryExportQuoted.ExportListing | api/steps/chess/12-export-game-history.step.ts:40-63 | exactly the games this export's filter keeps, each as often as stored, newest first |
| HistoryExportQuoted.ExportFilterMatchesHistoryFilter | api/steps/chess/12-export-game-history.step.ts:40-60 | unless a date reads as 0, this filter keeps exactly the games the history list keeps for the same parameters |
| HistoryExportQuoted.ZeroEndDateDropsEndedGames | api/steps/chess/12-export-game-history.step.ts:57 | an end date of "0" drops every game that ended after time 0, while the history list ignores that parameter |
| HistoryExportQuoted.ExportGameHistory | api/steps/chess/12-export-game-history.step.ts:23-131 | CSV exactly when the format asked for is "csv"; with plain free-text fields the CSV reads back as the header and the kept games' values, newest first; otherwise one JSON record per kept game, newest first |
| Csv.Escape | api/steps/chess/10b-export-game-history.step.ts:29-33 | a field that needs no quoting is written as is, and any other is enclosed in quotes |
| Csv.Quote | api/steps/chess/12-export-game-history.step.ts:101 | a quoted field starts and ends with a quote |
| Csv.EscapeAll | api/steps/chess/10b-export-game-history.step.ts:97-114 | each escaped field reads back as the field |
| Csv.EscapeRecords | api/steps/chess/10b-export-game-history.step.ts:97-114 | each record's escaped fields read back as its fields |
| Csv.ReadDocumentWritten | api/steps/chess/10b-export-game-history.step.ts:116 | reading a file whose cells encode some records gives back exactly those records, whatever commas, quotes or line breaks their fields hold |
| Csv.ReadWrittenDocument | api/steps/chess/10b-export-game-history.step.ts:27-34 | what the escaping writer writes, a CSV reader reads back |
| AiSelection.FilterMembers | api/services/ai/random-ai-selection.ts:45-50 | the filter keeps exactly the entries that satisfy the test |
| AiSelection.FilterAppend | api/services/ai/random-ai-selection.ts:45-50 | filtering distributes over concatenation |
| AiSelection.CheapAvailability | api/services/ai/random-ai-selection.ts:14-22 | of the cheap entries only the first two name a supported model |
| AiSelection.MidAvailability | api/services/ai/random-ai-selection.ts:24-31 | of the mid-tier entries only the fourth names a supported model |
| AiSelection.ExpensiveAvailability | api/services/ai/random-ai-selection.ts:33-41 | no expensive entry names a supported model |
| AiSelection.AvailableModelsAreThree | api/services/ai/random-ai-selection.ts:13-50 | only three entries of the weight table survive the filter, with a total weight of 25 |
| AiSelection.Select | api/services/ai/random-ai-selection.ts:70-80 | the loop picks the first entry whose running total reaches the draw, and runs off the end exactly when the list is empty or the draw exceeds the total |
| AiSelection.SelectionIntervalsPartition | api/services/ai/random-ai-selection.ts:70-80 | with positive weights, each entry owns the interval of draws of its own weight's length that ends at its running total, and the intervals follow one another |
| AiSelection.SelectRandomAiFrom | api/services/ai/random-ai-selection.ts:56-85 | an empty list falls back to the first provider's first model with tier "unknown"; otherwise the selection is the entry whose running-total interval holds the draw times the total weight, the only such entry; a draw of 0 picks the first |
| AiSelection.ChosenOwns | api/services/ai/random-ai-selection.ts:70-77 | the entry the subtracting loop stops at owns the draw when the draw is within the total weight: the running total reaches the draw there and not before; past the total the fallback is the first entry |
| AiSelection.ChosenFromOwns | api/services/ai/random-ai-selection.ts:71-76 | the same for the loop resumed at any entry with the weights before it already subtracted |
| AiSelection.ReachesUnique | api/services/ai/random-ai-selection.ts:70-77 | with positive weights, at most one entry's interval holds a given point |
| AiSelection.Scaled | api/services/ai/random-ai-selection.ts:70 | a draw in [0, 1) scaled by the total weight lands in [0, total], at 0 for a draw of 0 |
| AiSelection.SelectRandomAi | api/services/ai/random-ai-selection.ts:56-85 | the selected model is always one its provider supports |
| AiSelection.PercentScales | api/services/ai/random-ai-selection.ts:96 | a share scaled back by the total gives the weight, in hundredths |
| AiSelection.PercentAdds | api/services/ai/random-ai-selection.ts:96 | shares of one total add up like the weights do |
| AiSelection.Probabilities | api/services/ai/random-ai-selection.ts:90-98 | one probability per entry, each its weight's share of the total in percent |
| AiSelection.ProbabilitiesSumToHundred | api/services/ai/random-ai-selection.ts:90-98 | the displayed probabilities of a non-empty, positively weighted list add up to 100 |
| AiSelection.ProbabilitiesSum | api/services/ai/random-ai-selection.ts:96 | the probabilities add up to the share of the summed weights |
| AiModels.ParseProvider | types/ai-models.ts:3 | a provider name read back gives the name it was read from, and anything else is rejected |
| AiModels.ProviderNamesRoundTrip | types/ai-models.ts:3 | every provider's name reads back as that provider, and the provider list holds each provider once |
| AiModels.ModelIdInjective | api/steps/benchmark/01-run-legal-move-benchmark.step.ts:63 | different (provider, model) pairs get different summary keys |
| AiModels.DefaultModelsSupported | api/services/ai/models.ts:4-47 | every default model is one of its provider's supported models |
| AiModels.AllModels | api/steps/benchmark/09-run-all-benchmarks.step.ts:55-60 | every listed pair names a supported model |
| AiModels.AllModelsComplete | api/steps/benchmark/09-run-all-benchmarks.step.ts:55-60 | a pair is listed exactly when its provider supports the model |
| AiModels.AllModelsDistinct | api/services/ai/models.ts:4-47 | every supported (provider, model) pair is listed exactly once |
| AiModels.PairsOf | api/steps/benchmark/09-run-all-benchmarks.step.ts:56-59 | the pairs of some providers are exactly their supported models |
| ProviderOptions.MaxReasoningOptions | api/services/ai/provider-options.ts:4-39 | options sit under the provider's SDK key, with effort "high" for OpenAI and xAI, a thinking budget of 16000 tokens for Anthropic and 32768 for Google |
| ProviderOptions.ReasoningEnabledExactly | api/services/ai/provider-options.ts:9-35 | options are given exactly for a "gpt-5" prefix (OpenAI), a "-4" anywhere (Claude), a "gemini-2.5" or "gemini-3" name (Gemini), and exactly "grok-3-mini" (Grok) |
| ProviderOptions.SupportedModelsWithReasoning | api/services/ai/provider-options.ts:9-35 | over the supported models, GPT-5 models get options and older OpenAI models do not, and "grok-3-mini" is the Grok model that does |
| Retry.ParseRetryAfterMs | api/services/benchmark/retry.ts:5-16 | no header gives none; a trimmed header of non-negative whole seconds gives that many thousand milliseconds; otherwise a readable HTTP date gives the milliseconds from now until it, or 0 if it has passed, and anything else gives none |
| Retry.RetryAfterSeconds | api/services/benchmark/retry.ts:7-9 | a header of n whole seconds waits n times 1000 milliseconds |
| Retry.IsTransientError | api/services/benchmark/retry.ts:18-39 | an error is transient exactly when its status, or its cause's, is 408, 425, 429, 500, 502, 503, 504 or 529, or its message tells of a headers timeout or a failed connection |
| Retry.Backoff | api/services/benchmark/retry.ts:61 | the backoff never exceeds 30 seconds and is never negative for a non-negative base |
| Retry.BackoffMonotone | api/services/benchmark/retry.ts:61 | with a non-negative base, each backoff is at least the one before |
| Retry.Prepend | api/services/benchmark/retry.ts:53-68 | a transiently failed call and its wait put in front of the rest of a run keep the run's outcome and its record of calls |
| Retry.Wanted | api/services/benchmark/retry.ts:59-63 | a wait not taken from the header is at most 30249 ms, and no wait is negative for a non-negative base |
| Retry.WithRetriesFrom | api/services/benchmark/retry.ts:49-69 | no call exactly when the deadline has passed at the start; at most one call more than the retries left; each call gets the time left then as its budget; each wait records the time left after it; every call but the last failed transiently; a run that ends on a transient failure has spent its retries or reached the deadline; no wait runs past the deadline |
| Retry.WithRetries | api/services/benchmark/retry.ts:41-70 | at most `transientRetries + 1` calls; none exactly when the deadline has already passed; each call gets the positive time left as its budget; every call but the last failed transiently and the outcome is the last call's; a transient failure is thrown only once the retries are spent or the deadline is reached; every wait ends 100 ms before the deadline |
| Retry.NoTimeoutFrom | api/services/benchmark/retry.ts:78-94 | at least one call and at most one more than the retries left, none with a budget; every call but the last failed transiently; a run that ends on a transient failure has spent its retries; every wait is slept in full |
| Retry.WithRetriesNoTimeout | api/services/benchmark/retry.ts:72-95 | the function is called at least once and at most `transientRetries + 1` times, every call but the last failed transiently, the outcome is the last call's, a transient failure is thrown only after exactly `transientRetries + 1` calls, and a backoff wait is at most 30249 ms |
| LichessPuzzles.CeilDiv | api/services/benchmark/fetch-lichess-puzzles.ts:165 | the ceiling of a quotient: the least q with q times b at least a |
| LichessPuzzles.PlanBatches | api/services/benchmark/fetch-lichess-puzzles.ts:159-165 | batches ask for between 15 and 50 puzzles, the requested count when it lies in that range; at least one puzzle is wanted; the budget is at least three requests and the fewest that can fetch six times the target |
| LichessPuzzles.ParseRetryAfter | api/services/benchmark/fetch-lichess-puzzles.ts:29-36 | no header gives none; a header that starts with an integer gives that many thousand milliseconds, negative ones included; otherwise a readable date gives the milliseconds from now until it, or 0 if it has passed, and anything else gives none |
| LichessPuzzles.RetryAfterAnySeconds | api/services/benchmark/fetch-lichess-puzzles.ts:31-32 | n seconds, whatever the sign, waits n times 1000 milliseconds |
| LichessPuzzles.BackoffClosedForm | api/services/benchmark/fetch-lichess-puzzles.ts:51-76 | the backoff before the n-th retry is one second times 2^(n-1), capped at thirty seconds |
| LichessPuzzles.BackoffGrows | api/services/benchmark/fetch-lichess-puzzles.ts:51-76 | the backoff never shrinks and stays between one and thirty seconds |
| LichessPuzzles.FetchFrom | api/services/benchmark/fetch-lichess-puzzles.ts:53-77 | the attempts stop by `maxRetries + 1`; each wait belongs to a retried attempt; the result is a success exactly when the last attempt got a 2xx reply |
| LichessPuzzles.WaitFirst | api/services/benchmark/fetch-lichess-puzzles.ts:73-76 | the wait after an attempt, in front of the rest of the run, keeps its result and attempt count |
| LichessPuzzles.FetchJsonWithRetry | api/services/benchmark/fetch-lichess-puzzles.ts:38-78 | with the default six retries, at most seven attempts, each wait after a retryable failure |
| LichessPuzzles.BackoffWaitBounded | api/services/benchmark/fetch-lichess-puzzles.ts:73 | a wait the header did not set is between one and thirty seconds |
| LichessPuzzles.MoveTokens | api/services/benchmark/fetch-lichess-puzzles.ts:106 | the move tokens are exactly the non-empty tokens without a dot, and a list of such tokens is kept whole |
| LichessPuzzles.PgnMovesRoundTrip | api/services/benchmark/fetch-lichess-puzzles.ts:106 | moves written one after another with single spaces come back as they were |
| LichessPuzzles.UciToSan | api/services/benchmark/fetch-lichess-puzzles.ts:83-98 | a converted move is the SAN of the move from the first two squares to the next two, promoting to the fifth character if there is one |
| LichessPuzzles.ParsePuzzle | api/services/benchmark/fetch-lichess-puzzles.ts:103-152 | an empty solution or a failed setup move gives nothing; a parsed puzzle keeps the batch data, with the position's FEN, its legal moves sorted, and the first solution move as a non-empty SAN |
| LichessPuzzles.Batch | api/services/benchmark/fetch-lichess-puzzles.ts:171-185 | the themed batch when it arrives, otherwise the mixed one; nothing exactly when both fail |
| LichessPuzzles.Keep | api/services/benchmark/fetch-lichess-puzzles.ts:199-201 | keeping one more puzzle with a new id keeps the collected state valid |
| LichessPuzzles.Scan | api/services/benchmark/fetch-lichess-puzzles.ts:189-203 | scanning a batch keeps the collected state valid and only adds to the seen ids and the results |
| LichessPuzzles.Requests | api/services/benchmark/fetch-lichess-puzzles.ts:168-206 | the requests keep the collected state valid, stay within the budget, and only add to the results |
| LichessPuzzles.FetchPuzzles | api/services/benchmark/fetch-lichess-puzzles.ts:158-209 | at most `max(1, count)` puzzles, no two with the same id, each listing the theme or no theme at all, after at most the planned number of requests |
| LichessPuzzles.LichessDownFetchesNothing | api/services/benchmark/fetch-lichess-puzzles.ts:175-184 | when every request fails, nothing is fetched and only the first request is made |
| Concurrency.ParsePositiveInt | api/services/benchmark/concurrency.ts:1-4 | an unset value gives the fallback; the result is the fallback or the positive integer the text starts with, so it is positive whenever the fallback is |
| Concurrency.ParsePositiveNumeral | api/services/benchmark/concurrency.ts:1-4 | a positive numeral is read as its value, whatever the fallback |
| Concurrency.NonPositiveFallsBack | api/services/benchmark/concurrency.ts:3 | zero and negative numbers fall back |
| Concurrency.WorkerCount | api/services/benchmark/concurrency.ts:18 | at least one worker, and never more than the items or the concurrency when both are positive |
| Concurrency.MapWithConcurrency | api/services/benchmark/concurrency.ts:11-36 | one result per item, each the mapper's result for that item at its own index |
| Concurrency.IntOr | api/services/benchmark/benchmark-config.ts:12-15 | the result is the fallback or the non-zero integer the text starts with |
| Concurrency.GetBenchmarkConfig | api/services/benchmark/benchmark-config.ts:11-25 | item concurrency is at least one, and with nothing set the configuration is 10000 ms, 192 tokens, one retry, 200 ms and one item at a time |
| Purge.ShouldPurgeGame | api/steps/chess/09-purge-stuck-games.step.ts:13-24 | a missing or empty creation time purges; otherwise a game is purged exactly when its date reads and it is more than fifteen minutes old |
| Purge.KeptAtFifteenMinutesOrFuture | api/steps/chess/09-purge-stuck-games.step.ts:23 | a game exactly fifteen minutes old, or one created in the future, is kept |
| Purge.PurgeStuckGames | api/steps/chess/09-purge-stuck-games.step.ts:26-37 | every game is either kept or deleted; the kept games are exactly those the rule spares, and exactly the games the rule picks are deleted |
| Sorting.SortBy | api/services/chess/analyze-player-strength.ts:17-19 | the sort returns an ordered permutation of its input |
| Sorting.SortByIsStable | api/services/chess/analyze-player-strength.ts:17-19 | the sort is stable: the elements tied with any element keep their order |
| Numbers.ParseIntOfIntToString | api/steps/chess/10-get-game-history.step.ts:43-46 | `parseInt` reads back the decimal text of every integer |
| Strings.Trim | api/services/benchmark/run-puzzle-benchmark.ts:98 | the result is a contiguous part of the input with only whitespace cut off before and after it, and it has no whitespace at either end |
| Strings.TrimIdempotent | api/services/benchmark/run-puzzle-benchmark.ts:98 | trimming twice is trimming once |
| Strings.SplitJoin | api/services/chess/generate-pgn.ts:16-20 | parts without the separator are what splitting their join gives back |
| Strings.JoinSplit | api/services/chess/generate-pgn.ts:16-20 | joining the parts of a split with the separator gives back the string |
| Wrappers.Plus | api/steps/chess/08-game-ended.step.ts:102-103 | NaN absorbs everything; otherwise the sum of the two numbers |
| GameAccess.GetGameRole | api/services/chess/get-game-role.ts:12-32 | a caller with the root password, or any caller of a game without passwords, gets every side no AI plays: both (root), the one human side, or none (spectator); anyone else never gets root and gets white exactly for white's password and black exactly for black's password when it differs from white's |
| GameAccess.ValidateMoveAccess | api/services/chess/validate-move-access.ts:11-23 | without stored passwords every move is allowed; otherwise a password that is not the root one may move exactly when it is the password of the side to move, and the root password always may |
| GameAccess.MoveAccessMatchesRole | api/services/chess/validate-move-access.ts:11-23 | with distinct side passwords, a password may move exactly when it is the root one or earns the role of the side to move |
| GameAccess.OpponentCannotMove | api/services/chess/validate-move-access.ts:15-18 | the opponent's password never moves for the side to move unless it equals that side's or the root password |
| GameAccess.RefinePlayer | api/steps/chess/01-create-game.step.ts:9-38 | a human player has no issue; an AI player is reported as missing its model exactly when none is given, as an invalid provider exactly when the provider is unknown, and as an invalid model exactly when the model is missing, the provider unknown or the model not one of the provider's; no issue is reported twice |
| GameAccess.AcceptedPlayer | api/steps/chess/01-create-game.step.ts:18-37 | a player the create-game refinement accepts is human or names a known provider and one of its models |
| Stats.MeanWithinBounds | api/steps/benchmark/06-run-puzzle-benchmark.step.ts:76-80 | the mean of values in [lo, hi] lies in [lo, hi] |
| Stats.MeanMonotone | api/steps/benchmark/06-run-puzzle-benchmark.step.ts:76-80 | of two equally long lists, the one with the larger sum has the larger mean |
| LegalMoveSteps.SummaryAverageIsRunningMean | api/steps/benchmark/01-run-legal-move-benchmark.step.ts:71-74 | the stored average after a model's runs is the running mean folded over its scores in order |
| ScoreNormalizer.DistantMateBelowLargeLead | api/steps/chess/evaluate-player-move.step.py:18-26 | mate in 10 normalises below a 900-centipawn lead |
| PlayerMoveEvaluation.Evaluate | api/steps/chess/evaluate-player-move.step.py:28-48 | a failed analysis request fails the evaluation; a successful one is evaluated as one answer |

## Left out

- LegalMoveSteps.RunLegalMoveStep: the step imports `getModelsForProvider`, but the AI models module does not export it (it exports its default models and `supportedModelsByProvider`). The corrected step checks support with `AiModels.IsSupported` over `supportedModelsByProvider`. `RunLegalMoveStepAsWritten` models the step as written, which throws at its first line and stores nothing. The step also passes its arguments to the service in the wrong order (see Findings); the corrected step runs the service on the position set it has prepared. That is an assumed intent: the service as written ignores any position set and generates its own positions.
- PuzzleSteps.RunPuzzleStep: it makes the same substitution of `AiModels.IsSupported` for the missing `getModelsForProvider`. `RunPuzzleStepAsWritten` models the step as written.
- PuzzleSteps.RunAllPuzzleBenchmarks: the step imports `getAllModels`, which the AI models module does not export. `AiModels.AllModels` stands in for it: every provider's supported models, in table order. `RunAllPuzzleBenchmarksAsWritten` models the step as written, which throws after topping up the set.
- GameEnded.HandleGameEnded: the chess utilities do not export `isAiGame`. It is read as "both players are AI players" (`GameTypes.IsAiGame`), following how the move service tells AI games apart. `HandleGameEndedAsWritten` models the handler as written, which throws after storing the scored game.
- PuzzleBenchmark.BenchmarkPuzzle: the service constructs a board from the puzzle's FEN before its `try` (api/services/benchmark/run-puzzle-benchmark.ts:65). An unreadable FEN would abort the whole run. The model assumes every stored puzzle FEN reads.
- Strings.Trim: it strips only the ASCII whitespace (space, tab, line feed, carriage return, vertical tab, form feed). JavaScript's `trim` also strips no-break spaces, the Unicode line and paragraph separators and the byte-order mark, so an answer padded with those is judged differently.
- StockfishBenchmarkStep.RunStockfishBenchmark: the request schema bounds the level to 1..20 and defaults it to 10; the model requires a level in that range. A fractional level, which the schema also accepts, is not modelled.
- PuzzleSteps.RunAllPuzzleBenchmarks: the top-up stamps the new set's id and creation time with one clock reading, `now`. Each picked model's run start, run end and summary time are separate readings, `clock(j)`, for the j-th queued model.
- StockfishGame.StockfishTurn: it follows chess.js 1.x, which throws `Invalid move: ` and the move object's JSON for a move it cannot play, so the step's `if (move)` guard never sees a null move. The chess.js library itself is not part of this model; the message format is taken from that version.
- PuzzleSteps.RunPuzzleStep, PuzzleSteps.RunAllPuzzleBenchmarks, LegalMoveSteps.RunAllBenchmarks: the request schemas accept any number within their bounds, fractions included. The model takes counts as natural numbers, so a fractional count is not modelled.
- HistoryExportQuoted.ExportGameHistory: the query string's dates are compared as the text `Number` makes of them, given as the parameter `toNumber`. Which numerals `Number` accepts (fractions, exponents, hex) is that parameter's business and is not modelled.
- HistoryExportQuoted.ExportGameHistory: this export writes the id, the dates, the end reason and the models without quoting. Its CSV reads back to the values only when none of those holds a comma, a quote or a line break, and the contract promises the read-back only then.
- AiMoveScoring.HandleAiMove: whether the event payload allows attribute reads is the parameter `payload`, decided by the event runtime. A plain `dict` fails at the first attribute read. What the runtime really delivers is outside this model.
- Concurrency.MapWithConcurrency: it models what the pool resolves to, not the interleaving of its workers. The fire-and-forget background runs of the run-all steps and the Stockfish step are modelled as running their models one after another. The race acknowledged in the game-ended step is not modelled.
- Purge.ShouldPurgeGame: the step's description speaks of games stuck for more than 10 minutes. The code's threshold is 15 minutes (api/steps/chess/09-purge-stuck-games.step.ts:13), and the model follows the code.
- LegalMoveScoring.ApiKeyEnvVar: the legal-move prompt service reads Gemini's key from `GEMINI_API_KEY`, while the puzzle service reads `GOOGLE_API_KEY` (api/services/benchmark/run-puzzle-benchmark.ts:28). Only the former's table is modelled; building the clients is left out.
- PlayerStrength.AnalyzePlayerStrength: the standard deviation and the consistency derived from it need a floating-point square root and are left out. `toFixed` formatting is left out too.
- LichessPuzzles.CeilDiv: `Math.ceil` of a quotient is computed exactly on integers. Floating-point rounding of the quotient is not modelled.
- Engine process I/O is left out: spawning Stockfish, writing UCI commands, buffering its output and waiting with timeouts. The engine is the output or analysis it returns, given per request.
- The rules of chess are left out: legal-move generation, FEN and SAN parsing and printing, and checkmate and draw detection. They are the oracle records `ChessJs.Library` and `MoveRecovery.Rules`.
- The language-model and network clients are left out: the prompts, the provider SDKs and the HTTP `fetch` calls. Their answers are parameters.
- Motia streams, state, emits and the logger are left out. Each handler returns the records it would store or emit.
- Random ids, passwords and names, `Math.random` and `Date.now` are left out. Draws, ids and clock readings are parameters.
- Three stale callers are left out: the older game-ended step, the evaluate-all-games API step and the leaderboard updater. They call the game scorer with signatures it no longer has.
- The unused best-move analysis of the player-move evaluation is only counted as an engine request. Its answer is discarded.
- The user interface is left out.

## Findings

| source | as written | input that shows it | evidently intended | confidence | as-written member | corrected member |
|---|---|---|---|---|---|---|
| api/steps/chess/evaluate-player-move.step.py:20-21 | a mate score is normalised as 0.8 + 0.2 / abs(mate) | the position after a mating move, scored Mate(0): division by zero, so the handler emits nothing | the side to move is mated, so the score is -1 | not executed | ScoreNormalizer.NormalizeScoreAsWritten | ScoreNormalizer.NormalizeScore |
| api/services/benchmark/stockfish-game.ts:93-94 | the score is the first `score cp` match in the output, and any `score mate` line overrides it | output with depth-1 `score cp 30` and depth-12 `score cp -40` reads 30 | the score of the deepest (last) info line | not executed | StockfishEngine.EvaluateAsWritten | StockfishEngine.Evaluate |
| api/services/benchmark/stockfish-game.ts:219-221 | the loss is max(0, before - after), with both scores read from White's side | AI White, engine +60 before the move and -60 after it (side to move, so still +60 for White): loss 120, a blunder | both scores relative to the side to move, loss max(0, before + after) = 0 | not executed | StockfishGame.CentipawnLossAsWritten | StockfishGame.CentipawnLoss |
| api/steps/benchmark/09-run-all-benchmarks.step.ts:68 | `runLegalMoveBenchmark(positions, provider, model, logger)` against the signature (provider, model, logger, positionCount) | any queued model: the logger slot holds the model name, and calling `info` on it throws, so the job stores nothing | run the benchmark on the stored positions for this provider and model | not executed | LegalMoveSteps.RunModelJobAsWritten | LegalMoveSteps.RunModelJob |
| api/steps/benchmark/01-run-legal-move-benchmark.step.ts:6 | imports `getModelsForProvider`, which the AI models module does not export | any request: the call on the handler's first line throws outside the `try` | check the model against `supportedModelsByProvider` | not executed | LegalMoveSteps.RunLegalMoveStepAsWritten | LegalMoveSteps.RunLegalMoveStep |
| api/steps/benchmark/01-run-legal-move-benchmark.step.ts:57 | calls the service with the positions, the provider and the model, where run-legal-move-benchmark.ts:174-180 takes the provider, the model and the logger | any supported model: the service generates no positions and calls `info` on the model string, which throws inside the `try`, so the step answers 400 and stores no run | call the service with the provider, the model and the logger, on the position set the step has just prepared | not executed | LegalMoveSteps.RunLegalMoveStepMisordered | LegalMoveSteps.RunLegalMoveStep |
| api/steps/benchmark/06-run-puzzle-benchmark.step.ts:6 | imports `getModelsForProvider`, which the AI models module does not export | any request: the call throws before the store is read | check the model against `supportedModelsByProvider` | not executed | PuzzleSteps.RunPuzzleStepAsWritten | PuzzleSteps.RunPuzzleStep |
| api/steps/benchmark/06b-run-all-puzzle-benchmarks.step.ts:4 | imports `getAllModels`, which the AI models module does not export | any request that gets past the top-up: the call throws and no model runs | every provider's supported models | not executed | PuzzleSteps.RunAllPuzzleBenchmarksAsWritten | PuzzleSteps.RunAllPuzzleBenchmarks |
| api/steps/chess/08-game-ended.step.ts:7 | imports `isAiGame` from the chess utilities, which do not define it | any game that scores: the call throws after the scored game is stored, so no leaderboard is written | true when both players are AI players | not executed | GameEnded.HandleGameEndedAsWritten | GameEnded.HandleGameEnded |

=== FILE: ai_models.dfy ===
/** The four AI providers, the models each supports, and each provider's default model. */
module AiModels {
  import opened Wrappers

  datatype Provider = OpenAi | Gemini | Claude | Grok

  /** The providers in the key order of the supported-models table. */
  const Providers: seq<Provider> := [OpenAi, Gemini, Claude, Grok]

  function ProviderName(p: Provider): string {
    match p
    case OpenAi => "openai"
    case Gemini => "gemini"
    case Claude => "claude"
    case Grok => "grok"
  }

  /** Reading a provider name, as the request schemas do; anything else is rejected. */
  function ParseProvider(s: string): (r: Option<Provider>)
    ensures r.Some? ==> ProviderName(r.value) == s
  {
    if s == "openai" then Some(OpenAi)
    else if s == "gemini" then Some(Gemini)
    else if s == "claude" then Some(Claude)
    else if s == "grok" then Some(Grok)
    else None
  }

  /** Every provider name reads back as that provider, and `Providers` lists each once. */
  lemma ProviderNamesRoundTrip(p: Provider)
    ensures ParseProvider(ProviderName(p)) == Some(p)
    ensures p in Providers
    ensures forall i, j :: 0 <= i < j < |Providers| ==> Providers[i] != Providers[j]
  {
  }

  /** The key of a model's benchmark summaries and runs: `${provider}:${model}`. */
  function ModelId(p: Provider, model: string): string {
    ProviderName(p) + ":" + model
  }

  /** Different (provider, model) pairs have different keys. */
  lemma ModelIdInjective(p: Provider, m: string, q: Provider, n: string)
    ensures ModelId(p, m) == ModelId(q, n) <==> p == q && m == n
  {
    var a, b := ModelId(p, m), ModelId(q, n);
    if p == q && a == b {
      var k := |ProviderName(p)| + 1;
      assert a[k..] == m && b[k..] == n;
    }
    if p != q {
      assert a[0] == ProviderName(p)[0] && a[1] == ProviderName(p)[1];
      assert b[0] == ProviderName(q)[0] && b[1] == ProviderName(q)[1];
    }
  }

  /** The models a user may pick for each provider. */
  function SupportedModels(p: Provider): seq<string> {
    match p
    case OpenAi => ["gpt-5-2025-08-07", "gpt-5-mini-2025-08-07", "gpt-5-nano-2025-08-07",
                    "gpt-4.1-nano-2025-04-14", "gpt-4.1-mini-2025-04-14", "gpt-4o-mini-2024-07-18",
                    "o4-mini-2025-04-16"]
    case Gemini => ["gemini-2.5-flash", "gemini-2.5-flash-lite", "gemini-2.0-flash-001",
                    "gemini-2.0-flash-lite-001"]
    case Claude => ["claude-opus-4-1-20250805", "claude-opus-4-20250514", "claude-sonnet-4-5-20250929",
                    "claude-sonnet-4-20250514", "claude-3-7-sonnet-20250219", "claude-haiku-4-5-20251001",
                    "claude-3-5-haiku-20241022"]
    case Grok => ["grok-4-fast", "grok-4-fast-non-reasoning", "grok-3-mini", "grok-3"]
  }

  /** `supportedModelsByProvider[provider]?.includes(model)`. */
  predicate IsSupported(p: Provider, model: string) {
    model in SupportedModels(p)
  }

  /** The model used for AI-vs-AI games and for older games that stored no model. */
  function DefaultModel(p: Provider): string {
    match p
    case OpenAi => "gpt-5-2025-08-07"
    case Gemini => "gemini-2.5-flash"
    case Claude => "claude-sonnet-4-5-20250929"
    case Grok => "grok-4-fast"
  }

  /** Every default model is one of its provider's supported models. */
  lemma DefaultModelsSupported(p: Provider)
    ensures IsSupported(p, DefaultModel(p))
  {
    assert SupportedModels(p)[if p == OpenAi then 0 else if p == Gemini then 0 else if p == Claude then 2 else 0]
        == DefaultModel(p);
  }

  /** Every (provider, model) pair, provider by provider in table order. */
  function AllModels(): (r: seq<(Provider, string)>)
    ensures forall k :: 0 <= k < |r| ==> IsSupported(r[k].0, r[k].1)
  {
    PairsOf(Providers)
  }

  /** A pair is listed exactly when the provider supports the model. */
  lemma AllModelsComplete(p: Provider, m: string)
    ensures (p, m) in AllModels() <==> IsSupported(p, m)
  {
    assert p in Providers;
    if (p, m) in AllModels() {
      var k :| 0 <= k < |AllModels()| && AllModels()[k] == (p, m);
    }
  }

  function PairsOf(ps: seq<Provider>): (r: seq<(Provider, string)>)
    ensures forall k :: 0 <= k < |r| ==> r[k].0 in ps && IsSupported(r[k].0, r[k].1)
    ensures forall p, m :: p in ps && IsSupported(p, m) ==> (p, m) in r
  {
    if |ps| == 0 then []
    else
      var here := seq(|SupportedModels(ps[0])|, i requires 0 <= i < |SupportedModels(ps[0])| => (ps[0], SupportedModels(ps[0])[i]));
      var rest := PairsOf(ps[1..]);
      assert forall m :: IsSupported(ps[0], m) ==> (ps[0], m) in here by {
        forall m | IsSupported(ps[0], m) ensures (ps[0], m) in here {
          var i :| 0 <= i < |SupportedModels(ps[0])| && SupportedModels(ps[0])[i] == m;
          assert here[i] == (ps[0], m);
        }
      }
      here + rest
  }

  /** No (provider, model) pair occurs twice. */
  predicate DistinctPairs(ms: seq<(Provider, string)>) {
    forall i, j :: 0 <= i < j < |ms| ==> ms[i] != ms[j]
  }

  /** No provider lists a model twice. */
  lemma SupportedModelsDistinct(p: Provider)
    ensures forall i, j :: 0 <= i < j < |SupportedModels(p)| ==> SupportedModels(p)[i] != SupportedModels(p)[j]
  {
  }

  /** Every supported pair is listed exactly once. */
  lemma AllModelsDistinct()
    ensures DistinctPairs(AllModels())
  {
    ProviderNamesRoundTrip(OpenAi);
    PairsOfDistinct(Providers);
  }

  lemma {:induction false} PairsOfDistinct(ps: seq<Provider>)
    requires forall i, j :: 0 <= i < j < |ps| ==> ps[i] != ps[j]
    ensures DistinctPairs(PairsOf(ps))
  {
    if |ps| > 0 {
      var r := PairsOf(ps);
      var rest := PairsOf(ps[1..]);
      var n := |SupportedModels(ps[0])|;
      PairsOfSplit(ps);
      PairsOfDistinct(ps[1..]);
      assert ps[0] !in ps[1..] by {
        forall q | 0 <= q < |ps[1..]| ensures ps[1..][q] != ps[0] {
          assert ps[1..][q] == ps[q + 1];
        }
      }
      assert forall k :: 0 <= k < |rest| ==> rest[k].0 in ps[1..];
      ConcatDistinct(r[..n], rest);
      assert r[..n] + rest == r;
    }
  }

  /** The pairs of a list of providers: the first provider's models in table order, then the rest's pairs. */
  lemma PairsOfSplit(ps: seq<Provider>)
    requires |ps| > 0
    ensures var r, n := PairsOf(ps), |SupportedModels(ps[0])|;
      && n <= |r| && r[n..] == PairsOf(ps[1..])
      && DistinctPairs(r[..n]) && forall x :: x in r[..n] ==> x.0 == ps[0]
  {
    var r, n := PairsOf(ps), |SupportedModels(ps[0])|;
    SupportedModelsDistinct(ps[0]);
    assert forall i :: 0 <= i < n ==> r[..n][i] == (ps[0], SupportedModels(ps[0])[i]);
  }

  /** Two lists without repeats and without a common pair join into a list without repeats. */
  lemma ConcatDistinct(a: seq<(Provider, string)>, b: seq<(Provider, string)>)
    requires DistinctPairs(a) && DistinctPairs(b)
    requires forall k :: 0 <= k < |b| ==> b[k] !in a
    ensures DistinctPairs(a + b)
  {
    var r := a + b;
    forall i, j | 0 <= i < j < |r| ensures r[i] != r[j] {
      if |a| <= i {
        assert r[i] == b[i - |a|] && r[j] == b[j - |a|];
      } else if |a| <= j {
        assert r[i] in a && r[j] == b[j - |a|];
      }
    }
  }
}

=== FILE: ai_move_scoring.dfy ===
/**
 * The legacy `score-ai-move` handler: recover the AI's move between two FENs, analyse the
 * position after it once, and emit the side-relative centipawn score and the engine's
 * best reply. The engine path is fixed in the source, so the engine is always spawned once
 * both FENs are present.
 */
module AiMoveScoring {
  import opened Wrappers
  import opened Chess
  import opened EngineSession
  import opened MoveRecovery

  datatype AiMoveInput = AiMoveInput(
    fenBefore: Option<string>,
    fenAfter: Option<string>,
    gameId: string,
    moveId: string)

  /**
   * What the event payload is at run time. The handler reads it both with `.get` and by
   * attribute (`args.fenBefore`, `args.gameId`): a plain `dict` supports only the first, so
   * the first attribute read raises inside the `try`.
   */
  datatype Payload = PlainDict | AttributeMapping

  /** The error a plain `dict` raises at the first attribute read. */
  const NoAttribute := "'dict' object has no attribute 'fenBefore'"

  /** The emitted `ai-move-scored` payload. */
  datatype AiMoveScore = AiMoveScore(
    evaluation: int,
    isMate: bool,
    bestMove: Option<string>,
    gameId: string,
    moveId: string)

  /**
   * The payload for the analysis of the position after the move. The score is read with
   * `.cp`, which a mate score does not have, so a mate raises; the best move is the first
   * move of a non-empty principal variation.
   */
  function ScoreAfterMove<P, M>(rules: Rules<P, M>, a: Analysis<M>, gameId: string, moveId: string)
    : (r: Result<AiMoveScore>)
    ensures r.Err? <==> a.relative.Mate?
    ensures r.Ok? ==> r.value.evaluation == a.relative.cp
    ensures r.Ok? ==> !r.value.isMate
    ensures r.Ok? ==> (r.value.bestMove.Some? <==> a.pv.Some? && a.pv.value != [])
    ensures r.Ok? && a.pv.Some? && a.pv.value != [] ==> r.value.bestMove == Some(rules.uci(a.pv.value[0]))
  {
    match a.relative
    case Mate(_) => Err("'Mate' object has no attribute 'cp'")
    case Cp(c) =>
      var best := if a.pv.Some? && a.pv.value != [] then Some(rules.uci(a.pv.value[0])) else None;
      Ok(AiMoveScore(c, a.relative.Mate?, best, gameId, moveId))
  }

  /**
   * The handler: the analysed positions and the outcome. With both FENs present the engine
   * is spawned; then the payload must allow attribute reads, both FENs must parse (the second
   * is read into a board that is never used) and some legal move must lead from one to the
   * other; only then is the single analysis requested.
   */
  method HandleAiMove<P, M>(rules: Rules<P, M>, analyse: (P, nat) -> Result<Analysis<M>>,
                            payload: Payload, input: AiMoveInput)
    returns (outcome: Result<AiMoveScore>, log: seq<Event<P>>)
    ensures !Filled(input.fenBefore) || !Filled(input.fenAfter) ==> outcome.Err? && log == []
    ensures Filled(input.fenBefore) && Filled(input.fenAfter) ==>
      Scoped(log, Analysed(log)) && CountSpawns(log) == 1 && CountQuits(log) == 1
    ensures Filled(input.fenBefore) && Filled(input.fenAfter) && payload == PlainDict ==>
      outcome == Err(NoAttribute) && Analysed(log) == []
    ensures outcome.Ok? ==> payload == AttributeMapping
    ensures Filled(input.fenBefore) && Filled(input.fenAfter)
      && (rules.parse(input.fenAfter.value).None?
          || Recover(rules, input.fenBefore.value, input.fenAfter.value).None?)
      ==> outcome.Err? && Analysed(log) == []
    ensures outcome.Ok? ==> Filled(input.fenBefore) && Filled(input.fenAfter)
    ensures outcome.Ok? ==> Recover(rules, input.fenBefore.value, input.fenAfter.value).Some?
    ensures outcome.Ok? ==> (
      var (board, move) := Recover(rules, input.fenBefore.value, input.fenAfter.value).value;
      && Analysed(log) == [rules.push(board, move)]
      && analyse(rules.push(board, move), 0).Ok?
      && analyse(rules.push(board, move), 0).value.relative == Cp(outcome.value.evaluation)
      && outcome == ScoreAfterMove(rules, analyse(rules.push(board, move), 0).value, input.gameId, input.moveId)
      && outcome.value.gameId == input.gameId && outcome.value.moveId == input.moveId)
  {
    if !Filled(input.fenBefore) || !Filled(input.fenAfter) {
      return Err("Both fenBefore and fenAfter must be provided"), [];
    }
    var analysed: seq<P> := [];
    if payload == PlainDict {
      return Err(NoAttribute), SessionLog(analysed);
    }
    var fenBefore, fenAfter := input.fenBefore.value, input.fenAfter.value;
    var parsed := rules.parse(fenBefore);
    var parsedAfter := rules.parse(fenAfter);
    if parsed.None? || parsedAfter.None? {
      return Err("invalid fen"), SessionLog(analysed);
    }
    var board := parsed.value;
    var found, stack := FindMove(rules, board, fenAfter);
    if found.None? {
      return Err("Could not determine the move between the provided FENs"), SessionLog(analysed);
    }
    assert Recover(rules, fenBefore, fenAfter) == Some((board, found.value));
    var after := rules.push(board, found.value);
    analysed := [after];
    var answer := analyse(after, 0);
    if answer.Err? {
      return Err(answer.message), SessionLog(analysed);
    }
    outcome := ScoreAfterMove(rules, answer.value, input.gameId, input.moveId);
    log := SessionLog(analysed);
  }
}

=== FILE: ai_selection.dfy ===
/**
 * Weighted random choice of the AI opponent: a fixed weight table, filtered down to the
 * models the providers actually support, and a draw in [0, 1) scaled by the total weight.
 * The draw (`Math.random()`) is a parameter.
 */
module AiSelection {
  import opened Wrappers
  import opened AiModels
  import opened Stats

  datatype Tier = Cheap | Mid | Expensive {
    function Name(): string {
      match this
      case Cheap => "cheap"
      case Mid => "mid"
      case Expensive => "expensive"
    }
  }

  datatype WeightedModel = WeightedModel(provider: Provider, model: string, weight: nat, tier: Tier)

  /** The weight table, tier by tier; cheaper models weigh more. */
  const CheapModels: seq<WeightedModel> := [
    WeightedModel(Gemini, "gemini-2.5-flash-lite", 10, Cheap),
    WeightedModel(Gemini, "gemini-2.5-flash", 10, Cheap),
    WeightedModel(Gemini, "gemini-2.0-flash", 10, Cheap),
    WeightedModel(Claude, "claude-3-5-haiku-latest", 10, Cheap),
    WeightedModel(Claude, "claude-haiku-4-5", 10, Cheap),
    WeightedModel(OpenAi, "gpt-4o-mini", 10, Cheap),
    WeightedModel(OpenAi, "gpt-4.1-mini", 10, Cheap),
    WeightedModel(Grok, "grok-3-fast", 10, Cheap)
  ]

  const MidModels: seq<WeightedModel> := [
    WeightedModel(Gemini, "gemini-2.5-pro", 5, Mid),
    WeightedModel(Claude, "claude-sonnet-4-0", 5, Mid),
    WeightedModel(Claude, "claude-3-7-sonnet-latest", 5, Mid),
    WeightedModel(Grok, "grok-4-fast-non-reasoning", 5, Mid),
    WeightedModel(OpenAi, "gpt-5-mini", 5, Mid),
    WeightedModel(OpenAi, "gpt-4o", 5, Mid),
    WeightedModel(OpenAi, "gpt-4.1", 5, Mid)
  ]

  const ExpensiveModels: seq<WeightedModel> := [
    WeightedModel(Gemini, "gemini-3-pro-preview", 2, Expensive),
    WeightedModel(Claude, "claude-sonnet-4-5", 2, Expensive),
    WeightedModel(Claude, "claude-opus-4-0", 2, Expensive),
    WeightedModel(Claude, "claude-opus-4-5", 1, Expensive),
    WeightedModel(Grok, "grok-4-fast-reasoning", 2, Expensive),
    WeightedModel(OpenAi, "gpt-5", 2, Expensive),
    WeightedModel(OpenAi, "gpt-5.1", 2, Expensive),
    WeightedModel(OpenAi, "gpt-5.2", 1, Expensive)
  ]

  const ModelWeights: seq<WeightedModel> := CheapModels + MidModels + ExpensiveModels

  predicate PositiveWeights(ms: seq<WeightedModel>) {
    forall k :: 0 <= k < |ms| ==> ms[k].weight > 0
  }

  /** Whether an entry of the weight table names a model its provider supports. */
  predicate Available(m: WeightedModel) {
    IsSupported(m.provider, m.model)
  }

  /** The entries of `ms` that satisfy `keep`, in table order. */
  function Filter(ms: seq<WeightedModel>, keep: WeightedModel -> bool): seq<WeightedModel> {
    if |ms| == 0 then []
    else if keep(ms[|ms| - 1]) then Filter(ms[..|ms| - 1], keep) + [ms[|ms| - 1]]
    else Filter(ms[..|ms| - 1], keep)
  }

  /** The entries of `ms` whose model is supported by its provider, in table order. */
  function Supported(ms: seq<WeightedModel>): seq<WeightedModel> {
    Filter(ms, Available)
  }

  lemma {:induction false} FilterNone(ms: seq<WeightedModel>, keep: WeightedModel -> bool)
    requires forall k :: 0 <= k < |ms| ==> !keep(ms[k])
    ensures Filter(ms, keep) == []
  {
    if |ms| > 0 {
      var init := ms[..|ms| - 1];
      forall k | 0 <= k < |init| ensures !keep(init[k]) {
        assert init[k] == ms[k];
      }
      FilterNone(init, keep);
    }
  }

  lemma {:induction false} FilterAll(ms: seq<WeightedModel>, keep: WeightedModel -> bool)
    requires forall k :: 0 <= k < |ms| ==> keep(ms[k])
    ensures Filter(ms, keep) == ms
  {
    if |ms| > 0 {
      var init := ms[..|ms| - 1];
      forall k | 0 <= k < |init| ensures keep(init[k]) {
        assert init[k] == ms[k];
      }
      FilterAll(init, keep);
      assert init + [ms[|ms| - 1]] == ms;
    }
  }

  /** The filter keeps exactly the entries that satisfy `keep`. */
  lemma {:induction false} FilterMembers(ms: seq<WeightedModel>, keep: WeightedModel -> bool)
    ensures |Filter(ms, keep)| <= |ms|
    ensures forall m :: m in Filter(ms, keep) <==> m in ms && keep(m)
  {
    if |ms| > 0 {
      FilterMembers(ms[..|ms| - 1], keep);
      assert ms == ms[..|ms| - 1] + [ms[|ms| - 1]];
    }
  }

  /** Filtering distributes over concatenation. */
  lemma {:induction false} FilterAppend(a: seq<WeightedModel>, b: seq<WeightedModel>, keep: WeightedModel -> bool)
    ensures Filter(a + b, keep) == Filter(a, keep) + Filter(b, keep)
  {
    if |b| > 0 {
      assert (a + b)[..|a + b| - 1] == a + b[..|b| - 1];
      FilterAppend(a, b[..|b| - 1], keep);
    } else {
      assert a + b == a;
    }
  }

  lemma {:induction false} FilterSingle(ms: seq<WeightedModel>, i: nat, keep: WeightedModel -> bool)
    requires i < |ms| && keep(ms[i])
    requires forall k :: 0 <= k < |ms| && k != i ==> !keep(ms[k])
    ensures Filter(ms, keep) == [ms[i]]
  {
    var before, after := ms[..i], ms[i + 1..];
    forall k | 0 <= k < |before| ensures !keep(before[k]) {
      assert before[k] == ms[k];
    }
    forall k | 0 <= k < |after| ensures !keep(after[k]) {
      assert after[k] == ms[i + 1 + k];
    }
    FilterNone(before, keep);
    FilterNone(after, keep);
    FilterAll([ms[i]], keep);
    FilterAppend(before, [ms[i]], keep);
    FilterAppend(before + [ms[i]], after, keep);
    assert before + [ms[i]] + after == ms;
  }

  function AvailableModels(): seq<WeightedModel> {
    Supported(ModelWeights)
  }

  /** Only the first two cheap entries name supported models. */
  lemma CheapAvailability()
    ensures forall k :: 0 <= k < 2 ==> Available(CheapModels[k])
    ensures forall k :: 2 <= k < |CheapModels| ==> !Available(CheapModels[k])
  {
    assert IsSupported(Gemini, "gemini-2.5-flash-lite") && IsSupported(Gemini, "gemini-2.5-flash");
  }

  /** Only the fourth mid-tier entry names a supported model. */
  lemma MidAvailability()
    ensures Available(MidModels[3])
    ensures forall k :: 0 <= k < |MidModels| && k != 3 ==> !Available(MidModels[k])
  {
    assert IsSupported(Grok, "grok-4-fast-non-reasoning");
  }

  /** No expensive entry names a supported model. */
  lemma ExpensiveAvailability()
    ensures forall k :: 0 <= k < |ExpensiveModels| ==> !Available(ExpensiveModels[k])
  {
  }

  lemma CheapModelsSupported()
    ensures Supported(CheapModels) == CheapModels[..2]
  {
    var c := CheapModels;
    CheapAvailability();
    FilterAll(c[..2], Available);
    FilterNone(c[2..], Available);
    FilterAppend(c[..2], c[2..], Available);
    assert c[..2] + c[2..] == c;
  }

  lemma MidModelsSupported()
    ensures Supported(MidModels) == [MidModels[3]]
  {
    MidAvailability();
    FilterSingle(MidModels, 3, Available);
  }

  lemma ExpensiveModelsSupported()
    ensures Supported(ExpensiveModels) == []
  {
    ExpensiveAvailability();
    FilterNone(ExpensiveModels, Available);
  }

  /**
   * Most of the table names model aliases the providers' lists do not contain: only three
   * entries survive the filter, with a total weight of 25.
   */
  lemma AvailableModelsAreThree()
    ensures AvailableModels() == [
      WeightedModel(Gemini, "gemini-2.5-flash-lite", 10, Cheap),
      WeightedModel(Gemini, "gemini-2.5-flash", 10, Cheap),
      WeightedModel(Grok, "grok-4-fast-non-reasoning", 5, Mid)]
    ensures TotalWeight(AvailableModels()) == 25
  {
    FilterAppend(CheapModels + MidModels, ExpensiveModels, Available);
    FilterAppend(CheapModels, MidModels, Available);
    CheapModelsSupported();
    MidModelsSupported();
    ExpensiveModelsSupported();
    var r := AvailableModels();
    assert r == [CheapModels[0], CheapModels[1], MidModels[3]];
    assert r[..2][..1] == [r[0]] && r[..1][..0] == [];
    assert TotalWeight(r[..1]) == 10 && TotalWeight(r[..2]) == 20;
    assert r[..3] == r;
  }

  /** The sum of the weights, accumulated from the front as `reduce` does. */
  function TotalWeight(ms: seq<WeightedModel>): nat {
    if |ms| == 0 then 0 else TotalWeight(ms[..|ms| - 1]) + ms[|ms| - 1].weight
  }

  lemma {:induction false} TotalWeightPrefixMonotone(ms: seq<WeightedModel>, i: nat, j: nat)
    requires i <= j <= |ms|
    ensures TotalWeight(ms[..i]) <= TotalWeight(ms[..j])
    decreases j - i
  {
    if i < j {
      TotalWeightPrefixMonotone(ms, i, j - 1);
      assert ms[..j][..j - 1] == ms[..j - 1];
    }
  }

  lemma {:induction false} PositiveTotal(ms: seq<WeightedModel>)
    requires PositiveWeights(ms) && |ms| > 0
    ensures TotalWeight(ms) >= ms[0].weight > 0
  {
    TotalWeightPrefixMonotone(ms, 1, |ms|);
    assert ms[..1][..0] == [];
    assert ms[..|ms|] == ms;
  }

  /**
   * The selection loop: subtract each weight from `random` and take the first entry at which
   * it drops to zero or below. `None` is the loop running off the end.
   */
  method Select(ms: seq<WeightedModel>, random: real) returns (picked: Option<nat>)
    ensures picked.Some? ==> picked.value < |ms|
    ensures picked.Some? ==> random <= TotalWeight(ms[..picked.value + 1]) as real
    ensures picked.Some? ==> picked.value == 0 || TotalWeight(ms[..picked.value]) as real < random
    ensures picked.None? <==> (|ms| == 0 || (TotalWeight(ms) as real) < random)
  {
    var rest := random;
    var i := 0;
    while i < |ms|
      invariant 0 <= i <= |ms|
      invariant rest == random - TotalWeight(ms[..i]) as real
      invariant i > 0 ==> rest > 0.0
    {
      assert ms[..i + 1][..i] == ms[..i];
      rest := rest - ms[i].weight as real;
      if rest <= 0.0 {
        TotalWeightPrefixMonotone(ms, i + 1, |ms|);
        assert ms[..|ms|] == ms;
        return Some(i);
      }
      i := i + 1;
    }
    assert ms[..|ms|] == ms;
    return None;
  }

  /**
   * With positive weights, entry `i` is chosen exactly for the draws in the half-open
   * interval of length `ms[i].weight` that ends at the running total through `i`, so each
   * entry is chosen with probability weight / total.
   */
  lemma {:induction false} SelectionIntervalsPartition(ms: seq<WeightedModel>, i: nat, j: nat)
    requires PositiveWeights(ms) && i < j < |ms|
    ensures TotalWeight(ms[..i + 1]) <= TotalWeight(ms[..j])
    ensures TotalWeight(ms[..i + 1]) == TotalWeight(ms[..i]) + ms[i].weight
  {
    TotalWeightPrefixMonotone(ms, i + 1, j);
    assert ms[..i + 1][..i] == ms[..i];
  }

  /** Entry `k` owns the draw `x`: the running total reaches `x` at `k` and not before. */
  predicate Reaches(ms: seq<WeightedModel>, x: real, k: nat)
    requires k < |ms|
  {
    x <= TotalWeight(ms[..k + 1]) as real && (k == 0 || (TotalWeight(ms[..k]) as real) < x)
  }

  /** At most one entry owns a draw. */
  lemma ReachesUnique(ms: seq<WeightedModel>, x: real, i: nat, j: nat)
    requires i < |ms| && j < |ms| && Reaches(ms, x, i) && Reaches(ms, x, j)
    ensures i == j
  {
    if i < j {
      TotalWeightPrefixMonotone(ms, i + 1, j);
    } else if j < i {
      TotalWeightPrefixMonotone(ms, j + 1, i);
    }
  }

  /**
   * The entry the selection loop picks for the draw `x`: the one that owns it, or the first
   * entry when the loop runs off the end (the fallback after it).
   */
  function Chosen(ms: seq<WeightedModel>, x: real): (k: nat)
    requires |ms| > 0
    ensures k < |ms|
  {
    ChosenFrom(ms, x, 0)
  }

  /** A draw within the total weight is owned by the chosen entry; one past it falls back to the first. */
  lemma ChosenOwns(ms: seq<WeightedModel>, x: real)
    requires |ms| > 0
    ensures x <= TotalWeight(ms) as real ==> Reaches(ms, x, Chosen(ms, x))
    ensures (TotalWeight(ms) as real) < x ==> Chosen(ms, x) == 0
  {
    assert ms[..0] == [];
    ChosenFromOwns(ms, x, 0);
  }

  /** The selection loop from entry `i` on, with `rest` the draw minus the weights before `i`. */
  function ChosenFrom(ms: seq<WeightedModel>, rest: real, i: nat): (k: nat)
    requires i < |ms|
    ensures i <= k < |ms| || k == 0
    decreases |ms| - i
  {
    var left := rest - ms[i].weight as real;
    if left <= 0.0 then i
    else if i + 1 == |ms| then 0
    else ChosenFrom(ms, left, i + 1)
  }

  /** The search from entry `i`, past which the draw lies, finds the owner or falls back to the first entry. */
  lemma {:induction false} ChosenFromOwns(ms: seq<WeightedModel>, x: real, i: nat)
    requires i < |ms| && (i == 0 || (TotalWeight(ms[..i]) as real) < x)
    ensures var k := ChosenFrom(ms, x - TotalWeight(ms[..i]) as real, i);
      && (x <= TotalWeight(ms) as real ==> Reaches(ms, x, k))
      && ((TotalWeight(ms) as real) < x ==> k == 0)
    decreases |ms| - i
  {
    assert ms[..|ms|] == ms;
    assert ms[..i + 1][..i] == ms[..i];
    if x <= TotalWeight(ms[..i + 1]) as real {
      TotalWeightPrefixMonotone(ms, i + 1, |ms|);
    } else if i + 1 < |ms| {
      ChosenFromOwns(ms, x, i + 1);
    }
  }

  /** The draw scaled to the total weight, which lands in [0, total]. */
  function Scaled(draw: real, total: nat): (x: real)
    requires 0.0 <= draw < 1.0
    ensures 0.0 <= x <= total as real
    ensures draw == 0.0 ==> x == 0.0
  {
    var t := total as real;
    assert draw * t <= 1.0 * t by {
      assert (1.0 - draw) * t >= 0.0;
    }
    draw * t
  }

  datatype Selection = Selection(provider: Provider, model: string, tier: string)

  /** The selection naming entry `m`. */
  function SelectionOf(m: WeightedModel): Selection {
    Selection(m.provider, m.model, m.tier.Name())
  }

  /**
   * `selectRandomAI` over a given list of available models and a draw in [0, 1). An empty
   * list falls back to the first provider's first model with tier "unknown".
   */
  method SelectRandomAiFrom(available: seq<WeightedModel>, draw: real) returns (s: Selection)
    requires 0.0 <= draw < 1.0
    requires PositiveWeights(available)
    ensures |available| == 0 ==> s == Selection(OpenAi, SupportedModels(OpenAi)[0], "unknown")
    ensures |available| > 0 ==>
      var x := Scaled(draw, TotalWeight(available));
      && s == SelectionOf(available[Chosen(available, x)])
      && Reaches(available, x, Chosen(available, x))
    ensures |available| > 0 && draw == 0.0 ==> s == SelectionOf(available[0])
  {
    if |available| == 0 {
      var provider := Providers[0];
      return Selection(provider, SupportedModels(provider)[0], "unknown");
    }
    var total := TotalWeight(available);
    PositiveTotal(available);
    var x := Scaled(draw, total);
    var picked := Select(available, x);
    assert picked.Some?;
    var k := picked.value;
    var c := Chosen(available, x);
    ChosenOwns(available, x);
    ReachesUnique(available, x, k, c);
    s := SelectionOf(available[k]);
    assert s == SelectionOf(available[c]);
    if draw == 0.0 {
      assert available[..1][..0] == [];
      assert Reaches(available, x, 0);
      ReachesUnique(available, x, k, 0);
    }
  }

  /** The selection the game uses: over the filtered weight table. */
  method SelectRandomAi(draw: real) returns (s: Selection)
    requires 0.0 <= draw < 1.0
    ensures IsSupported(s.provider, s.model)
  {
    AvailableModelsAreThree();
    FilterMembers(ModelWeights, Available);
    s := SelectRandomAiFrom(AvailableModels(), draw);
  }

  /** A weight's share of the total, in percent: `(weight / total) * 100`. */
  function Percent(weight: nat, total: nat): real
    requires total > 0
  {
    weight as real / total as real * 100.0
  }

  /** A share scaled back by the total gives the weight, in hundredths. */
  lemma PercentScales(weight: nat, total: nat)
    requires total > 0
    ensures Percent(weight, total) * total as real == weight as real * 100.0
  {
  }

  /** Shares of one total add up like the weights do. */
  lemma PercentAdds(a: nat, b: nat, total: nat)
    requires total > 0
    ensures Percent(a, total) + Percent(b, total) == Percent(a + b, total)
  {
  }

  /** The whole is 100 percent of itself. */
  lemma PercentOfWhole(total: nat)
    requires total > 0
    ensures Percent(total, total) == 100.0
  {
  }

  /** `getAvailableModelsWithWeights`: each entry's share of the total weight, in percent. */
  function Probabilities(ms: seq<WeightedModel>, total: nat): (r: seq<real>)
    requires total > 0
    ensures |r| == |ms|
    ensures forall k :: 0 <= k < |ms| ==> r[k] == Percent(ms[k].weight, total)
  {
    seq(|ms|, k requires 0 <= k < |ms| => Percent(ms[k].weight, total))
  }

  /** The displayed probabilities of a non-empty positively weighted list add up to 100. */
  lemma ProbabilitiesSumToHundred(ms: seq<WeightedModel>)
    requires PositiveWeights(ms) && |ms| > 0
    ensures SumReals(Probabilities(ms, TotalWeight(ms))) == 100.0
  {
    PositiveTotal(ms);
    var t := TotalWeight(ms);
    ProbabilitiesSum(ms, t);
    PercentOfWhole(t);
  }

  /** The probabilities add up to the share of the summed weights. */
  lemma {:induction false} ProbabilitiesSum(ms: seq<WeightedModel>, t: nat)
    requires t > 0
    ensures SumReals(Probabilities(ms, t)) == Percent(TotalWeight(ms), t)
  {
    if |ms| > 0 {
      var init := ms[..|ms| - 1];
      ProbabilitiesSum(init, t);
      var p := Probabilities(ms, t);
      assert p[..|ms| - 1] == Probabilities(init, t);
      PercentAdds(TotalWeight(init), ms[|ms| - 1].weight, t);
    }
  }
}

=== FILE: api.dfy ===
/** The two answers an API step gives: its body with status 200, or a message with status 400. */
module Api {
  datatype Response<+T> = Status200(body: T) | Status400(message: string)
}

=== FILE: chess.dfy ===
/**
 * The chess vocabulary shared by the scoring code: colours, engine scores and the two
 * collaborators the source delegates to (the rules library and the UCI engine), both
 * passed in as total functions so that nothing about them is assumed.
 */
module Chess {
  import opened Wrappers

  datatype Color = White | Black {
    function Opponent(): (c: Color)
      ensures c != this
    {
      if this == White then Black else White
    }

    /** The colour as the stored records spell it. */
    function Name(): string {
      if this == White then "white" else "black"
    }
  }

  /** An engine score: exactly one of a centipawn value or a signed mate distance. */
  datatype Score = Cp(cp: int) | Mate(moves: int) {
    /** The same score seen from the other side (python-chess `-score`). */
    function Negate(): (r: Score)
      ensures r.Cp? == this.Cp?
      ensures r.Cp? ==> r.cp == -this.cp
      ensures r.Mate? ==> r.moves == -this.moves
    {
      match this
      case Cp(c) => Cp(-c)
      case Mate(n) => Mate(-n)
    }

    /** python-chess `Score.score()`: the centipawn value, `None` for a mate score. */
    function Centipawns(): (r: Option<int>)
      ensures r.Some? <==> this.Cp?
    {
      match this
      case Cp(c) => Some(c)
      case Mate(_) => None
    }
  }

  /**
   * The rules library over abstract positions `P` and moves `M`: legal-move enumeration
   * (in the library's order), playing a move, the position's FEN, reading a FEN (which
   * fails on malformed text), the side to move, and a move's UCI text.
   */
  datatype Rules<!P, !M> = Rules(
    legalMoves: P -> seq<M>,
    push: (P, M) -> P,
    fen: P -> string,
    parse: string -> Option<P>,
    turn: P -> Color,
    uci: M -> string)

  /**
   * One `analyse` answer: the score relative to the side to move, the principal
   * variation if the engine sent one, and the search statistics if it sent them.
   */
  datatype Analysis<M> = Analysis(
    relative: Score,
    pv: Option<seq<M>>,
    depth: Option<nat>,
    nodes: Option<nat>,
    nps: Option<nat>)

  /** python-chess `PovScore.white()` / `.black()`: the relative score seen from `side`. */
  function ScoreFor(relative: Score, toMove: Color, side: Color): (r: Score)
    ensures side == toMove ==> r == relative
    ensures side != toMove ==> r == relative.Negate()
  {
    if side == toMove then relative else relative.Negate()
  }
}

/**
 * The life of one engine process as an explicit event log: spawning, each analysis
 * request in order, and quitting.
 */
module EngineSession {

  datatype Event<P> = Spawn | Analyse(position: P) | Quit

  function CountSpawns<P>(log: seq<Event<P>>): nat {
    |set i | 0 <= i < |log| && log[i].Spawn?|
  }

  function CountQuits<P>(log: seq<Event<P>>): nat {
    |set i | 0 <= i < |log| && log[i].Quit?|
  }

  /** The positions analysed, in request order. */
  function Analysed<P>(log: seq<Event<P>>): (ps: seq<P>)
    ensures |ps| <= |log|
  {
    if |log| == 0 then []
    else (if log[0].Analyse? then [log[0].position] else []) + Analysed(log[1..])
  }

  /**
   * A well-scoped session: one spawn first, one quit last, only analyses in between.
   * `Between` is the list of analysed positions.
   */
  predicate Scoped<P(==)>(log: seq<Event<P>>, between: seq<P>) {
    && |log| == |between| + 2
    && log[0] == Spawn
    && log[|log| - 1] == Quit
    && forall k :: 0 <= k < |between| ==> log[k + 1] == Analyse(between[k])
  }

  /** A scoped session spawns once and quits once. */
  lemma ScopedOpensAndClosesOnce<P>(log: seq<Event<P>>, between: seq<P>)
    requires Scoped(log, between)
    ensures CountSpawns(log) == 1 && CountQuits(log) == 1
    ensures Analysed(log) == between
  {
    forall i | 0 <= i < |log| && log[i].Spawn?
      ensures i == 0
    {
      if 0 < i < |log| - 1 {
        ScopedAt(log, between, i);
      }
    }
    forall i | 0 <= i < |log| && log[i].Quit?
      ensures i == |log| - 1
    {
      if 0 < i < |log| - 1 {
        ScopedAt(log, between, i);
      }
    }
    assert (set i | 0 <= i < |log| && log[i].Spawn?) == {0};
    assert (set i | 0 <= i < |log| && log[i].Quit?) == {|log| - 1};
    AnalysedScoped(log, between);
  }

  lemma ScopedAt<P>(log: seq<Event<P>>, between: seq<P>, i: int)
    requires Scoped(log, between)
    requires 0 < i < |log| - 1
    ensures log[i] == Analyse(between[i - 1])
  {
    assert log[(i - 1) + 1] == Analyse(between[i - 1]);
  }

  lemma {:induction false} AnalysedMiddle<P>(mid: seq<Event<P>>, between: seq<P>)
    requires |mid| == |between|
    requires forall k :: 0 <= k < |mid| ==> mid[k] == Analyse(between[k])
    ensures Analysed(mid) == between
    decreases |mid|
  {
    if |mid| > 0 {
      AnalysedMiddle(mid[1..], between[1..]);
    }
  }

  lemma AnalysedConcat<P>(a: seq<Event<P>>, b: seq<Event<P>>)
    ensures Analysed(a + b) == Analysed(a) + Analysed(b)
  {
    if |a| > 0 {
      assert (a + b)[1..] == a[1..] + b;
      AnalysedConcat(a[1..], b);
    } else {
      assert a + b == b;
    }
  }

  lemma AnalysedScoped<P>(log: seq<Event<P>>, between: seq<P>)
    requires Scoped(log, between)
    ensures Analysed(log) == between
  {
    var mid := log[1..|log| - 1];
    assert log == [log[0]] + mid + [log[|log| - 1]];
    AnalysedMiddle(mid, between);
    AnalysedConcat([log[0]] + mid, [log[|log| - 1]]);
    AnalysedConcat([log[0]], mid);
  }

  /** The log of a session that analysed `analysed`, in order, and was then quit. */
  function SessionLog<P>(analysed: seq<P>): (log: seq<Event<P>>)
    ensures Scoped(log, analysed)
    ensures Analysed(log) == analysed
    ensures CountSpawns(log) == 1 && CountQuits(log) == 1
  {
    var log := [Spawn] + AnalyseAll(analysed) + [Quit];
    assert forall k :: 0 <= k < |analysed| ==> log[k + 1] == AnalyseAll(analysed)[k];
    ScopedOpensAndClosesOnce(log, analysed);
    log
  }

  function AnalyseAll<P>(ps: seq<P>): (r: seq<Event<P>>)
    ensures |r| == |ps|
    ensures forall k :: 0 <= k < |ps| ==> r[k] == Analyse(ps[k])
  {
    if |ps| == 0 then [] else [Analyse(ps[0])] + AnalyseAll(ps[1..])
  }
}

/**
 * The chess.js library as the TypeScript services use it, over abstract game states `G`:
 * loading a FEN, making a move by SAN or by squares (absent when chess.js throws because
 * the move is illegal), the move list, the PGN of the moves so far, and the end-of-game tests.
 */
module ChessJs {
  import opened Wrappers
  import opened Chess

  /** A move as chess.js reports it after playing it. */
  datatype JsMove = JsMove(
    from: string,
    to: string,
    san: string,
    after: string,
    captured: Option<char>,
    promotion: Option<char>)

  datatype Library<!G> = Library(
    start: G,
    load: string -> Option<G>,
    fen: G -> string,
    pgn: G -> string,
    turn: G -> Color,
    moveSan: (G, string) -> Option<(G, JsMove)>,
    moveSquares: (G, string, string, Option<char>) -> Option<(G, JsMove)>,
    legalMoves: G -> seq<JsMove>,
    inCheck: G -> bool,
    isCheckmate: G -> bool,
    isStalemate: G -> bool,
    isThreefoldRepetition: G -> bool,
    isInsufficientMaterial: G -> bool,
    isFiftyMoveDraw: G -> bool)
  {
    /** chess.js `isDraw`: the fifty-move rule, stalemate, insufficient material or threefold repetition. */
    predicate IsDraw(g: G) {
      isFiftyMoveDraw(g) || isStalemate(g) || isInsufficientMaterial(g) || isThreefoldRepetition(g)
    }

    /** chess.js `isGameOver`: checkmate or a draw. */
    predicate IsGameOver(g: G) {
      isCheckmate(g) || IsDraw(g)
    }
  }
}

=== FILE: concurrency.dfy ===
/**
 * Benchmark settings read from the environment: `parsePositiveInt`, the worker count of
 * `mapWithConcurrency`, and the settings record built from both.
 */
module Concurrency {
  import opened Wrappers
  import opened Strings
  import opened Numbers

  /**
   * `parsePositiveInt`: the integer at the start of the text when there is one and it is
   * positive, the fallback otherwise (an unset variable reads as '').
   */
  function ParsePositiveInt(value: Option<string>, fallback: int): (r: int)
    ensures value.None? ==> r == fallback
    ensures fallback > 0 ==> r > 0
    ensures r == fallback || (ParseInt(value.GetOr("")).Some? && r == ParseInt(value.GetOr("")).value > 0)
  {
    var n := ParseInt(value.GetOr(""));
    if n.Some? && n.value > 0 then n.value else fallback
  }

  /** The empty text holds no number. */
  lemma {:induction false} NoNumberInEmpty()
    ensures ParseInt("") == None
  {
    assert TrimStart("") == "" && Unsigned("") == "";
  }

  /** A positive numeral is read as its value, whatever the fallback. */
  lemma {:induction false} ParsePositiveNumeral(n: nat, fallback: int)
    requires n > 0
    ensures ParsePositiveInt(Some(NatToString(n)), fallback) == n
  {
    ParseIntOfIntToString(n);
    assert IntToString(n) == NatToString(n);
  }

  /** Zero and negative numbers fall back. */
  lemma {:induction false} NonPositiveFallsBack(n: int, fallback: int)
    requires n <= 0
    ensures ParsePositiveInt(Some(IntToString(n)), fallback) == fallback
  {
    ParseIntOfIntToString(n);
  }

  /** `Math.max(1, Math.min(concurrency, items.length))`: at least one worker, never more than needed. */
  function WorkerCount(concurrency: int, items: nat): (workers: int)
    ensures workers >= 1
    ensures items >= 1 && concurrency >= 1 ==> workers <= items && workers <= concurrency
    ensures workers == 1 || (workers == concurrency && concurrency <= items) || (workers == items && items <= concurrency)
  {
    var m := if concurrency <= items then concurrency else items;
    if m >= 1 then m else 1
  }

  /**
   * What `mapWithConcurrency` resolves to: each item's result at the item's own index,
   * whichever worker handled it and whenever it finished.
   */
  function MapWithConcurrency<T, R>(items: seq<T>, mapper: (T, nat) -> R): (results: seq<R>)
    ensures |results| == |items|
    ensures forall i :: 0 <= i < |items| ==> results[i] == mapper(items[i], i)
  {
    seq(|items|, i requires 0 <= i < |items| => mapper(items[i], i))
  }

  /** The benchmark settings. */
  datatype BenchmarkConfig = BenchmarkConfig(
    perItemTimeoutMs: int,
    maxOutputTokens: int,
    transientRetries: int,
    retryBaseBackoffMs: int,
    itemConcurrency: int)

  /** `Number.parseInt(value ?? '', 10) || fallback`: NaN and 0 fall back, a negative number does not. */
  function IntOr(value: Option<string>, fallback: int): (r: int)
    ensures r == fallback || (ParseInt(value.GetOr("")).Some? && r == ParseInt(value.GetOr("")).value != 0)
  {
    var n := ParseInt(value.GetOr(""));
    if n.Some? && n.value != 0 then n.value else fallback
  }

  /**
   * `getBenchmarkConfig`, from the five environment variables: a 10 s item timeout, 192
   * output tokens, one retry, a 200 ms base backoff and one item at a time unless set.
   */
  function GetBenchmarkConfig(
    timeout: Option<string>, tokens: Option<string>, retries: Option<string>, backoff: Option<string>,
    itemConcurrency: Option<string>): (c: BenchmarkConfig)
    ensures c.itemConcurrency >= 1
    ensures timeout.None? && tokens.None? && retries.None? && backoff.None? && itemConcurrency.None? ==>
      c == BenchmarkConfig(10000, 192, 1, 200, 1)
  {
    NoNumberInEmpty();
    BenchmarkConfig(IntOr(timeout, 10000), IntOr(tokens, 192), IntOr(retries, 1), IntOr(backoff, 200),
      ParsePositiveInt(itemConcurrency, 1))
  }
}

=== FILE: csv.dfy ===
/**
 * Comma-separated values as section 2 of RFC 4180 describes them: fields separated by `,`,
 * records by a line break, and a field holding a comma, a quote or a line break enclosed in
 * double quotes with each inner quote doubled. The writer is the history export's field
 * escaper; the reader is the other side of the format, used to state what a written file
 * means.
 */
module Csv {
  import opened Strings

  /** A field that must be enclosed in quotes: it holds `,`, `"`, LF or CR. */
  predicate NeedsQuoting(s: string) {
    ',' in s || '"' in s || '\n' in s || '\r' in s
  }

  /**
   * `escapeCsvField` on a present value: a field that needs quoting is enclosed in quotes with
   * its quotes doubled, any other is written as is.
   */
  function Escape(s: string): (r: string)
    ensures !NeedsQuoting(s) ==> r == s
    ensures NeedsQuoting(s) ==> |r| >= 2 && r[0] == '"' && r[|r| - 1] == '"'
  {
    if NeedsQuoting(s) then "\"" + DoubleQuotes(s) + "\"" else s
  }

  /** A field always enclosed in quotes, its quotes doubled. */
  function Quote(s: string): (r: string)
    ensures |r| >= 2 && r[0] == '"' && r[|r| - 1] == '"'
  {
    "\"" + DoubleQuotes(s) + "\""
  }

  /** `cell` is a correct written form of `value`: escaped only when needed, or always quoted. */
  predicate Encodes(cell: string, value: string) {
    cell == Escape(value) || cell == Quote(value)
  }

  /** Each written cell of a record is a correct written form of the field at its place. */
  predicate EncodesRecord(cells: seq<string>, fields: seq<string>) {
    |cells| == |fields| && forall k :: 0 <= k < |cells| ==> Encodes(cells[k], fields[k])
  }

  /** Row by row, the written cells encode the records. */
  predicate EncodesRecords(cells: seq<seq<string>>, rows: seq<seq<string>>) {
    |cells| == |rows| && forall i :: 0 <= i < |cells| ==> EncodesRecord(cells[i], rows[i])
  }

  /** A record written in front of written records. */
  lemma EncodesRecordsCons(c: seq<string>, r: seq<string>, cells: seq<seq<string>>, rows: seq<seq<string>>)
    requires EncodesRecord(c, r) && EncodesRecords(cells, rows)
    ensures EncodesRecords([c] + cells, [r] + rows)
  {
    assert forall i :: 1 <= i < |cells| + 1 ==> ([c] + cells)[i] == cells[i - 1] && ([r] + rows)[i] == rows[i - 1];
  }

  /** Each record's cells joined by commas. */
  function Lines(cells: seq<seq<string>>): (r: seq<string>)
    ensures |r| == |cells|
  {
    if |cells| == 0 then [] else [Join(cells[0], ",")] + Lines(cells[1..])
  }

  /** A whole file: the record lines joined by line feeds. */
  function Document(cells: seq<seq<string>>): string {
    Join(Lines(cells), "\n")
  }

  /** Each field escaped, in order. */
  function EscapeAll(fields: seq<string>): (r: seq<string>)
    ensures EncodesRecord(r, fields)
  {
    if |fields| == 0 then [] else [Escape(fields[0])] + EscapeAll(fields[1..])
  }

  /** Each record's fields escaped. */
  function EscapeRecords(rows: seq<seq<string>>): (r: seq<seq<string>>)
    ensures EncodesRecords(r, rows)
  {
    if |rows| == 0 then [] else [EscapeAll(rows[0])] + EscapeRecords(rows[1..])
  }

  /** The writer: every field escaped, fields joined by commas, records by line feeds. */
  function WriteDocument(rows: seq<seq<string>>): string {
    Document(EscapeRecords(rows))
  }

  /** The characters that end an unquoted field. */
  predicate Delimiter(c: char) {
    c == ',' || c == '\n'
  }

  /** What may follow a field: nothing, or a delimiter. */
  predicate AtDelimiter(rest: string) {
    |rest| == 0 || Delimiter(rest[0])
  }

  /** Reads an unquoted field up to the next delimiter, returning the field and what follows. */
  function ReadPlain(s: string): (r: (string, string))
    ensures |r.1| <= |s| && AtDelimiter(r.1)
    decreases |s|
  {
    if |s| == 0 || Delimiter(s[0]) then ("", s)
    else
      var (f, rest) := ReadPlain(s[1..]);
      ([s[0]] + f, rest)
  }

  /**
   * Reads the inside of a quoted field (the opening quote already consumed): `""` stands for
   * one quote, and a lone quote closes the field. Anything between the closing quote and the
   * next delimiter is kept as unquoted text, and an unterminated field runs to the end.
   */
  function ReadQuoted(s: string): (r: (string, string))
    ensures |r.1| <= |s| && AtDelimiter(r.1)
    decreases |s|
  {
    if |s| == 0 then ("", "")
    else if s[0] == '"' && |s| >= 2 && s[1] == '"' then
      var (f, rest) := ReadQuoted(s[2..]);
      ("\"" + f, rest)
    else if s[0] == '"' then ReadPlain(s[1..])
    else
      var (f, rest) := ReadQuoted(s[1..]);
      ([s[0]] + f, rest)
  }

  /** Reads one field, quoted or not. */
  function ReadField(s: string): (r: (string, string))
    ensures |r.1| <= |s| && AtDelimiter(r.1)
  {
    if |s| > 0 && s[0] == '"' then ReadQuoted(s[1..]) else ReadPlain(s)
  }

  /**
   * Reads the fields of one record. `more` says whether a line feed ended it (so another
   * record follows); `rest` is what follows that line feed.
   */
  function ReadRecord(s: string): (r: (seq<string>, bool, string))
    ensures |r.0| >= 1
    ensures |r.2| < |s| || (!r.1 && |r.2| == 0)
    decreases |s|
  {
    var (f, rest) := ReadField(s);
    if |rest| == 0 then ([f], false, "")
    else if rest[0] == ',' then
      var (fs, more, after) := ReadRecord(rest[1..]);
      ([f] + fs, more, after)
    else ([f], true, rest[1..])
  }

  /** Reads every record of a file. */
  function ReadDocument(s: string): (rows: seq<seq<string>>)
    ensures |rows| >= 1
    decreases |s|
  {
    var (fields, more, rest) := ReadRecord(s);
    if more then [fields] + ReadDocument(rest) else [fields]
  }

  /** A plain field is read back up to the delimiter that follows it. */
  lemma {:induction false} ReadPlainWritten(x: string, rest: string)
    requires !NeedsQuoting(x) && AtDelimiter(rest)
    ensures ReadPlain(x + rest) == (x, rest)
    decreases |x|
  {
    if |x| == 0 {
      assert x + rest == rest;
    } else {
      assert (x + rest)[1..] == x[1..] + rest;
      ReadPlainWritten(x[1..], rest);
      assert x == [x[0]] + x[1..];
    }
  }

  /** The inside of a quoted field, then the closing quote, is read back as the original text. */
  lemma {:induction false} ReadQuotedWritten(x: string, rest: string)
    requires AtDelimiter(rest)
    ensures ReadQuoted(DoubleQuotes(x) + "\"" + rest) == (x, rest)
    decreases |x|
  {
    var s := DoubleQuotes(x) + "\"" + rest;
    if |x| == 0 {
      assert s == "\"" + rest;
      assert s[1..] == rest;
      ReadPlainWritten("", rest);
      assert "" + rest == rest;
    } else {
      ReadQuotedWritten(x[1..], rest);
      var tail := DoubleQuotes(x[1..]) + "\"" + rest;
      if x[0] == '"' {
        assert s == "\"\"" + tail;
        assert s[2..] == tail;
      } else {
        assert s == [x[0]] + tail;
        assert s[1..] == tail;
      }
      assert x == [x[0]] + x[1..];
    }
  }

  /** Reading a written cell gives back the value and stops at the delimiter. */
  lemma ReadFieldWritten(cell: string, x: string, rest: string)
    requires Encodes(cell, x) && AtDelimiter(rest)
    ensures ReadField(cell + rest) == (x, rest)
  {
    var s := cell + rest;
    if cell == Quote(x) || NeedsQuoting(x) {
      assert cell == Quote(x);
      assert s == "\"" + (DoubleQuotes(x) + "\"" + rest);
      assert s[1..] == DoubleQuotes(x) + "\"" + rest;
      ReadQuotedWritten(x, rest);
    } else {
      assert s == x + rest;
      assert |s| > 0 ==> s[0] != '"' by {
        if |x| > 0 {
          assert s[0] == x[0] && x[0] in x;
        } else {
          assert s == rest;
        }
      }
      ReadPlainWritten(x, rest);
    }
  }

  /** A written cell followed by a comma is read as that field, then the rest of the record. */
  lemma ReadRecordStep(cell: string, x: string, tail: string)
    requires Encodes(cell, x)
    ensures ReadRecord(cell + ("," + tail)) == ([x] + ReadRecord(tail).0, ReadRecord(tail).1, ReadRecord(tail).2)
  {
    ReadFieldWritten(cell, x, "," + tail);
    assert ("," + tail)[1..] == tail;
  }

  /** A written record, followed by nothing or by a line feed, reads back as its fields. */
  lemma {:induction false} ReadRecordWritten(cells: seq<string>, fields: seq<string>, rest: string)
    requires |fields| >= 1 && EncodesRecord(cells, fields)
    requires |rest| == 0 || rest[0] == '\n'
    ensures ReadRecord(Join(cells, ",") + rest) == (fields, |rest| > 0, if |rest| > 0 then rest[1..] else "")
    decreases |fields|
  {
    if |fields| == 1 {
      assert Join(cells, ",") == cells[0];
      ReadFieldWritten(cells[0], fields[0], rest);
      assert fields == [fields[0]];
    } else {
      var tail := Join(cells[1..], ",") + rest;
      assert Join(cells, ",") + rest == cells[0] + ("," + tail);
      assert EncodesRecord(cells[1..], fields[1..]) by {
        forall k | 0 <= k < |cells| - 1 ensures Encodes(cells[1..][k], fields[1..][k]) {
          assert Encodes(cells[k + 1], fields[k + 1]);
        }
      }
      ReadRecordWritten(cells[1..], fields[1..], rest);
      ReadRecordStep(cells[0], fields[0], tail);
      assert fields == [fields[0]] + fields[1..];
    }
  }

  /**
   * Reading a file whose cells encode some records gives back exactly those records,
   * whatever commas, quotes or line breaks their fields hold, as long as every record has a
   * field.
   */
  lemma {:induction false} ReadDocumentWritten(cells: seq<seq<string>>, rows: seq<seq<string>>)
    requires |rows| >= 1 && EncodesRecords(cells, rows)
    requires forall i :: 0 <= i < |rows| ==> |rows[i]| >= 1
    ensures ReadDocument(Document(cells)) == rows
    decreases |rows|
  {
    if |rows| == 1 {
      assert Document(cells) == Join(cells[0], ",") + "";
      ReadRecordWritten(cells[0], rows[0], "");
    } else {
      var tail := Document(cells[1..]);
      assert Lines(cells)[1..] == Lines(cells[1..]);
      assert Document(cells) == Join(cells[0], ",") + ("\n" + tail);
      ReadRecordWritten(cells[0], rows[0], "\n" + tail);
      assert ("\n" + tail)[1..] == tail;
      assert EncodesRecords(cells[1..], rows[1..]) by {
        forall i | 0 <= i < |rows| - 1 ensures EncodesRecord(cells[1..][i], rows[1..][i]) {
          assert EncodesRecord(cells[i + 1], rows[i + 1]);
        }
      }
      ReadDocumentWritten(cells[1..], rows[1..]);
      assert rows == [rows[0]] + rows[1..];
    }
  }

  /** The round trip of the format: what the writer writes, the reader reads back. */
  lemma ReadWrittenDocument(rows: seq<seq<string>>)
    requires |rows| >= 1
    requires forall i :: 0 <= i < |rows| ==> |rows[i]| >= 1
    ensures ReadDocument(WriteDocument(rows)) == rows
  {
    ReadDocumentWritten(EscapeRecords(rows), rows);
  }
}

=== FILE: game_access.dfy ===
/**
 * Who may do what in a game: the role a password earns, whether a password may move for the
 * side to move, and the validation of each player of a create-game request.
 */
module GameAccess {
  import opened Wrappers
  import opened Chess
  import opened AiModels
  import opened GameTypes

  /** The passwords stored for a game: one for the creator and one per side. */
  datatype Passwords = Passwords(root: string, white: string, black: string) {
    function Get(c: Color): string {
      if c == White then white else black
    }
  }

  /** `'root' | 'white' | 'black' | 'spectator'`. */
  datatype Role = Root | Plays(side: Color) | Spectator

  /** Whether an AI plays the side. */
  predicate IsAi(players: Players, c: Color) {
    players.Get(c).ai.Some?
  }

  /** A caller with the creator's rights: the game has no passwords, or they gave the root one. */
  predicate Trusted(password: string, passwords: Option<Passwords>) {
    passwords.None? || password == passwords.value.root
  }

  /**
   * `getGameRole`. A trusted caller gets every side no AI plays: both (root), the one human
   * side, or none (spectator). Anyone else gets the side whose password they gave, white's
   * checked first, or is a spectator.
   */
  function GetGameRole(players: Players, password: string, passwords: Option<Passwords>): (r: Role)
    ensures Trusted(password, passwords) ==>
      && (r == Root <==> !IsAi(players, White) && !IsAi(players, Black))
      && (r == Spectator <==> IsAi(players, White) && IsAi(players, Black))
      && (r.Plays? ==> !IsAi(players, r.side) && IsAi(players, r.side.Opponent()))
    ensures !Trusted(password, passwords) ==>
      && r != Root
      && (r == Plays(White) <==> password == passwords.value.white)
      && (r == Plays(Black) <==> password == passwords.value.black && password != passwords.value.white)
  {
    if passwords.None? || password == passwords.value.root then
      if players.white.ai.Some? && players.black.ai.Some? then Spectator
      else if players.white.ai.Some? then Plays(Black)
      else if players.black.ai.Some? then Plays(White)
      else Root
    else if password == passwords.value.white then Plays(White)
    else if password == passwords.value.black then Plays(Black)
    else Spectator
  }

  /**
   * `validateMoveAccess`: without stored passwords anyone may move; otherwise only with the
   * password of the side to move or the root one.
   */
  function ValidateMoveAccess(turn: Color, password: string, passwords: Option<Passwords>): (ok: bool)
    ensures passwords.None? ==> ok
    ensures passwords.Some? && password != passwords.value.root ==>
      (ok <==> password == passwords.value.Get(turn))
    ensures Trusted(password, passwords) ==> ok
  {
    if passwords.Some? then
      var expected := if turn == White then passwords.value.white else passwords.value.black;
      password in [expected, passwords.value.root]
    else true
  }

  /**
   * The two checks agree: with distinct side passwords, a password may move exactly when it is
   * the root one or it earns the role of the side to move.
   */
  lemma MoveAccessMatchesRole(players: Players, turn: Color, password: string, passwords: Passwords)
    requires passwords.white != passwords.black
    ensures ValidateMoveAccess(turn, password, Some(passwords))
        <==> password == passwords.root || GetGameRole(players, password, Some(passwords)) == Plays(turn)
  {
  }

  /** The opponent's password never moves for the side to move, unless it is also the root one. */
  lemma OpponentCannotMove(turn: Color, passwords: Passwords)
    requires passwords.Get(turn.Opponent()) != passwords.Get(turn)
    requires passwords.Get(turn.Opponent()) != passwords.root
    ensures !ValidateMoveAccess(turn, passwords.Get(turn.Opponent()), Some(passwords))
  {
  }

  /** A problem found in a create-game player, and the field it is reported on. */
  datatype Issue = Issue(path: string, message: string)

  const ModelRequired := Issue("model", "Model is required when AI is enabled")
  const InvalidProvider := Issue("ai", "Invalid AI provider")
  const InvalidModel := Issue("model", "Invalid AI model")

  /**
   * The `refine` check on a requested player, with its `ai` and `model` as sent (an empty
   * string counts as absent). A human player is always fine; an AI player needs a known
   * provider and one of that provider's models, and a missing model is reported twice: as
   * required and as invalid.
   */
  function RefinePlayer(ai: Option<string>, model: Option<string>): (issues: seq<Issue>)
    ensures !Filled(ai) ==> issues == []
    ensures Filled(ai) ==>
      && (ModelRequired in issues <==> !Filled(model))
      && (InvalidProvider in issues <==> ParseProvider(ai.value).None?)
      && (InvalidModel in issues <==> !Filled(model) || ParseProvider(ai.value).None?
                                      || !IsSupported(ParseProvider(ai.value).value, model.value))
    ensures issues == [] <==>
      !Filled(ai) || (Filled(model) && ParseProvider(ai.value).Some? && IsSupported(ParseProvider(ai.value).value, model.value))
    ensures forall i, j :: 0 <= i < j < |issues| ==> issues[i] != issues[j]
  {
    var required := if Filled(ai) && !Filled(model) then [ModelRequired] else [];
    if Filled(ai) then
      var provider := ParseProvider(ai.value);
      var validModel := Filled(model) && provider.Some? && IsSupported(provider.value, model.value);
      required
        + (if provider.None? then [InvalidProvider] else [])
        + (if !validModel then [InvalidModel] else [])
    else required
  }

  /** A player the validation accepts is human, or an AI with a provider and one of its models. */
  lemma AcceptedPlayer(ai: Option<string>, model: Option<string>)
    requires RefinePlayer(ai, model) == []
    ensures Filled(ai) ==> exists p :: ProviderName(p) == ai.value && IsSupported(p, model.value)
  {
    if Filled(ai) {
      var p := ParseProvider(ai.value).value;
      assert ProviderName(p) == ai.value;
    }
  }
}

=== FILE: game_history.dfy ===
/**
 * The finished-game history: the stored record, the query filter, the newest-first order and
 * the paginated list view (`GET /chess/history`). The two export steps reuse the filter and
 * the order. The history store is passed in as the sequence of its records.
 */
module History {
  import opened Wrappers
  import opened Chess
  import opened AiModels
  import opened Sorting
  import GameTypes

  datatype Variant = Guided | Unguided {
    function Name(): string {
      if this == Guided then "guided" else "unguided"
    }
  }

  /** How a recorded game finished. */
  datatype HistoryStatus = Completed | Drawn | EndedEarly {
    function Name(): string {
      match this
      case Completed => "completed"
      case Drawn => "draw"
      case EndedEarly => "endedEarly"
    }
  }

  /** A side of a recorded game: the provider and model of an AI, nothing for a human. */
  datatype HistoryPlayer = HistoryPlayer(provider: Option<Provider>, model: Option<string>, isHuman: bool)

  /** A chat message of a game; the history only counts them. */
  datatype GameMessage = GameMessage(id: string, message: string, sender: string, timestamp: int)

  datatype GameHistory = GameHistory(
    id: string,
    startedAt: int,
    endedAt: int,
    duration: int,
    whitePlayer: HistoryPlayer,
    blackPlayer: HistoryPlayer,
    status: HistoryStatus,
    winner: Option<Color>,
    endGameReason: Option<string>,
    variant: Variant,
    totalMoves: int,
    whiteIllegalMoves: int,
    blackIllegalMoves: int,
    finalFen: string,
    moves: seq<GameTypes.GameMove>,
    messages: seq<GameMessage>,
    scoreboard: Option<GameTypes.Scoreboard>,
    pgn: Option<string>)

  /** The list view of a game: every field but the moves and the messages. */
  datatype GameSummary = GameSummary(
    id: string,
    startedAt: int,
    endedAt: int,
    duration: int,
    whitePlayer: HistoryPlayer,
    blackPlayer: HistoryPlayer,
    status: HistoryStatus,
    winner: Option<Color>,
    endGameReason: Option<string>,
    variant: Variant,
    totalMoves: int,
    whiteIllegalMoves: int,
    blackIllegalMoves: int,
    finalFen: string,
    scoreboard: Option<GameTypes.Scoreboard>,
    pgn: Option<string>)

  /** A summary with the moves and messages put back. */
  function WithPlay(s: GameSummary, moves: seq<GameTypes.GameMove>, messages: seq<GameMessage>): GameHistory {
    GameHistory(s.id, s.startedAt, s.endedAt, s.duration, s.whitePlayer, s.blackPlayer, s.status, s.winner,
                s.endGameReason, s.variant, s.totalMoves, s.whiteIllegalMoves, s.blackIllegalMoves, s.finalFen,
                moves, messages, s.scoreboard, s.pgn)
  }

  /** `({ moves, messages, ...rest }) => rest`: dropping the moves and messages loses nothing else. */
  function Summary(g: GameHistory): (s: GameSummary)
    ensures WithPlay(s, g.moves, g.messages) == g
  {
    GameSummary(g.id, g.startedAt, g.endedAt, g.duration, g.whitePlayer, g.blackPlayer, g.status, g.winner,
                g.endGameReason, g.variant, g.totalMoves, g.whiteIllegalMoves, g.blackIllegalMoves, g.finalFen,
                g.scoreboard, g.pgn)
  }

  /** Each game's summary, in order. */
  function Summaries(games: seq<GameHistory>): (r: seq<GameSummary>)
    ensures |r| == |games|
  {
    if |games| == 0 then [] else [Summary(games[0])] + Summaries(games[1..])
  }

  lemma {:induction false} SummariesAt(games: seq<GameHistory>)
    ensures forall k :: 0 <= k < |games| ==> Summaries(games)[k] == Summary(games[k])
  {
    if |games| > 0 {
      SummariesAt(games[1..]);
    }
  }

  /**
   * The filter parameters. Text parameters count only when non-empty; a date that is absent
   * or not a number is `None`, and a date of 0 is present but, being falsy, filters nothing.
   */
  datatype HistoryQuery = HistoryQuery(
    provider: Option<string>,
    model: Option<string>,
    variant: Option<string>,
    winner: Option<string>,
    status: Option<string>,
    startDate: Option<int>,
    endDate: Option<int>)

  /** One condition a query can put on a game. */
  datatype Criterion =
    | ProviderIs(provider: string)
    | ModelIs(model: string)
    | VariantIs(variant: string)
    | WinnerIs(winner: string)
    | StatusIs(status: string)
    | StartedFrom(date: int)
    | EndedBy(date: int)

  /** A date parameter that takes part in filtering: present and not 0. */
  predicate Truthy(d: Option<int>) {
    d.Some? && d.value != 0
  }

  /** `[c] + rest` when the parameter takes part in filtering, `rest` otherwise. */
  function Guarded(supplied: bool, c: Criterion, rest: seq<Criterion>): seq<Criterion> {
    if supplied then [c] + rest else rest
  }

  /** The conditions a query supplies, one per parameter that takes part in filtering. */
  function Criteria(q: HistoryQuery): seq<Criterion> {
    Guarded(Filled(q.provider), ProviderIs(q.provider.GetOr("")),
    Guarded(Filled(q.model), ModelIs(q.model.GetOr("")),
    Guarded(Filled(q.variant), VariantIs(q.variant.GetOr("")),
    Guarded(Filled(q.winner), WinnerIs(q.winner.GetOr("")),
    Guarded(Filled(q.status), StatusIs(q.status.GetOr("")),
    Guarded(Truthy(q.startDate), StartedFrom(q.startDate.GetOr(0)),
    Guarded(Truthy(q.endDate), EndedBy(q.endDate.GetOr(0)), [])))))))
  }

  /** A side played with the named provider. */
  predicate PlaysWith(p: HistoryPlayer, provider: string) {
    p.provider.Some? && ProviderName(p.provider.value) == provider
  }

  /** What each condition asks of a game; provider and model match either side. */
  predicate Satisfies(c: Criterion, g: GameHistory) {
    match c
    case ProviderIs(p) => PlaysWith(g.whitePlayer, p) || PlaysWith(g.blackPlayer, p)
    case ModelIs(m) => g.whitePlayer.model == Some(m) || g.blackPlayer.model == Some(m)
    case VariantIs(v) => g.variant.Name() == v
    case WinnerIs(w) => g.winner.Some? && g.winner.value.Name() == w
    case StatusIs(s) => g.status.Name() == s
    case StartedFrom(d) => g.startedAt >= d
    case EndedBy(d) => g.endedAt <= d
  }

  /** The filter callback: each supplied parameter in turn can reject the game. */
  predicate Matches(q: HistoryQuery, g: GameHistory) {
    if Filled(q.provider) && !(PlaysWith(g.whitePlayer, q.provider.value) || PlaysWith(g.blackPlayer, q.provider.value)) then false
    else if Filled(q.model) && !(g.whitePlayer.model == q.model || g.blackPlayer.model == q.model) then false
    else if Filled(q.variant) && g.variant.Name() != q.variant.value then false
    else if Filled(q.winner) && (g.winner.None? || g.winner.value.Name() != q.winner.value) then false
    else if Filled(q.status) && g.status.Name() != q.status.value then false
    else if Truthy(q.startDate) && g.startedAt < q.startDate.value then false
    else if Truthy(q.endDate) && g.endedAt > q.endDate.value then false
    else true
  }

  /** Every condition of the list holds, checked front to back. */
  predicate AllHold(cs: seq<Criterion>, g: GameHistory)
    decreases |cs|
  {
    |cs| == 0 || (Satisfies(cs[0], g) && AllHold(cs[1..], g))
  }

  lemma {:induction false} AllHoldMeansEach(cs: seq<Criterion>, g: GameHistory)
    ensures AllHold(cs, g) <==> forall c :: c in cs ==> Satisfies(c, g)
    decreases |cs|
  {
    if |cs| > 0 {
      AllHoldMeansEach(cs[1..], g);
      assert cs == [cs[0]] + cs[1..];
    }
  }

  lemma AllHoldGuarded(supplied: bool, c: Criterion, rest: seq<Criterion>, g: GameHistory)
    ensures AllHold(Guarded(supplied, c, rest), g) <==> (supplied ==> Satisfies(c, g)) && AllHold(rest, g)
  {
    if supplied {
      assert ([c] + rest)[1..] == rest;
    }
  }

  /** Each parameter that takes part in filtering is met by the game. */
  predicate EachSuppliedHolds(q: HistoryQuery, g: GameHistory) {
    && (Filled(q.provider) ==> Satisfies(ProviderIs(q.provider.GetOr("")), g))
    && (Filled(q.model) ==> Satisfies(ModelIs(q.model.GetOr("")), g))
    && (Filled(q.variant) ==> Satisfies(VariantIs(q.variant.GetOr("")), g))
    && (Filled(q.winner) ==> Satisfies(WinnerIs(q.winner.GetOr("")), g))
    && (Filled(q.status) ==> Satisfies(StatusIs(q.status.GetOr("")), g))
    && (Truthy(q.startDate) ==> Satisfies(StartedFrom(q.startDate.GetOr(0)), g))
    && (Truthy(q.endDate) ==> Satisfies(EndedBy(q.endDate.GetOr(0)), g))
  }

  lemma CriteriaHoldExactly(q: HistoryQuery, g: GameHistory)
    ensures AllHold(Criteria(q), g) <==> EachSuppliedHolds(q, g)
  {
    var c7 := Guarded(Truthy(q.endDate), EndedBy(q.endDate.GetOr(0)), []);
    var c6 := Guarded(Truthy(q.startDate), StartedFrom(q.startDate.GetOr(0)), c7);
    var c5 := Guarded(Filled(q.status), StatusIs(q.status.GetOr("")), c6);
    var c4 := Guarded(Filled(q.winner), WinnerIs(q.winner.GetOr("")), c5);
    var c3 := Guarded(Filled(q.variant), VariantIs(q.variant.GetOr("")), c4);
    var c2 := Guarded(Filled(q.model), ModelIs(q.model.GetOr("")), c3);
    AllHoldGuarded(Truthy(q.endDate), EndedBy(q.endDate.GetOr(0)), [], g);
    AllHoldGuarded(Truthy(q.startDate), StartedFrom(q.startDate.GetOr(0)), c7, g);
    AllHoldGuarded(Filled(q.status), StatusIs(q.status.GetOr("")), c6, g);
    AllHoldGuarded(Filled(q.winner), WinnerIs(q.winner.GetOr("")), c5, g);
    AllHoldGuarded(Filled(q.variant), VariantIs(q.variant.GetOr("")), c4, g);
    AllHoldGuarded(Filled(q.model), ModelIs(q.model.GetOr("")), c3, g);
    AllHoldGuarded(Filled(q.provider), ProviderIs(q.provider.GetOr("")), c2, g);
  }

  /** The filter callback rejects a game exactly when some supplied parameter is not met. */
  lemma MatchesEachSupplied(q: HistoryQuery, g: GameHistory)
    ensures Matches(q, g) <==> EachSuppliedHolds(q, g)
  {
  }

  /** A game is kept exactly when it meets every condition the query supplies. */
  lemma MatchesExactlyCriteria(q: HistoryQuery, g: GameHistory)
    ensures Matches(q, g) <==> forall c :: c in Criteria(q) ==> Satisfies(c, g)
  {
    var cs := Criteria(q);
    MatchesEachSupplied(q, g);
    CriteriaHoldExactly(q, g);
    AllHoldMeansEach(cs, g);
  }

  /** `allGames.filter(keep)`: the kept games, in order, each as often as it is stored. */
  function SelectBy(games: seq<GameHistory>, keep: GameHistory -> bool): (r: seq<GameHistory>)
    ensures |r| <= |games|
    ensures forall g :: multiset(r)[g] == if keep(g) then multiset(games)[g] else 0
  {
    if |games| == 0 then []
    else
      assert games == [games[0]] + games[1..];
      (if keep(games[0]) then [games[0]] else []) + SelectBy(games[1..], keep)
  }

  /** A filter that keeps every game keeps the whole history, in its order. */
  lemma {:induction false} SelectAll(games: seq<GameHistory>, keep: GameHistory -> bool)
    requires forall g :: keep(g)
    ensures SelectBy(games, keep) == games
  {
    if |games| > 0 {
      SelectAll(games[1..], keep);
      assert games == [games[0]] + games[1..];
    }
  }

  /** A query with no parameter that filters matches every game. */
  lemma NoCriteriaMatchesAll(q: HistoryQuery, g: GameHistory)
    requires Criteria(q) == []
    ensures Matches(q, g)
  {
    MatchesExactlyCriteria(q, g);
  }

  /** The comparator `b.endedAt - a.endedAt`: `a` may come first when it ended no earlier. */
  predicate NewestFirst(a: GameHistory, b: GameHistory) {
    a.endedAt >= b.endedAt
  }

  lemma NewestFirstIsTotalPreorder()
    ensures TotalPreorder(NewestFirst)
  {
  }

  /** The kept games sorted by end time, most recent first. */
  function ListingBy(games: seq<GameHistory>, keep: GameHistory -> bool): (r: seq<GameHistory>)
    ensures forall i, j :: 0 <= i < j < |r| ==> r[i].endedAt >= r[j].endedAt
    ensures forall g :: multiset(r)[g] == if keep(g) then multiset(games)[g] else 0
    ensures |r| <= |games|
  {
    NewestFirstIsTotalPreorder();
    var r := SortBy(SelectBy(games, keep), NewestFirst);
    assert forall i, j :: 0 <= i < j < |r| ==> NewestFirst(r[i], r[j]);
    r
  }

  /** The games matching the query, most recent first. */
  function Listing(games: seq<GameHistory>, q: HistoryQuery): (r: seq<GameHistory>)
    ensures forall i, j :: 0 <= i < j < |r| ==> r[i].endedAt >= r[j].endedAt
    ensures forall g :: multiset(r)[g] == if Matches(q, g) then multiset(games)[g] else 0
    ensures |r| <= |games|
  {
    ListingBy(games, g => Matches(q, g))
  }

  /** Every listed game is a stored game that matches the query. */
  lemma ListedGames(games: seq<GameHistory>, q: HistoryQuery, k: int)
    requires 0 <= k < |Listing(games, q)|
    ensures Listing(games, q)[k] in games && Matches(q, Listing(games, q)[k])
  {
    var g := Listing(games, q)[k];
    assert g in multiset(Listing(games, q));
  }

  /**
   * A query-string number: absent (or empty), parsed by `parseInt`, or not a number at all
   * (`parseInt` gave NaN).
   */
  datatype QueryNumber = Absent | Parsed(n: int) | NotANumber

  /** `params.x ? parseInt(params.x) : default`, with `None` for NaN. */
  function NumberOr(p: QueryNumber, default: int): (r: Option<int>)
    ensures p.Absent? ==> r == Some(default)
    ensures p.Parsed? ==> r == Some(p.n)
    ensures p.NotANumber? <==> r.None?
  {
    match p
    case Absent => Some(default)
    case Parsed(n) => Some(n)
    case NotANumber => None
  }

  /**
   * How `Array.prototype.slice` reads an index: NaN as 0, a negative index counted back from
   * the end (and floored at 0), and anything past the end as the end.
   */
  function SliceIndex(i: Option<int>, len: nat): (k: nat)
    ensures k <= len
    ensures i.Some? && 0 <= i.value <= len ==> k == i.value
    ensures i.Some? && i.value > len ==> k == len
    ensures i.None? ==> k == 0
  {
    if i.None? then 0
    else if i.value < 0 then (if len + i.value < 0 then 0 else len + i.value)
    else if i.value > len then len
    else i.value
  }

  /** `s.slice(start, end)`: the elements from the start index up to, not including, the end index. */
  function Slice<T>(s: seq<T>, start: Option<int>, end: Option<int>): (r: seq<T>)
    ensures var from, to := SliceIndex(start, |s|), SliceIndex(end, |s|);
      |r| == (if from < to then to - from else 0)
  {
    var from, to := SliceIndex(start, |s|), SliceIndex(end, |s|);
    if from < to then s[from..to] else []
  }

  /** The slice's elements are those of `s` from the start index on. */
  lemma SliceAt<T>(s: seq<T>, start: Option<int>, end: Option<int>)
    ensures forall k :: 0 <= k < |Slice(s, start, end)| ==> Slice(s, start, end)[k] == s[SliceIndex(start, |s|) + k]
  {
  }

  /** `list.slice(offset, offset + limit)` without moves and messages. */
  function Page(listed: seq<GameHistory>, limit: Option<int>, offset: Option<int>): (page: seq<GameSummary>)
    ensures |page| <= |listed|
  {
    Summaries(Slice(listed, offset, Plus(offset, limit)))
  }

  /**
   * For a non-negative offset and limit, the page holds the summaries of the listed games from
   * `offset` on, at most `limit` of them, and exactly `limit` when the list is long enough.
   */
  lemma PageContents(listed: seq<GameHistory>, limit: int, offset: int)
    requires 0 <= offset && 0 <= limit
    ensures var page := Page(listed, Some(limit), Some(offset));
      && |page| <= limit
      && (forall k :: 0 <= k < |page| ==> offset + k < |listed| && page[k] == Summary(listed[offset + k]))
      && (offset + limit <= |listed| ==> |page| == limit)
  {
    var n := |listed|;
    var page := Page(listed, Some(limit), Some(offset));
    var slice := Slice(listed, Some(offset), Some(offset + limit));
    var from := if offset < n then offset else n;
    var to := if offset + limit < n then offset + limit else n;
    assert SliceIndex(Some(offset), n) == from && SliceIndex(Some(offset + limit), n) == to;
    assert |slice| == to - from;
    PageIsSlice(listed, limit, offset);
    SliceAt(listed, Some(offset), Some(offset + limit));
    SummariesAt(slice);
    forall k | 0 <= k < |page| ensures offset + k < n && page[k] == Summary(listed[offset + k]) {
      assert page[k] == Summary(slice[k]);
    }
  }

  /** A page of a list ordered newest first is ordered newest first, whatever the paging. */
  lemma PageKeepsOrder(listed: seq<GameHistory>, limit: Option<int>, offset: Option<int>)
    requires forall i, j :: 0 <= i < j < |listed| ==> listed[i].endedAt >= listed[j].endedAt
    ensures var page := Page(listed, limit, offset);
      forall i, j :: 0 <= i < j < |page| ==> page[i].endedAt >= page[j].endedAt
  {
    var slice := Slice(listed, offset, Plus(offset, limit));
    var from := SliceIndex(offset, |listed|);
    SliceAt(listed, offset, Plus(offset, limit));
    SummariesAt(slice);
    assert forall i, j :: 0 <= i < j < |slice| ==> slice[i].endedAt >= slice[j].endedAt by {
      forall i, j | 0 <= i < j < |slice| ensures slice[i].endedAt >= slice[j].endedAt {
        assert slice[i] == listed[from + i] && slice[j] == listed[from + j];
      }
    }
  }

  /** The list-view response: one page of summaries, the number of matches, and the paging used. */
  datatype HistoryPage = HistoryPage(games: seq<GameSummary>, total: nat, limit: Option<int>, offset: Option<int>)

  /**
   * The history list: the matching games, most recent first, counted before paging; then the
   * page at `offset` of at most `limit` games (limit 50 and offset 0 by default).
   */
  function GetGameHistory(games: seq<GameHistory>, q: HistoryQuery, limit: QueryNumber, offset: QueryNumber)
    : (r: HistoryPage)
    ensures r.total == |Listing(games, q)|
    ensures limit.Absent? ==> r.limit == Some(50)
    ensures offset.Absent? ==> r.offset == Some(0)
    ensures r.games == Page(Listing(games, q), r.limit, r.offset)
    ensures forall i, j :: 0 <= i < j < |r.games| ==> r.games[i].endedAt >= r.games[j].endedAt
  {
    var listed := Listing(games, q);
    var l, o := NumberOr(limit, 50), NumberOr(offset, 0);
    PageKeepsOrder(listed, l, o);
    HistoryPage(Page(listed, l, o), |listed|, l, o)
  }

  lemma PageIsSlice(listed: seq<GameHistory>, limit: int, offset: int)
    ensures Page(listed, Some(limit), Some(offset)) == Summaries(Slice(listed, Some(offset), Some(offset + limit)))
  {
    assert Plus(Some(offset), Some(limit)) == Some(offset + limit);
  }
}

=== FILE: game_move.dfy ===
/**
 * Playing one move of a stored game: the side-to-move check, the status and end reason
 * the new position gets, the mover's counters, and the follow-up events.
 */
module GameMoveTransition {
  import opened Wrappers
  import opened Chess
  import opened ChessJs
  import opened GameTypes

  /** `getCaptureScore`: the conventional piece values, with the king made priceless. */
  function CaptureScore(piece: char): (r: nat)
    ensures piece == 'p' ==> r == 1
    ensures piece == 'n' || piece == 'b' ==> r == 3
    ensures piece == 'r' ==> r == 5
    ensures piece == 'q' ==> r == 9
    ensures piece == 'k' ==> r == 10000000
    ensures piece !in "pnbrqk" ==> r == 0
  {
    match piece
    case 'p' => 1
    case 'n' => 3
    case 'b' => 3
    case 'r' => 5
    case 'q' => 9
    case 'k' => 10000000
    case _ => 0
  }

  /** The king outweighs all the other pieces of a starting army together. */
  lemma KingOutweighsArmy()
    ensures 8 * CaptureScore('p') + 2 * CaptureScore('n') + 2 * CaptureScore('b')
      + 2 * CaptureScore('r') + CaptureScore('q') == 39
    ensures CaptureScore('k') > 39
  {
  }

  /** A follow-up event and its payload. */
  datatype Enqueued =
    | EvaluatePlayerMove(gameId: string, fenBefore: string, fenAfter: string, moveId: string, player: Color)
    | GameMoved(gameId: string, player: Color, from: string, to: string, fenBefore: string)
    | GameEndedEvent(gameId: string)

  datatype MoveOutcome = MoveOutcome(game: Game, move: GameMove, enqueued: seq<Enqueued>)

  /** Both players are AI providers (the `isAiGame` of this file). */
  predicate BothAi(game: Game) {
    game.players.black.ai.Some? && game.players.white.ai.Some?
  }

  /** An AI-vs-AI game stops after 64 turns. */
  predicate ShouldEndEarly(game: Game) {
    game.turns.GetOr(0) >= 64 && BothAi(game)
  }

  /** The status precedence: ended early, then draw, then any other game over, then pending. */
  function NextStatus<G>(lib: Library<G>, after: G, endEarly: bool): GameStatus {
    if endEarly then EndedEarly
    else if lib.IsDraw(after) then Draw
    else if lib.IsGameOver(after) then Completed
    else Pending
  }

  /** The end reason precedence: checkmate, then ended early, then draw. */
  function EndReason<G>(lib: Library<G>, after: G, endEarly: bool): Option<string> {
    if lib.isCheckmate(after) then Some("Checkmate")
    else if endEarly then Some("Ended Early")
    else if lib.IsDraw(after) then Some("Draw")
    else None
  }

  /** The game stops exactly when it gets an end reason. */
  lemma EndedIffReason<G>(lib: Library<G>, after: G, endEarly: bool)
    ensures NextStatus(lib, after, endEarly) != Pending <==> EndReason(lib, after, endEarly).Some?
    ensures NextStatus(lib, after, endEarly) == Completed ==> EndReason(lib, after, endEarly) == Some("Checkmate")
  {
  }

  /**
   * A checkmate delivered once the turn limit is reached is recorded as ended early, with
   * "Checkmate" as the reason and no winner.
   */
  lemma LateCheckmateHasNoWinner<G>(lib: Library<G>, after: G)
    requires lib.isCheckmate(after)
    ensures NextStatus(lib, after, true) == EndedEarly
    ensures EndReason(lib, after, true) == Some("Checkmate")
  {
  }

  /** The mover's record after the move; `attempts` illegal attempts preceded it. */
  function UpdatedPlayer(p: Player, attempts: nat, m: JsMove): (r: Player)
    ensures r.userId == p.userId && r.ai == p.ai && r.model == p.model
    ensures r.illegalMoveAttempts == Some(p.illegalMoveAttempts.GetOr(0) + attempts)
    ensures r.totalMoves == Some(p.totalMoves.GetOr(0) + 1)
    ensures m.captured.None? ==> r.captures == p.captures
    ensures m.captured.Some? ==>
      r.captures == Some(p.captures.GetOr([]) + [Capture(m.captured.value, CaptureScore(m.captured.value))])
    ensures m.promotion.None? ==> r.promotions == p.promotions
    ensures m.promotion.Some? ==> r.promotions == Some(p.promotions.GetOr(0) + 1)
  {
    p.(
      illegalMoveAttempts := Some(p.illegalMoveAttempts.GetOr(0) + attempts),
      totalMoves := Some(p.totalMoves.GetOr(0) + 1),
      captures := if m.captured.Some? then Some(p.captures.GetOr([]) + [Capture(m.captured.value, CaptureScore(m.captured.value))])
                  else p.captures,
      promotions := if m.promotion.Some? then Some(p.promotions.GetOr(0) + 1) else p.promotions)
  }

  /**
   * `move`: load the stored position, refuse a player who is not to move, play the SAN
   * move (chess.js throws on an illegal one), write the new game and move records and
   * enqueue the evaluation followed by either the next turn or the end of the game.
   * `moveId` is the fresh UUID.
   */
  function Move<G>(lib: Library<G>, gameId: string, game: Game, moveSan: string, player: Color,
                   illegalMoveAttempts: nat, moveId: string): (r: Result<MoveOutcome>)
    ensures lib.load(game.fen).Some? && lib.turn(lib.load(game.fen).value) != player ==> r == Err("Invalid player")
    ensures r.Ok? ==> lib.load(game.fen).Some? && lib.turn(lib.load(game.fen).value) == player
    ensures r.Ok? ==> (
      var played := lib.moveSan(lib.load(game.fen).value, moveSan);
      && played.Some?
      && var (after, m) := played.value;
         var ng := r.value.game;
         && ng.id == gameId && ng.fen == m.after
         && ng.turns == Some(game.turns.GetOr(0) + 1)
         && ng.turn == player.Opponent()
         && ng.status == NextStatus(lib, after, ShouldEndEarly(game))
         && ng.endGameReason == EndReason(lib, after, ShouldEndEarly(game))
         && (ng.winner.Some? <==> ng.status == Completed && lib.isCheckmate(after))
         && (ng.winner.Some? ==> ng.winner == Some(player))
         && ng.lastMove == Some([m.from, m.to]) && ng.lastMoveSan == Some(m.san)
         && ng.check == lib.inCheck(after)
         && ng.players.Get(player.Opponent()) == game.players.Get(player.Opponent())
         && ng.players.Get(player) == UpdatedPlayer(game.players.Get(player), illegalMoveAttempts, m)
         && r.value.move == GameMove(player, game.fen, m.after, [m.from, m.to], lib.inCheck(after), None))
    ensures r.Ok? ==> (
      && |r.value.enqueued| == 2
      && r.value.enqueued[0] == EvaluatePlayerMove(gameId, game.fen, r.value.game.fen, moveId, player)
      && (r.value.game.status == Pending <==> r.value.enqueued[1].GameMoved?)
      && (r.value.game.status != Pending <==> r.value.enqueued[1] == GameEndedEvent(gameId)))
  {
    match lib.load(game.fen)
    case None => Err("Invalid FEN")
    case Some(board) =>
      if lib.turn(board) != player then Err("Invalid player")
      else
        match lib.moveSan(board, moveSan)
        case None => Err("Invalid move: " + moveSan)
        case Some(played) =>
          var (after, m) := played;
          var endEarly := ShouldEndEarly(game);
          var status := NextStatus(lib, after, endEarly);
          var newGame := Game(
            gameId, m.after, player.Opponent(), status,
            Some([m.from, m.to]), Some(m.san),
            if status == Completed && lib.isCheckmate(after) then Some(player) else None,
            Some(game.turns.GetOr(0) + 1),
            EndReason(lib, after, endEarly),
            game.players.With(player, UpdatedPlayer(game.players.Get(player), illegalMoveAttempts, m)),
            lib.inCheck(after),
            None);
          var evaluate := EvaluatePlayerMove(gameId, game.fen, m.after, moveId, player);
          var next := if status == Pending then GameMoved(gameId, player, m.from, m.to, game.fen) else GameEndedEvent(gameId);
          Ok(MoveOutcome(newGame, GameMove(player, game.fen, m.after, [m.from, m.to], lib.inCheck(after), None),
                         [evaluate, next]))
  }
}

=== FILE: game_score.dfy ===
/**
 * The end-of-game scoreboard: per-player aggregates over the evaluated moves, and the
 * decisive moment, the move with the largest evaluation swing.
 */
module GameScore {
  import opened Wrappers
  import opened Chess
  import opened GameTypes
  import opened Stats

  /** The move was made by `player` and carries an evaluation. */
  predicate EvaluatedBy(m: GameMove, player: Color) {
    m.color == player && m.evaluation.Some?
  }

  /** The evaluations of `player`'s moves, in move order, skipping moves without one. */
  function Evaluations(moves: seq<GameMove>, player: Color): (r: seq<MoveEvaluation>)
    ensures |r| <= |moves|
    ensures forall e :: e in r <==> exists k :: 0 <= k < |moves| && EvaluatedBy(moves[k], player) && moves[k].evaluation == Some(e)
  {
    if |moves| == 0 then []
    else
      var init := moves[..|moves| - 1];
      var last := moves[|moves| - 1];
      var rest := Evaluations(init, player);
      assert forall k :: 0 <= k < |init| ==> init[k] == moves[k];
      if EvaluatedBy(last, player) then rest + [last.evaluation.value] else rest
  }

  function Swings(es: seq<MoveEvaluation>): (r: seq<int>)
    ensures |r| == |es| && forall k :: 0 <= k < |es| ==> r[k] == es[k].evaluationSwing
  {
    seq(|es|, k requires 0 <= k < |es| => es[k].evaluationSwing as int)
  }

  function CountBlunders(es: seq<MoveEvaluation>): (n: nat)
    ensures n <= |es|
  {
    if |es| == 0 then 0 else CountBlunders(es[..|es| - 1]) + (if es[|es| - 1].blunder then 1 else 0)
  }

  function CountChecks(moves: seq<GameMove>, player: Color): (n: nat)
    ensures n <= |moves|
  {
    if |moves| == 0 then 0
    else
      var last := moves[|moves| - 1];
      CountChecks(moves[..|moves| - 1], player) + (if last.color == player && last.check then 1 else 0)
  }

  /** `centipawnScores[centipawnScores.length - 1]`: the last element, `undefined` when empty. */
  function LastScore(es: seq<MoveEvaluation>): Option<int> {
    if |es| == 0 then None else Some(es[|es| - 1].centipawnScore)
  }

  /** `generatePlayerScore`; the counters the game record lacks default to zero. */
  function PlayerScoreOf(moves: seq<GameMove>, player: Color, game: Option<Game>): (r: PlayerScore)
    ensures r.averageSwing.Some? <==> exists k :: 0 <= k < |moves| && EvaluatedBy(moves[k], player)
    ensures r.highestSwing >= 0
    ensures r.blunders <= |moves| && r.checks <= |moves|
    ensures game.None? ==> r.illegalMoveAttempts == 0 && r.captures == [] && r.promotions == 0
  {
    var es := Evaluations(moves, player);
    assert |es| > 0 <==> exists k :: 0 <= k < |moves| && EvaluatedBy(moves[k], player) by {
      if |es| > 0 {
        assert es[0] in es;
      }
    }
    var stored := if game.Some? then Some(game.value.players.Get(player)) else None;
    PlayerScore(
      RoundOption(Average(Swings(es))),
      Highest(Swings(es)),
      LastScore(es),
      CountBlunders(es),
      if stored.Some? then stored.value.illegalMoveAttempts.GetOr(0) else 0,
      if stored.Some? then stored.value.captures.GetOr([]) else [],
      if stored.Some? then stored.value.promotions.GetOr(0) else 0,
      CountChecks(moves, player))
  }

  /** The index of `player`'s last evaluated move, if any. */
  function LastEvaluatedIndex(moves: seq<GameMove>, player: Color): (r: Option<nat>)
    ensures r.None? <==> forall k :: 0 <= k < |moves| ==> !EvaluatedBy(moves[k], player)
    ensures r.Some? ==> && r.value < |moves| && EvaluatedBy(moves[r.value], player)
                        && forall j :: r.value < j < |moves| ==> !EvaluatedBy(moves[j], player)
  {
    if |moves| == 0 then None
    else if EvaluatedBy(moves[|moves| - 1], player) then Some(|moves| - 1)
    else
      var init := moves[..|moves| - 1];
      assert forall k :: 0 <= k < |init| ==> init[k] == moves[k];
      LastEvaluatedIndex(init, player)
  }

  /**
   * The final centipawn score is that of the player's last evaluated move, and it is
   * `undefined` exactly when the player has no evaluated move.
   */
  lemma {:induction false} FinalScoreIsLastEvaluated(moves: seq<GameMove>, player: Color)
    ensures var i := LastEvaluatedIndex(moves, player);
      LastScore(Evaluations(moves, player)) == if i.Some? then Some(moves[i.value].evaluation.value.centipawnScore) else None
  {
    if |moves| > 0 {
      var init := moves[..|moves| - 1];
      FinalScoreIsLastEvaluated(init, player);
      var i := LastEvaluatedIndex(init, player);
      if i.Some? {
        assert init[i.value] == moves[i.value];
      }
    }
  }

  /** The rounded average swing lies between 0 and the highest swing. */
  lemma AverageSwingBounded(moves: seq<GameMove>, player: Color, game: Option<Game>)
    ensures PlayerScoreOf(moves, player, game).averageSwing.Some? ==>
      0 <= PlayerScoreOf(moves, player, game).averageSwing.value <= PlayerScoreOf(moves, player, game).highestSwing
  {
    var sw := Swings(Evaluations(moves, player));
    if |sw| > 0 {
      AverageWithinBounds(sw, 0, Highest(sw));
      var a := Average(sw).value;
      assert 0.0 <= a <= Highest(sw) as real;
    }
  }

  /** The reduce step: keep `max` unless `k` is evaluated and at least as large (ties go to `k`). */
  function KeepLarger(moves: seq<GameMove>, max: nat, k: nat): (r: nat)
    requires max < |moves| && k < |moves|
    ensures r == max || r == k
  {
    if moves[k].evaluation.None? then max
    else if moves[max].evaluation.None? then k
    else if moves[max].evaluation.value.evaluationSwing > moves[k].evaluation.value.evaluationSwing then max
    else k
  }

  /** `moves.reduce(…, firstMove)` over the first `n` moves, as an index. */
  function HighestSwingIndex(moves: seq<GameMove>, n: nat): (r: nat)
    requires 0 < |moves| && n <= |moves|
    ensures r < |moves| && (n > 0 ==> r < n)
  {
    if n == 0 then 0 else KeepLarger(moves, HighestSwingIndex(moves, n - 1), n - 1)
  }

  function Swing(m: GameMove): nat
    requires m.evaluation.Some?
  {
    m.evaluation.value.evaluationSwing
  }

  /**
   * The move `r` is the decisive one among the first `n`: it carries an evaluation, no
   * evaluated move has a larger swing, and every later evaluated move has a smaller one.
   */
  predicate IsDecisive(moves: seq<GameMove>, n: nat, r: nat)
    requires n <= |moves|
  {
    && r < n
    && moves[r].evaluation.Some?
    && (forall k :: 0 <= k < n && moves[k].evaluation.Some? ==> Swing(moves[k]) <= Swing(moves[r]))
    && (forall k :: r < k < n && moves[k].evaluation.Some? ==> Swing(moves[k]) < Swing(moves[r]))
  }

  /** The reduce finds the decisive move whenever some move is evaluated, and stays on move 0 otherwise. */
  lemma {:induction false} HighestSwingIndexIsDecisive(moves: seq<GameMove>, n: nat)
    requires 0 < |moves| && n <= |moves|
    ensures (exists k :: 0 <= k < n && moves[k].evaluation.Some?) ==> IsDecisive(moves, n, HighestSwingIndex(moves, n))
    ensures (forall k :: 0 <= k < n ==> moves[k].evaluation.None?) ==> HighestSwingIndex(moves, n) == 0
  {
    if n > 0 {
      HighestSwingIndexIsDecisive(moves, n - 1);
    }
  }

  /**
   * The decisive moment of a non-empty move list: `None` when no move is evaluated, where
   * `evaluation!.evaluationSwing` reads `undefined`.
   */
  function DecisiveMomentOf(moves: seq<GameMove>): (r: Option<DecisiveMoment>)
    requires |moves| > 0
    ensures r.None? <==> forall k :: 0 <= k < |moves| ==> moves[k].evaluation.None?
    ensures r.Some? ==> (
      && 1 <= r.value.moveNumber <= |moves|
      && IsDecisive(moves, |moves|, r.value.moveNumber - 1)
      && r.value.evaluationSwing == Swing(moves[r.value.moveNumber - 1])
      && r.value.move == moves[r.value.moveNumber - 1].lastMove
      && r.value.fen == moves[r.value.moveNumber - 1].fenAfter)
  {
    var i := HighestSwingIndex(moves, |moves|);
    HighestSwingIndexIsDecisive(moves, |moves|);
    var top := moves[i];
    if top.evaluation.None? then None
    else Some(DecisiveMoment(i + 1, top.evaluation.value.evaluationSwing, top.lastMove, top.fenAfter))
  }

  /** The scoreboard of a game without moves. */
  const DefaultScore := PlayerScore(Some(0), 0, Some(0), 0, 0, [], 0, 0)

  /**
   * `generateGameScore`. A non-empty game in which no move is evaluated fails: the reduce
   * returns the unevaluated first move and reading its swing throws.
   */
  function GenerateGameScore(moves: seq<GameMove>, game: Option<Game>): (r: Result<Scoreboard>)
    ensures |moves| == 0 ==> r == Ok(Scoreboard(DefaultScore, DefaultScore, 0, None))
    ensures r.Err? <==> |moves| > 0 && forall k :: 0 <= k < |moves| ==> moves[k].evaluation.None?
    ensures r.Ok? ==> r.value.totalMoves == |moves|
    ensures r.Ok? && |moves| > 0 ==> (
      && r.value.white == PlayerScoreOf(moves, White, game)
      && r.value.black == PlayerScoreOf(moves, Black, game)
      && r.value.decisiveMoment == DecisiveMomentOf(moves)
      && r.value.decisiveMoment.Some?)
  {
    if |moves| == 0 then Ok(Scoreboard(DefaultScore, DefaultScore, 0, None))
    else
      match DecisiveMomentOf(moves)
      case None => Err("Cannot read properties of undefined (reading 'evaluationSwing')")
      case Some(d) =>
        Ok(Scoreboard(PlayerScoreOf(moves, White, game), PlayerScoreOf(moves, Black, game), |moves|, Some(d)))
  }
}

=== FILE: game_types.dfy ===
/** The stored records of a game: players, the game itself, its moves and its scoreboard. */
module GameTypes {
  import opened Wrappers
  import opened Chess
  import opened AiModels

  /** A captured piece and the points it was worth. */
  datatype Capture = Capture(piece: char, score: nat)

  /** One side of a game; every counter is optional in the stored record. */
  datatype Player = Player(
    userId: Option<string>,
    ai: Option<Provider>,
    model: Option<string>,
    illegalMoveAttempts: Option<nat>,
    totalMoves: Option<nat>,
    captures: Option<seq<Capture>>,
    promotions: Option<nat>)

  datatype Players = Players(white: Player, black: Player) {
    function Get(c: Color): Player {
      if c == White then white else black
    }

    /** `{ ...players, [c]: p }`. */
    function With(c: Color, p: Player): (r: Players)
      ensures r.Get(c) == p && r.Get(c.Opponent()) == Get(c.Opponent())
    {
      if c == White then this.(white := p) else this.(black := p)
    }
  }

  datatype GameStatus = Pending | Completed | Draw | EndedEarly

  /** The per-player part of a scoreboard. `None` is a NaN or undefined number. */
  datatype PlayerScore = PlayerScore(
    averageSwing: Option<int>,
    highestSwing: int,
    finalCentipawnScore: Option<int>,
    blunders: nat,
    illegalMoveAttempts: nat,
    captures: seq<Capture>,
    promotions: nat,
    checks: nat)

  /** The move with the largest evaluation swing, numbered from 1. */
  datatype DecisiveMoment = DecisiveMoment(moveNumber: nat, evaluationSwing: nat, move: seq<string>, fen: string)

  datatype Scoreboard = Scoreboard(
    white: PlayerScore,
    black: PlayerScore,
    totalMoves: nat,
    decisiveMoment: Option<DecisiveMoment>)
  {
    function Get(c: Color): PlayerScore {
      if c == White then white else black
    }
  }

  datatype Game = Game(
    id: string,
    fen: string,
    turn: Color,
    status: GameStatus,
    lastMove: Option<seq<string>>,
    lastMoveSan: Option<string>,
    winner: Option<Color>,
    turns: Option<nat>,
    endGameReason: Option<string>,
    players: Players,
    check: bool,
    scoreboard: Option<Scoreboard>)

  /**
   * An AI-vs-AI game: both players have an AI provider. The move service computes this inline;
   * the `isAiGame` that the game-ended step imports is not defined anywhere.
   */
  predicate IsAiGame(g: Game) {
    g.players.white.ai.Some? && g.players.black.ai.Some?
  }

  /** The engine's verdict on a move, stored on the move record. */
  datatype MoveEvaluation = MoveEvaluation(
    centipawnScore: int,
    bestMove: string,
    evaluationSwing: nat,
    blunder: bool)

  /** A stored move: who made it, the positions around it, its squares and its evaluation. */
  datatype GameMove = GameMove(
    color: Color,
    fenBefore: string,
    fenAfter: string,
    lastMove: seq<string>,
    check: bool,
    evaluation: Option<MoveEvaluation>)
}

=== FILE: history_export.dfy ===
/**
 * The game-history export that escapes every field (`GET /chess/history/export`, the variant
 * with `escapeCsvField`): the filtered games, most recent first, as a CSV file with a header
 * line and sixteen columns, or as JSON records that carry move and message counts instead of
 * the moves and messages. `new Date(t).toISOString()` is passed in as `iso`.
 */
module HistoryExport {
  import opened Wrappers
  import opened Strings
  import opened AiModels
  import opened Csv
  import opened History

  /** The sixteen columns, in order. */
  const Headers: seq<string> := [
    "id", "startedAt", "endedAt", "duration", "variant", "status", "winner", "endGameReason",
    "totalMoves", "whiteProvider", "whiteModel", "whiteIllegalMoves", "blackProvider", "blackModel",
    "blackIllegalMoves", "pgn"]

  /** No header needs quoting, so each is its own written form. */
  lemma HeadersArePlain()
    ensures forall k :: 0 <= k < |Headers| ==> !NeedsQuoting(Headers[k])
  {
    FirstHeadersArePlain();
    LastHeadersArePlain();
  }

  lemma FirstHeadersArePlain()
    ensures forall k :: 0 <= k < 8 ==> !NeedsQuoting(Headers[k])
  {
  }

  lemma LastHeadersArePlain()
    ensures forall k :: 8 <= k < 16 ==> !NeedsQuoting(Headers[k])
  {
  }

  /** A value handed to the escaper: missing, text, or a number. */
  datatype Cell = Blank | Text(text: string) | Number(n: int)

  /** `String(value)`, and '' for a missing value. */
  function CellText(c: Cell): string {
    match c
    case Blank => ""
    case Text(s) => s
    case Number(n) => IntToString(n)
  }

  /**
   * `escapeCsvField`: a missing value gives an empty field, anything else its text, enclosed
   * in quotes with inner quotes doubled when it holds a comma, a quote or a line break.
   */
  function EscapeCsvField(c: Cell): (r: string)
    ensures c.Blank? ==> r == ""
    ensures Encodes(r, CellText(c))
    ensures !NeedsQuoting(CellText(c)) ==> r == CellText(c)
  {
    if c.Blank? then "" else Escape(CellText(c))
  }

  function OptionalText(o: Option<string>): Cell {
    if o.Some? then Text(o.value) else Blank
  }

  /** `provider || 'human'`: a provider's name, or "human" for a side without one. */
  function ProviderOrHuman(p: HistoryPlayer): string {
    if p.provider.Some? then ProviderName(p.provider.value) else "human"
  }

  /** The values of a game's row, in column order. */
  function RowCells(g: GameHistory, iso: int -> string): (cells: seq<Cell>)
    ensures |cells| == |Headers|
  {
    [ Text(g.id), Text(iso(g.startedAt)), Text(iso(g.endedAt)), Number(g.duration),
      Text(g.variant.Name()), Text(g.status.Name()),
      if g.winner.Some? then Text(g.winner.value.Name()) else Blank,
      OptionalText(g.endGameReason), Number(g.totalMoves),
      Text(ProviderOrHuman(g.whitePlayer)), OptionalText(g.whitePlayer.model), Number(g.whiteIllegalMoves),
      Text(ProviderOrHuman(g.blackPlayer)), OptionalText(g.blackPlayer.model), Number(g.blackIllegalMoves),
      OptionalText(g.pgn) ]
  }

  /** The text of each value. */
  function Texts(cells: seq<Cell>): (r: seq<string>)
    ensures |r| == |cells|
  {
    seq(|cells|, k requires 0 <= k < |cells| => CellText(cells[k]))
  }

  /** Each value escaped; the written fields encode the values' texts. */
  function EscapedCells(cells: seq<Cell>): (r: seq<string>)
    ensures EncodesRecord(r, Texts(cells))
  {
    if |cells| == 0 then [] else [EscapeCsvField(cells[0])] + EscapedCells(cells[1..])
  }

  /** The escaped fields of each game's row. */
  function EscapedRows(games: seq<GameHistory>, iso: int -> string): (r: seq<seq<string>>)
    ensures EncodesRecords(r, Table(games, iso))
  {
    if |games| == 0 then []
    else
      var first := EscapedCells(RowCells(games[0], iso));
      var rest := EscapedRows(games[1..], iso);
      TableCons(games, iso);
      EncodesRecordsCons(first, Texts(RowCells(games[0], iso)), rest, Table(games[1..], iso));
      [first] + rest
  }

  /** The table of a non-empty list: the first game's values, then the rest's table. */
  lemma TableCons(games: seq<GameHistory>, iso: int -> string)
    requires |games| > 0
    ensures Table(games, iso) == [Texts(RowCells(games[0], iso))] + Table(games[1..], iso)
  {
    var rest := Table(games[1..], iso);
    assert forall i :: 1 <= i < |games| ==> games[1..][i - 1] == games[i];
  }

  /** What each row holds: the texts of the game's values. */
  function Table(games: seq<GameHistory>, iso: int -> string): (r: seq<seq<string>>)
    ensures |r| == |games| && forall i :: 0 <= i < |r| ==> |r[i]| == |Headers|
  {
    seq(|games|, i requires 0 <= i < |games| => Texts(RowCells(games[i], iso)))
  }

  /** The header line, then one line per game, each line's fields joined by commas. */
  function CsvBody(games: seq<GameHistory>, iso: int -> string): string {
    Document([Headers] + EscapedRows(games, iso))
  }

  /**
   * The file means what it should: read back, it gives the header and then, for each game,
   * its sixteen values, whatever commas, quotes or line breaks they hold.
   */
  lemma CsvReadsBack(games: seq<GameHistory>, iso: int -> string)
    ensures ReadDocument(CsvBody(games, iso)) == [Headers] + Table(games, iso)
  {
    HeadersArePlain();
    assert EncodesRecord(Headers, Headers);
    EncodesRecordsCons(Headers, Headers, EscapedRows(games, iso), Table(games, iso));
    ReadDocumentWritten([Headers] + EscapedRows(games, iso), [Headers] + Table(games, iso));
  }

  /** A JSON record: the game without moves and messages, and how many of each it had. */
  datatype ExportEntry = ExportEntry(game: GameSummary, movesCount: nat, messagesCount: nat)

  function Entry(g: GameHistory): (e: ExportEntry)
    ensures e.movesCount == |g.moves| && e.messagesCount == |g.messages|
    ensures WithPlay(e.game, g.moves, g.messages) == g
  {
    ExportEntry(Summary(g), |g.moves|, |g.messages|)
  }

  function Entries(games: seq<GameHistory>): (r: seq<ExportEntry>)
    ensures |r| == |games| && forall k :: 0 <= k < |r| ==> r[k] == Entry(games[k])
  {
    if |games| == 0 then [] else [Entry(games[0])] + Entries(games[1..])
  }

  /** The exported file: CSV text, or the JSON records. */
  datatype ExportFile = CsvFile(body: string) | JsonFile(entries: seq<ExportEntry>)

  /**
   * The export: CSV exactly when the format asked for is "csv" (JSON is the default for an
   * absent or any other format), over the matching games, most recent first.
   */
  function ExportGameHistory(games: seq<GameHistory>, q: HistoryQuery, format: Option<string>, iso: int -> string)
    : (r: ExportFile)
    ensures r.CsvFile? <==> format == Some("csv")
    ensures r.CsvFile? ==> ReadDocument(r.body) == [Headers] + Table(Listing(games, q), iso)
    ensures r.JsonFile? ==>
      && |r.entries| == |Listing(games, q)|
      && forall k :: 0 <= k < |r.entries| ==>
           WithPlay(r.entries[k].game, Listing(games, q)[k].moves, Listing(games, q)[k].messages) == Listing(games, q)[k]
           && r.entries[k].movesCount == |Listing(games, q)[k].moves|
           && r.entries[k].messagesCount == |Listing(games, q)[k].messages|
  {
    var listed := Listing(games, q);
    if format == Some("csv") then
      CsvReadsBack(listed, iso);
      CsvFile(CsvBody(listed, iso))
    else JsonFile(Entries(listed))
  }
}

=== FILE: history_export_quoted.dfy ===
/**
 * The game-history export that writes fields as they are (`GET /chess/history/export`, the
 * variant with a query schema): the same order, columns and JSON records as the escaping
 * export, but its dates are the query-string text, unconverted, and in the CSV only the PGN
 * is enclosed in quotes (with its quotes doubled); every other field is joined in unescaped,
 * so the file reads back as the games' values only when those fields hold no comma, quote or
 * line break.
 */
module HistoryExportQuoted {
  import opened Wrappers
  import opened Strings
  import opened AiModels
  import opened Csv
  import opened History
  import HistoryExport
  import Chess

  /** The fields of a game's row as written: the PGN quoted, everything else as it is. */
  function RowFields(g: GameHistory, iso: int -> string): (fields: seq<string>)
    ensures |fields| == |HistoryExport.Headers|
  {
    [ g.id, iso(g.startedAt), iso(g.endedAt), IntToString(g.duration),
      g.variant.Name(), g.status.Name(),
      if g.winner.Some? then g.winner.value.Name() else "",
      g.endGameReason.GetOr(""), IntToString(g.totalMoves),
      HistoryExport.ProviderOrHuman(g.whitePlayer), g.whitePlayer.model.GetOr(""), IntToString(g.whiteIllegalMoves),
      HistoryExport.ProviderOrHuman(g.blackPlayer), g.blackPlayer.model.GetOr(""), IntToString(g.blackIllegalMoves),
      Quote(g.pgn.GetOr("")) ]
  }

  /** The header line, then one line per game, each line's fields joined by commas. */
  function CsvBody(games: seq<GameHistory>, iso: int -> string): string {
    Document([HistoryExport.Headers] + Rows(games, iso))
  }

  function Rows(games: seq<GameHistory>, iso: int -> string): (r: seq<seq<string>>)
    ensures |r| == |games| && forall i :: 0 <= i < |r| ==> r[i] == RowFields(games[i], iso)
  {
    if |games| == 0 then [] else [RowFields(games[0], iso)] + Rows(games[1..], iso)
  }

  /**
   * The fields this export leaves unescaped and whose values are not fixed words or numbers:
   * the id, the two dates, the end reason and the two models.
   */
  predicate FreeTextPlain(g: GameHistory, iso: int -> string) {
    && !NeedsQuoting(g.id)
    && !NeedsQuoting(iso(g.startedAt)) && !NeedsQuoting(iso(g.endedAt))
    && !NeedsQuoting(g.endGameReason.GetOr(""))
    && !NeedsQuoting(g.whitePlayer.model.GetOr("")) && !NeedsQuoting(g.blackPlayer.model.GetOr(""))
  }

  /** A number's decimal text needs no quoting. */
  lemma NumberIsPlain(n: int)
    ensures !NeedsQuoting(IntToString(n))
  {
    var r := IntToString(n);
    forall k | 0 <= k < |r| ensures r[k] != ',' && r[k] != '"' && r[k] != '\n' && r[k] != '\r' {
      assert IsDigit(r[k]) || r[k] == '-';
    }
  }

  /** Neither a variant, a status, a side nor a provider name needs quoting. */
  lemma VariantNameIsPlain(v: Variant)
    ensures !NeedsQuoting(v.Name())
  {
  }

  lemma StatusNameIsPlain(s: HistoryStatus)
    ensures !NeedsQuoting(s.Name())
  {
  }

  lemma SideNameIsPlain(c: Chess.Color)
    ensures !NeedsQuoting(c.Name())
  {
  }

  lemma ProviderIsPlain(p: HistoryPlayer)
    ensures !NeedsQuoting(HistoryExport.ProviderOrHuman(p))
  {
  }

  /** With plain free-text fields, each written field encodes the value of its column. */
  lemma RowEncodes(g: GameHistory, iso: int -> string)
    requires FreeTextPlain(g, iso)
    ensures EncodesRecord(RowFields(g, iso), HistoryExport.Texts(HistoryExport.RowCells(g, iso)))
  {
    var fields := RowFields(g, iso);
    var values := HistoryExport.Texts(HistoryExport.RowCells(g, iso));
    forall k | 0 <= k < |fields| ensures Encodes(fields[k], values[k]) {
      FieldEncodes(g, iso, k);
    }
  }

  lemma FieldEncodes(g: GameHistory, iso: int -> string, k: nat)
    requires FreeTextPlain(g, iso) && k < |HistoryExport.Headers|
    ensures Encodes(RowFields(g, iso)[k], HistoryExport.CellText(HistoryExport.RowCells(g, iso)[k]))
  {
    var fields := RowFields(g, iso);
    if k == 3 {
      NumberIsPlain(g.duration);
    } else if k == 8 {
      NumberIsPlain(g.totalMoves);
    } else if k == 11 {
      NumberIsPlain(g.whiteIllegalMoves);
    } else if k == 14 {
      NumberIsPlain(g.blackIllegalMoves);
    } else if k == 15 {
      assert fields[k] == Quote(g.pgn.GetOr(""));
    } else if k == 4 || k == 5 || k == 6 {
      VariantNameIsPlain(g.variant);
      StatusNameIsPlain(g.status);
      if g.winner.Some? {
        SideNameIsPlain(g.winner.value);
      }
    } else if k == 9 || k == 12 {
      ProviderIsPlain(g.whitePlayer);
      ProviderIsPlain(g.blackPlayer);
    }
  }

  /** Every game's free-text fields are plain. */
  predicate AllPlain(games: seq<GameHistory>, iso: int -> string) {
    forall i :: 0 <= i < |games| ==> FreeTextPlain(games[i], iso)
  }

  /**
   * When no game has a comma, a quote or a line break in a free-text field, the file reads
   * back as the header and each game's sixteen values, the same table the escaping export
   * gives.
   */
  lemma CsvReadsBack(games: seq<GameHistory>, iso: int -> string)
    requires AllPlain(games, iso)
    ensures ReadDocument(CsvBody(games, iso)) == [HistoryExport.Headers] + HistoryExport.Table(games, iso)
  {
    HistoryExport.HeadersArePlain();
    assert EncodesRecord(HistoryExport.Headers, HistoryExport.Headers);
    RowsEncodeTable(games, iso);
    EncodesRecordsCons(HistoryExport.Headers, HistoryExport.Headers, Rows(games, iso), HistoryExport.Table(games, iso));
    ReadDocumentWritten([HistoryExport.Headers] + Rows(games, iso), [HistoryExport.Headers] + HistoryExport.Table(games, iso));
  }

  /** With plain free-text fields, the written rows encode the games' values. */
  lemma RowsEncodeTable(games: seq<GameHistory>, iso: int -> string)
    requires AllPlain(games, iso)
    ensures EncodesRecords(Rows(games, iso), HistoryExport.Table(games, iso))
  {
    forall i | 0 <= i < |games| ensures EncodesRecord(Rows(games, iso)[i], HistoryExport.Table(games, iso)[i]) {
      RowAt(games, iso, i);
    }
  }

  lemma RowAt(games: seq<GameHistory>, iso: int -> string, i: nat)
    requires i < |games| && FreeTextPlain(games[i], iso)
    ensures EncodesRecord(Rows(games, iso)[i], HistoryExport.Table(games, iso)[i])
  {
    var g := games[i];
    assert Rows(games, iso)[i] == RowFields(g, iso);
    assert HistoryExport.Table(games, iso)[i] == HistoryExport.Texts(HistoryExport.RowCells(g, iso));
    RowEncodes(g, iso);
  }

  /**
   * This export's parameters as the query string carries them: nothing converts the dates, so
   * each is the text sent, which takes part in filtering whenever it is non-empty (even "0").
   */
  datatype ExportQuery = ExportQuery(
    provider: Option<string>,
    model: Option<string>,
    variant: Option<string>,
    winner: Option<string>,
    status: Option<string>,
    startDate: Option<string>,
    endDate: Option<string>)

  /** The text parameters, which filter exactly as in the history list. */
  function TextFilters(q: ExportQuery): HistoryQuery {
    HistoryQuery(q.provider, q.model, q.variant, q.winner, q.status, None, None)
  }

  /**
   * A date bound compared with a number: the text is converted by `Number`, given as
   * `toNumber` (`None` for NaN); against NaN every comparison is false, so nothing is dropped.
   */
  predicate BelowBound(toNumber: string -> Option<int>, bound: Option<string>, t: int) {
    Filled(bound) && toNumber(bound.value).Some? && t < toNumber(bound.value).value
  }

  predicate AboveBound(toNumber: string -> Option<int>, bound: Option<string>, t: int) {
    Filled(bound) && toNumber(bound.value).Some? && t > toNumber(bound.value).value
  }

  /** The filter callback of this export. */
  predicate ExportMatches(q: ExportQuery, toNumber: string -> Option<int>, g: GameHistory) {
    && Matches(TextFilters(q), g)
    && !BelowBound(toNumber, q.startDate, g.startedAt)
    && !AboveBound(toNumber, q.endDate, g.endedAt)
  }

  /** The matching games, most recent first. */
  function ExportListing(games: seq<GameHistory>, q: ExportQuery, toNumber: string -> Option<int>)
    : (r: seq<GameHistory>)
    ensures forall i, j :: 0 <= i < j < |r| ==> r[i].endedAt >= r[j].endedAt
    ensures forall g :: multiset(r)[g] == if ExportMatches(q, toNumber, g) then multiset(games)[g] else 0
  {
    ListingBy(games, g => ExportMatches(q, toNumber, g))
  }

  /** The history-list query the same parameters give once their dates are read as numbers. */
  function AsHistoryQuery(q: ExportQuery, toNumber: string -> Option<int>): HistoryQuery {
    HistoryQuery(q.provider, q.model, q.variant, q.winner, q.status,
                 if Filled(q.startDate) then toNumber(q.startDate.value) else None,
                 if Filled(q.endDate) then toNumber(q.endDate.value) else None)
  }

  /** A date that is sent and reads as 0. */
  predicate ReadsAsZero(toNumber: string -> Option<int>, bound: Option<string>) {
    Filled(bound) && toNumber(bound.value) == Some(0)
  }

  /**
   * The two filters agree on every game unless a date reads as 0: the history list treats a
   * zero date as falsy and ignores it, while here its text is truthy and the bound applies.
   */
  lemma ExportFilterMatchesHistoryFilter(q: ExportQuery, toNumber: string -> Option<int>, g: GameHistory)
    requires !ReadsAsZero(toNumber, q.startDate) && !ReadsAsZero(toNumber, q.endDate)
    ensures ExportMatches(q, toNumber, g) <==> Matches(AsHistoryQuery(q, toNumber), g)
  {
  }

  /**
   * An end date of "0" keeps only the games that ended at time 0 or before, while the history
   * list given the same parameter keeps every game that matches its other parameters.
   */
  lemma ZeroEndDateDropsEndedGames(q: ExportQuery, toNumber: string -> Option<int>, g: GameHistory)
    requires q.endDate == Some("0") && toNumber("0") == Some(0)
    requires g.endedAt > 0
    ensures !ExportMatches(q, toNumber, g)
    ensures Matches(AsHistoryQuery(q, toNumber), g) <==> Matches(AsHistoryQuery(q, toNumber).(endDate := None), g)
  {
  }

  /**
   * The export: CSV exactly when the format asked for is "csv", JSON records otherwise, over
   * the games this export's filter keeps, most recent first.
   */
  function ExportGameHistory(games: seq<GameHistory>, q: ExportQuery, toNumber: string -> Option<int>,
                             format: Option<string>, iso: int -> string)
    : (r: HistoryExport.ExportFile)
    ensures r.CsvFile? <==> format == Some("csv")
    ensures r.CsvFile? && AllPlain(ExportListing(games, q, toNumber), iso) ==>
      ReadDocument(r.body) == [HistoryExport.Headers] + HistoryExport.Table(ExportListing(games, q, toNumber), iso)
    ensures r.JsonFile? ==>
      var listed := ExportListing(games, q, toNumber);
      && |r.entries| == |listed|
      && forall k :: 0 <= k < |r.entries| ==>
           WithPlay(r.entries[k].game, listed[k].moves, listed[k].messages) == listed[k]
           && r.entries[k].movesCount == |listed[k].moves|
           && r.entries[k].messagesCount == |listed[k].messages|
  {
    var listed := ExportListing(games, q, toNumber);
    if format == Some("csv") then
      if AllPlain(listed, iso) then
        CsvReadsBack(listed, iso);
        HistoryExport.CsvFile(CsvBody(listed, iso))
      else HistoryExport.CsvFile(CsvBody(listed, iso))
    else HistoryExport.JsonFile(HistoryExport.Entries(listed))
  }
}

=== FILE: json.dfy ===
/**
 * `JSON.stringify` of a JavaScript string, the form in which chess.js quotes a move it cannot
 * play: the text between double quotes, with the quote, the backslash and every control
 * character escaped (the common ones by letter, the rest as `\u00xx` in lower-case hex), and
 * a reader for such text.
 */
module Json {
  import opened Wrappers

  /** The lower-case hexadecimal digit of a value below 16. */
  function HexDigit(n: nat): (c: char)
    requires n < 16
    ensures IsHex(c) && HexValue(c) == n
  {
    if n < 10 then ('0' as int + n) as char else ('a' as int + n - 10) as char
  }

  predicate IsHex(c: char) {
    '0' <= c <= '9' || 'a' <= c <= 'f' || 'A' <= c <= 'F'
  }

  function HexValue(c: char): (n: nat)
    requires IsHex(c)
    ensures n < 16
  {
    if '0' <= c <= '9' then c as int - '0' as int
    else if 'a' <= c <= 'f' then c as int - 'a' as int + 10
    else c as int - 'A' as int + 10
  }

  /** Whether `JSON.stringify` writes a character as an escape rather than as itself. */
  predicate NeedsEscape(c: char) {
    c == '"' || c == '\\' || c < ' '
  }

  /** The escape of one character: a backslash sequence exactly for those that need one, else the character. */
  function EscapeChar(c: char): (r: string)
    ensures |r| >= 1
    ensures NeedsEscape(c) <==> r[0] == '\\'
    ensures !NeedsEscape(c) ==> r == [c]
  {
    if c == '"' then "\\\""
    else if c == '\\' then "\\\\"
    else if c == '\U{8}' then "\\b"
    else if c == '\t' then "\\t"
    else if c == '\n' then "\\n"
    else if c == '\U{C}' then "\\f"
    else if c == '\r' then "\\r"
    else if c < ' ' then "\\u00" + [HexDigit(c as int / 16), HexDigit(c as int % 16)]
    else [c]
  }

  /** The characters of a string, each escaped. */
  function Escape(s: string): (r: string)
    ensures |r| >= |s|
  {
    if |s| == 0 then "" else EscapeChar(s[0]) + Escape(s[1..])
  }

  /** `JSON.stringify(s)` for a string `s`. */
  function JsonString(s: string): (r: string)
    ensures |r| >= |s| + 2 && r[0] == '"' && r[|r| - 1] == '"'
    ensures r[1..|r| - 1] == Escape(s)
  {
    "\"" + Escape(s) + "\""
  }

  /** A text none of whose characters needs an escape is written unchanged. */
  lemma {:induction false} EscapePlain(s: string)
    requires forall k :: 0 <= k < |s| ==> !NeedsEscape(s[k])
    ensures Escape(s) == s
  {
    if |s| > 0 {
      EscapePlain(s[1..]);
    }
  }

  function Prepend(c: char, r: Option<string>): Option<string> {
    if r.Some? then Some([c] + r.value) else None
  }

  /**
   * Reads the inside of a JSON string back: a backslash and a letter, a quote, a backslash or a
   * slash, or `\u` and four hex digits naming a character outside the surrogate range, stand
   * for one character; any other character stands for itself. A broken escape reads as none.
   */
  function Unescape(t: string): Option<string>
    decreases |t|
  {
    if |t| == 0 then Some("")
    else if t[0] != '\\' then Prepend(t[0], Unescape(t[1..]))
    else if |t| < 2 then None
    else if t[1] == '"' then Prepend('"', Unescape(t[2..]))
    else if t[1] == '\\' then Prepend('\\', Unescape(t[2..]))
    else if t[1] == '/' then Prepend('/', Unescape(t[2..]))
    else if t[1] == 'b' then Prepend('\U{8}', Unescape(t[2..]))
    else if t[1] == 't' then Prepend('\t', Unescape(t[2..]))
    else if t[1] == 'n' then Prepend('\n', Unescape(t[2..]))
    else if t[1] == 'f' then Prepend('\U{C}', Unescape(t[2..]))
    else if t[1] == 'r' then Prepend('\r', Unescape(t[2..]))
    else if t[1] == 'u' && |t| >= 6 && IsHex(t[2]) && IsHex(t[3]) && IsHex(t[4]) && IsHex(t[5]) then
      var v := ((HexValue(t[2]) * 16 + HexValue(t[3])) * 16 + HexValue(t[4])) * 16 + HexValue(t[5]);
      if 0xD800 <= v < 0xE000 then None else Prepend(v as char, Unescape(t[6..]))
    else None
  }

  /** Reading one escaped character and then the rest. */
  lemma UnescapeChar(c: char, t: string)
    ensures Unescape(EscapeChar(c) + t) == Prepend(c, Unescape(t))
  {
    var e := EscapeChar(c) + t;
    if !NeedsEscape(c) {
      assert e == [c] + t && e[1..] == t;
    } else if c == '"' || c == '\\' || c == '\U{8}' || c == '\t' || c == '\n' || c == '\U{C}' || c == '\r' {
      UnescapeShort(c, t);
    } else {
      UnescapeControl(c, t);
    }
  }

  /** Reading a two-character escape and then the rest. */
  lemma UnescapeShort(c: char, t: string)
    requires c == '"' || c == '\\' || c == '\U{8}' || c == '\t' || c == '\n' || c == '\U{C}' || c == '\r'
    ensures Unescape(EscapeChar(c) + t) == Prepend(c, Unescape(t))
  {
    var e := EscapeChar(c) + t;
    assert |EscapeChar(c)| == 2 && e[0] == '\\' && e[1] == EscapeChar(c)[1] && e[2..] == t;
  }

  /** Reading a `\u00xx` escape of a control character and then the rest. */
  lemma UnescapeControl(c: char, t: string)
    requires c < ' ' && c != '\U{8}' && c != '\t' && c != '\n' && c != '\U{C}' && c != '\r'
    ensures Unescape(EscapeChar(c) + t) == Prepend(c, Unescape(t))
  {
    var hi, lo := c as int / 16, c as int % 16;
    var e := EscapeChar(c) + t;
    assert e == ['\\', 'u', '0', '0', HexDigit(hi), HexDigit(lo)] + t;
    assert e[6..] == t;
    assert ((0 * 16 + 0) * 16 + hi) * 16 + lo == c as int;
  }

  /** Reading an escaped text gives the text back. */
  lemma {:induction false} UnescapeEscape(s: string)
    ensures Unescape(Escape(s)) == Some(s)
  {
    if |s| > 0 {
      UnescapeEscape(s[1..]);
      UnescapeChar(s[0], Escape(s[1..]));
      assert [s[0]] + s[1..] == s;
    }
  }

  /** The inside of `JSON.stringify(s)` reads back as `s`. */
  lemma JsonStringReadsBack(s: string)
    ensures var r := JsonString(s); Unescape(r[1..|r| - 1]) == Some(s)
  {
    UnescapeEscape(s);
  }
}

=== FILE: leaderboard.dfy ===
/**
 * The `GameEnded` step: attach the scoreboard to the finished game and, for AI-vs-AI
 * games, fold the result into the global leaderboard record of each side's model.
 */
module GameEnded {
  import opened Wrappers
  import opened Chess
  import opened AiModels
  import opened GameTypes
  import opened GameScore

  /** A model's leaderboard record. `sumCentipawnScores` is `None` once a NaN was added in. */
  datatype Leaderboard = Leaderboard(
    id: string,
    provider: Provider,
    model: string,
    gamesPlayed: nat,
    victories: nat,
    checkmates: nat,
    draws: nat,
    endedEarly: nat,
    illegalMoves: nat,
    sumCentipawnScores: Option<int>,
    sumHighestSwing: int)

  /** JavaScript `a > b` on numbers that may be `undefined`: false whenever one is. */
  predicate Greater(a: Option<int>, b: Option<int>) {
    a.Some? && b.Some? && a.value > b.value
  }

  /**
   * The winner as `overrideLeaderboard` sees it from `player`'s side: the game's winner if
   * it has one, else the side with the higher final centipawn score, else nobody.
   */
  function DerivedWinner(gameWinner: Option<Color>, player: Color, mine: Option<int>, theirs: Option<int>)
    : (w: Option<Color>)
    ensures gameWinner.Some? ==> w == gameWinner
    ensures gameWinner.None? ==> (w == Some(player) <==> Greater(mine, theirs))
    ensures gameWinner.None? ==> (w == Some(player.Opponent()) <==> Greater(theirs, mine))
  {
    if gameWinner.Some? then gameWinner
    else if Greater(mine, theirs) then Some(player)
    else if Greater(theirs, mine) then Some(player.Opponent())
    else None
  }

  /** The record a model without history starts from. */
  function EmptyRecord(model: string, provider: Provider): Leaderboard {
    Leaderboard(model, provider, model, 0, 0, 0, 0, 0, 0, Some(0), 0)
  }

  function Bump(b: bool): nat {
    if b then 1 else 0
  }

  /**
   * `overrideLeaderboard`: one more game played, with this game's victory, checkmate,
   * draw, early end, illegal moves, final score and highest swing added in. An existing
   * record keeps its id, provider and model.
   */
  function OverrideLeaderboard(game: Game, color: Color, model: string, score: Scoreboard,
                               previous: Option<Leaderboard>): (r: Leaderboard)
    requires game.players.Get(color).ai.Some?
    ensures previous.None? ==> r.id == model && r.model == model && r.provider == game.players.Get(color).ai.value
    ensures previous.Some? ==>
      (r.id == previous.value.id && r.model == previous.value.model && r.provider == previous.value.provider)
    ensures var before := previous.GetOr(EmptyRecord(model, game.players.Get(color).ai.value));
      && r.gamesPlayed == before.gamesPlayed + 1
      && r.victories - before.victories <= 1
      && r.checkmates - before.checkmates == Bump(game.winner == Some(color))
      && r.draws - before.draws == Bump(game.endGameReason == Some("Draw"))
      && r.endedEarly - before.endedEarly == Bump(game.endGameReason == Some("Ended Early"))
      && r.illegalMoves - before.illegalMoves == game.players.Get(color).illegalMoveAttempts.GetOr(0)
      && r.sumHighestSwing - before.sumHighestSwing == score.Get(color).highestSwing
      && (r.sumCentipawnScores.Some? <==> before.sumCentipawnScores.Some? && score.Get(color).finalCentipawnScore.Some?)
      && (r.sumCentipawnScores.Some? ==>
            r.sumCentipawnScores.value - before.sumCentipawnScores.value == score.Get(color).finalCentipawnScore.value)
  {
    var player := game.players.Get(color);
    var mine := score.Get(color);
    var theirs := score.Get(color.Opponent());
    var winner := DerivedWinner(game.winner, color, mine.finalCentipawnScore, theirs.finalCentipawnScore);
    var base := previous.GetOr(EmptyRecord(model, player.ai.value));
    base.(
      gamesPlayed := base.gamesPlayed + 1,
      victories := base.victories + Bump(winner == Some(color)),
      checkmates := base.checkmates + Bump(game.winner == Some(color)),
      draws := base.draws + Bump(game.endGameReason == Some("Draw")),
      endedEarly := base.endedEarly + Bump(game.endGameReason == Some("Ended Early")),
      illegalMoves := base.illegalMoves + player.illegalMoveAttempts.GetOr(0),
      sumCentipawnScores := Plus(base.sumCentipawnScores, mine.finalCentipawnScore),
      sumHighestSwing := base.sumHighestSwing + mine.highestSwing)
  }

  /** A checkmate credited to a side is always also a victory for it. */
  lemma CheckmateIsVictory(game: Game, color: Color, model: string, score: Scoreboard, previous: Option<Leaderboard>)
    requires game.players.Get(color).ai.Some?
    ensures var before := previous.GetOr(EmptyRecord(model, game.players.Get(color).ai.value));
      var r := OverrideLeaderboard(game, color, model, score, previous);
      r.checkmates > before.checkmates ==> r.victories > before.victories
  {
  }

  /** White and black never both gain a victory from the same game. */
  lemma AtMostOneVictory(game: Game, score: Scoreboard, wm: string, bm: string,
                         wPrev: Option<Leaderboard>, bPrev: Option<Leaderboard>)
    requires IsAiGame(game)
    ensures var w := OverrideLeaderboard(game, White, wm, score, wPrev);
      var b := OverrideLeaderboard(game, Black, bm, score, bPrev);
      var w0 := wPrev.GetOr(EmptyRecord(wm, game.players.white.ai.value));
      var b0 := bPrev.GetOr(EmptyRecord(bm, game.players.black.ai.value));
      !(w.victories > w0.victories && b.victories > b0.victories)
  {
  }

  /** A finished game's final scores decide the victory only when the game has no winner. */
  lemma VictoryByScore(game: Game, color: Color, model: string, score: Scoreboard, previous: Option<Leaderboard>)
    requires game.players.Get(color).ai.Some? && game.winner.None?
    ensures var before := previous.GetOr(EmptyRecord(model, game.players.Get(color).ai.value));
      var r := OverrideLeaderboard(game, color, model, score, previous);
      r.victories > before.victories <==>
        Greater(score.Get(color).finalCentipawnScore, score.Get(color.Opponent()).finalCentipawnScore)
  {
  }

  /** A missing record behaves exactly like an all-zero record named after the model. */
  lemma MissingRecordCountsAsZeros(game: Game, color: Color, model: string, score: Scoreboard)
    requires game.players.Get(color).ai.Some?
    ensures OverrideLeaderboard(game, color, model, score, None)
      == OverrideLeaderboard(game, color, model, score, Some(EmptyRecord(model, game.players.Get(color).ai.value)))
  {
  }

  /** The leaderboard key of a side: its stored model, else its provider's default model. */
  function ModelKey(p: Player): string
    requires p.ai.Some?
  {
    p.model.GetOr(DefaultModel(p.ai.value))
  }

  datatype EndedOutcome =
    | GameNotFound
    | ScoringFailed(message: string)
    | Scored(game: Game, leaderboards: map<string, Leaderboard>)
    | ThrewAfterScoring(game: Game, message: string)

  /** Reading a key of the leaderboard group, `null` when absent. */
  function Lookup(store: map<string, Leaderboard>, key: string): Option<Leaderboard> {
    if key in store then Some(store[key]) else None
  }

  /**
   * The handler: both records are read before either is written, then white's and black's
   * updated records are written in that order.
   */
  function HandleGameEnded(game: Option<Game>, moves: seq<GameMove>, store: map<string, Leaderboard>)
    : (r: EndedOutcome)
    ensures game.None? ==> r == GameNotFound
    ensures r.ScoringFailed? <==> game.Some? && GenerateGameScore(moves, game).Err?
    ensures r.Scored? ==> r.game == game.value.(scoreboard := Some(GenerateGameScore(moves, game).value))
    ensures r.Scored? && !IsAiGame(game.value) ==> r.leaderboards == store
    ensures r.Scored? && IsAiGame(game.value) ==>
      var wm := ModelKey(game.value.players.white);
      var bm := ModelKey(game.value.players.black);
      r.leaderboards == WriteBoth(store,
        wm, OverrideLeaderboard(game.value, White, wm, GenerateGameScore(moves, game).value, Lookup(store, wm)),
        bm, OverrideLeaderboard(game.value, Black, bm, GenerateGameScore(moves, game).value, Lookup(store, bm)))
  {
    if game.None? then GameNotFound
    else if GenerateGameScore(moves, game).Err? then ScoringFailed(GenerateGameScore(moves, game).message)
    else
      var scored := game.value.(scoreboard := Some(GenerateGameScore(moves, game).value));
      if !IsAiGame(game.value) then Scored(scored, store)
      else
        var wm := ModelKey(game.value.players.white);
        var bm := ModelKey(game.value.players.black);
        Scored(scored, WriteBoth(store,
          wm, OverrideLeaderboard(game.value, White, wm, GenerateGameScore(moves, game).value, Lookup(store, wm)),
          bm, OverrideLeaderboard(game.value, Black, bm, GenerateGameScore(moves, game).value, Lookup(store, bm))))
  }

  /**
   * The handler as written. `isAiGame` is imported from the chess utilities, which define only
   * `median`, `average`, `highest` and `lowest`; the call is reached once the game has been
   * stored with its scoreboard, and there it throws a TypeError, so no leaderboard is written
   * and no live AI game is deleted, whoever played.
   */
  function HandleGameEndedAsWritten(game: Option<Game>, moves: seq<GameMove>): (r: EndedOutcome)
    ensures game.None? ==> r == GameNotFound
    ensures r.ScoringFailed? <==> game.Some? && GenerateGameScore(moves, game).Err?
    ensures !r.Scored?
    ensures r.ThrewAfterScoring? ==>
      && r.game == game.value.(scoreboard := Some(GenerateGameScore(moves, game).value))
      && r.message == "isAiGame is not a function"
  {
    if game.None? then GameNotFound
    else if GenerateGameScore(moves, game).Err? then ScoringFailed(GenerateGameScore(moves, game).message)
    else ThrewAfterScoring(game.value.(scoreboard := Some(GenerateGameScore(moves, game).value)), "isAiGame is not a function")
  }

  /**
   * The two handlers store the same scored game; only the evidently intended one, with
   * `isAiGame` read as "both sides are AI players", goes on to write the leaderboard.
   */
  lemma AsWrittenStoresScoreOnly(game: Game, moves: seq<GameMove>, store: map<string, Leaderboard>)
    requires GenerateGameScore(moves, Some(game)).Ok?
    ensures HandleGameEndedAsWritten(Some(game), moves).game == HandleGameEnded(Some(game), moves, store).game
    ensures IsAiGame(game) ==> ModelKey(game.players.white) in HandleGameEnded(Some(game), moves, store).leaderboards
  {
  }

  /**
   * Writing white's record and then black's: both keys end up present, black's write wins when
   * the keys coincide, and every other record is untouched.
   */
  function WriteBoth(store: map<string, Leaderboard>, wm: string, white: Leaderboard, bm: string, black: Leaderboard)
    : (r: map<string, Leaderboard>)
    ensures r.Keys == store.Keys + {wm, bm}
    ensures forall k :: k in store && k != wm && k != bm ==> r[k] == store[k]
    ensures r[bm] == black && (wm != bm ==> r[wm] == white)
  {
    store[wm := white][bm := black]
  }

  /**
   * When both sides play the same model, black's write replaces white's: the record counts
   * the game once, from black's side only, since both reads happen before either write.
   */
  lemma SameModelCountsOnce(game: Game, moves: seq<GameMove>, store: map<string, Leaderboard>)
    requires IsAiGame(game) && GenerateGameScore(moves, Some(game)).Ok?
    requires ModelKey(game.players.white) == ModelKey(game.players.black)
    ensures var m := ModelKey(game.players.white);
      var r := HandleGameEnded(Some(game), moves, store);
      r.Scored? && r.leaderboards[m].gamesPlayed == Lookup(store, m).GetOr(EmptyRecord(m, game.players.black.ai.value)).gamesPlayed + 1
  {
  }
}

=== FILE: legal_move_benchmark.dfy ===
/**
 * The legal-move benchmark service: random test positions reached by random play from the
 * initial position, one model answer per position scored with the penalty score, and the
 * run's aggregates over the answers that did not fail. `Math.random()` is the parameter
 * `rand(attempt, k)`, the k-th draw of an attempt; `crypto.randomUUID()` is `ids(attempt)`;
 * the model's answer to the i-th position is `ask(position, i)`.
 */
module LegalMoveBenchmark {
  import opened Wrappers
  import opened Chess
  import opened ChessJs
  import opened Sorting
  import opened Strings
  import opened Stats
  import opened AiModels
  import opened LegalMoveScoring

  datatype TestPosition = TestPosition(
    id: string,
    fen: string,
    pgn: string,
    turn: Color,
    legalMoves: seq<string>,
    legalMoveCount: nat,
    moveNumber: nat)

  datatype GenerateOptions = GenerateOptions(
    count: nat,
    minLegalMoves: int,
    maxLegalMoves: int,
    minMoveNumber: int,
    maxMoveNumber: int)

  const DefaultOptions := GenerateOptions(20, 5, 25, 8, 60)

  /** Every draw of `Math.random()` lies in [0, 1). */
  ghost predicate UnitDraws(rand: (nat, nat) -> real) {
    forall a, k :: 0.0 <= rand(a, k) < 1.0
  }

  /** `Math.floor(draw * n)`: an index into a list of `n` items. */
  function Pick(draw: real, n: nat): (i: nat)
    requires 0.0 <= draw < 1.0 && n > 0
    ensures i < n
  {
    assert draw * n as real < n as real;
    (draw * n as real).Floor
  }

  function Sans(ms: seq<JsMove>): (r: seq<string>)
    ensures |r| == |ms|
    ensures forall k :: 0 <= k < |ms| ==> r[k] == ms[k].san
  {
    if |ms| == 0 then [] else Sans(ms[..|ms| - 1]) + [ms[|ms| - 1].san]
  }

  /** The number of random moves an attempt plays: uniform over [minMoveNumber, maxMoveNumber]. */
  function TargetMoves(opts: GenerateOptions, draw: real): (n: nat)
    requires 0.0 <= draw < 1.0
    ensures opts.minMoveNumber <= opts.maxMoveNumber ==> opts.minMoveNumber <= n || n == 0
    ensures opts.minMoveNumber <= opts.maxMoveNumber && opts.minMoveNumber >= 0 ==> n <= opts.maxMoveNumber
  {
    var span := opts.maxMoveNumber - opts.minMoveNumber + 1;
    var t := if span > 0 then Pick(draw, span) + opts.minMoveNumber
             else (draw * span as real).Floor + opts.minMoveNumber;
    if t > 0 then t else 0
  }

  /**
   * Plays `n` moves, each picked uniformly from the current move list by the draws
   * `rand(a, next)`, `rand(a, next + 1)`, ...; a position without moves ends the attempt.
   */
  function PlayRandom<G>(lib: Library<G>, g: G, n: nat, rand: (nat, nat) -> real, a: nat, next: nat): Option<G>
    requires UnitDraws(rand)
    decreases n
  {
    if n == 0 then Some(g)
    else
      var moves := lib.legalMoves(g);
      if |moves| == 0 then None
      else
        match lib.moveSan(g, moves[Pick(rand(a, next), |moves|)].san)
        case None => None
        case Some((g', _)) => PlayRandom(lib, g', n - 1, rand, a, next + 1)
  }

  /** The default `sort()` order on SAN strings is a total preorder. */
  lemma LexLeIsTotalPreorder()
    ensures TotalPreorder(LexLe)
  {
    forall x, y ensures LexLe(x, y) || LexLe(y, x) {
      LexLeTotal(x, y);
    }
    forall x, y, z | LexLe(x, y) && LexLe(y, z) ensures LexLe(x, z) {
      LexLeTransitive(x, y, z);
    }
  }

  /**
   * `generateRandomPosition`, attempt `a`: random play from the initial position, rejected when
   * the game is over or the number of legal moves is outside [minLegalMoves, maxLegalMoves].
   */
  function RandomPosition<G>(lib: Library<G>, opts: GenerateOptions, rand: (nat, nat) -> real, ids: nat -> string, a: nat)
    : (r: Option<TestPosition>)
    requires UnitDraws(rand)
    ensures r.Some? ==>
      var target := TargetMoves(opts, rand(a, 0));
      var played := PlayRandom(lib, lib.start, target, rand, a, 1);
      && played.Some?
      && !lib.IsGameOver(played.value)
      && r.value.fen == lib.fen(played.value)
      && r.value.id == ids(a)
      && multiset(r.value.legalMoves) == multiset(Sans(lib.legalMoves(played.value)))
      && r.value.moveNumber == target / 2 + 1
    ensures r.Some? ==>
      && opts.minLegalMoves <= r.value.legalMoveCount <= opts.maxLegalMoves
      && r.value.legalMoveCount == |r.value.legalMoves|
      && SortedBy(r.value.legalMoves, LexLe)
  {
    var target := TargetMoves(opts, rand(a, 0));
    match PlayRandom(lib, lib.start, target, rand, a, 1)
    case None => None
    case Some(g) =>
      if lib.IsGameOver(g) then None
      else
        var legal := Sans(lib.legalMoves(g));
        if |legal| < opts.minLegalMoves || |legal| > opts.maxLegalMoves then None
        else
          LexLeIsTotalPreorder();
          Some(TestPosition(ids(a), lib.fen(g), lib.pgn(g), lib.turn(g), SortBy(legal, LexLe), |legal|, target / 2 + 1))
  }

  ghost predicate DistinctFens(ps: seq<TestPosition>) {
    forall i, j :: 0 <= i < j < |ps| ==> ps[i].fen != ps[j].fen
  }

  function Fens(ps: seq<TestPosition>): set<string> {
    set p | p in ps :: p.fen
  }

  /** `p` is the result of one of the attempts numbered below `limit`. */
  ghost predicate ProducedBy(attempt: nat -> Option<TestPosition>, limit: nat, p: TestPosition) {
    exists a: nat :: a < limit && attempt(a) == Some(p)
  }

  /**
   * The loop of `generateTestPositions` over the attempts `attempt(0)`, `attempt(1)`, ...: it keeps
   * each produced position whose FEN is new, and stops at `count` positions or `count * 100` attempts.
   */
  method CollectDistinct(attempt: nat -> Option<TestPosition>, count: nat) returns (positions: seq<TestPosition>)
    ensures |positions| <= count
    ensures DistinctFens(positions)
    ensures forall i :: 0 <= i < |positions| ==> ProducedBy(attempt, count * 100, positions[i])
    ensures |positions| < count ==>
      forall a: nat :: a < count * 100 && attempt(a).Some? ==> attempt(a).value.fen in Fens(positions)
  {
    positions := [];
    var seenFens: set<string> := {};
    var attempts: nat := 0;
    var maxAttempts := count * 100;
    while |positions| < count && attempts < maxAttempts
      invariant attempts <= maxAttempts
      invariant |positions| <= count
      invariant seenFens == Fens(positions)
      invariant DistinctFens(positions)
      invariant forall i :: 0 <= i < |positions| ==> ProducedBy(attempt, attempts, positions[i])
      invariant forall a: nat :: a < attempts && attempt(a).Some? ==> attempt(a).value.fen in seenFens
      decreases maxAttempts - attempts
    {
      var position := attempt(attempts);
      attempts := attempts + 1;
      if position.Some? && position.value.fen !in seenFens {
        seenFens := seenFens + {position.value.fen};
        positions := positions + [position.value];
      }
    }
    forall i | 0 <= i < |positions|
      ensures ProducedBy(attempt, count * 100, positions[i])
    {
      var a: nat :| a < attempts && attempt(a) == Some(positions[i]);
    }
  }

  /** `p` is what `generateRandomPosition` returns on one of the attempts numbered below `limit`. */
  ghost predicate Generated<G>(lib: Library<G>, opts: GenerateOptions, rand: (nat, nat) -> real, ids: nat -> string,
                               limit: nat, p: TestPosition) {
    UnitDraws(rand) && exists a: nat :: a < limit && RandomPosition(lib, opts, rand, ids, a) == Some(p)
  }

  /**
   * `generateTestPositions`: up to `count` positions with pairwise different FENs, each the result
   * of one of the first `count * 100` attempts of `generateRandomPosition`; when fewer than `count`
   * come out, every attempt's position has the FEN of one of them.
   */
  method GenerateTestPositions<G>(lib: Library<G>, opts: GenerateOptions, rand: (nat, nat) -> real, ids: nat -> string)
    returns (positions: seq<TestPosition>)
    requires UnitDraws(rand)
    ensures |positions| <= opts.count
    ensures DistinctFens(positions)
    ensures forall i :: 0 <= i < |positions| ==> Generated(lib, opts, rand, ids, opts.count * 100, positions[i])
    ensures forall i :: 0 <= i < |positions| ==>
      opts.minLegalMoves <= positions[i].legalMoveCount <= opts.maxLegalMoves
    ensures |positions| < opts.count ==>
      forall a: nat :: a < opts.count * 100 && RandomPosition(lib, opts, rand, ids, a).Some? ==>
        RandomPosition(lib, opts, rand, ids, a).value.fen in Fens(positions)
  {
    var attempt := (a: nat) => RandomPosition(lib, opts, rand, ids, a);
    positions := CollectDistinct(attempt, opts.count);
    forall i | 0 <= i < |positions|
      ensures Generated(lib, opts, rand, ids, opts.count * 100, positions[i])
      ensures opts.minLegalMoves <= positions[i].legalMoveCount <= opts.maxLegalMoves
    {
      assert ProducedBy(attempt, opts.count * 100, positions[i]);
      var a: nat :| a < opts.count * 100 && attempt(a) == Some(positions[i]);
      assert RandomPosition(lib, opts, rand, ids, a) == Some(positions[i]);
    }
    if |positions| < opts.count {
      forall a: nat | a < opts.count * 100 && RandomPosition(lib, opts, rand, ids, a).Some?
        ensures RandomPosition(lib, opts, rand, ids, a).value.fen in Fens(positions)
      {
        assert attempt(a) == RandomPosition(lib, opts, rand, ids, a);
      }
    }
  }

  /** The outcome for one position: the model's moves, their score, and the failure message if the call failed. */
  datatype PositionResult = PositionResult(
    positionId: string,
    modelMoves: seq<string>,
    score: LegalMoveScore,
    error: Option<string>)

  /** `benchmarkPosition`: a failed call leaves the answer empty and records the error message. */
  function BenchmarkPosition(position: TestPosition, answer: Result<seq<string>>): (r: PositionResult)
    ensures r.positionId == position.id
    ensures r.error.Some? <==> answer.Err?
    ensures r.modelMoves == (if answer.Ok? then answer.value else [])
    ensures r.score == CalculateScore(position.legalMoves, r.modelMoves)
    ensures PenaltyScored(r.score)
  {
    match answer
    case Ok(moves) => PositionResult(position.id, moves, CalculateScore(position.legalMoves, moves), None)
    case Err(message) => PositionResult(position.id, [], CalculateScore(position.legalMoves, []), Some(message))
  }

  datatype Aggregates = Aggregates(
    averageAccuracy: real,
    averagePenalty: real,
    averageFinalScore: real,
    totalCorrectMoves: nat,
    totalIllegalMoves: nat,
    totalMissedMoves: nat)

  datatype LegalMoveRun = LegalMoveRun(
    id: string,
    provider: Provider,
    model: string,
    positionCount: nat,
    positions: seq<TestPosition>,
    results: seq<PositionResult>,
    aggregates: Option<Aggregates>)

  /** `!r.error`: a result counts when its call did not fail (an empty message is falsy too). */
  predicate Completed(r: PositionResult) {
    !Filled(r.error)
  }

  function CompletedResults(rs: seq<PositionResult>): (c: seq<PositionResult>)
    ensures |c| <= |rs|
    ensures forall k :: 0 <= k < |c| ==> Completed(c[k]) && c[k] in rs
    ensures |c| == 0 <==> forall k :: 0 <= k < |rs| ==> !Completed(rs[k])
  {
    if |rs| == 0 then []
    else
      var init := CompletedResults(rs[..|rs| - 1]);
      assert forall k :: 0 <= k < |init| ==> init[k] in rs by {
        forall k | 0 <= k < |init| ensures init[k] in rs {
          var j :| 0 <= j < |rs| - 1 && rs[..|rs| - 1][j] == init[k];
          assert rs[j] == init[k];
        }
      }
      if Completed(rs[|rs| - 1]) then init + [rs[|rs| - 1]] else init
  }

  datatype Measure = Accuracy | Penalty | FinalScore

  function MeasureOf(s: LegalMoveScore, m: Measure): real {
    match m
    case Accuracy => s.accuracy
    case Penalty => s.penalty
    case FinalScore => s.finalScore
  }

  /** One measure of every result, in order. */
  function Measures(rs: seq<PositionResult>, m: Measure): (xs: seq<real>)
    ensures |xs| == |rs| && forall k :: 0 <= k < |rs| ==> xs[k] == MeasureOf(rs[k].score, m)
  {
    if |rs| == 0 then [] else Measures(rs[..|rs| - 1], m) + [MeasureOf(rs[|rs| - 1].score, m)]
  }

  datatype MoveKind = CorrectMoves | IllegalMoves | MissedMoves

  function MovesOf(s: LegalMoveScore, kind: MoveKind): seq<string> {
    match kind
    case CorrectMoves => s.correct
    case IllegalMoves => s.illegal
    case MissedMoves => s.missed
  }

  /** The summed lengths of one of the move lists of each result. */
  function TotalMoves(rs: seq<PositionResult>, kind: MoveKind): nat {
    if |rs| == 0 then 0 else TotalMoves(rs[..|rs| - 1], kind) + |MovesOf(rs[|rs| - 1].score, kind)|
  }

  /** The sum of the penalties is five per illegal answer. */
  lemma {:induction false} PenaltiesCountIllegal(rs: seq<PositionResult>)
    requires forall k :: 0 <= k < |rs| ==> rs[k].score.penalty == 5.0 * |rs[k].score.illegal| as real
    ensures SumReals(Measures(rs, Penalty)) == 5.0 * TotalMoves(rs, IllegalMoves) as real
  {
    if |rs| > 0 {
      PenaltiesCountIllegal(rs[..|rs| - 1]);
      assert Measures(rs, Penalty)[..|rs| - 1] == Measures(rs[..|rs| - 1], Penalty);
    }
  }

  /** The run's aggregates: means and totals over the completed results, absent when there are none. */
  function AggregatesOf(rs: seq<PositionResult>): (g: Option<Aggregates>)
    ensures g.None? <==> forall k :: 0 <= k < |rs| ==> !Completed(rs[k])
  {
    var c := CompletedResults(rs);
    if |c| == 0 then None
    else
      Some(Aggregates(
        Mean(Measures(c, Accuracy)).value, Mean(Measures(c, Penalty)).value, Mean(Measures(c, FinalScore)).value,
        TotalMoves(c, CorrectMoves), TotalMoves(c, IllegalMoves), TotalMoves(c, MissedMoves)))
  }

  /** What `calculateScore` guarantees of every score it produces. */
  predicate PenaltyScored(s: LegalMoveScore) {
    && 0.0 <= s.finalScore <= s.accuracy
    && s.penalty == 5.0 * |s.illegal| as real
  }

  /**
   * For results scored by `calculateScore`, the mean final score lies between 0 and the mean
   * accuracy, and the penalties the mean is taken over add up to five points per illegal answer.
   */
  lemma AggregatesBounds(rs: seq<PositionResult>)
    requires forall k :: 0 <= k < |rs| ==> PenaltyScored(rs[k].score)
    requires AggregatesOf(rs).Some?
    ensures 0.0 <= AggregatesOf(rs).value.averageFinalScore <= AggregatesOf(rs).value.averageAccuracy
    ensures AggregatesOf(rs).value.averagePenalty == Mean(Measures(CompletedResults(rs), Penalty)).value
    ensures SumReals(Measures(CompletedResults(rs), Penalty)) == 5.0 * AggregatesOf(rs).value.totalIllegalMoves as real
  {
    var c := CompletedResults(rs);
    var g := AggregatesOf(rs).value;
    assert g.averageFinalScore == Mean(Measures(c, FinalScore)).value;
    assert g.averageAccuracy == Mean(Measures(c, Accuracy)).value;
    assert g.averagePenalty == Mean(Measures(c, Penalty)).value;
    assert g.totalIllegalMoves == TotalMoves(c, IllegalMoves);
    CompletedKeepsScoring(rs);
    MeanFinalBounds(c);
    PenaltiesCountIllegal(c);
  }

  lemma {:induction false} CompletedKeepsScoring(rs: seq<PositionResult>)
    requires forall k :: 0 <= k < |rs| ==> PenaltyScored(rs[k].score)
    ensures forall k :: 0 <= k < |CompletedResults(rs)| ==> PenaltyScored(CompletedResults(rs)[k].score)
  {
    if |rs| > 0 {
      CompletedKeepsScoring(rs[..|rs| - 1]);
    }
  }

  lemma MeanFinalBounds(c: seq<PositionResult>)
    requires |c| > 0
    requires forall k :: 0 <= k < |c| ==> PenaltyScored(c[k].score)
    ensures 0.0 <= Mean(Measures(c, FinalScore)).value <= Mean(Measures(c, Accuracy)).value
  {
    var finals, accs := Measures(c, FinalScore), Measures(c, Accuracy);
    assert forall k :: 0 <= k < |c| ==> 0.0 <= finals[k] <= accs[k] by {
      forall k | 0 <= k < |c| ensures 0.0 <= finals[k] <= accs[k] {
        assert PenaltyScored(c[k].score);
      }
    }
    SumRealsNonNegative(finals);
    SumRealsPointwise(finals, accs);
    MeanMonotone(finals, accs);
    MeanNonNegative(finals);
  }

  function Results(positions: seq<TestPosition>, ask: (TestPosition, nat) -> Result<seq<string>>)
    : (rs: seq<PositionResult>)
    ensures |rs| == |positions|
    ensures forall i :: 0 <= i < |positions| ==> rs[i] == BenchmarkPosition(positions[i], ask(positions[i], i))
    ensures forall i :: 0 <= i < |positions| ==> PenaltyScored(rs[i].score)
  {
    seq(|positions|, i requires 0 <= i < |positions| => BenchmarkPosition(positions[i], ask(positions[i], i)))
  }

  /** The sequential loop of `runLegalMoveBenchmark` over a list of positions, then the aggregates. */
  function RunOnPositions(runId: string, provider: Provider, model: string, positions: seq<TestPosition>,
                          ask: (TestPosition, nat) -> Result<seq<string>>): (run: LegalMoveRun)
    ensures run.id == runId && run.provider == provider && run.model == model
    ensures run.positions == positions && run.positionCount == |positions|
    ensures |run.results| == |positions|
    ensures forall i :: 0 <= i < |positions| ==>
      && run.results[i].positionId == positions[i].id
      && run.results[i].score == CalculateScore(positions[i].legalMoves, run.results[i].modelMoves)
      && (ask(positions[i], i).Ok? ==> run.results[i].modelMoves == ask(positions[i], i).value)
      && (run.results[i].error.Some? <==> ask(positions[i], i).Err?)
    ensures run.aggregates.None? <==> forall i :: 0 <= i < |positions| ==> !Completed(run.results[i])
    ensures run.aggregates.Some? ==> 0.0 <= run.aggregates.value.averageFinalScore <= run.aggregates.value.averageAccuracy
  {
    var rs := Results(positions, ask);
    if AggregatesOf(rs).Some? then
      AggregatesBounds(rs);
      LegalMoveRun(runId, provider, model, |positions|, positions, rs, AggregatesOf(rs))
    else
      LegalMoveRun(runId, provider, model, |positions|, positions, rs, AggregatesOf(rs))
  }

  /** `runLegalMoveBenchmark(provider, model, logger, positionCount)`: fresh positions, then the run over them. */
  method RunLegalMoveBenchmark<G>(lib: Library<G>, rand: (nat, nat) -> real, ids: nat -> string, runId: string,
                                  provider: Provider, model: string, positionCount: nat,
                                  ask: (TestPosition, nat) -> Result<seq<string>>)
    returns (run: LegalMoveRun)
    requires UnitDraws(rand)
    ensures |run.positions| <= positionCount && DistinctFens(run.positions)
    ensures forall i :: 0 <= i < |run.positions| ==>
      DefaultOptions.minLegalMoves <= run.positions[i].legalMoveCount <= DefaultOptions.maxLegalMoves
    ensures run == RunOnPositions(runId, provider, model, run.positions, ask)
  {
    var positions := GenerateTestPositions(lib, DefaultOptions.(count := positionCount), rand, ids);
    run := RunOnPositions(runId, provider, model, positions, ask);
  }
}

=== FILE: legal_move_scoring.dfy ===
/**
 * Scoring of one legal-move answer: the moves a model listed for a position are split into
 * the legal ones it found and the illegal ones it made up, against the position's legal moves.
 * Two scorings exist: the F1 score of the shared utilities and the penalty score the legal-move
 * benchmark service uses. Percentages are exact rationals here (`real`).
 */
module LegalMoveScoring {
  import opened AiModels

  /**
   * `s.filter(m => pool.has(m) == inPool)`, where `pool` is `new Set(pool)`: the elements of `s`
   * whose membership in `pool` is `inPool`, in order and with their repetitions.
   */
  function FilterBy(s: seq<string>, pool: seq<string>, inPool: bool): (r: seq<string>)
    ensures |r| <= |s|
    ensures forall k :: 0 <= k < |r| ==> r[k] in s && (r[k] in pool) == inPool
    decreases |s|
  {
    if |s| == 0 then []
    else
      var init := FilterBy(s[..|s| - 1], pool, inPool);
      var last := s[|s| - 1];
      assert forall k :: 0 <= k < |init| ==> init[k] in s by {
        forall k | 0 <= k < |init| ensures init[k] in s {
          var j :| 0 <= j < |s| - 1 && s[..|s| - 1][j] == init[k];
          assert s[j] == init[k];
        }
      }
      if (last in pool) == inPool then init + [last] else init
  }

  /** Filtering distributes over concatenation: the relative order of the kept moves is the input's. */
  lemma {:induction false} FilterByAppend(a: seq<string>, b: seq<string>, pool: seq<string>, inPool: bool)
    ensures FilterBy(a + b, pool, inPool) == FilterBy(a, pool, inPool) + FilterBy(b, pool, inPool)
    decreases |b|
  {
    if |b| > 0 {
      var b' := b[..|b| - 1];
      assert (a + b)[..|a + b| - 1] == a + b';
      assert (a + b)[|a + b| - 1] == b[|b| - 1];
      FilterByAppend(a, b', pool, inPool);
    } else {
      assert a + b == a;
    }
  }

  /** Every occurrence of a kept move survives, and a dropped move does not occur at all. */
  lemma {:induction false} FilterByCounts(s: seq<string>, pool: seq<string>, inPool: bool, x: string)
    ensures multiset(FilterBy(s, pool, inPool))[x] == if (x in pool) == inPool then multiset(s)[x] else 0
    decreases |s|
  {
    if |s| > 0 {
      FilterByCounts(s[..|s| - 1], pool, inPool, x);
      assert s == s[..|s| - 1] + [s[|s| - 1]];
    }
  }

  /** The two filters on opposite sides of a pool split a sequence: nothing lost, nothing doubled. */
  lemma FilterByPartition(s: seq<string>, pool: seq<string>)
    ensures multiset(FilterBy(s, pool, true)) + multiset(FilterBy(s, pool, false)) == multiset(s)
    ensures |FilterBy(s, pool, true)| + |FilterBy(s, pool, false)| == |s|
  {
    var a, b := FilterBy(s, pool, true), FilterBy(s, pool, false);
    forall x ensures (multiset(a) + multiset(b))[x] == multiset(s)[x] {
      FilterByCounts(s, pool, true, x);
      FilterByCounts(s, pool, false, x);
    }
    assert multiset(FilterBy(s, pool, true)) + multiset(FilterBy(s, pool, false)) == multiset(s);
    assert |multiset(FilterBy(s, pool, true)) + multiset(FilterBy(s, pool, false))| == |multiset(s)|;
  }

  /** The model's moves that are legal, in the model's order. */
  function Correct(legal: seq<string>, model: seq<string>): seq<string> {
    FilterBy(model, legal, true)
  }

  /** The model's moves that are not legal, in the model's order. */
  function Illegal(legal: seq<string>, model: seq<string>): seq<string> {
    FilterBy(model, legal, false)
  }

  /** The legal moves the model did not list, in the legal moves' order. */
  function Missed(legal: seq<string>, model: seq<string>): seq<string> {
    FilterBy(legal, model, false)
  }

  /** Correct and illegal split the model's answer; missed are exactly the legal moves it left out. */
  lemma AnswerPartition(legal: seq<string>, model: seq<string>)
    ensures multiset(Correct(legal, model)) + multiset(Illegal(legal, model)) == multiset(model)
    ensures |Correct(legal, model)| + |Illegal(legal, model)| == |model|
    ensures forall m :: m in Correct(legal, model) <==> m in model && m in legal
    ensures forall m :: m in Illegal(legal, model) <==> m in model && m !in legal
    ensures forall m :: m in Missed(legal, model) <==> m in legal && m !in model
  {
    FilterByPartition(model, legal);
    forall m ensures m in Correct(legal, model) <==> m in model && m in legal {
      FilterByCounts(model, legal, true, m);
    }
    forall m ensures m in Illegal(legal, model) <==> m in model && m !in legal {
      FilterByCounts(model, legal, false, m);
    }
    forall m ensures m in Missed(legal, model) <==> m in legal && m !in model {
      FilterByCounts(legal, model, false, m);
    }
  }

  /** What share of the legal moves the model found, in percent; 0 when there are none. */
  function Recall(legal: seq<string>, model: seq<string>): (r: real)
    ensures r >= 0.0
  {
    if |legal| > 0 then |Correct(legal, model)| as real / |legal| as real * 100.0 else 0.0
  }

  /** What share of the model's answers were legal, in percent; 0 when it gave none. */
  function Precision(legal: seq<string>, model: seq<string>): (r: real)
    ensures 0.0 <= r <= 100.0
  {
    var c := |Correct(legal, model)|;
    if |model| > 0 then c as real / |model| as real * 100.0 else 0.0
  }

  /** The harmonic mean of precision and recall; 0 when both are 0. */
  function F1(p: real, r: real): real {
    if p + r > 0.0 then 2.0 * p * r / (p + r) else 0.0
  }

  /** The harmonic mean of two non-negative numbers lies between them. */
  lemma F1Between(p: real, r: real)
    requires p >= 0.0 && r >= 0.0
    ensures (if p <= r then p else r) <= F1(p, r) <= (if p <= r then r else p)
  {
    if p + r > 0.0 {
      var lo := if p <= r then p else r;
      var hi := if p <= r then r else p;
      assert lo * hi == p * r;
      assert lo * (p + r) <= 2.0 * p * r by {
        assert lo * lo <= lo * hi;
      }
      assert 2.0 * p * r <= hi * (p + r) by {
        assert lo * hi <= hi * hi;
      }
      DivideBetween(lo, hi, 2.0 * p * r, p + r);
    }
  }

  lemma DivideBetween(lo: real, hi: real, x: real, d: real)
    requires d > 0.0
    requires lo * d <= x <= hi * d
    ensures lo <= x / d <= hi
  {
    assert x / d * d == x;
  }

  datatype LegalMoveScore = LegalMoveScore(
    correct: seq<string>,
    illegal: seq<string>,
    missed: seq<string>,
    accuracy: real,
    penalty: real,
    finalScore: real)

  /**
   * `calculateLegalMoveScore`: accuracy is recall, the penalty is the share of wrong answers,
   * and the final score is the F1 score.
   */
  function CalculateLegalMoveScore(legal: seq<string>, model: seq<string>): (s: LegalMoveScore)
    ensures s.correct == Correct(legal, model) && s.illegal == Illegal(legal, model)
    ensures multiset(s.correct) + multiset(s.illegal) == multiset(model)
    ensures forall m :: m in s.missed <==> m in legal && m !in model
    ensures 0.0 <= s.penalty <= 100.0
    ensures s.accuracy >= 0.0 && s.finalScore >= 0.0
    ensures |model| == 0 ==> s.finalScore == 0.0 && s.penalty == 100.0
    ensures (if s.accuracy <= 100.0 - s.penalty then s.accuracy else 100.0 - s.penalty) <= s.finalScore
    ensures s.finalScore <= (if s.accuracy <= 100.0 - s.penalty then 100.0 - s.penalty else s.accuracy)
    ensures s.accuracy == Recall(legal, model) && s.penalty == 100.0 - Precision(legal, model)
    ensures s.finalScore == F1(Precision(legal, model), Recall(legal, model))
  {
    AnswerPartition(legal, model);
    var p := Precision(legal, model);
    var r := Recall(legal, model);
    F1Between(p, r);
    LegalMoveScore(Correct(legal, model), Illegal(legal, model), Missed(legal, model), r, 100.0 - p, F1(p, r))
  }

  /**
   * The F1 score counts each correct answer against both lists at once: it is twice the
   * correct answers over the legal moves and answers together, as a percentage.
   */
  lemma F1IsDice(legal: seq<string>, model: seq<string>)
    requires |legal| > 0 && |model| > 0
    ensures F1(Precision(legal, model), Recall(legal, model))
         == 200.0 * |Correct(legal, model)| as real / (|legal| + |model|) as real
  {
    HarmonicOfShares(|Correct(legal, model)| as real, |legal| as real, |model| as real);
  }

  /** The harmonic mean of the two shares of `c`, in percent. */
  lemma HarmonicOfShares(c: real, l: real, m: real)
    requires c >= 0.0 && l > 0.0 && m > 0.0
    ensures F1(c / m * 100.0, c / l * 100.0) == 200.0 * c / (l + m)
  {
    var p := c / m * 100.0;
    var r := c / l * 100.0;
    if c > 0.0 {
      assert p * m == 100.0 * c;
      assert r * l == 100.0 * c;
      assert (p + r) * (l * m) == 100.0 * c * (l + m);
      assert 2.0 * p * r * (l * m) == 20000.0 * c * c;
      assert 2.0 * p * r == (200.0 * c / (l + m)) * (p + r);
    } else {
      assert p == 0.0 && r == 0.0;
    }
  }

  /** A move the model repeats is counted once per repetition, so recall can pass 100. */
  lemma RepeatedAnswerExceedsFullRecall()
    ensures Recall(["e4"], ["e4", "e4"]) == 200.0
  {
    assert FilterBy(["e4"], ["e4"], true) == ["e4"];
    assert ["e4", "e4"][..1] == ["e4"];
    assert Correct(["e4"], ["e4", "e4"]) == ["e4", "e4"];
  }

  predicate Distinct(s: seq<string>) {
    forall i, j :: 0 <= i < j < |s| ==> s[i] != s[j]
  }

  /** With no repeated answer, recall is a true percentage. */
  lemma RecallAtMostHundred(legal: seq<string>, model: seq<string>)
    requires Distinct(model)
    ensures Recall(legal, model) <= 100.0
  {
    if |legal| > 0 {
      var c := Correct(legal, model);
      AnswerPartition(legal, model);
      DistinctFilter(model, legal, true);
      DistinctWithin(c, legal);
      PercentAtMostHundred(|c| as real, |legal| as real);
    }
  }

  /** A part of a whole is at most 100 percent of it. */
  lemma PercentAtMostHundred(part: real, whole: real)
    requires 0.0 <= part <= whole && whole > 0.0
    ensures part / whole * 100.0 <= 100.0
  {
    DivideBetween(0.0, 1.0, part, whole);
  }

  lemma {:induction false} DistinctFilter(s: seq<string>, pool: seq<string>, inPool: bool)
    requires Distinct(s)
    ensures Distinct(FilterBy(s, pool, inPool))
    decreases |s|
  {
    if |s| > 0 {
      var init := s[..|s| - 1];
      assert Distinct(init);
      DistinctFilter(init, pool, inPool);
      var f := FilterBy(init, pool, inPool);
      assert s[|s| - 1] !in init;
    }
  }

  /** A repetition-free sequence whose elements all occur in `pool` is no longer than `pool`. */
  lemma {:induction false} DistinctWithin(s: seq<string>, pool: seq<string>)
    requires Distinct(s)
    requires forall k :: 0 <= k < |s| ==> s[k] in pool
    ensures |s| <= |pool|
  {
    assert Elems(s) <= Elems(pool) by {
      forall x | x in Elems(s) ensures x in Elems(pool) {
        var k :| 0 <= k < |s| && s[k] == x;
        var j :| 0 <= j < |pool| && pool[j] == x;
      }
    }
    CardinalityOfDistinct(s);
    ImageCardinality(pool);
    SubsetCardinality(Elems(s), Elems(pool));
  }

  /** The elements of a sequence. */
  function Elems(s: seq<string>): set<string> {
    set k | 0 <= k < |s| :: s[k]
  }

  lemma ElemsSnoc(s: seq<string>)
    requires |s| > 0
    ensures Elems(s) == Elems(s[..|s| - 1]) + {s[|s| - 1]}
  {
    var init := s[..|s| - 1];
    forall x | x in Elems(s) ensures x in Elems(init) + {s[|s| - 1]} {
      var k :| 0 <= k < |s| && s[k] == x;
      if k < |s| - 1 {
        assert init[k] == x;
      }
    }
    forall x | x in Elems(init) ensures x in Elems(s) {
      var k :| 0 <= k < |init| && init[k] == x;
      assert s[k] == x;
    }
  }

  lemma LastIsNew(s: seq<string>)
    requires Distinct(s) && |s| > 0
    ensures s[|s| - 1] !in Elems(s[..|s| - 1])
  {
    var init := s[..|s| - 1];
    forall k | 0 <= k < |init| ensures init[k] != s[|s| - 1] {
      assert init[k] == s[k];
    }
  }

  lemma {:induction false} CardinalityOfDistinct(s: seq<string>)
    requires Distinct(s)
    ensures |Elems(s)| == |s|
    decreases |s|
  {
    if |s| > 0 {
      var init := s[..|s| - 1];
      assert Distinct(init);
      CardinalityOfDistinct(init);
      ElemsSnoc(s);
      LastIsNew(s);
    }
  }

  lemma {:induction false} ImageCardinality(s: seq<string>)
    ensures |Elems(s)| <= |s|
    decreases |s|
  {
    if |s| > 0 {
      var init := s[..|s| - 1];
      ImageCardinality(init);
      ElemsSnoc(s);
    }
  }

  lemma SubsetCardinality(a: set<string>, b: set<string>)
    requires a <= b
    ensures |a| <= |b|
  {
    assert b == a + (b - a);
  }

  /**
   * The service's own `calculateScore`: accuracy is recall, each illegal answer costs 5 points,
   * and the final score is accuracy minus that penalty, floored at 0.
   */
  function CalculateScore(legal: seq<string>, model: seq<string>): (s: LegalMoveScore)
    ensures s.correct == Correct(legal, model) && s.illegal == Illegal(legal, model)
    ensures multiset(s.correct) + multiset(s.illegal) == multiset(model)
    ensures forall m :: m in s.missed <==> m in legal && m !in model
    ensures s.penalty == 5.0 * |s.illegal| as real
    ensures 0.0 <= s.finalScore <= s.accuracy
    ensures |s.illegal| == 0 ==> s.finalScore == s.accuracy
    ensures s.accuracy == Recall(legal, model)
    ensures s.finalScore == if s.accuracy > s.penalty then s.accuracy - s.penalty else 0.0
  {
    AnswerPartition(legal, model);
    var accuracy := Recall(legal, model);
    var penalty := Illegal(legal, model);
    var p := |penalty| as real * 5.0;
    LegalMoveScore(Correct(legal, model), penalty, Missed(legal, model), accuracy, p,
                   if accuracy - p > 0.0 then accuracy - p else 0.0)
  }

  /** The environment variable each provider's API key is read from. */
  function ApiKeyEnvVar(p: Provider): (name: string)
    ensures |name| > 8 && name[|name| - 8..] == "_API_KEY"
  {
    match p
    case OpenAi => "OPENAI_API_KEY"
    case Gemini => "GEMINI_API_KEY"
    case Claude => "ANTHROPIC_API_KEY"
    case Grok => "XAI_API_KEY"
  }

  /** No two providers share a key variable. */
  lemma ApiKeyEnvVarInjective(p: Provider, q: Provider)
    ensures ApiKeyEnvVar(p) == ApiKeyEnvVar(q) <==> p == q
  {
    if p != q {
      assert ApiKeyEnvVar(p)[0] != ApiKeyEnvVar(q)[0];
    }
  }
}

=== FILE: legal_move_steps.dfy ===
/**
 * The two API steps that run the legal-move benchmark: one model on request, or every supported
 * model at once. Both share the stored position set, creating it when it is missing or empty,
 * and both fold each run into the model's summary: runs completed, running mean, best and worst.
 * `Date.now()` is the parameter `now`; the service's randomness is `rand` and `ids`.
 */
module LegalMoveSteps {
  import opened Wrappers
  import opened Stats
  import opened Strings
  import opened AiModels
  import opened ChessJs
  import opened Api
  import opened LegalMoveBenchmark

  datatype PositionSet = PositionSet(id: string, createdAt: int, count: nat, positions: seq<TestPosition>)

  datatype LegalMoveSummary = LegalMoveSummary(
    id: string,
    provider: Provider,
    model: string,
    runsCompleted: nat,
    averageScore: real,
    bestScore: real,
    worstScore: real,
    lastRunAt: int)

  datatype LegalMoveStore = LegalMoveStore(
    positionSet: Option<PositionSet>,
    runs: map<string, LegalMoveRun>,
    summaries: map<string, LegalMoveSummary>)

  /** The score a run contributes to its summary: its mean final score, or 0 when it has none. */
  function RunScore(run: LegalMoveRun): real {
    if run.aggregates.Some? then run.aggregates.value.averageFinalScore else 0.0
  }

  /**
   * The summary after one more run scoring `score`: one more run, the running mean, the best
   * score (seeded with 0) and the worst score (the first run's score when there was no summary).
   */
  function UpdateSummary(existing: Option<LegalMoveSummary>, provider: Provider, model: string, score: real, now: int)
    : (s: LegalMoveSummary)
    requires existing.Some? ==> existing.value.runsCompleted > 0
    ensures s.id == ModelId(provider, model) && s.provider == provider && s.model == model && s.lastRunAt == now
    ensures s.runsCompleted == (if existing.Some? then existing.value.runsCompleted else 0) + 1
    ensures existing.None? ==> s.averageScore == s.worstScore == score
    ensures existing.Some? ==>
      s.averageScore == RunningMean(existing.value.averageScore, existing.value.runsCompleted, score)
    ensures var previousBest := if existing.Some? then existing.value.bestScore else 0.0;
      s.bestScore >= score && s.bestScore >= previousBest && (s.bestScore == score || s.bestScore == previousBest)
    ensures s.worstScore <= score && (existing.Some? ==> s.worstScore <= existing.value.worstScore)
    ensures s.worstScore == score || (existing.Some? && s.worstScore == existing.value.worstScore)
  {
    var runs := if existing.Some? then existing.value.runsCompleted else 0;
    var average := if existing.Some? then RunningMean(existing.value.averageScore, runs, score) else score;
    var previousBest := if existing.Some? then existing.value.bestScore else 0.0;
    var best := if previousBest >= score then previousBest else score;
    var worst := if existing.Some? && existing.value.worstScore <= score then existing.value.worstScore else score;
    LegalMoveSummary(ModelId(provider, model), provider, model, runs + 1, average, best, worst, now)
  }

  /** The summary left by a model's runs, scoring `scores` in order, with no summary before them. */
  function SummaryAfter(provider: Provider, model: string, scores: seq<real>, now: int): (s: Option<LegalMoveSummary>)
    ensures s.None? <==> |scores| == 0
    ensures s.Some? ==> s.value.runsCompleted == |scores|
  {
    if |scores| == 0 then None
    else Some(UpdateSummary(SummaryAfter(provider, model, scores[..|scores| - 1], now), provider, model,
                            scores[|scores| - 1], now))
  }

  /** Folding runs into a summary keeps the mean of every score. */
  lemma SummaryAverageIsMean(provider: Provider, model: string, scores: seq<real>, now: int)
    requires |scores| > 0
    ensures SummaryAfter(provider, model, scores, now).value.averageScore == Mean(scores).value
  {
    SummaryAverageIsRunningMean(provider, model, scores, now);
    FoldRunningMeanIsMean(scores);
  }

  lemma {:induction false} SummaryAverageIsRunningMean(provider: Provider, model: string, scores: seq<real>, now: int)
    requires |scores| > 0
    ensures SummaryAfter(provider, model, scores, now).value.averageScore == FoldRunningMean(scores)
  {
    var n := |scores|;
    var init := scores[..n - 1];
    if n > 1 {
      SummaryAverageIsRunningMean(provider, model, init, now);
    } else {
      assert init == [];
      assert RunningMean(0.0, 0, scores[0]) * 1.0 == scores[0];
    }
  }

  /** Folding runs into a summary keeps the best score, or 0 when every score is below it. */
  lemma {:induction false} SummaryBestIsMaximum(provider: Provider, model: string, scores: seq<real>, now: int)
    requires |scores| > 0
    ensures var best := SummaryAfter(provider, model, scores, now).value.bestScore;
      && best >= 0.0 && (forall k :: 0 <= k < |scores| ==> scores[k] <= best)
      && (best == 0.0 || best in scores)
  {
    var n := |scores|;
    var init := scores[..n - 1];
    if n > 1 {
      SummaryBestIsMaximum(provider, model, init, now);
      var best := SummaryAfter(provider, model, scores, now).value.bestScore;
      forall k | 0 <= k < n ensures scores[k] <= best {
        if k < n - 1 {
          assert init[k] == scores[k];
        }
      }
      var previous := SummaryAfter(provider, model, init, now).value.bestScore;
      assert previous in init ==> previous in scores;
    }
  }

  /** Folding runs into a summary keeps the worst score. */
  lemma {:induction false} SummaryWorstIsMinimum(provider: Provider, model: string, scores: seq<real>, now: int)
    requires |scores| > 0
    ensures var worst := SummaryAfter(provider, model, scores, now).value.worstScore;
      && (forall k :: 0 <= k < |scores| ==> worst <= scores[k])
      && worst in scores
  {
    var n := |scores|;
    var init := scores[..n - 1];
    if n > 1 {
      SummaryWorstIsMinimum(provider, model, init, now);
      var worst := SummaryAfter(provider, model, scores, now).value.worstScore;
      forall k | 0 <= k < n ensures worst <= scores[k] {
        if k < n - 1 {
          assert init[k] == scores[k];
        }
      }
      var previous := SummaryAfter(provider, model, init, now).value.worstScore;
      assert previous in init ==> previous in scores;
    }
  }

  /** The position set is (re)generated when it is missing, empty, or regeneration is forced. */
  predicate NeedsPositions(set_: Option<PositionSet>, force: bool) {
    set_.None? || |set_.value.positions| == 0 || force
  }

  /** Storing a finished run and folding it into its model's summary. */
  function RecordRun(store: LegalMoveStore, run: LegalMoveRun, now: int): (s: LegalMoveStore)
    requires forall k :: k in store.summaries ==> store.summaries[k].runsCompleted > 0
    ensures s.positionSet == store.positionSet
    ensures s.runs == store.runs[run.id := run]
    ensures var key := ModelId(run.provider, run.model);
      && s.summaries.Keys == store.summaries.Keys + {key}
      && (forall k :: k in store.summaries && k != key ==> s.summaries[k] == store.summaries[k])
      && s.summaries[key] == UpdateSummary(
           if key in store.summaries then Some(store.summaries[key]) else None,
           run.provider, run.model, RunScore(run), now)
    ensures forall k :: k in s.summaries ==> s.summaries[k].runsCompleted > 0
  {
    var key := ModelId(run.provider, run.model);
    var existing := if key in store.summaries then Some(store.summaries[key]) else None;
    store.(runs := store.runs[run.id := run],
           summaries := store.summaries[key := UpdateSummary(existing, run.provider, run.model, RunScore(run), now)])
  }

  /** Runs of two different models touch different summaries, so their order does not matter. */
  lemma RecordRunsCommute(store: LegalMoveStore, a: LegalMoveRun, b: LegalMoveRun, now: int)
    requires forall k :: k in store.summaries ==> store.summaries[k].runsCompleted > 0
    requires a.id != b.id
    requires a.provider != b.provider || a.model != b.model
    ensures RecordRun(RecordRun(store, a, now), b, now) == RecordRun(RecordRun(store, b, now), a, now)
  {
    ModelIdInjective(a.provider, a.model, b.provider, b.model);
    var ka, kb := ModelId(a.provider, a.model), ModelId(b.provider, b.model);
    var sa, sb := RecordRun(store, a, now), RecordRun(store, b, now);
    var ab, ba := RecordRun(sa, b, now), RecordRun(sb, a, now);
    var x := ab.summaries[ka];
    var y := ab.summaries[kb];
    assert sa.summaries == store.summaries[ka := x];
    assert ab.summaries == store.summaries[ka := x][kb := y];
    assert sb.summaries == store.summaries[kb := y];
    assert ba.summaries == store.summaries[kb := y][ka := x];
    MapUpdatesCommute(store.summaries, ka, x, kb, y);
    MapUpdatesCommute(store.runs, a.id, a, b.id, b);
  }

  lemma MapUpdatesCommute<K, V>(m: map<K, V>, ka: K, x: V, kb: K, y: V)
    requires ka != kb
    ensures m[ka := x][kb := y] == m[kb := y][ka := x]
  {
  }

  /** The stored position set after the get-or-create of both steps. */
  method EnsurePositionSet<G>(lib: Library<G>, rand: (nat, nat) -> real, ids: nat -> string, now: int,
                              existing: Option<PositionSet>, force: bool, count: nat)
    returns (s: PositionSet)
    requires UnitDraws(rand)
    ensures !NeedsPositions(existing, force) ==> s == existing.value
    ensures NeedsPositions(existing, force) ==>
      && s.id == "positions-" + IntToString(now) && s.createdAt == now
      && s.count == |s.positions| <= count
      && DistinctFens(s.positions)
  {
    if NeedsPositions(existing, force) {
      var positions := GenerateTestPositions(lib, DefaultOptions.(count := count), rand, ids);
      s := PositionSet("positions-" + IntToString(now), now, |positions|, positions);
    } else {
      s := existing.value;
    }
  }

  /**
   * The single-model step with the service called on the stored positions: an unsupported model
   * is rejected with nothing stored; otherwise the run over the position set is stored and
   * folded into the model's summary.
   */
  method RunLegalMoveStep<G>(lib: Library<G>, rand: (nat, nat) -> real, ids: nat -> string, runId: string, now: int,
                             provider: Provider, model: string, ask: (TestPosition, nat) -> Result<seq<string>>,
                             store: LegalMoveStore)
    returns (response: Response<LegalMoveRun>, store': LegalMoveStore)
    requires UnitDraws(rand)
    requires forall k :: k in store.summaries ==> store.summaries[k].runsCompleted > 0
    ensures !IsSupported(provider, model) ==>
      response == Status400("Model " + model + " is not supported for provider " + ProviderName(provider))
      && store' == store
    ensures IsSupported(provider, model) ==>
      && store'.positionSet.Some?
      && (!NeedsPositions(store.positionSet, false) ==> store'.positionSet == store.positionSet)
      && response == Status200(RunOnPositions(runId, provider, model, store'.positionSet.value.positions, ask))
      && store' == RecordRun(store.(positionSet := store'.positionSet), response.body, now)
  {
    if !IsSupported(provider, model) {
      return Status400("Model " + model + " is not supported for provider " + ProviderName(provider)), store;
    }
    var positionSet := EnsurePositionSet(lib, rand, ids, now, store.positionSet, false, 20);
    var run := RunOnPositions(runId, provider, model, positionSet.positions, ask);
    response := Status200(run);
    store' := RecordRun(store.(positionSet := Some(positionSet)), run, now);
  }

  /**
   * The single-model step with its support check corrected but its service call as written:
   * the call passes the positions, the provider and the model where the service expects the
   * provider, the model and the logger. The service then generates no positions (its count is
   * the logger object, which compares as NaN) and calls `info` on the model string, which throws
   * inside the `try`: a supported model is answered with 400 and that message, and only the
   * position set, when it had to be generated, is stored.
   */
  method RunLegalMoveStepMisordered<G>(lib: Library<G>, rand: (nat, nat) -> real, ids: nat -> string, now: int,
                                       provider: Provider, model: string, store: LegalMoveStore)
    returns (response: Response<LegalMoveRun>, store': LegalMoveStore)
    requires UnitDraws(rand)
    ensures !IsSupported(provider, model) ==>
      response == Status400("Model " + model + " is not supported for provider " + ProviderName(provider))
      && store' == store
    ensures IsSupported(provider, model) ==>
      && response == Status400("logger.info is not a function")
      && store'.positionSet.Some?
      && store'.runs == store.runs && store'.summaries == store.summaries
      && (!NeedsPositions(store.positionSet, false) ==> store' == store)
  {
    if !IsSupported(provider, model) {
      return Status400("Model " + model + " is not supported for provider " + ProviderName(provider)), store;
    }
    var positionSet := EnsurePositionSet(lib, rand, ids, now, store.positionSet, false, 20);
    store' := store.(positionSet := Some(positionSet));
    response := Status400("logger.info is not a function");
  }

  /**
   * The single-model step as written. `getModelsForProvider` is not among the exports of the AI
   * models module (its default models and `supportedModelsByProvider`), so the call on the
   * handler's first line throws a TypeError outside the `try`: the request fails before the
   * store is read, and nothing is generated or stored.
   */
  function RunLegalMoveStepAsWritten(provider: Provider, model: string, store: LegalMoveStore)
    : (r: (Result<Response<LegalMoveRun>>, LegalMoveStore))
    ensures r.0 == Err("getModelsForProvider is not a function")
    ensures r.1 == store
  {
    (Err("getModelsForProvider is not a function"), store)
  }

  /**
   * Where the corrected step records the model's first run, the step as written leaves the
   * model without a summary.
   */
  lemma AsWrittenNeverRecords(provider: Provider, model: string, run: LegalMoveRun, store: LegalMoveStore, now: int)
    requires forall k :: k in store.summaries ==> store.summaries[k].runsCompleted > 0
    requires run.provider == provider && run.model == model
    requires ModelId(provider, model) !in store.summaries
    ensures ModelId(provider, model) in RecordRun(store, run, now).summaries
    ensures ModelId(provider, model) !in RunLegalMoveStepAsWritten(provider, model, store).1.summaries
  {
  }

  datatype RunAllResponse = RunAllResponse(positionCount: nat, modelsQueued: nat, models: seq<(Provider, string)>)

  /**
   * The run-all step's answer: the position set is regenerated when missing, empty or forced,
   * and every supported (provider, model) pair is queued, provider by provider.
   */
  method RunAllBenchmarks<G>(lib: Library<G>, rand: (nat, nat) -> real, ids: nat -> string, now: int,
                             positionCount: nat, force: bool, store: LegalMoveStore)
    returns (response: RunAllResponse, store': LegalMoveStore)
    requires UnitDraws(rand)
    requires 1 <= positionCount <= 50
    ensures store'.positionSet.Some?
    ensures !NeedsPositions(store.positionSet, force) ==> store'.positionSet == store.positionSet
    ensures NeedsPositions(store.positionSet, force) ==> |store'.positionSet.value.positions| <= positionCount
    ensures store'.runs == store.runs && store'.summaries == store.summaries
    ensures response.positionCount == |store'.positionSet.value.positions|
    ensures response.models == AllModels() && response.modelsQueued == |AllModels()|
    ensures forall p, m :: (p, m) in response.models <==> IsSupported(p, m)
  {
    var positionSet := EnsurePositionSet(lib, rand, ids, now, store.positionSet, force, positionCount);
    store' := store.(positionSet := Some(positionSet));
    var models := AllModels();
    forall p, m ensures (p, m) in models <==> IsSupported(p, m) {
      AllModelsComplete(p, m);
    }
    response := RunAllResponse(|positionSet.positions|, |models|, models);
  }

  /** One queued job of the run-all step, with the service called on the stored positions. */
  function RunModelJob(store: LegalMoveStore, positions: seq<TestPosition>, runId: string, now: int,
                       provider: Provider, model: string, ask: (TestPosition, nat) -> Result<seq<string>>)
    : (s: LegalMoveStore)
    requires forall k :: k in store.summaries ==> store.summaries[k].runsCompleted > 0
    ensures s == RecordRun(store, RunOnPositions(runId, provider, model, positions, ask), now)
    ensures s.summaries[ModelId(provider, model)].runsCompleted
            == (if ModelId(provider, model) in store.summaries
                then store.summaries[ModelId(provider, model)].runsCompleted else 0) + 1
  {
    RecordRun(store, RunOnPositions(runId, provider, model, positions, ask), now)
  }

  /**
   * One queued job as written. The service is handed the positions where it expects the provider
   * and the logger where it expects the position count, so it generates no position and then
   * throws calling `info` on the model name; the job only logs the error and stores nothing.
   */
  function RunModelJobAsWritten(store: LegalMoveStore, provider: Provider, model: string): (s: LegalMoveStore)
    ensures s == store
  {
    store
  }
}

=== FILE: lichess.dfy ===
/**
 * Fetching benchmark puzzles from Lichess's batch API: how many to ask for per request and how
 * many requests to allow, the retry loop around each request (honouring `Retry-After`, else a
 * backoff that starts at one second and doubles up to thirty), the PGN replay that rebuilds a
 * puzzle's position, and the collection loop that keeps unseen puzzles of the wanted theme
 * until there are enough. The HTTP replies, the clock, the jitter and `Date.parse` are
 * parameters; chess.js is the `Library` oracle.
 */
module LichessPuzzles {
  import opened Wrappers
  import opened Strings
  import opened Numbers
  import opened Sorting
  import opened ChessJs
  import opened LegalMoveBenchmark
  import opened PuzzleBenchmark
  import opened Retry

  const MaxBatchSize := 50

  /** The smallest `q` with `q * b >= a`: `Math.ceil(a / b)` in exact arithmetic. */
  function CeilDiv(a: int, b: int): (q: int)
    requires b > 0
    ensures q * b >= a && (q - 1) * b < a
  {
    var f := a / b;
    if f * b == a then f else f + 1
  }

  /** How a fetch is sized: puzzles per request, puzzles wanted, and the request budget. */
  datatype BatchPlan = BatchPlan(nb: int, target: int, maxRequests: int)

  /**
   * `nb`, `target` and `maxRequests` for a requested count: requests ask for between 15 and 50
   * puzzles, at least one puzzle is wanted, and the budget allows at least three requests and
   * enough of them to fetch six times the target.
   */
  function PlanBatches(count: int): (p: BatchPlan)
    ensures 15 <= p.nb <= MaxBatchSize
    ensures 15 <= count <= MaxBatchSize ==> p.nb == count
    ensures p.target >= 1 && (count >= 1 ==> p.target == count)
    ensures p.maxRequests >= 3
    ensures p.maxRequests * p.nb >= 6 * p.target
    ensures p.maxRequests > 3 ==> (p.maxRequests - 1) * p.nb < 6 * p.target
  {
    var nb := Min(MaxBatchSize, Max(1, Max(15, count)));
    var target := Max(1, count);
    BatchPlan(nb, target, Max(3, CeilDiv(target * 6, Max(1, nb))))
  }

  /** `response.ok`: a 2xx status. */
  predicate Succeeded(status: int) {
    200 <= status <= 299
  }

  /** The statuses worth another try: rate limiting, a request timeout, or any server error. */
  predicate RetryableStatus(status: int) {
    status == 429 || status == 408 || 500 <= status <= 599
  }

  /** `shouldRetry`: attempt `attempt` (counted from 1) failed with `status`. */
  predicate ShouldRetry(attempt: int, maxRetries: int, status: int) {
    attempt <= maxRetries && RetryableStatus(status)
  }

  /**
   * This fetcher's `parseRetryAfterMs`. Unlike the shared retry helper it does not trim the
   * header and accepts a negative number of seconds; a date gives the time left until it.
   */
  function ParseRetryAfter(value: Option<string>, parseDate: string -> Option<int>, now: int): (r: Option<int>)
    ensures !Filled(value) ==> r.None?
    ensures Filled(value) && ParseInt(value.value).Some? ==> r == Some(ParseInt(value.value).value * 1000)
    ensures Filled(value) && ParseInt(value.value).None? ==>
      var date := parseDate(value.value);
      && (date.Some? ==> r == Some(if date.value > now then date.value - now else 0))
      && (date.None? ==> r.None?)
  {
    if !Filled(value) then None
    else
      match ParseInt(value.value)
      case Some(seconds) => Some(seconds * 1000)
      case None =>
        match parseDate(value.value)
        case Some(dateMs) => Some(Max(0, dateMs - now))
        case None => None
  }

  /** `String(n)` seconds, whatever the sign, waits a thousand times as many milliseconds. */
  lemma {:induction false} RetryAfterAnySeconds(n: int, parseDate: string -> Option<int>, now: int)
    ensures ParseRetryAfter(Some(IntToString(n)), parseDate, now) == Some(n * 1000)
  {
    ParseIntOfIntToString(n);
    assert |IntToString(n)| > 0 by {
      assert ParseInt(IntToString(n)).Some?;
    }
  }

  /** The backoff waited before retrying after attempt `n`: 1000 ms, doubled each time, at most 30000. */
  function BackoffAt(n: nat): int
    decreases n
  {
    if n <= 1 then 1000 else Min(BackoffAt(n - 1) * 2, 30000)
  }

  /** The backoff in closed form: a second times 2^(n-1), capped at thirty seconds. */
  lemma {:induction false} BackoffClosedForm(n: nat)
    requires n >= 1
    ensures BackoffAt(n) == Min(1000 * Pow2(n - 1), 30000)
    decreases n
  {
    if n > 1 {
      BackoffClosedForm(n - 1);
      assert Pow2(n - 1) == 2 * Pow2(n - 2);
    }
  }

  /** The backoff never shrinks, and stays between one and thirty seconds. */
  lemma {:induction false} BackoffGrows(m: nat, n: nat)
    requires 1 <= m <= n
    ensures 1000 <= BackoffAt(m) <= BackoffAt(n) <= 30000
  {
    BackoffClosedForm(m);
    BackoffClosedForm(n);
    Pow2Monotone(m - 1, n - 1);
  }

  /** One HTTP exchange: a status with its `retry-after` header and body, or no reply at all. */
  datatype Reply<T> = Reply(status: int, retryAfter: Option<string>, body: T) | NoReply

  /** A wait between two attempts: the failed status, whether the header set it, and the sleep. */
  datatype Wait = Wait(status: int, fromHeader: bool, waitMs: int, slept: int)

  /** A finished `fetchJsonWithRetry`: the body or the error it threw, and the waits on the way. */
  datatype Fetched<T> = Fetched(result: Result<T>, attempts: nat, waits: seq<Wait>)

  /** The oracles of one request: the reply to each attempt and the clock and jitter at it. */
  datatype Transport<T> = Transport(
    send: nat -> Reply<T>,
    clock: nat -> int,
    jitter: nat -> Jitter,
    parseDate: string -> Option<int>)

  /**
   * Attempt `n` failed with a status worth retrying while retries were left, and `w` is the
   * wait after it: the header's time or else the backoff for `n`, plus the jitter.
   */
  predicate Retried<T>(t: Transport<T>, maxRetries: int, n: nat, w: Wait) {
    && t.send(n).Reply? && t.send(n).status == w.status
    && ShouldRetry(n, maxRetries, w.status)
    && w.slept == w.waitMs + t.jitter(n)
    && (w.fromHeader <==> ParseRetryAfter(t.send(n).retryAfter, t.parseDate, t.clock(n)).Some?)
    && (!w.fromHeader ==> w.waitMs == BackoffAt(n))
  }

  /**
   * The retry loop from attempt `attempt` on, with the backoff that attempt would wait. A
   * success returns its body; a failure that may be retried waits (the header's time, else the
   * backoff, plus jitter) and tries again; any other failure throws `Lichess API error (status)`,
   * and a request with no reply throws as it is.
   */
  function FetchFrom<T>(t: Transport<T>, maxRetries: int, attempt: nat, backoff: int): (r: Fetched<T>)
    requires attempt >= 1 && backoff == BackoffAt(attempt)
    ensures attempt <= r.attempts <= Max(maxRetries + 1, attempt)
    ensures |r.waits| == r.attempts - attempt
    ensures RetriedFrom(t, maxRetries, attempt, r.waits)
    ensures r.result.Ok? <==> t.send(r.attempts).Reply? && Succeeded(t.send(r.attempts).status)
    ensures r.result.Ok? ==> r.result.value == t.send(r.attempts).body
    ensures r.result.Err? && t.send(r.attempts).Reply? ==>
      && !ShouldRetry(r.attempts, maxRetries, t.send(r.attempts).status)
      && r.result.message == "Lichess API error (" + IntToString(t.send(r.attempts).status) + ")"
    decreases maxRetries - attempt + 1
  {
    match t.send(attempt)
    case NoReply => Fetched(Err("fetch failed"), attempt, [])
    case Reply(status, retryAfter, body) =>
      if Succeeded(status) then Fetched(Ok(body), attempt, [])
      else if !ShouldRetry(attempt, maxRetries, status) then
        Fetched(Err("Lichess API error (" + IntToString(status) + ")"), attempt, [])
      else
        var fromHeader := ParseRetryAfter(retryAfter, t.parseDate, t.clock(attempt));
        var waitMs := fromHeader.GetOr(backoff);
        var w := Wait(status, fromHeader.Some?, waitMs, waitMs + t.jitter(attempt));
        WaitFirst(t, maxRetries, attempt, w, FetchFrom(t, maxRetries, attempt + 1, Min(backoff * 2, 30000)))
  }

  /** The wait after attempt `n`, put in front of the run that continues from attempt `n + 1`. */
  function WaitFirst<T>(t: Transport<T>, maxRetries: int, n: nat, w: Wait, rest: Fetched<T>): (r: Fetched<T>)
    requires Retried(t, maxRetries, n, w)
    requires |rest.waits| == rest.attempts - (n + 1)
    requires RetriedFrom(t, maxRetries, n + 1, rest.waits)
    ensures r.result == rest.result && r.attempts == rest.attempts && |r.waits| == r.attempts - n
    ensures RetriedFrom(t, maxRetries, n, r.waits)
  {
    RetriedCons(t, maxRetries, n, w, rest.waits);
    Fetched(rest.result, rest.attempts, [w] + rest.waits)
  }

  /** Each wait in `waits` follows the attempt its place gives, counting from attempt `n`. */
  predicate RetriedFrom<T>(t: Transport<T>, maxRetries: int, n: nat, waits: seq<Wait>) {
    forall k :: 0 <= k < |waits| ==> Retried(t, maxRetries, n + k, waits[k])
  }

  /** A wait after attempt `n` in front of the waits from attempt `n + 1` on. */
  lemma RetriedCons<T>(t: Transport<T>, maxRetries: int, n: nat, w: Wait, rest: seq<Wait>)
    requires Retried(t, maxRetries, n, w) && RetriedFrom(t, maxRetries, n + 1, rest)
    ensures RetriedFrom(t, maxRetries, n, [w] + rest)
  {
    var waits := [w] + rest;
    forall k | 0 <= k < |waits| ensures Retried(t, maxRetries, n + k, waits[k]) {
      if k > 0 {
        assert waits[k] == rest[k - 1] && n + k == n + 1 + (k - 1);
      }
    }
  }

  /** `fetchJsonWithRetry` with its default of six retries: at most seven attempts. */
  function FetchJsonWithRetry<T>(t: Transport<T>): (r: Fetched<T>)
    ensures 1 <= r.attempts <= 7
    ensures forall k :: 0 <= k < |r.waits| ==>
      !r.waits[k].fromHeader ==> 1000 <= r.waits[k].waitMs <= 30000
  {
    var r := FetchFrom(t, 6, 1, 1000);
    BackoffWaitsBounded(t, r.waits);
    r
  }

  /** Every wait of a run from the first attempt that the header did not set is a backoff. */
  lemma BackoffWaitsBounded<T>(t: Transport<T>, waits: seq<Wait>)
    requires RetriedFrom(t, 6, 1, waits)
    ensures forall k :: 0 <= k < |waits| ==> !waits[k].fromHeader ==> 1000 <= waits[k].waitMs <= 30000
  {
    forall k | 0 <= k < |waits| ensures !waits[k].fromHeader ==> 1000 <= waits[k].waitMs <= 30000 {
      BackoffWaitBounded(t, 6, 1 + k, waits[k]);
    }
  }

  /** A wait the header did not set is a backoff, so between one and thirty seconds. */
  lemma BackoffWaitBounded<T>(t: Transport<T>, maxRetries: int, n: nat, w: Wait)
    requires n >= 1 && Retried(t, maxRetries, n, w)
    ensures !w.fromHeader ==> 1000 <= w.waitMs <= 30000
  {
    BackoffGrows(1, n);
  }

  /** A PGN token kept as a move: not empty and without a dot (move numbers are dropped). */
  predicate IsMoveToken(s: string) {
    |s| > 0 && '.' !in s
  }

  function MoveTokens(tokens: seq<string>): (r: seq<string>)
    ensures forall s :: s in r <==> s in tokens && IsMoveToken(s)
    ensures (forall k :: 0 <= k < |tokens| ==> IsMoveToken(tokens[k])) ==> r == tokens
    ensures |r| <= |tokens|
  {
    if |tokens| == 0 then []
    else (if IsMoveToken(tokens[0]) then [tokens[0]] else []) + MoveTokens(tokens[1..])
  }

  /** The moves of a game's PGN: its space-separated tokens other than move numbers and blanks. */
  function PgnMoves(pgn: string): seq<string> {
    MoveTokens(Split(pgn, ' '))
  }

  /** Moves written one after another with single spaces come back as they were. */
  lemma PgnMovesRoundTrip(moves: seq<string>)
    requires |moves| >= 1
    requires forall k :: 0 <= k < |moves| ==> IsMoveToken(moves[k]) && ' ' !in moves[k]
    ensures PgnMoves(Join(moves, " ")) == moves
  {
    SplitJoin(moves, ' ');
  }

  /** A puzzle as the batch API returns it, with its game's id and PGN. */
  datatype BatchPuzzle = BatchPuzzle(
    gameId: string,
    pgn: string,
    puzzleId: string,
    rating: int,
    themes: seq<string>,
    solution: seq<string>,
    initialPly: int)

  /** The first `n` moves played from `g`, a move chess.js rejects being skipped. */
  function Replay<G>(lib: Library<G>, g: G, moves: seq<string>, n: int): G
    decreases |moves|
  {
    if n <= 0 || |moves| == 0 then g
    else
      var next := match lib.moveSan(g, moves[0]) case Some((g', _)) => g' case None => g;
      Replay(lib, next, moves[1..], n - 1)
  }

  /**
   * The position the puzzle starts from: the first `initialPly` moves replayed, then the
   * opponent's setup move when the game has one more; a setup move that fails (or a negative
   * ply, which reads no move) gives nothing.
   */
  function PuzzlePosition<G>(lib: Library<G>, data: BatchPuzzle): Option<G> {
    var moves := PgnMoves(data.pgn);
    var g := Replay(lib, lib.start, moves, data.initialPly);
    if |moves| > data.initialPly then
      if data.initialPly < 0 then None
      else match lib.moveSan(g, moves[data.initialPly])
        case Some((g', _)) => Some(g')
        case None => None
    else Some(g)
  }

  /** `s.slice(a, b)` for 0 <= a <= b. */
  function Slice(s: string, a: nat, b: nat): string
    requires a <= b
  {
    s[Min(a, |s|)..Min(b, |s|)]
  }

  /**
   * `uciToSan`: the move from the first two squares to the next two, promoting to the fifth
   * character if there is one, in SAN; nothing when chess.js rejects it.
   */
  function UciToSan<G>(lib: Library<G>, g: G, uci: string): (r: Option<string>)
    ensures r.Some? ==>
      var m := lib.moveSquares(g, Slice(uci, 0, 2), Slice(uci, 2, 4), if |uci| > 4 then Some(uci[4]) else None);
      m.Some? && r.value == m.value.1.san
  {
    match lib.moveSquares(g, Slice(uci, 0, 2), Slice(uci, 2, 4), if |uci| > 4 then Some(uci[4]) else None)
    case Some((_, m)) => Some(m.san)
    case None => None
  }

  /**
   * `parsePuzzle`: the puzzle's data with the position it starts from, its legal moves sorted,
   * and its first solution move in SAN. Nothing when the setup move fails, the solution is
   * empty, or its first move does not convert to a non-empty SAN.
   */
  function ParsePuzzle<G>(lib: Library<G>, data: BatchPuzzle): (r: Option<LichessPuzzle>)
    ensures |data.solution| == 0 ==> r.None?
    ensures PuzzlePosition(lib, data).None? ==> r.None?
    ensures r.Some? ==>
      var g := PuzzlePosition(lib, data).value;
      && r.value.id == data.puzzleId && r.value.rating == data.rating && r.value.themes == data.themes
      && r.value.solution == data.solution && r.value.initialPly == data.initialPly && r.value.pgn == data.pgn
      && r.value.fen == lib.fen(g)
      && SortedBy(r.value.legalMoves, LexLe)
      && multiset(r.value.legalMoves) == multiset(Sans(lib.legalMoves(g)))
      && r.value.solutionSan != ""
      && Some(r.value.solutionSan) == UciToSan(lib, g, data.solution[0])
  {
    match PuzzlePosition(lib, data)
    case None => None
    case Some(g) =>
      if |data.solution| == 0 then None
      else match UciToSan(lib, g, data.solution[0])
        case None => None
        case Some(san) =>
          if san == "" then None
          else
            LexLeIsTotalPreorder();
            Some(LichessPuzzle(data.puzzleId, data.rating, data.themes, data.solution, data.initialPly,
                               data.pgn, lib.fen(g), SortBy(Sans(lib.legalMoves(g)), LexLe), san))
  }

  /** The batch URL for a theme (or `mix`) and a batch size. */
  function BatchUrl(angle: string, nb: int): string {
    "https://lichess.org/api/puzzle/batch/" + angle + "?nb=" + IntToString(nb)
  }

  /**
   * Request `req`'s puzzles: the themed batch, or the mixed one when that throws, or nothing
   * when both throw. `fetch(req, url)` is what `fetchJsonWithRetry` returned for that URL.
   */
  function Batch(fetch: (nat, string) -> Result<seq<BatchPuzzle>>, theme: Theme, nb: int, req: nat)
    : (r: Option<seq<BatchPuzzle>>)
    ensures fetch(req, BatchUrl(ThemeName(theme), nb)).Ok? ==> r == Some(fetch(req, BatchUrl(ThemeName(theme), nb)).value)
    ensures r.None? <==> fetch(req, BatchUrl(ThemeName(theme), nb)).Err? && fetch(req, BatchUrl("mix", nb)).Err?
  {
    match fetch(req, BatchUrl(ThemeName(theme), nb))
    case Ok(puzzles) => Some(puzzles)
    case Err(_) =>
      match fetch(req, BatchUrl("mix", nb))
      case Ok(puzzles) => Some(puzzles)
      case Err(_) => None
  }

  /** A puzzle without themes is kept whatever the theme; one with themes must list it. */
  predicate MatchesTheme(themes: seq<string>, theme: Theme) {
    |themes| == 0 || ThemeName(theme) in themes
  }

  /** The loop's state: the puzzle ids seen, the puzzles kept, and the requests made. */
  datatype Collection = Collection(seen: set<string>, results: seq<LichessPuzzle>, requests: nat)

  /** What the loop keeps true: at most `target` puzzles, each seen, of the theme, and none twice. */
  predicate Collected(c: Collection, theme: Theme, target: int) {
    && |c.results| <= target
    && DistinctIds(c.results)
    && SeenOfTheme(c.results, c.seen, theme)
  }

  /** No two puzzles share an id. */
  predicate DistinctIds(ps: seq<LichessPuzzle>) {
    forall i, j :: 0 <= i < j < |ps| ==> ps[i].id != ps[j].id
  }

  /** Every puzzle's id is in `seen` and its themes match. */
  predicate SeenOfTheme(ps: seq<LichessPuzzle>, seen: set<string>, theme: Theme) {
    forall i :: 0 <= i < |ps| ==> ps[i].id in seen && MatchesTheme(ps[i].themes, theme)
  }

  /** Keeping one more puzzle, with an id not seen before, keeps the state collected. */
  function Keep(c: Collection, seen: set<string>, p: LichessPuzzle, theme: Theme, target: int): (r: Collection)
    requires Collected(c, theme, target) && |c.results| < target
    requires p.id !in c.seen && c.seen + {p.id} <= seen && MatchesTheme(p.themes, theme)
    ensures Collected(r, theme, target) && r.results == c.results + [p] && r.seen == seen
  {
    Collection(seen, c.results + [p], c.requests)
  }

  /**
   * One batch's candidates in order: an id already seen is skipped, every other id is marked
   * seen, a puzzle whose themes leave out the theme is dropped, and one that parses is kept;
   * the scan stops once there are `target` puzzles.
   */
  function Scan<G>(lib: Library<G>, theme: Theme, target: int, items: seq<BatchPuzzle>, c: Collection)
    : (r: Collection)
    requires Collected(c, theme, target) && |c.results| < target
    ensures Collected(r, theme, target)
    ensures c.seen <= r.seen && c.results <= r.results && r.requests == c.requests
    decreases |items|
  {
    if |items| == 0 then c
    else
      var item := items[0];
      if item.puzzleId in c.seen then Scan(lib, theme, target, items[1..], c)
      else
        var seen := c.seen + {item.puzzleId};
        var skipped := Collection(seen, c.results, c.requests);
        if !MatchesTheme(item.themes, theme) then Scan(lib, theme, target, items[1..], skipped)
        else match ParsePuzzle(lib, item)
          case None => Scan(lib, theme, target, items[1..], skipped)
          case Some(p) =>
            var kept := Keep(c, seen, p, theme, target);
            if |kept.results| >= target then kept
            else Scan(lib, theme, target, items[1..], kept)
  }

  lemma PrefixTransitive(a: seq<LichessPuzzle>, b: seq<LichessPuzzle>, c: seq<LichessPuzzle>)
    requires a <= b && b <= c
    ensures a <= c
  {
    assert a == b[..|a|] && b == c[..|b|];
  }

  /** The collection with `req` requests made, and nothing else changed. */
  function Counted(c: Collection, theme: Theme, target: int, req: nat): (r: Collection)
    requires Collected(c, theme, target)
    ensures Collected(r, theme, target) && r.seen == c.seen && r.results == c.results && r.requests == req
  {
    Collection(c.seen, c.results, req)
  }

  /** The requests from `req` on, while the budget lasts, puzzles are still wanted and a batch arrives. */
  function Requests<G>(lib: Library<G>, fetch: (nat, string) -> Result<seq<BatchPuzzle>>, theme: Theme,
                       plan: BatchPlan, req: nat, c: Collection): (r: Collection)
    requires req >= 1 && c.requests == req - 1
    requires Collected(c, theme, plan.target)
    ensures Collected(r, theme, plan.target)
    ensures c.requests <= r.requests && (r.requests <= plan.maxRequests || r.requests == c.requests)
    ensures c.results <= r.results
    decreases plan.maxRequests - req + 1
  {
    if req > plan.maxRequests || |c.results| >= plan.target then c
    else
      var counted := Counted(c, theme, plan.target, req);
      var batch := Batch(fetch, theme, plan.nb, req);
      if batch.None? then counted
      else
        var scanned := Scan(lib, theme, plan.target, batch.value, counted);
        var r := Requests(lib, fetch, theme, plan, req + 1, scanned);
        PrefixTransitive(c.results, scanned.results, r.results);
        r
  }

  /** A fetch's outcome: the puzzles returned and how many batch requests it made. */
  datatype FetchRun = FetchRun(puzzles: seq<LichessPuzzle>, requests: nat)

  /**
   * `fetchPuzzles`: at most `max(1, count)` puzzles, no two with the same id, each listing the
   * theme (or listing no theme at all), after at most `maxRequests` batch requests.
   */
  function FetchPuzzles<G>(lib: Library<G>, fetch: (nat, string) -> Result<seq<BatchPuzzle>>, theme: Theme, count: int)
    : (r: FetchRun)
    ensures |r.puzzles| <= Max(1, count)
    ensures forall i, j :: 0 <= i < j < |r.puzzles| ==> r.puzzles[i].id != r.puzzles[j].id
    ensures forall i :: 0 <= i < |r.puzzles| ==> MatchesTheme(r.puzzles[i].themes, theme)
    ensures r.requests <= PlanBatches(count).maxRequests
  {
    var plan := PlanBatches(count);
    var c := Requests(lib, fetch, theme, plan, 1, Collection({}, [], 0));
    FetchRun(c.results[..Min(plan.target, |c.results|)], c.requests)
  }

  /** When every request fails, nothing is fetched and only the first request is made. */
  lemma LichessDownFetchesNothing<G>(lib: Library<G>, fetch: (nat, string) -> Result<seq<BatchPuzzle>>,
                                     theme: Theme, count: int)
    requires forall req: nat, url :: fetch(req, url).Err?
    ensures FetchPuzzles(lib, fetch, theme, count) == FetchRun([], 1)
  {
  }
}

=== FILE: move_recovery.dfy ===
/**
 * Recovering the move a player made from the FEN before and the FEN after it: try every
 * legal move of the earlier position, in the rules library's order, and keep the first one
 * whose resulting FEN is exactly the later FEN.
 */
module MoveRecovery {
  import opened Wrappers
  import opened Chess

  /** Playing `m` from `before` yields a position whose FEN is exactly `fenAfter`. */
  predicate Matches<P, M>(rules: Rules<P, M>, before: P, m: M, fenAfter: string) {
    rules.fen(rules.push(before, m)) == fenAfter
  }

  /** Reference definition: the first of `moves` that matches. */
  function FirstMatch<P, M>(rules: Rules<P, M>, before: P, moves: seq<M>, fenAfter: string): Option<M>
  {
    if |moves| == 0 then None
    else if Matches(rules, before, moves[0], fenAfter) then Some(moves[0])
    else FirstMatch(rules, before, moves[1..], fenAfter)
  }

  /**
   * `FirstMatch` is absent exactly when no move matches, and otherwise is the move at the
   * smallest matching index.
   */
  lemma {:induction false} FirstMatchIsFirst<P, M>(rules: Rules<P, M>, before: P, moves: seq<M>, fenAfter: string)
    ensures FirstMatch(rules, before, moves, fenAfter).None?
        <==> forall k :: 0 <= k < |moves| ==> !Matches(rules, before, moves[k], fenAfter)
    ensures forall i ::
      (0 <= i < |moves| && Matches(rules, before, moves[i], fenAfter)
       && (forall k :: 0 <= k < i ==> !Matches(rules, before, moves[k], fenAfter)))
      ==> FirstMatch(rules, before, moves, fenAfter) == Some(moves[i])
    decreases |moves|
  {
    if |moves| > 0 {
      FirstMatchIsFirst(rules, before, moves[1..], fenAfter);
      forall i | 0 < i < |moves|
        ensures moves[1..][i - 1] == moves[i]
      {
      }
    }
  }

  /** The position of `before` with the moves of `stack` pushed on top of it. */
  function Replay<P, M>(rules: Rules<P, M>, before: P, stack: seq<M>): P
    decreases |stack|
  {
    if |stack| == 0 then before
    else rules.push(Replay(rules, before, stack[..|stack| - 1]), stack[|stack| - 1])
  }

  /**
   * The search loop: push each legal move, compare FENs, pop. `stack` is the board's move
   * stack above the starting position; it is empty again when the search ends, so the
   * board the caller goes on to use is the starting position.
   */
  method FindMove<P, M>(rules: Rules<P, M>, before: P, fenAfter: string)
    returns (found: Option<M>, stack: seq<M>)
    ensures found == FirstMatch(rules, before, rules.legalMoves(before), fenAfter)
    ensures found.Some? ==> found.value in rules.legalMoves(before)
    ensures found.Some? ==> rules.fen(rules.push(before, found.value)) == fenAfter
    ensures stack == []
  {
    var moves := rules.legalMoves(before);
    found := None;
    stack := [];
    var i := 0;
    while i < |moves|
      invariant 0 <= i <= |moves|
      invariant stack == []
      invariant FirstMatch(rules, before, moves, fenAfter) == FirstMatch(rules, before, moves[i..], fenAfter)
    {
      stack := stack + [moves[i]];
      assert stack[..|stack| - 1] == [];
      assert Replay(rules, before, stack) == rules.push(before, moves[i]);
      if rules.fen(Replay(rules, before, stack)) == fenAfter {
        found := Some(moves[i]);
        stack := stack[..|stack| - 1];
        FirstMatchFound(rules, before, moves, i, fenAfter);
        return;
      }
      stack := stack[..|stack| - 1];
      assert moves[i..][1..] == moves[i + 1..];
      i := i + 1;
    }
  }

  lemma FirstMatchFound<P, M>(rules: Rules<P, M>, before: P, moves: seq<M>, i: int, fenAfter: string)
    requires 0 <= i < |moves|
    requires Matches(rules, before, moves[i], fenAfter)
    ensures FirstMatch(rules, before, moves[i..], fenAfter) == Some(moves[i])
    ensures moves[i] in moves
  {
  }

  /**
   * Reading the earlier FEN and recovering the move: absent when the FEN does not parse
   * (the board constructor raises) or when no legal move leads to the later FEN.
   */
  function Recover<P, M>(rules: Rules<P, M>, fenBefore: string, fenAfter: string): (r: Option<(P, M)>)
    ensures r.Some? ==> rules.parse(fenBefore) == Some(r.value.0)
    ensures r.Some? ==> r.value.1 in rules.legalMoves(r.value.0)
    ensures r.Some? ==> rules.fen(rules.push(r.value.0, r.value.1)) == fenAfter
    ensures r.None? <==> (rules.parse(fenBefore).None?
      || forall m :: m in rules.legalMoves(rules.parse(fenBefore).value)
           ==> !Matches(rules, rules.parse(fenBefore).value, m, fenAfter))
  {
    match rules.parse(fenBefore)
    case None => None
    case Some(board) =>
      var moves := rules.legalMoves(board);
      FirstMatchIsFirst(rules, board, moves, fenAfter);
      FirstMatchMember(rules, board, moves, fenAfter);
      match FirstMatch(rules, board, moves, fenAfter)
      case None => None
      case Some(m) => Some((board, m))
  }

  lemma {:induction false} FirstMatchMember<P, M>(rules: Rules<P, M>, before: P, moves: seq<M>, fenAfter: string)
    ensures FirstMatch(rules, before, moves, fenAfter).Some? ==>
      FirstMatch(rules, before, moves, fenAfter).value in moves
      && Matches(rules, before, FirstMatch(rules, before, moves, fenAfter).value, fenAfter)
    ensures FirstMatch(rules, before, moves, fenAfter).None? <==>
      forall m :: m in moves ==> !Matches(rules, before, m, fenAfter)
    decreases |moves|
  {
    if |moves| > 0 {
      FirstMatchMember(rules, before, moves[1..], fenAfter);
      assert forall m :: m in moves ==> m == moves[0] || m in moves[1..];
    }
  }
}

=== FILE: numbers.dfy ===
/** Reading integers out of text the way `Number.parseInt(s, 10)` does. */
module Numbers {
  import opened Wrappers
  import opened Strings

  /** The digits at the start of `s`, up to the first character that is not one. */
  function LeadingDigits(s: string): (r: string)
    ensures |r| <= |s| && r == s[..|r|]
    ensures forall k :: 0 <= k < |r| ==> IsDigit(r[k])
    ensures |r| < |s| ==> !IsDigit(s[|r|])
    decreases |s|
  {
    if |s| > 0 && IsDigit(s[0]) then [s[0]] + LeadingDigits(s[1..]) else ""
  }

  /**
   * `Number.parseInt(s, 10)`: leading whitespace is skipped, then an optional sign, then the
   * digits that follow; anything after them is ignored. With no digit the result is NaN,
   * here `None`.
   */
  function ParseInt(s: string): Option<int> {
    var t := TrimStart(s);
    var digits := LeadingDigits(Unsigned(t));
    if |digits| == 0 then None else Some(Sign(t) * DigitsValue(digits))
  }

  /** -1 after a leading minus, 1 otherwise. */
  function Sign(t: string): int {
    if |t| > 0 && t[0] == '-' then -1 else 1
  }

  /** The text after a leading sign, if there is one. */
  function Unsigned(t: string): (r: string)
    ensures |r| <= |t|
  {
    if |t| > 0 && (t[0] == '-' || t[0] == '+') then t[1..] else t
  }

  /** Reading stops at the first character that is not a digit. */
  lemma {:induction false} LeadingDigitsOf(d: string, rest: string)
    requires forall k :: 0 <= k < |d| ==> IsDigit(d[k])
    requires |rest| == 0 || !IsDigit(rest[0])
    ensures LeadingDigits(d + rest) == d
    decreases |d|
  {
    if |d| > 0 {
      assert (d + rest)[1..] == d[1..] + rest;
      LeadingDigitsOf(d[1..], rest);
      assert d == [d[0]] + d[1..];
    } else {
      assert d + rest == rest;
    }
  }

  /** Text that starts with a digit has no whitespace, sign or minus to skip. */
  lemma {:induction false} StartsWithDigit(s: string)
    requires |s| > 0 && IsDigit(s[0])
    ensures TrimStart(s) == s && Unsigned(s) == s && Sign(s) == 1
  {
    assert !IsSpace(s[0]) && s[0] != '-' && s[0] != '+';
  }

  /** After a minus, the text is the digits that follow it. */
  lemma {:induction false} StartsWithMinus(digits: string)
    requires |digits| > 0 && IsDigit(digits[0])
    ensures var s := "-" + digits; TrimStart(s) == s && Unsigned(s) == digits && Sign(s) == -1
  {
    var s := "-" + digits;
    assert s[0] == '-' && s[1..] == digits;
  }

  /** Reading text whose sign and digits are known. */
  lemma {:induction false} ParseIntOf(s: string, t: string, digits: string, sign: int)
    requires TrimStart(s) == s && Unsigned(s) == t && Sign(s) == sign
    requires LeadingDigits(t) == digits && |digits| > 0
    ensures ParseInt(s) == Some(sign * DigitsValue(digits))
  {
  }

  /** A numeral followed by anything that does not start with a digit reads as its value. */
  lemma {:induction false} ParseIntPrefix(d: string, rest: string)
    requires |d| > 0 && forall k :: 0 <= k < |d| ==> IsDigit(d[k])
    requires |rest| == 0 || !IsDigit(rest[0])
    ensures ParseInt(d + rest) == Some(DigitsValue(d))
  {
    var s := d + rest;
    assert s[0] == d[0];
    StartsWithDigit(s);
    LeadingDigitsOf(d, rest);
    ParseIntOf(s, s, d, 1);
  }

  /** A number's decimal digits, and nothing after them, read back as the number. */
  lemma {:induction false} NatToStringOnly(m: nat)
    ensures LeadingDigits(NatToString(m)) == NatToString(m) && DigitsValue(NatToString(m)) == m
  {
    NatToStringValue(m);
    LeadingDigitsOf(NatToString(m), "");
    assert NatToString(m) + "" == NatToString(m);
  }

  /** `String(n)` reads back as `n`, for every integer. */
  lemma {:induction false} ParseIntOfIntToString(n: int)
    ensures ParseInt(IntToString(n)) == Some(n)
  {
    var m: nat := if n < 0 then -n else n;
    var digits := NatToString(m);
    NatToStringOnly(m);
    if n < 0 {
      StartsWithMinus(digits);
      assert IntToString(n) == "-" + digits;
      ParseIntOf(IntToString(n), digits, digits, -1);
    } else {
      assert IntToString(n) == digits;
      StartsWithDigit(digits);
      ParseIntOf(digits, digits, digits, 1);
    }
  }
}

=== FILE: pgn.dfy ===
/**
 * PGN export: replay the stored moves into a fresh rules-library game, reading any
 * promotion piece back from the FEN after the move, and build the tag pairs. The Result
 * tag uses the values of section 8.1.1.7 of the PGN standard; the FEN piece-placement
 * field is the one of section 16.1.
 */
module Pgn {
  import opened Wrappers
  import opened Strings
  import opened Chess
  import opened ChessJs
  import opened GameTypes

  /** One rank of a FEN piece-placement field, expanded to a cell per square. */
  function ExpandRow(row: string): (cells: seq<Option<char>>)
  {
    if |row| == 0 then []
    else if IsDigit(row[0]) then seq(DigitValue(row[0]), _ => None) + ExpandRow(row[1..])
    else [Some(row[0])] + ExpandRow(row[1..])
  }

  /** The promotion pieces, lower-cased. */
  predicate PromotionPiece(c: char) {
    c in "qrbn"
  }

  /**
   * The scan over one rank: walk the characters, advancing the file by a digit's value or
   * by one, and stop at the character that starts on `file`.
   */
  function ScanRow(row: string, file: int, col: int): (r: Option<char>)
    ensures r.Some? ==> PromotionPiece(r.value)
    decreases |row|
  {
    if |row| == 0 then None
    else if col == file then
      var piece := Strings.ToLower(row[0]);
      if PromotionPiece(piece) then Some(piece) else None
    else if IsDigit(row[0]) then ScanRow(row[1..], file, col + DigitValue(row[0]))
    else ScanRow(row[1..], file, col + 1)
  }

  /**
   * On a well-formed rank (no '0' digit), the scan reads exactly the square `file` of the
   * expanded rank: a promotion piece there is returned lower-cased, and an empty square,
   * any other piece or a file off the rank gives nothing.
   */
  lemma {:induction false} ScanRowReadsSquare(row: string, file: int, col: int)
    requires forall k :: 0 <= k < |row| ==> row[k] != '0'
    requires col <= file
    ensures ScanRow(row, file, col) ==
      (var cells := ExpandRow(row);
       var i := file - col;
       if i < |cells| && cells[i].Some? && PromotionPiece(Strings.ToLower(cells[i].value))
       then Some(Strings.ToLower(cells[i].value)) else None)
    decreases |row|
  {
    if |row| > 0 {
      var cells := ExpandRow(row);
      var rest := ExpandRow(row[1..]);
      if col == file {
        if IsDigit(row[0]) {
          assert DigitValue(row[0]) >= 1;
          assert cells[0] == None;
        }
      } else if IsDigit(row[0]) {
        var d := DigitValue(row[0]);
        assert cells == seq(d, _ => None) + rest;
        if col + d <= file {
          ScanRowReadsSquare(row[1..], file, col + d);
          if file - col < |cells| {
            assert cells[file - col] == rest[file - col - d];
          }
        } else {
          assert cells[file - col] == None;
          ScanRowNoneBeforeStart(row[1..], file, col + d);
        }
      } else {
        ScanRowReadsSquare(row[1..], file, col + 1);
        assert cells == [Some(row[0])] + rest;
      }
    }
  }

  /** A scan that has already passed `file` finds nothing. */
  lemma {:induction false} ScanRowNoneBeforeStart(row: string, file: int, col: int)
    requires col > file
    ensures ScanRow(row, file, col).None?
    decreases |row|
  {
    if |row| > 0 {
      if IsDigit(row[0]) {
        ScanRowNoneBeforeStart(row[1..], file, col + DigitValue(row[0]));
      } else {
        ScanRowNoneBeforeStart(row[1..], file, col + 1);
      }
    }
  }

  /**
   * `detectPromotion`: nothing unless the destination rank is '1' or '8'; otherwise the
   * piece on the destination square of the placement field of `fenAfter`, if it is a
   * queen, rook, bishop or knight. `Err` is the `TypeError` of iterating a missing rank.
   */
  function DetectPromotion(fenAfter: string, to: string): (r: Result<Option<char>>)
    ensures (|to| < 2 || (to[1] != '1' && to[1] != '8')) ==> r == Ok(None)
    ensures r.Ok? && r.value.Some? ==> PromotionPiece(r.value.value)
    ensures |to| >= 2 && to[1] == '8' ==>
      r == Ok(ScanRow(Split(Split(fenAfter, ' ')[0], '/')[0], to[0] as int - 'a' as int, 0))
    ensures |to| >= 2 && to[1] == '1' ==>
      (r.Err? <==> |Split(Split(fenAfter, ' ')[0], '/')| < 8)
  {
    if |to| < 2 || (to[1] != '1' && to[1] != '8') then Ok(None)
    else
      var board := Split(fenAfter, ' ')[0];
      var file := to[0] as int - 'a' as int;
      var rank := if to[1] == '8' then 0 else 7;
      var rows := Split(board, '/');
      if rank >= |rows| then Err("rows[rank] is not iterable")
      else Ok(ScanRow(rows[rank], file, 0))
  }

  /** A queen on the fifth square of a rank such as "4Q3" is found; the empty squares before it are not. */
  lemma QueenAfterEmptyRunDetected()
    ensures ScanRow("4Q3", 4, 0) == Some('q')
    ensures ScanRow("4Q3", 2, 0) == None
  {
    assert "4Q3"[1..] == "Q3";
    assert ScanRow("Q3", 4, 4) == Some('q');
    ScanRowNoneBeforeStart("Q3", 2, 4);
  }

  /** The Result tag of section 8.1.1.7 of the PGN standard, from the stored winner. */
  function ResultTag(winner: Option<Color>): (r: string)
    ensures r == "1-0" <==> winner == Some(White)
    ensures r == "0-1" <==> winner == Some(Black)
    ensures r == "1/2-1/2" <==> winner.None?
  {
    match winner
    case Some(White) => "1-0"
    case Some(Black) => "0-1"
    case None => "1/2-1/2"
  }

  /** The White / Black tag: "provider (model)" for an AI, "Human" otherwise. */
  function PlayerTag(p: Player): (r: string)
    ensures p.ai.None? <==> r == "Human"
    ensures p.ai.Some? ==>
      r == AiModels.ProviderName(p.ai.value) + " (" + (if Filled(p.model) then p.model.value else "unknown") + ")"
  {
    match p.ai
    case None => "Human"
    case Some(provider) =>
      var model := if Filled(p.model) then p.model.value else "unknown";
      assert |AiModels.ProviderName(provider) + " (" + model + ")"| > 5;
      AiModels.ProviderName(provider) + " (" + model + ")"
  }

  /**
   * The tag pairs in insertion order. `date` is today's date already formatted, `variant`
   * the game's variant field, which the game schema does not declare.
   */
  function Headers(game: Game, date: string, variant: Option<string>): (r: seq<(string, string)>)
    ensures |r| == 8 || |r| == 9
    ensures r[0] == ("Event", "ChessArena.ai Benchmark") && r[1] == ("Site", "https://chessarena.ai")
    ensures r[2] == ("Date", date) && r[3] == ("Round", "1")
    ensures r[4] == ("White", PlayerTag(game.players.white)) && r[5] == ("Black", PlayerTag(game.players.black))
    ensures r[6] == ("Result", ResultTag(game.winner))
    ensures r[7] == ("Variant", if Filled(variant) then variant.value else "guided")
    ensures |r| == 9 <==> Filled(game.endGameReason)
    ensures |r| == 9 ==> r[8] == ("Termination", game.endGameReason.value)
  {
    var base := [
      ("Event", "ChessArena.ai Benchmark"),
      ("Site", "https://chessarena.ai"),
      ("Date", date),
      ("Round", "1"),
      ("White", PlayerTag(game.players.white)),
      ("Black", PlayerTag(game.players.black)),
      ("Result", ResultTag(game.winner)),
      ("Variant", if Filled(variant) then variant.value else "guided")];
    if Filled(game.endGameReason) then base + [("Termination", game.endGameReason.value)] else base
  }

  /** Applying one stored move; `None` is any throw inside the `try`, which skips the move. */
  function ApplyStored<G>(lib: Library<G>, g: G, m: GameMove): Option<G> {
    if |m.lastMove| < 2 then None
    else
      match DetectPromotion(m.fenAfter, m.lastMove[1])
      case Err(_) => None
      case Ok(promotion) =>
        match lib.moveSquares(g, m.lastMove[0], m.lastMove[1], promotion)
        case None => None
        case Some((next, _)) => Some(next)
  }

  /** The replay loop over the stored moves, with the indices of the moves that applied. */
  function Replay<G>(lib: Library<G>, g: G, moves: seq<GameMove>): (r: (G, seq<nat>))
    ensures |r.1| <= |moves|
    ensures forall k :: 0 <= k < |r.1| ==> r.1[k] < |moves|
    ensures forall k, j :: 0 <= k < j < |r.1| ==> r.1[k] < r.1[j]
    decreases |moves|
  {
    if |moves| == 0 then (g, [])
    else
      var init := moves[..|moves| - 1];
      var (h, applied) := Replay(lib, g, init);
      match ApplyStored(lib, h, moves[|moves| - 1])
      case None => (h, applied)
      case Some(next) => (next, applied + [|moves| - 1])
  }

  /** `[0, 1, …, n - 1]`. */
  function Indices(n: nat): (r: seq<nat>)
    ensures |r| == n && forall k :: 0 <= k < n ==> r[k] == k
  {
    if n == 0 then [] else Indices(n - 1) + [n - 1]
  }

  /** The move at index `k` applies to the game replayed from the moves before it. */
  predicate AppliesInTurn<G>(lib: Library<G>, g: G, moves: seq<GameMove>, k: nat)
    requires k < |moves|
  {
    ApplyStored(lib, Replay(lib, g, moves[..k]).0, moves[k]).Some?
  }

  /** When every stored move applies in turn, the replay skips none of them. */
  lemma {:induction false} ReplayAppliesAll<G>(lib: Library<G>, g: G, moves: seq<GameMove>)
    requires forall k :: 0 <= k < |moves| ==> AppliesInTurn(lib, g, moves, k)
    ensures Replay(lib, g, moves).1 == Indices(|moves|)
    decreases |moves|
  {
    if |moves| > 0 {
      var init := moves[..|moves| - 1];
      forall k | 0 <= k < |init| ensures AppliesInTurn(lib, g, init, k) {
        assert init[..k] == moves[..k];
        assert AppliesInTurn(lib, g, moves, k);
      }
      ReplayAppliesAll(lib, g, init);
      assert AppliesInTurn(lib, g, moves, |moves| - 1);
      assert moves[..|moves| - 1] == init;
    }
  }

  /** A move that fails to apply leaves the replayed game as it was. */
  lemma SkippedMoveChangesNothing<G>(lib: Library<G>, g: G, moves: seq<GameMove>)
    requires |moves| > 0 && !AppliesInTurn(lib, g, moves, |moves| - 1)
    ensures Replay(lib, g, moves).0 == Replay(lib, g, moves[..|moves| - 1]).0
    ensures Replay(lib, g, moves).1 == Replay(lib, g, moves[..|moves| - 1]).1
  {
  }

  /** The exported game: the replayed library game (whose `pgn()` writes the movetext) and the tags. */
  datatype PgnExport<G> = PgnExport(replayed: G, headers: seq<(string, string)>)

  function GeneratePgn<G>(lib: Library<G>, game: Game, moves: seq<GameMove>, date: string,
                          variant: Option<string>): (r: PgnExport<G>)
    ensures r.replayed == Replay(lib, lib.start, moves).0
    ensures |r.headers| >= 8 && r.headers[6] == ("Result", ResultTag(game.winner))
    ensures |r.headers| == 9 <==> Filled(game.endGameReason)
  {
    PgnExport(Replay(lib, lib.start, moves).0, Headers(game, date, variant))
  }
}

=== FILE: player_move_evaluation.dfy ===
/**
 * The `EvaluatePlayerMove` event handler: recover the move between two FENs, analyse the
 * position before and after it, and emit its normalised evaluation, quality and accuracy.
 * The engine is spawned only after the inputs are checked and is quit on every exit.
 * The engine answers `analyse(position, k)`, where `k` counts the requests of the session:
 * a time-limited search need not answer the same position the same way twice.
 */
module PlayerMoveEvaluation {
  import opened Wrappers
  import opened Chess
  import opened EngineSession
  import opened ScoreNormalizer
  import opened MoveRecovery

  /** What `evaluate_position` returns for one analysed position. */
  datatype PositionEvaluation<M> = PositionEvaluation(
    score: Score,
    normalized: real,
    bestMove: Option<M>,
    depth: nat,
    nodes: nat,
    nps: nat)
  {
    predicate IsMate() {
      score.Mate?
    }
  }

  /**
   * `evaluate_position` on one engine answer. The score is normalised first, and a mate-in-0
   * score (the side to move is checkmated) divides by zero there. The best move is the first
   * move of the principal variation, or absent when the engine sent none; an empty variation
   * has no first element and raises.
   */
  function EvaluatePosition<M>(a: Analysis<M>): (r: Result<PositionEvaluation<M>>)
    ensures r.Err? <==> a.relative == Mate(0) || a.pv == Some([])
    ensures a.relative == Mate(0) ==> r == Err("float division by zero")
    ensures r.Ok? ==> r.value.score == a.relative
    ensures r.Ok? ==> r.value.normalized == NormalizeScore(a.relative) && -1.0 <= r.value.normalized <= 1.0
    ensures r.Ok? ==> (r.value.bestMove.None? <==> a.pv.None?)
    ensures r.Ok? && a.pv.Some? ==> r.value.bestMove == Some(a.pv.value[0])
    ensures r.Ok? ==>
      (r.value.depth == a.depth.GetOr(0) && r.value.nodes == a.nodes.GetOr(0) && r.value.nps == a.nps.GetOr(0))
  {
    match NormalizeScoreAsWritten(a.relative)
    case Err(e) => Err(e)
    case Ok(normalized) =>
      if a.pv == Some([]) then Err("list index out of range")
      else
        NormalizeScoreAgrees(a.relative);
        var best := match a.pv case None => None case Some(pv) => Some(pv[0]);
        Ok(PositionEvaluation(a.relative, normalized, best, a.depth.GetOr(0), a.nodes.GetOr(0), a.nps.GetOr(0)))
  }

  /** An analysis request that may itself fail, followed by `evaluate_position`. */
  function Evaluate<M>(answer: Result<Analysis<M>>): (r: Result<PositionEvaluation<M>>)
    ensures answer.Err? ==> r.Err?
    ensures answer.Ok? ==> r == EvaluatePosition(answer.value)
  {
    match answer
    case Err(e) => Err(e)
    case Ok(a) => EvaluatePosition(a)
  }

  /**
   * Move accuracy on the 0-100 scale: 100 for the engine's best move, otherwise
   * `50 + 50 * quality` clipped to [0, 100].
   */
  function MoveAccuracy(playedBest: bool, quality: real): (r: real)
    ensures 0.0 <= r <= 100.0
    ensures playedBest ==> r == 100.0
    ensures !playedBest && -1.0 <= quality <= 1.0 ==> r == 50.0 + 50.0 * quality
    ensures !playedBest && quality >= 1.0 ==> r == 100.0
    ensures !playedBest && quality <= -1.0 ==> r == 0.0
  {
    if playedBest then 100.0 else Clamp(0.0, 100.0, 50.0 + quality * 50.0)
  }

  /** A move that improves the position more is never rated less accurate. */
  lemma MoveAccuracyMonotone(q1: real, q2: real)
    requires q1 <= q2
    ensures MoveAccuracy(false, q1) <= MoveAccuracy(false, q2)
  {
  }

  /** The emitted `player-move-score` payload. */
  datatype PlayerMoveScore = PlayerMoveScore(
    evaluation: real,
    evaluationCp: Option<int>,
    isMate: bool,
    mateIn: Option<int>,
    bestMove: Option<string>,
    movePlayed: string,
    moveQuality: real,
    moveAccuracy: real,
    gameId: Option<string>,
    moveId: Option<string>,
    color: Color)

  datatype PlayerMoveInput = PlayerMoveInput(
    fenBefore: Option<string>,
    fenAfter: Option<string>,
    gameId: Option<string>,
    moveId: Option<string>)

  /**
   * The payload for a recovered move, from the evaluations before and after it. The
   * evaluation, mate data and best move all describe the position AFTER the move, seen
   * from the side then to move; the colour is the side that moved.
   */
  function MoveScore<P, M(==)>(rules: Rules<P, M>, board: P, move: M,
                           before: PositionEvaluation<M>, after: PositionEvaluation<M>,
                           input: PlayerMoveInput): (r: PlayerMoveScore)
    ensures r.evaluation == after.normalized && r.isMate == after.IsMate()
    ensures r.moveQuality == after.normalized - before.normalized
    ensures r.moveAccuracy == MoveAccuracy(before.bestMove == Some(move), r.moveQuality)
    ensures 0.0 <= r.moveAccuracy <= 100.0
    ensures before.bestMove == Some(move) ==> r.moveAccuracy == 100.0
    ensures r.evaluationCp.Some? <==> !after.IsMate()
    ensures after.score.Cp? ==> r.evaluationCp == Some(after.score.cp)
    ensures r.mateIn.Some? <==> after.IsMate()
    ensures after.score.Mate? ==> r.mateIn == Some(after.score.moves)
    ensures r.bestMove == (if after.bestMove.Some? then Some(rules.uci(after.bestMove.value)) else None)
    ensures r.movePlayed == rules.uci(move)
    ensures r.color != rules.turn(rules.push(board, move))
    ensures r.gameId == input.gameId && r.moveId == input.moveId
  {
    var quality := after.normalized - before.normalized;
    PlayerMoveScore(
      after.normalized,
      if after.IsMate() then None else after.score.Centipawns(),
      after.IsMate(),
      if after.IsMate() then Some(after.score.moves) else None,
      if after.bestMove.Some? then Some(rules.uci(after.bestMove.value)) else None,
      rules.uci(move),
      quality,
      MoveAccuracy(before.bestMove == Some(move), quality),
      input.gameId,
      input.moveId,
      if rules.turn(rules.push(board, move)) == Black then White else Black)
  }

  /**
   * The payload in terms of the engine's two answers: the evaluation is the normalised score
   * after the move, the quality is how much the normalised score rose, and the accuracy is
   * full exactly for the engine's first choice or a quality of at least 1.
   */
  lemma MoveScoreOfAnswers<P, M>(rules: Rules<P, M>, board: P, move: M,
                                     a0: Analysis<M>, a1: Analysis<M>, input: PlayerMoveInput)
    requires EvaluatePosition(a0).Ok? && EvaluatePosition(a1).Ok?
    ensures var r := MoveScore(rules, board, move, EvaluatePosition(a0).value, EvaluatePosition(a1).value, input);
      && r.evaluation == NormalizeScore(a1.relative)
      && r.moveQuality == NormalizeScore(a1.relative) - NormalizeScore(a0.relative)
      && (r.isMate <==> a1.relative.Mate?)
      && (r.moveAccuracy == 100.0 <==> (a0.pv.Some? && a0.pv.value[0] == move) || r.moveQuality >= 1.0)
  {
  }

  /**
   * Of two moves from the same position, neither the engine's best, the one leaving the
   * higher normalised score is rated at least as accurate.
   */
  lemma BetterMoveMoreAccurate<P, M>(rules: Rules<P, M>, board: P, m1: M, m2: M,
                                         before: PositionEvaluation<M>,
                                         after1: PositionEvaluation<M>, after2: PositionEvaluation<M>,
                                         input: PlayerMoveInput)
    requires before.bestMove != Some(m1) && before.bestMove != Some(m2)
    requires after1.normalized <= after2.normalized
    ensures MoveScore(rules, board, m1, before, after1, input).moveAccuracy
         <= MoveScore(rules, board, m2, before, after2, input).moveAccuracy
  {
    MoveAccuracyMonotone(after1.normalized - before.normalized, after2.normalized - before.normalized);
  }

  /**
   * The body of the `try` block, once the engine runs: returns the outcome and the
   * positions analysed, in order.
   */
  method ScorePlayedMove<P, M(==)>(rules: Rules<P, M>, analyse: (P, nat) -> Result<Analysis<M>>,
                                   input: PlayerMoveInput, fenBefore: string, fenAfter: string)
    returns (outcome: Result<PlayerMoveScore>, analysed: seq<P>)
    ensures Recover(rules, fenBefore, fenAfter).None? ==> outcome.Err? && analysed == []
    ensures Recover(rules, fenBefore, fenAfter).Some? ==>
      var (board, move) := Recover(rules, fenBefore, fenAfter).value;
      && 1 <= |analysed| <= 3
      && analysed[0] == board
      && forall k :: 1 <= k < |analysed| ==> analysed[k] == rules.push(board, move)
    ensures outcome.Ok? ==> Recover(rules, fenBefore, fenAfter).Some?
    ensures outcome.Ok? ==> (
      var (board, move) := Recover(rules, fenBefore, fenAfter).value;
      && 2 <= |analysed|
      && outcome.value.movePlayed == rules.uci(move)
      && outcome.value.color != rules.turn(rules.push(board, move))
      && 0.0 <= outcome.value.moveAccuracy <= 100.0
      && (|analysed| == 2 ==> outcome.value.moveAccuracy == 100.0)
      && analyse(board, 0).Ok? && analyse(board, 0).value.relative != Mate(0)
      && analyse(rules.push(board, move), 1).Ok? && analyse(rules.push(board, move), 1).value.relative != Mate(0))
    ensures outcome.Ok? ==> (
      var (board, move) := Recover(rules, fenBefore, fenAfter).value;
      var before := Evaluate(analyse(board, 0));
      var after := Evaluate(analyse(rules.push(board, move), 1));
      && before.Ok? && after.Ok?
      && outcome.value == MoveScore(rules, board, move, before.value, after.value, input)
      && (|analysed| == 3 <==> before.value.bestMove != Some(move))
      && (|analysed| == 3 ==> Evaluate(analyse(rules.push(board, move), 2)).Ok?))
    ensures outcome.Ok? ==> outcome.value.gameId == input.gameId && outcome.value.moveId == input.moveId
  {
    analysed := [];
    var parsed := rules.parse(fenBefore);
    if parsed.None? {
      return Err("invalid fen"), [];
    }
    var board := parsed.value;
    var found, stack := FindMove(rules, board, fenAfter);
    if found.None? {
      return Err("Could not determine the move between the provided FENs"), [];
    }
    var move := found.value;
    assert Recover(rules, fenBefore, fenAfter) == Some((board, move));

    analysed := [board];
    var evalBefore := Evaluate(analyse(board, 0));
    if evalBefore.Err? {
      return Err(evalBefore.message), analysed;
    }
    var after := rules.push(board, move);
    analysed := analysed + [after];
    var evalAfter := Evaluate(analyse(after, 1));
    if evalAfter.Err? {
      return Err(evalAfter.message), analysed;
    }
    if evalBefore.value.bestMove != Some(move) {
      // the source analyses the position after the move a third time and discards it
      analysed := analysed + [after];
      var discarded := Evaluate(analyse(after, 2));
      if discarded.Err? {
        return Err(discarded.message), analysed;
      }
    }
    outcome := Ok(MoveScore(rules, board, move, evalBefore.value, evalAfter.value, input));
  }

  /**
   * The handler. Missing FENs or a missing engine path fail before anything is spawned;
   * otherwise the log is one well-scoped engine session whatever happens inside it.
   */
  method HandlePlayerMove<P, M(==)>(rules: Rules<P, M>, analyse: (P, nat) -> Result<Analysis<M>>,
                                    input: PlayerMoveInput, stockfishPath: Option<string>)
    returns (outcome: Result<PlayerMoveScore>, log: seq<Event<P>>)
    ensures !Filled(input.fenBefore) || !Filled(input.fenAfter) || !Filled(stockfishPath)
      ==> outcome.Err? && log == []
    ensures Filled(input.fenBefore) && Filled(input.fenAfter) && Filled(stockfishPath)
      ==> Scoped(log, Analysed(log)) && CountSpawns(log) == 1 && CountQuits(log) == 1
    ensures Filled(input.fenBefore) && Filled(input.fenAfter)
      && Recover(rules, input.fenBefore.value, input.fenAfter.value).None?
      ==> outcome.Err? && Analysed(log) == []
    ensures outcome.Ok? ==>
      (&& Filled(input.fenBefore) && Filled(input.fenAfter)
       && Recover(rules, input.fenBefore.value, input.fenAfter.value).Some?
       && 2 <= |Analysed(log)| <= 3
       && outcome.value.gameId == input.gameId && outcome.value.moveId == input.moveId)
  {
    if !Filled(input.fenBefore) || !Filled(input.fenAfter) {
      return Err("Both fenBefore and fenAfter must be provided"), [];
    }
    if !Filled(stockfishPath) {
      return Err("STOCKFISH_PATH environment variable not set"), [];
    }
    var analysed;
    outcome, analysed := ScorePlayedMove(rules, analyse, input, input.fenBefore.value, input.fenAfter.value);
    log := SessionLog(analysed);
  }
}

=== FILE: player_strength.dfy ===
/**
 * `analyzePlayerStrength`: a player's evaluations over several games, sorted by time, read
 * from the player's side (black's are negated), and summarised as a mean strength, a trend
 * that weighs recent games more, and the share of strong games. The evaluation record's
 * declaring stream file is not part of this model; its shape follows the fields the function
 * reads. The standard deviation and the consistency derived from it are left out.
 */
module PlayerStrength {
  import opened Wrappers
  import opened Sorting
  import opened Stats

  /** One game's evaluation: the player's colour name, the score, and the time it was recorded. */
  datatype GameEvaluation = GameEvaluation(color: string, evaluation: real, timestamp: Option<int>)

  datatype PlayerAnalysis = PlayerAnalysis(
    strength: real,
    trend: real,
    reliability: real,
    gamesAnalyzed: nat,
    whiteGames: nat,
    blackGames: nat)

  /** An advantage of at least one pawn makes a strong game. */
  const StrongThreshold: real := 1.0

  /** The evaluation from the player's side: white's as is, anyone else's negated. */
  function Adjust(e: GameEvaluation): real {
    if e.color == "white" then e.evaluation else -e.evaluation
  }

  /** 1 for a strong game, 0 otherwise, so that summing counts the strong games. */
  function Strong(e: GameEvaluation): real {
    if Adjust(e) >= StrongThreshold then 1.0 else 0.0
  }

  /** The sort key `a.timestamp || 0`: a missing timestamp sorts as 0. */
  function TimeKey(e: GameEvaluation): int {
    if e.timestamp.Some? then e.timestamp.value else 0
  }

  predicate EarlierOrSame(a: GameEvaluation, b: GameEvaluation) {
    TimeKey(a) <= TimeKey(b)
  }

  lemma EarlierOrSameIsTotalPreorder()
    ensures TotalPreorder(EarlierOrSame)
  {
  }

  /** The evaluations in time order; equal times keep their input order. */
  function ByTime(evals: seq<GameEvaluation>): (r: seq<GameEvaluation>)
    ensures multiset(r) == multiset(evals) && |r| == |evals|
    ensures forall i, j :: 0 <= i < j < |r| ==> TimeKey(r[i]) <= TimeKey(r[j])
    ensures forall e :: TiedWith(r, EarlierOrSame, e) == TiedWith(evals, EarlierOrSame, e)
  {
    EarlierOrSameIsTotalPreorder();
    var r := SortBy(evals, EarlierOrSame);
    forall e ensures TiedWith(r, EarlierOrSame, e) == TiedWith(evals, EarlierOrSame, e) {
      SortByIsStable(evals, EarlierOrSame, e);
    }
    assert forall i, j :: 0 <= i < j < |r| ==> EarlierOrSame(r[i], r[j]);
    r
  }

  /** The sum of `f` over the evaluations. */
  function SumOf(s: seq<GameEvaluation>, f: GameEvaluation -> real): real {
    if |s| == 0 then 0.0 else SumOf(s[..|s| - 1], f) + f(s[|s| - 1])
  }

  lemma {:induction false} SumOfConcat(a: seq<GameEvaluation>, b: seq<GameEvaluation>, f: GameEvaluation -> real)
    ensures SumOf(a + b, f) == SumOf(a, f) + SumOf(b, f)
  {
    if |b| > 0 {
      assert (a + b)[..|a + b| - 1] == a + b[..|b| - 1];
      SumOfConcat(a, b[..|b| - 1], f);
    } else {
      assert a + b == a;
    }
  }

  /** A sum does not depend on the order of its terms. */
  lemma {:induction false} SumOfPermutation(a: seq<GameEvaluation>, b: seq<GameEvaluation>, f: GameEvaluation -> real)
    requires multiset(a) == multiset(b)
    ensures SumOf(a, f) == SumOf(b, f)
    decreases |a|
  {
    if |a| > 0 {
      var x := a[|a| - 1];
      var init := a[..|a| - 1];
      assert a == init + [x];
      assert x in multiset(b);
      var i :| 0 <= i < |b| && b[i] == x;
      var rest := b[..i] + b[i + 1..];
      assert b == b[..i] + [x] + b[i + 1..];
      assert multiset(rest) == multiset(b) - multiset{x};
      assert multiset(init) == multiset(a) - multiset{x};
      SumOfPermutation(init, rest, f);
      SumOfConcat(b[..i] + [x], b[i + 1..], f);
      SumOfConcat(b[..i], [x], f);
      SumOfConcat(b[..i], b[i + 1..], f);
      assert SumOf([x], f) == f(x) by { assert [x][..0] == []; }
    } else {
      assert |b| == |multiset(b)| == 0;
    }
  }

  /**
   * `x` times `w`. The bounds below are stated with it so that they stay comparisons between
   * whole terms rather than products the solver rewrites.
   */
  function Scale(x: real, w: real): real {
    x * w
  }

  /** A sum of terms each in [lo, hi] lies between `lo` and `hi` times the number of terms. */
  lemma {:induction false} SumOfBounds(s: seq<GameEvaluation>, f: GameEvaluation -> real, lo: real, hi: real)
    requires forall k :: 0 <= k < |s| ==> lo <= f(s[k]) <= hi
    ensures Scale(lo, |s| as real) <= SumOf(s, f) <= Scale(hi, |s| as real)
  {
    if |s| > 0 {
      var n := |s| - 1;
      var init := s[..n];
      forall k | 0 <= k < |init| ensures lo <= f(init[k]) <= hi {
        assert init[k] == s[k];
      }
      SumOfBounds(init, f, lo, hi);
      assert lo * |s| as real == lo * n as real + lo && hi * |s| as real == hi * n as real + hi;
    }
  }

  /** The trend's numerator: the i-th value of the list (from 0) weighs i + 1. */
  function WeightedSum(s: seq<GameEvaluation>): real {
    if |s| == 0 then 0.0 else WeightedSum(s[..|s| - 1]) + |s| as real * Adjust(s[|s| - 1])
  }

  /** The trend's denominator for `n` values, as the source computes it. */
  function WeightTotal(n: nat): real {
    (n * (n + 1)) as real / 2.0
  }

  /** 1 + 2 + ... + n. */
  function Triangle(n: nat): (t: real)
    ensures t >= 0.0
  {
    if n == 0 then 0.0 else Triangle(n - 1) + n as real
  }

  lemma {:induction false} TrianglePositive(n: nat)
    requires n > 0
    ensures Triangle(n) > 0.0
  {
    if n > 1 {
      TrianglePositive(n - 1);
    }
  }

  /** The source's closed form is the sum of the weights 1, 2, ..., n. */
  lemma {:induction false} WeightTotalIsTriangle(n: nat)
    ensures WeightTotal(n) == Triangle(n)
  {
    if n > 0 {
      WeightTotalIsTriangle(n - 1);
      assert n * (n + 1) == (n - 1) * n + 2 * n;
    }
  }

  lemma Distribute(a: real, x: real, y: real)
    ensures a * (x + y) == a * x + a * y
  {
  }

  lemma ScaleBelow(x: real, y: real, n: real)
    requires x <= y && n >= 0.0
    ensures x * n <= y * n
  {
    assert (y - x) * n >= 0.0;
  }

  /** Adding a term of at least `lo` with weight `w` keeps the sum above `lo` times the weights. */
  lemma StepAbove(prev: real, before: real, w: real, last: real, lo: real)
    requires Scale(lo, before) <= prev && lo <= last && w >= 0.0
    ensures Scale(lo, before + w) <= prev + w * last
  {
    ScaleBelow(lo, last, w);
    Distribute(lo, before, w);
    assert Scale(lo, before + w) == Scale(lo, before) + lo * w;
  }

  /** Adding a term of at most `hi` with weight `w` keeps the sum below `hi` times the weights. */
  lemma StepBelow(prev: real, before: real, w: real, last: real, hi: real)
    requires prev <= Scale(hi, before) && last <= hi && w >= 0.0
    ensures prev + w * last <= Scale(hi, before + w)
  {
    ScaleBelow(last, hi, w);
    Distribute(hi, before, w);
    assert Scale(hi, before + w) == Scale(hi, before) + hi * w;
  }

  /** Each weight is positive, so a weighted sum of values of at least `lo` is at least `lo` times the total weight. */
  lemma {:induction false} WeightedSumAbove(s: seq<GameEvaluation>, lo: real)
    requires forall k :: 0 <= k < |s| ==> lo <= Adjust(s[k])
    ensures Scale(lo, Triangle(|s|)) <= WeightedSum(s)
  {
    if |s| > 0 {
      var n := |s|;
      var init := s[..n - 1];
      assert forall k :: 0 <= k < |init| ==> init[k] == s[k];
      WeightedSumAbove(init, lo);
      StepAbove(WeightedSum(init), Triangle(n - 1), n as real, Adjust(s[n - 1]), lo);
    }
  }

  /** Likewise a weighted sum of values of at most `hi` is at most `hi` times the total weight. */
  lemma {:induction false} WeightedSumBelow(s: seq<GameEvaluation>, hi: real)
    requires forall k :: 0 <= k < |s| ==> Adjust(s[k]) <= hi
    ensures WeightedSum(s) <= Scale(hi, Triangle(|s|))
  {
    if |s| > 0 {
      var n := |s|;
      var init := s[..n - 1];
      assert forall k :: 0 <= k < |init| ==> init[k] == s[k];
      WeightedSumBelow(init, hi);
      StepBelow(WeightedSum(init), Triangle(n - 1), n as real, Adjust(s[n - 1]), hi);
    }
  }

  /** `a / n` for a positive `n`, the number that `n` times gives `a`. */
  function Ratio(a: real, n: real): (q: real)
    requires n > 0.0
    ensures q * n == a
  {
    a / n
  }

  /** A ratio of a number between `lo` and `hi` times `n` lies between `lo` and `hi`. */
  lemma RatioBetween(a: real, n: real, lo: real, hi: real)
    requires n > 0.0 && Scale(lo, n) <= a <= Scale(hi, n)
    ensures lo <= Ratio(a, n) <= hi
  {
    ScaledOrder(lo, Ratio(a, n), n);
    ScaledOrder(Ratio(a, n), hi, n);
  }

  /** A ratio is 1 exactly for the whole and 0 exactly for nothing. */
  lemma RatioExtremes(a: real, n: real)
    requires n > 0.0
    ensures Ratio(a, n) == 1.0 <==> a == n
    ensures Ratio(a, n) == 0.0 <==> a == 0.0
  {
    var q := Ratio(a, n);
    assert (q - 1.0) * n == a - n;
    if a == n {
      ScaledOrder(q, 1.0, n);
      ScaledOrder(1.0, q, n);
    }
    if a == 0.0 {
      ScaledOrder(q, 0.0, n);
      ScaledOrder(0.0, q, n);
    }
  }

  /** A part of a whole, as a percentage, lies in [0, 100]. */
  lemma ShareBounds(part: real, whole: real)
    requires 0.0 <= part <= whole && whole > 0.0
    ensures 0.0 <= Ratio(part, whole) * 100.0 <= 100.0
  {
    ScaledOrder(0.0, Ratio(part, whole), whole);
    ScaledOrder(Ratio(part, whole), 1.0, whole);
  }

  /** The number of evaluations played as white. */
  function CountWhite(s: seq<GameEvaluation>): (n: nat)
    ensures n <= |s|
  {
    if |s| == 0 then 0 else CountWhite(s[..|s| - 1]) + (if s[|s| - 1].color == "white" then 1 else 0)
  }

  /**
   * The figures of a non-empty, time-ordered list: the mean, the weighted mean and the
   * percentage of strong games.
   */
  function Summarize(sorted: seq<GameEvaluation>, whiteGames: nat, blackGames: nat): (r: PlayerAnalysis)
    requires |sorted| > 0
    ensures r.gamesAnalyzed == |sorted| && r.whiteGames == whiteGames && r.blackGames == blackGames
    ensures r.strength == Ratio(SumOf(sorted, Adjust), |sorted| as real)
    ensures r.trend == Ratio(WeightedSum(sorted), Triangle(|sorted|))
    ensures r.reliability == Ratio(SumOf(sorted, Strong), |sorted| as real) * 100.0
    ensures 0.0 <= r.reliability <= 100.0
  {
    var n := |sorted| as real;
    SumOfBounds(sorted, Strong, 0.0, 1.0);
    ShareBounds(SumOf(sorted, Strong), n);
    WeightTotalIsTriangle(|sorted|);
    PlayerAnalysis(Ratio(SumOf(sorted, Adjust), n), Ratio(WeightedSum(sorted), WeightTotal(|sorted|)),
                   Ratio(SumOf(sorted, Strong), n) * 100.0, |sorted|, whiteGames, blackGames)
  }

  /**
   * The analysis. With no evaluations everything is 0. Otherwise the evaluations are put in
   * time order and summarised, and the games are counted by colour.
   */
  function AnalyzePlayerStrength(evals: seq<GameEvaluation>): (r: PlayerAnalysis)
    ensures |evals| == 0 ==> r == PlayerAnalysis(0.0, 0.0, 0.0, 0, 0, 0)
    ensures r.gamesAnalyzed == |evals| == r.whiteGames + r.blackGames && r.whiteGames == CountWhite(evals)
    ensures 0.0 <= r.reliability <= 100.0
    ensures |evals| > 0 ==> r == Summarize(ByTime(evals), CountWhite(evals), |evals| - CountWhite(evals))
  {
    if |evals| == 0 then PlayerAnalysis(0.0, 0.0, 0.0, 0, 0, 0)
    else Summarize(ByTime(evals), CountWhite(evals), |evals| - CountWhite(evals))
  }

  /**
   * Sorting does not change the strength or the reliability: the strength is the mean of the
   * player-side evaluations and the reliability the percentage of strong games, in any order.
   */
  lemma AnalysisIgnoresOrder(evals: seq<GameEvaluation>)
    requires |evals| > 0
    ensures AnalyzePlayerStrength(evals).strength == Ratio(SumOf(evals, Adjust), |evals| as real)
    ensures AnalyzePlayerStrength(evals).reliability == Ratio(SumOf(evals, Strong), |evals| as real) * 100.0
  {
    var sorted := ByTime(evals);
    SumOfPermutation(sorted, evals, Adjust);
    SumOfPermutation(sorted, evals, Strong);
  }

  /** Reordering keeps every player-side evaluation within the same bounds. */
  lemma PermutationKeepsBounds(s: seq<GameEvaluation>, t: seq<GameEvaluation>, lo: real, hi: real)
    requires multiset(s) == multiset(t)
    requires forall k :: 0 <= k < |s| ==> lo <= Adjust(s[k]) <= hi
    ensures forall k :: 0 <= k < |t| ==> lo <= Adjust(t[k]) <= hi
  {
    forall k | 0 <= k < |t| ensures lo <= Adjust(t[k]) <= hi {
      assert t[k] in multiset(s);
      var j :| 0 <= j < |s| && s[j] == t[k];
    }
  }

  /**
   * The strength is the mean of the player-side evaluations, so it lies between the lowest
   * and the highest of them.
   */
  lemma StrengthWithinRange(evals: seq<GameEvaluation>, lo: real, hi: real)
    requires |evals| > 0
    requires forall k :: 0 <= k < |evals| ==> lo <= Adjust(evals[k]) <= hi
    ensures lo <= AnalyzePlayerStrength(evals).strength <= hi
  {
    AnalysisIgnoresOrder(evals);
    SumOfBounds(evals, Adjust, lo, hi);
    RatioBetween(SumOf(evals, Adjust), |evals| as real, lo, hi);
  }

  /**
   * The trend is a weighted mean of the player-side evaluations, so it too lies between the
   * lowest and the highest of them; a player who always scores the same has that score as
   * trend, however the games are ordered.
   */
  lemma TrendWithinRange(evals: seq<GameEvaluation>, lo: real, hi: real)
    requires |evals| > 0
    requires forall k :: 0 <= k < |evals| ==> lo <= Adjust(evals[k]) <= hi
    ensures lo <= AnalyzePlayerStrength(evals).trend <= hi
  {
    var sorted := ByTime(evals);
    PermutationKeepsBounds(evals, sorted, lo, hi);
    WeightedBetween(sorted, lo, hi);
  }

  lemma WeightedBetween(sorted: seq<GameEvaluation>, lo: real, hi: real)
    requires |sorted| > 0
    requires forall k :: 0 <= k < |sorted| ==> lo <= Adjust(sorted[k]) <= hi
    ensures lo <= Ratio(WeightedSum(sorted), Triangle(|sorted|)) <= hi
  {
    WeightedSumAbove(sorted, lo);
    WeightedSumBelow(sorted, hi);
    TrianglePositive(|sorted|);
    RatioBetween(WeightedSum(sorted), Triangle(|sorted|), lo, hi);
  }

  /** The reliability is 100 exactly when every game is strong, and 0 exactly when none is. */
  lemma ReliabilityExtremes(evals: seq<GameEvaluation>)
    requires |evals| > 0
    ensures AnalyzePlayerStrength(evals).reliability == 100.0 <==> forall k :: 0 <= k < |evals| ==> Strong(evals[k]) == 1.0
    ensures AnalyzePlayerStrength(evals).reliability == 0.0 <==> forall k :: 0 <= k < |evals| ==> Strong(evals[k]) == 0.0
  {
    AnalysisIgnoresOrder(evals);
    SumOfIndicator(evals);
    RatioExtremes(SumOf(evals, Strong), |evals| as real);
  }

  /** The count of strong games is the number of games exactly when all are strong, 0 exactly when none is. */
  lemma {:induction false} SumOfIndicator(s: seq<GameEvaluation>)
    ensures 0.0 <= SumOf(s, Strong) <= |s| as real
    ensures SumOf(s, Strong) == |s| as real <==> forall k :: 0 <= k < |s| ==> Strong(s[k]) == 1.0
    ensures SumOf(s, Strong) == 0.0 <==> forall k :: 0 <= k < |s| ==> Strong(s[k]) == 0.0
  {
    if |s| > 0 {
      var init := s[..|s| - 1];
      SumOfIndicator(init);
      assert forall k :: 0 <= k < |init| ==> init[k] == s[k];
    }
  }
}

=== FILE: provider_options.dfy ===
/** The "maximum reasoning" options passed to each provider's SDK for a given model. */
module ProviderOptions {
  import opened Strings
  import opened AiModels

  /** The options object; `NoOptions` is the empty object `{}`. */
  datatype ReasoningOptions =
    | NoOptions
    | OpenAiEffort(effort: string)
    | AnthropicThinking(budgetTokens: nat)
    | GoogleThinking(thinkingBudget: nat)
    | XaiEffort(effort: string)

  /** The SDK key under which the options object sits, for a non-empty object. */
  function OptionsKey(o: ReasoningOptions): string
    requires !o.NoOptions?
  {
    match o
    case OpenAiEffort(_) => "openai"
    case AnthropicThinking(_) => "anthropic"
    case GoogleThinking(_) => "google"
    case XaiEffort(_) => "xai"
  }

  /** The SDK key that belongs to each provider. */
  function SdkKey(p: Provider): string {
    match p
    case OpenAi => "openai"
    case Claude => "anthropic"
    case Gemini => "google"
    case Grok => "xai"
  }

  function MaxReasoningOptions(p: Provider, model: string): (r: ReasoningOptions)
    ensures !r.NoOptions? ==> OptionsKey(r) == SdkKey(p)
    ensures r.OpenAiEffort? || r.XaiEffort? ==> r.effort == "high"
    ensures r.AnthropicThinking? ==> r.budgetTokens == 16000
    ensures r.GoogleThinking? ==> r.thinkingBudget == 32768
  {
    match p
    case OpenAi => if StartsWith(model, "gpt-5") then OpenAiEffort("high") else NoOptions
    case Claude =>
      if Contains(model, "-4-") || Contains(model, "-4") then AnthropicThinking(16000) else NoOptions
    case Gemini =>
      if Contains(model, "gemini-2.5") || Contains(model, "gemini-3") then GoogleThinking(32768) else NoOptions
    case Grok => if model == "grok-3-mini" then XaiEffort("high") else NoOptions
  }

  /**
   * Which models get options: a `gpt-5` prefix for OpenAI, the text "-4" anywhere for Claude
   * (the separate "-4-" test is subsumed by it), a 2.5 or 3 family name for Gemini, and
   * exactly `grok-3-mini` for Grok.
   */
  lemma ReasoningEnabledExactly(p: Provider, model: string)
    ensures p == OpenAi ==> (!MaxReasoningOptions(p, model).NoOptions? <==> StartsWith(model, "gpt-5"))
    ensures p == Claude ==> (!MaxReasoningOptions(p, model).NoOptions? <==> Contains(model, "-4"))
    ensures p == Gemini ==>
      (!MaxReasoningOptions(p, model).NoOptions? <==> Contains(model, "gemini-2.5") || Contains(model, "gemini-3"))
    ensures p == Grok ==> (!MaxReasoningOptions(p, model).NoOptions? <==> model == "grok-3-mini")
  {
    if p == Claude && Contains(model, "-4-") {
      assert "-4-" == "-4" + "-";
      ContainsPrefixOfPattern(model, "-4", "-");
    }
  }

  /**
   * Over the supported models: every GPT-5 model and no older OpenAI model gets options, and
   * `grok-3-mini` is the only Grok model that does.
   */
  lemma SupportedModelsWithReasoning()
    ensures MaxReasoningOptions(OpenAi, "gpt-5-nano-2025-08-07") == OpenAiEffort("high")
    ensures MaxReasoningOptions(OpenAi, "gpt-4.1-mini-2025-04-14") == NoOptions
    ensures MaxReasoningOptions(OpenAi, "o4-mini-2025-04-16") == NoOptions
    ensures MaxReasoningOptions(Grok, "grok-3-mini") == XaiEffort("high")
    ensures MaxReasoningOptions(Grok, "grok-4-fast") == NoOptions
  {
    assert "gpt-4.1-mini-2025-04-14"[4] != "gpt-5"[4];
    assert "o4-mini-2025-04-16"[0] != "gpt-5"[0];
  }
}

=== FILE: purge.dfy ===
/**
 * The hourly purge of live AI games (`PurgeStuckGames`): a game is removed when it has no
 * creation time or was created more than fifteen minutes ago. The clock reading and
 * `new Date(text)` are parameters.
 */
module Purge {
  import opened Wrappers

  const FifteenMinutes: int := 1000 * 60 * 15

  /** A live AI game as the purge sees it: its key and its creation time as stored. */
  datatype LiveGame = LiveGame(id: string, createdAt: Option<string>)

  /**
   * `shouldPurgeGame`: a missing or empty creation time purges; otherwise the game's age must
   * exceed fifteen minutes, and an unreadable date (NaN age) never does.
   */
  function ShouldPurgeGame(game: LiveGame, now: int, parseDate: string -> Option<int>): (purge: bool)
    ensures !Filled(game.createdAt) ==> purge
    ensures Filled(game.createdAt) ==>
      (purge <==> parseDate(game.createdAt.value).Some? && parseDate(game.createdAt.value).value < now - FifteenMinutes)
  {
    if !Filled(game.createdAt) then true
    else
      match parseDate(game.createdAt.value)
      case None => false
      case Some(createdAt) => now - createdAt > FifteenMinutes
  }

  /** A game exactly fifteen minutes old, or one created in the future, is kept. */
  lemma KeptAtFifteenMinutesOrFuture(game: LiveGame, now: int, parseDate: string -> Option<int>)
    requires Filled(game.createdAt) && parseDate(game.createdAt.value).Some?
    requires parseDate(game.createdAt.value).value == now - FifteenMinutes || parseDate(game.createdAt.value).value > now
    ensures !ShouldPurgeGame(game, now, parseDate)
  {
  }

  /**
   * The purge loop over the stored games: returns the games left and the keys deleted, in
   * order. Exactly the games the rule picks are deleted, and every other game stays.
   */
  method PurgeStuckGames(games: seq<LiveGame>, now: int, parseDate: string -> Option<int>)
    returns (kept: seq<LiveGame>, deleted: seq<string>)
    ensures |kept| + |deleted| == |games|
    ensures forall g :: g in kept <==> g in games && !ShouldPurgeGame(g, now, parseDate)
    ensures forall k :: 0 <= k < |games| && ShouldPurgeGame(games[k], now, parseDate) ==> games[k].id in deleted
    ensures forall id :: id in deleted ==> exists g :: g in games && g.id == id && ShouldPurgeGame(g, now, parseDate)
  {
    kept, deleted := [], [];
    for i := 0 to |games|
      invariant |kept| + |deleted| == i
      invariant forall g :: g in kept <==> g in games[..i] && !ShouldPurgeGame(g, now, parseDate)
      invariant forall k :: 0 <= k < i && ShouldPurgeGame(games[k], now, parseDate) ==> games[k].id in deleted
      invariant forall id :: id in deleted ==> exists g :: g in games[..i] && g.id == id && ShouldPurgeGame(g, now, parseDate)
    {
      assert games[..i + 1] == games[..i] + [games[i]];
      if ShouldPurgeGame(games[i], now, parseDate) {
        deleted := deleted + [games[i].id];
      } else {
        kept := kept + [games[i]];
      }
    }
    assert games[..|games|] == games;
  }
}

=== FILE: puzzle_benchmark.dfy ===
/**
 * The puzzle benchmark: a model is shown each Lichess puzzle and answers with one move in SAN.
 * An answer is correct when, once trimmed, it is exactly the puzzle's first solution move; the run's
 * accuracy is the share of correct answers as a percentage. The model's answers are the oracle
 * `ask`, indexed by the puzzle's position in the run; the clock readings are parameters.
 */
module PuzzleBenchmark {
  import opened Wrappers
  import opened Strings
  import opened AiModels

  datatype Theme = MateIn1 | OneMove

  function ThemeName(t: Theme): string {
    match t
    case MateIn1 => "mateIn1"
    case OneMove => "oneMove"
  }

  /** The theme as the prompt spells it out. */
  function ThemeDescription(t: Theme): (d: string)
    ensures d != ThemeName(t)
  {
    match t
    case MateIn1 => "Mate in 1"
    case OneMove => "One Move"
  }

  /** The two themes are told apart in the prompt. */
  lemma ThemeDescriptionInjective(a: Theme, b: Theme)
    ensures ThemeDescription(a) == ThemeDescription(b) <==> a == b
  {
    if a != b {
      assert ThemeDescription(a)[0] != ThemeDescription(b)[0];
    }
  }

  datatype LichessPuzzle = LichessPuzzle(
    id: string,
    rating: int,
    themes: seq<string>,
    solution: seq<string>,
    initialPly: int,
    pgn: string,
    fen: string,
    legalMoves: seq<string>,
    solutionSan: string)

  /** What the model service returns: the `move` field, when present, and the JSON text of the object. */
  datatype Answer = Answer(move: Option<string>, raw: string)

  datatype PuzzleResult = PuzzleResult(
    puzzleId: string,
    modelMove: Option<string>,
    correctMove: string,
    isCorrect: bool,
    responseTime: int,
    rawResponse: string,
    error: Option<string>)

  /** The reply names the solution move, up to surrounding whitespace. */
  predicate Solves(puzzle: LichessPuzzle, reply: Result<Answer>) {
    reply.Ok? && reply.value.move.Some? && Trim(reply.value.move.value) == puzzle.solutionSan
  }

  /**
   * One puzzle: the trimmed move when the service answered, the error message when it failed;
   * the answer is correct only when it is exactly the solution.
   */
  function BenchmarkPuzzle(puzzle: LichessPuzzle, reply: Result<Answer>, responseTime: int): (r: PuzzleResult)
    ensures r.puzzleId == puzzle.id && r.correctMove == puzzle.solutionSan && r.responseTime == responseTime
    ensures r.isCorrect <==> Solves(puzzle, reply)
    ensures reply.Err? ==> !r.isCorrect && r.modelMove.None? && r.error == Some(reply.message) && r.rawResponse == ""
    ensures reply.Ok? ==> r.error.None? && r.rawResponse == reply.value.raw
    ensures r.modelMove.Some? ==> |r.modelMove.value| == 0 || !IsSpace(r.modelMove.value[0])
  {
    match reply
    case Err(message) =>
      PuzzleResult(puzzle.id, None, puzzle.solutionSan, false, responseTime, "", Some(message))
    case Ok(answer) =>
      var move := if answer.move.Some? then Some(Trim(answer.move.value)) else None;
      PuzzleResult(puzzle.id, move, puzzle.solutionSan, move == Some(puzzle.solutionSan), responseTime,
                   answer.raw, None)
  }

  /** Spaces around an answer never change whether it is correct. */
  lemma PaddedAnswerSameVerdict(puzzle: LichessPuzzle, move: string, raw: string, t: int)
    ensures BenchmarkPuzzle(puzzle, Ok(Answer(Some(" " + move + "\n"), raw)), t).isCorrect
        == BenchmarkPuzzle(puzzle, Ok(Answer(Some(move), raw)), t).isCorrect
  {
    TrimPadding(move);
  }

  /** Leading and trailing whitespace is what `trim` removes. */
  lemma TrimPadding(s: string)
    ensures Trim(" " + s + "\n") == Trim(s)
  {
    var t := TrimStart(s);
    calc {
      TrimStart(" " + s + "\n");
      { assert (" " + s + "\n")[1..] == s + "\n"; }
      TrimStart(s + "\n");
      { TrimStartSnoc(s, '\n'); }
      if |t| == 0 then [] else t + "\n";
    }
    if |t| > 0 {
      TrimEndSnoc(t, '\n');
    }
  }

  /** A trailing space is dropped by `TrimEnd`. */
  lemma TrimEndSnoc(t: string, c: char)
    requires IsSpace(c)
    ensures TrimEnd(t + [c]) == TrimEnd(t)
  {
    assert (t + [c])[..|t|] == t;
  }

  lemma {:induction false} TrimStartSnoc(s: string, c: char)
    requires IsSpace(c)
    ensures TrimStart(s + [c]) == if |TrimStart(s)| == 0 then [] else TrimStart(s) + [c]
    decreases |s|
  {
    if |s| > 0 && IsSpace(s[0]) {
      assert (s + [c])[1..] == s[1..] + [c];
      TrimStartSnoc(s[1..], c);
    } else if |s| == 0 {
      assert s + [c] == [c];
      assert ([c])[1..] == [];
    }
  }

  datatype RunStatus = Pending | Running | Completed | Failed

  datatype PuzzleRun = PuzzleRun(
    id: string,
    createdAt: int,
    completedAt: int,
    status: RunStatus,
    provider: Provider,
    model: string,
    puzzleSetId: string,
    theme: Theme,
    results: seq<PuzzleResult>,
    totalPuzzles: nat,
    correctCount: nat,
    accuracy: real)

  /** The number of correct results. */
  function CountCorrect(rs: seq<PuzzleResult>): (n: nat)
    ensures n <= |rs|
  {
    if |rs| == 0 then 0 else CountCorrect(rs[..|rs| - 1]) + (if rs[|rs| - 1].isCorrect then 1 else 0)
  }

  /** Every result is correct exactly when the count reaches the number of results. */
  lemma {:induction false} CountCorrectAll(rs: seq<PuzzleResult>)
    ensures CountCorrect(rs) == |rs| <==> forall k :: 0 <= k < |rs| ==> rs[k].isCorrect
  {
    if |rs| > 0 {
      var init := rs[..|rs| - 1];
      CountCorrectAll(init);
      if forall k :: 0 <= k < |rs| ==> rs[k].isCorrect {
        assert forall k :: 0 <= k < |init| ==> init[k].isCorrect by {
          forall k | 0 <= k < |init| ensures init[k].isCorrect {
            assert init[k] == rs[k];
          }
        }
      }
    }
  }

  /** No result is correct exactly when the count is 0. */
  lemma {:induction false} CountCorrectNone(rs: seq<PuzzleResult>)
    ensures CountCorrect(rs) == 0 <==> forall k :: 0 <= k < |rs| ==> !rs[k].isCorrect
  {
    if |rs| > 0 {
      var init := rs[..|rs| - 1];
      CountCorrectNone(init);
      if forall k :: 0 <= k < |rs| ==> !rs[k].isCorrect {
        assert forall k :: 0 <= k < |init| ==> !init[k].isCorrect by {
          forall k | 0 <= k < |init| ensures !init[k].isCorrect {
            assert init[k] == rs[k];
          }
        }
      }
    }
  }

  /** `correct / total * 100`, and 0 for an empty run. */
  function Accuracy(correct: nat, total: nat): (a: real)
    requires correct <= total
    ensures 0.0 <= a <= 100.0
    ensures total == 0 ==> a == 0.0
    ensures total > 0 ==> a * total as real == 100.0 * correct as real
  {
    if total > 0 then correct as real / total as real * 100.0 else 0.0
  }

  /** A perfect run scores 100 and a run without a correct answer scores 0. */
  lemma AccuracyExtremes(correct: nat, total: nat)
    requires correct <= total && total > 0
    ensures Accuracy(correct, total) == 100.0 <==> correct == total
    ensures Accuracy(correct, total) == 0.0 <==> correct == 0
  {
  }

  /** The answers given to the puzzles of a run, one per puzzle, in order. */
  function Results(puzzles: seq<LichessPuzzle>, ask: (LichessPuzzle, nat) -> Result<Answer>,
                   responseTimes: nat -> int): (rs: seq<PuzzleResult>)
    ensures |rs| == |puzzles|
  {
    if |puzzles| == 0 then []
    else
      var k := |puzzles| - 1;
      Results(puzzles[..k], ask, responseTimes) + [BenchmarkPuzzle(puzzles[k], ask(puzzles[k], k), responseTimes(k))]
  }

  /** The k-th result is the k-th puzzle's answer, the one the service gave when asked k-th. */
  lemma {:induction false} ResultsPerPuzzle(puzzles: seq<LichessPuzzle>, ask: (LichessPuzzle, nat) -> Result<Answer>,
                                            responseTimes: nat -> int)
    ensures forall k :: 0 <= k < |puzzles| ==>
      Results(puzzles, ask, responseTimes)[k] == BenchmarkPuzzle(puzzles[k], ask(puzzles[k], k), responseTimes(k))
  {
    if |puzzles| > 0 {
      var n := |puzzles| - 1;
      var init := puzzles[..n];
      ResultsPerPuzzle(init, ask, responseTimes);
      forall k | 0 <= k < n
        ensures Results(puzzles, ask, responseTimes)[k] == BenchmarkPuzzle(puzzles[k], ask(puzzles[k], k), responseTimes(k))
      {
        assert init[k] == puzzles[k];
      }
    }
  }

  /**
   * A whole run: one result per puzzle in order, the number of correct answers and the accuracy,
   * marked completed.
   */
  function RunPuzzleBenchmark(runId: string, createdAt: int, completedAt: int, puzzles: seq<LichessPuzzle>,
                              puzzleSetId: string, theme: Theme, provider: Provider, model: string,
                              ask: (LichessPuzzle, nat) -> Result<Answer>, responseTimes: nat -> int)
    : (r: PuzzleRun)
    ensures r.id == runId && r.provider == provider && r.model == model && r.theme == theme
    ensures r.puzzleSetId == puzzleSetId && r.status == Completed && r.totalPuzzles == |puzzles|
    ensures r.results == Results(puzzles, ask, responseTimes)
    ensures r.correctCount == CountCorrect(r.results) && r.accuracy == Accuracy(r.correctCount, |puzzles|)
  {
    var results := Results(puzzles, ask, responseTimes);
    PuzzleRun(runId, createdAt, completedAt, Completed, provider, model, puzzleSetId, theme, results,
              |puzzles|, CountCorrect(results), Accuracy(CountCorrect(results), |puzzles|))
  }

  /**
   * The verdicts of a run: result k is about puzzle k and is correct exactly when the k-th answer
   * solves it, and the run is perfect exactly when every result is correct.
   */
  lemma RunVerdicts(runId: string, createdAt: int, completedAt: int, puzzles: seq<LichessPuzzle>,
                    puzzleSetId: string, theme: Theme, provider: Provider, model: string,
                    ask: (LichessPuzzle, nat) -> Result<Answer>, responseTimes: nat -> int)
    ensures var r := RunPuzzleBenchmark(runId, createdAt, completedAt, puzzles, puzzleSetId, theme, provider, model,
                                        ask, responseTimes);
      && |r.results| == |puzzles|
      && (forall k :: 0 <= k < |puzzles| ==>
            r.results[k].puzzleId == puzzles[k].id && (r.results[k].isCorrect <==> Solves(puzzles[k], ask(puzzles[k], k))))
      && (r.correctCount == |puzzles| <==> forall k :: 0 <= k < |puzzles| ==> r.results[k].isCorrect)
  {
    var r := RunPuzzleBenchmark(runId, createdAt, completedAt, puzzles, puzzleSetId, theme, provider, model, ask,
                                responseTimes);
    ResultsPerPuzzle(puzzles, ask, responseTimes);
    CountCorrectAll(r.results);
  }

  /** A service that never answers scores 0 on a non-empty run. */
  lemma FailingServiceScoresZero(runId: string, createdAt: int, completedAt: int, puzzles: seq<LichessPuzzle>,
                                 puzzleSetId: string, theme: Theme, provider: Provider, model: string,
                                 ask: (LichessPuzzle, nat) -> Result<Answer>, responseTimes: nat -> int)
    requires |puzzles| > 0
    requires forall p, k :: ask(p, k).Err?
    ensures RunPuzzleBenchmark(runId, createdAt, completedAt, puzzles, puzzleSetId, theme, provider, model, ask,
                               responseTimes).accuracy == 0.0
  {
    var r := RunPuzzleBenchmark(runId, createdAt, completedAt, puzzles, puzzleSetId, theme, provider, model, ask,
                                responseTimes);
    RunVerdicts(runId, createdAt, completedAt, puzzles, puzzleSetId, theme, provider, model, ask, responseTimes);
    forall k | 0 <= k < |r.results| ensures !r.results[k].isCorrect {
      assert ask(puzzles[k], k).Err?;
    }
    CountCorrectNone(r.results);
    AccuracyExtremes(0, |puzzles|);
  }
}

=== FILE: puzzle_steps.dfy ===
/**
 * The two puzzle-benchmark API steps: one model on one theme, or every model that has not yet
 * run the theme. Both keep a per-model summary holding the latest accuracy of each theme and an
 * overall accuracy; the run-all step also tops the stored puzzle set up from Lichess and runs
 * each puzzle id once. The Lichess fetch, the model service, the clock and the run ids are
 * parameters; the per-provider concurrency is replaced by running the models one after another.
 */
module PuzzleSteps {
  import opened Wrappers
  import opened Strings
  import opened AiModels
  import opened Api
  import opened PuzzleBenchmark

  datatype PuzzleSet = PuzzleSet(id: string, theme: Theme, createdAt: int, puzzles: seq<LichessPuzzle>, count: nat)

  datatype PuzzleSummary = PuzzleSummary(
    id: string,
    provider: Provider,
    model: string,
    mateIn1Accuracy: Option<real>,
    oneMoveAccuracy: Option<real>,
    overallAccuracy: real,
    runsCompleted: nat,
    lastRunAt: int)

  datatype PuzzleStore = PuzzleStore(
    sets: map<Theme, PuzzleSet>,
    runs: map<string, PuzzleRun>,
    summaries: map<(Provider, string), PuzzleSummary>)

  function OtherTheme(t: Theme): Theme {
    if t == MateIn1 then OneMove else MateIn1
  }

  function ThemeAccuracy(s: PuzzleSummary, t: Theme): Option<real> {
    if t == MateIn1 then s.mateIn1Accuracy else s.oneMoveAccuracy
  }

  /** The mean of the two theme accuracies when both exist, else the one that exists, else 0. */
  function OverallAccuracy(mateIn1: Option<real>, oneMove: Option<real>): (r: real)
    ensures mateIn1.Some? && oneMove.Some? ==> r * 2.0 == mateIn1.value + oneMove.value
    ensures mateIn1.Some? && oneMove.None? ==> r == mateIn1.value
    ensures mateIn1.None? && oneMove.Some? ==> r == oneMove.value
    ensures mateIn1.None? && oneMove.None? ==> r == 0.0
  {
    if mateIn1.Some? && oneMove.Some? then (mateIn1.value + oneMove.value) / 2.0
    else mateIn1.GetOr(oneMove.GetOr(0.0))
  }

  /** The overall accuracy treats the two themes alike and stays a percentage. */
  lemma OverallAccuracyProperties(mateIn1: Option<real>, oneMove: Option<real>)
    requires mateIn1.Some? ==> 0.0 <= mateIn1.value <= 100.0
    requires oneMove.Some? ==> 0.0 <= oneMove.value <= 100.0
    ensures OverallAccuracy(mateIn1, oneMove) == OverallAccuracy(oneMove, mateIn1)
    ensures 0.0 <= OverallAccuracy(mateIn1, oneMove) <= 100.0
  {
  }

  /**
   * The summary after a run of `theme` scoring `accuracy`: one more run, the theme's accuracy
   * replaced, the other theme's accuracy kept, and the overall accuracy recomputed from both.
   */
  function UpdatePuzzleSummary(existing: Option<PuzzleSummary>, provider: Provider, model: string, theme: Theme,
                               accuracy: real, now: int): (s: PuzzleSummary)
    ensures s.id == ModelId(provider, model) && s.provider == provider && s.model == model && s.lastRunAt == now
    ensures s.runsCompleted == (if existing.Some? then existing.value.runsCompleted else 0) + 1
    ensures ThemeAccuracy(s, theme) == Some(accuracy)
    ensures ThemeAccuracy(s, OtherTheme(theme))
            == (if existing.Some? then ThemeAccuracy(existing.value, OtherTheme(theme)) else None)
    ensures s.overallAccuracy == OverallAccuracy(s.mateIn1Accuracy, s.oneMoveAccuracy)
  {
    var mateIn1 := if theme == MateIn1 then Some(accuracy) else if existing.Some? then existing.value.mateIn1Accuracy else None;
    var oneMove := if theme == OneMove then Some(accuracy) else if existing.Some? then existing.value.oneMoveAccuracy else None;
    PuzzleSummary(ModelId(provider, model), provider, model, mateIn1, oneMove, OverallAccuracy(mateIn1, oneMove),
                  (if existing.Some? then existing.value.runsCompleted else 0) + 1, now)
  }

  /** Running the two themes in either order leaves the same accuracies. */
  lemma ThemeUpdatesCommute(existing: Option<PuzzleSummary>, provider: Provider, model: string,
                            a: real, b: real, now: int)
    ensures UpdatePuzzleSummary(Some(UpdatePuzzleSummary(existing, provider, model, MateIn1, a, now)),
                                provider, model, OneMove, b, now)
         == UpdatePuzzleSummary(Some(UpdatePuzzleSummary(existing, provider, model, OneMove, b, now)),
                                provider, model, MateIn1, a, now)
  {
  }

  /** Whether the run-all step leaves a model out: it has a summary with an accuracy for the theme. */
  predicate ShouldSkipModel(theme: Theme, existing: Option<PuzzleSummary>) {
    existing.Some? && ThemeAccuracy(existing.value, theme).Some?
  }

  /** A model that has just run a theme is left out of the next run-all of that theme, and only of that theme. */
  lemma SkipAfterRun(existing: Option<PuzzleSummary>, provider: Provider, model: string, theme: Theme,
                     accuracy: real, now: int)
    ensures ShouldSkipModel(theme, Some(UpdatePuzzleSummary(existing, provider, model, theme, accuracy, now)))
    ensures ShouldSkipModel(OtherTheme(theme), Some(UpdatePuzzleSummary(existing, provider, model, theme, accuracy, now)))
        <==> ShouldSkipModel(OtherTheme(theme), existing)
  {
  }

  function SummaryOf(summaries: map<(Provider, string), PuzzleSummary>, key: (Provider, string)): Option<PuzzleSummary> {
    if key in summaries then Some(summaries[key]) else None
  }

  /** Storing a run and folding its accuracy into the model's summary. */
  function RecordPuzzleRun(store: PuzzleStore, run: PuzzleRun, now: int): (s: PuzzleStore)
    ensures s.sets == store.sets && s.runs == store.runs[run.id := run]
    ensures var key := (run.provider, run.model);
      && s.summaries == store.summaries[key := UpdatePuzzleSummary(SummaryOf(store.summaries, key),
                                                                   run.provider, run.model, run.theme, run.accuracy, now)]
    ensures ShouldSkipModel(run.theme, SummaryOf(s.summaries, (run.provider, run.model)))
    ensures forall y :: y != (run.provider, run.model) ==> SummaryOf(s.summaries, y) == SummaryOf(store.summaries, y)
  {
    var key := (run.provider, run.model);
    store.(runs := store.runs[run.id := run],
           summaries := store.summaries[key := UpdatePuzzleSummary(SummaryOf(store.summaries, key),
                                                                   run.provider, run.model, run.theme, run.accuracy, now)])
  }

  /** `puzzles.slice(0, count)`: the first `count` puzzles, or all of them when there are fewer. */
  function FirstPuzzles(ps: seq<LichessPuzzle>, count: nat): (r: seq<LichessPuzzle>)
    ensures |r| == if count < |ps| then count else |ps|
    ensures r == ps[..|r|]
  {
    if count < |ps| then ps[..count] else ps
  }

  /**
   * The single-model step: an unsupported model, or a theme without a stored non-empty puzzle set,
   * is rejected; otherwise the first `count` puzzles of the set are run, and the run is stored and
   * folded into the model's summary.
   */
  method RunPuzzleStep(store: PuzzleStore, provider: Provider, model: string, theme: Theme, count: nat,
                       runId: string, createdAt: int, completedAt: int, now: int,
                       ask: (LichessPuzzle, nat) -> Result<Answer>, responseTimes: nat -> int)
    returns (response: Response<PuzzleRun>, store': PuzzleStore)
    requires 1 <= count <= 100
    ensures !IsSupported(provider, model) ==>
      response == Status400("Model " + model + " is not supported for provider " + ProviderName(provider))
    ensures IsSupported(provider, model) && (theme !in store.sets || |store.sets[theme].puzzles| == 0) ==>
      response == Status400("No puzzle set found for theme " + ThemeName(theme) + ". Fetch puzzles first.")
    ensures response.Status400? ==> store' == store
    ensures response.Status200? ==>
      && IsSupported(provider, model) && theme in store.sets
      && var set_ := store.sets[theme];
      && var run := response.body;
      && run == RunPuzzleBenchmark(runId, createdAt, completedAt, FirstPuzzles(set_.puzzles, count), set_.id, theme,
                                   provider, model, ask, responseTimes)
      && store' == RecordPuzzleRun(store, run, now)
    ensures IsSupported(provider, model) && theme in store.sets && |store.sets[theme].puzzles| > 0 ==>
      response.Status200?
  {
    if !IsSupported(provider, model) {
      return Status400("Model " + model + " is not supported for provider " + ProviderName(provider)), store;
    }
    if theme !in store.sets || |store.sets[theme].puzzles| == 0 {
      return Status400("No puzzle set found for theme " + ThemeName(theme) + ". Fetch puzzles first."), store;
    }
    var set_ := store.sets[theme];
    var run := RunPuzzleBenchmark(runId, createdAt, completedAt, FirstPuzzles(set_.puzzles, count), set_.id, theme,
                                  provider, model, ask, responseTimes);
    response := Status200(run);
    store' := RecordPuzzleRun(store, run, now);
  }

  /**
   * The single-model step as written: `getModelsForProvider` is not exported by the AI models
   * module, so its call on the handler's first line throws a TypeError outside the `try`, and
   * nothing is read or stored.
   */
  function RunPuzzleStepAsWritten(store: PuzzleStore, provider: Provider, model: string, theme: Theme)
    : (r: (Result<Response<PuzzleRun>>, PuzzleStore))
    ensures r.0 == Err("getModelsForProvider is not a function")
    ensures r.1 == store
  {
    (Err("getModelsForProvider is not a function"), store)
  }

  /** The ids of a list of puzzles, in order. */
  function Ids(ps: seq<LichessPuzzle>): (r: seq<string>)
    ensures |r| == |ps| && forall k :: 0 <= k < |ps| ==> r[k] == ps[k].id
  {
    if |ps| == 0 then [] else Ids(ps[..|ps| - 1]) + [ps[|ps| - 1].id]
  }

  predicate DistinctIds(ps: seq<LichessPuzzle>) {
    forall i, j :: 0 <= i < j < |ps| ==> ps[i].id != ps[j].id
  }

  /** The puzzles whose id is not in `taken`, in order. */
  function WithNewIds(ps: seq<LichessPuzzle>, taken: seq<string>): (r: seq<LichessPuzzle>)
    ensures |r| <= |ps|
    ensures forall k :: 0 <= k < |r| ==> r[k] in ps && r[k].id !in taken
    ensures forall p :: p in ps && p.id !in taken ==> p in r
  {
    if |ps| == 0 then []
    else
      var init := WithNewIds(ps[..|ps| - 1], taken);
      var last := ps[|ps| - 1];
      assert forall p :: p in ps ==> p in ps[..|ps| - 1] || p == last;
      if last.id in taken then init else init + [last]
  }

  /** The position of the puzzle with a given id, if any. */
  function IndexOfId(ps: seq<LichessPuzzle>, id: string): (r: Option<nat>)
    ensures r.Some? ==> r.value < |ps| && ps[r.value].id == id
    ensures r.None? <==> id !in Ids(ps)
  {
    if |ps| == 0 then None
    else if ps[|ps| - 1].id == id then Some(|ps| - 1)
    else
      var r := IndexOfId(ps[..|ps| - 1], id);
      assert Ids(ps) == Ids(ps[..|ps| - 1]) + [ps[|ps| - 1].id];
      r
  }

  /** `map.set(p.id, p)` on a map kept as its list of values in insertion order. */
  function MapSet(entries: seq<LichessPuzzle>, p: LichessPuzzle): (r: seq<LichessPuzzle>)
    requires DistinctIds(entries)
    ensures DistinctIds(r)
    ensures p in r
    ensures forall q :: q in r ==> q == p || q in entries
    ensures forall q :: q in entries && q.id != p.id ==> q in r
    ensures forall q :: q in r && q.id == p.id ==> q == p
  {
    var at := IndexOfId(entries, p.id);
    if at.Some? then
      var r := entries[at.value := p];
      assert r[at.value] == p;
      assert forall q :: q in entries && q.id != p.id ==> q in r by {
        forall q | q in entries && q.id != p.id ensures q in r {
          var k :| 0 <= k < |entries| && entries[k] == q;
          assert r[k] == q;
        }
      }
      r
    else
      entries + [p]
  }

  /**
   * The values of `new Map(puzzles.map(p => [p.id, p]))`: one puzzle per id, the last one given for
   * that id, in the order the ids first appear.
   */
  function UniqueById(ps: seq<LichessPuzzle>): (r: seq<LichessPuzzle>)
    ensures DistinctIds(r) && |r| <= |ps|
    ensures forall q :: q in r ==> q in ps
  {
    if |ps| == 0 then []
    else
      var init := UniqueById(ps[..|ps| - 1]);
      var r := MapSet(init, ps[|ps| - 1]);
      assert |r| <= |init| + 1;
      r
  }

  /** The last puzzle with a given id. */
  function LastWithId(ps: seq<LichessPuzzle>, id: string): Option<LichessPuzzle> {
    if |ps| == 0 then None
    else if ps[|ps| - 1].id == id then Some(ps[|ps| - 1])
    else LastWithId(ps[..|ps| - 1], id)
  }

  /** An id is listed exactly when some puzzle carries it. */
  lemma IdsHolds(ps: seq<LichessPuzzle>, id: string)
    ensures id in Ids(ps) <==> exists q :: q in ps && q.id == id
  {
    if id in Ids(ps) {
      var k :| 0 <= k < |ps| && Ids(ps)[k] == id;
      assert ps[k] in ps;
    }
    if exists q :: q in ps && q.id == id {
      var q :| q in ps && q.id == id;
      var k :| 0 <= k < |ps| && ps[k] == q;
      assert Ids(ps)[k] == id;
    }
  }

  /** Keeping one puzzle per id keeps every id. */
  lemma {:induction false} UniqueByIdKeepsIds(ps: seq<LichessPuzzle>)
    ensures forall id :: id in Ids(UniqueById(ps)) <==> id in Ids(ps)
  {
    if |ps| > 0 {
      var init := ps[..|ps| - 1];
      var last := ps[|ps| - 1];
      UniqueByIdKeepsIds(init);
      var u := UniqueById(ps);
      var v := UniqueById(init);
      assert u == MapSet(v, last);
      assert Ids(ps) == Ids(init) + [last.id];
      forall id ensures id in Ids(u) <==> id in Ids(ps) {
        IdsHolds(u, id);
        IdsHolds(v, id);
        if id in Ids(ps) && id != last.id {
          assert id in Ids(v);
          var q :| q in v && q.id == id;
          assert q in u;
        }
        if id == last.id {
          assert last in u;
        }
      }
    }
  }

  /** Each kept puzzle is the last one given for its id. */
  lemma {:induction false} UniqueByIdKeepsLast(ps: seq<LichessPuzzle>)
    ensures forall q :: q in UniqueById(ps) ==> LastWithId(ps, q.id) == Some(q)
  {
    if |ps| > 0 {
      var init := ps[..|ps| - 1];
      var last := ps[|ps| - 1];
      UniqueByIdKeepsLast(init);
      var u := UniqueById(ps);
      var v := UniqueById(init);
      assert u == MapSet(v, last);
      forall q | q in u ensures LastWithId(ps, q.id) == Some(q) {
        if q.id != last.id {
          assert q in v;
        }
      }
    }
  }

  /** The puzzles the run-all step runs: one per id, at most `count` of them. */
  function PuzzlesToRun(set_: PuzzleSet, count: nat): (r: seq<LichessPuzzle>)
    ensures DistinctIds(r) && |r| <= count
    ensures forall q :: q in r ==> q in set_.puzzles
    ensures var u := UniqueById(set_.puzzles); |r| == (if count < |u| then count else |u|) && r == u[..|r|]
  {
    var u := UniqueById(set_.puzzles);
    var r := FirstPuzzles(u, count);
    assert forall q :: q in r ==> q in u;
    r
  }

  /** The stored puzzles followed by the fetched ones whose id is not stored yet. */
  function MergeNew(old_: seq<LichessPuzzle>, fetched: seq<LichessPuzzle>): (r: seq<LichessPuzzle>)
    ensures |old_| <= |r| && r[..|old_|] == old_
    ensures forall k :: |old_| <= k < |r| ==> r[k] in fetched && r[k].id !in Ids(old_)
    ensures forall p :: p in fetched && p.id !in Ids(old_) ==> p in r
  {
    var newcomers := WithNewIds(fetched, Ids(old_));
    var r := old_ + newcomers;
    assert forall k :: |old_| <= k < |r| ==> r[k] == newcomers[k - |old_|];
    assert forall p :: p in newcomers ==> p in r by {
      forall p | p in newcomers ensures p in r {
        var k :| 0 <= k < |newcomers| && newcomers[k] == p;
        assert r[|old_| + k] == p;
      }
    }
    r
  }

  /** The outcome of the top-up: the set to use, and whether it changed and must be stored. */
  datatype TopUp = Kept(set_: PuzzleSet) | Replaced(set_: PuzzleSet) | NothingFetched

  /**
   * A missing set, or one with fewer than `count` puzzles, is topped up: the fetch asks for the
   * missing number, fetched puzzles whose id is already stored are dropped, and the new set is the
   * old puzzles followed by the new ones. A top-up that ends with no puzzle at all fails.
   */
  function TopUpPuzzleSet(existing: Option<PuzzleSet>, theme: Theme, count: nat, now: int,
                          fetch: (Theme, nat) -> seq<LichessPuzzle>): (r: TopUp)
    requires count >= 1
    ensures existing.Some? && |existing.value.puzzles| >= count <==> r.Kept?
    ensures r.Kept? ==> r.set_ == existing.value
    ensures r.Replaced? ==>
      && count > |StoredPuzzles(existing)|
      && r.set_.id == ThemeName(theme) + "-" + IntToString(now) && r.set_.theme == theme && r.set_.createdAt == now
      && |r.set_.puzzles| > 0 && r.set_.count == |r.set_.puzzles|
      && r.set_.puzzles == MergeNew(StoredPuzzles(existing), fetch(theme, count - |StoredPuzzles(existing)|))
    ensures r.NothingFetched? ==> |StoredPuzzles(existing)| == 0
  {
    if existing.Some? && |existing.value.puzzles| >= count then Kept(existing.value)
    else
      var puzzles := MergeNew(StoredPuzzles(existing), fetch(theme, count - |StoredPuzzles(existing)|));
      if |puzzles| == 0 then NothingFetched
      else Replaced(PuzzleSet(ThemeName(theme) + "-" + IntToString(now), theme, now, puzzles, |puzzles|))
  }

  /** The puzzles of a stored set, none when there is no set. */
  function StoredPuzzles(existing: Option<PuzzleSet>): seq<LichessPuzzle> {
    if existing.Some? then existing.value.puzzles else []
  }

  /** The models the run-all step runs: all of them on a rerun, otherwise those not yet scored on the theme. */
  function ModelsToBenchmark(theme: Theme, rerunCompleted: bool, summaries: map<(Provider, string), PuzzleSummary>)
    : (r: seq<(Provider, string)>)
    ensures forall p, m :: (p, m) in r <==>
      IsSupported(p, m) && (rerunCompleted || !ShouldSkipModel(theme, SummaryOf(summaries, (p, m))))
  {
    var all := AllModels();
    var r := if rerunCompleted then all else Selected(all, theme, summaries);
    assert forall p, m :: (p, m) in all <==> IsSupported(p, m) by {
      forall p, m ensures (p, m) in all <==> IsSupported(p, m) {
        AllModelsComplete(p, m);
      }
    }
    r
  }

  function Selected(ms: seq<(Provider, string)>, theme: Theme, summaries: map<(Provider, string), PuzzleSummary>)
    : (r: seq<(Provider, string)>)
    ensures forall x :: x in r <==> x in ms && !ShouldSkipModel(theme, SummaryOf(summaries, x))
  {
    if |ms| == 0 then []
    else
      var init := Selected(ms[..|ms| - 1], theme, summaries);
      var x := ms[|ms| - 1];
      assert forall y :: y in ms <==> y in ms[..|ms| - 1] || y == x;
      if ShouldSkipModel(theme, SummaryOf(summaries, x)) then init else init + [x]
  }

  /** The models of one provider, in order. */
  function ByProvider(ms: seq<(Provider, string)>, p: Provider): (r: seq<(Provider, string)>)
    ensures forall x :: x in r <==> x in ms && x.0 == p
  {
    if |ms| == 0 then []
    else
      var init := ByProvider(ms[..|ms| - 1], p);
      var x := ms[|ms| - 1];
      assert forall y :: y in ms <==> y in ms[..|ms| - 1] || y == x;
      if x.0 == p then init + [x] else init
  }

  /** The models grouped provider by provider, in the order the providers are visited. */
  function Grouped(ms: seq<(Provider, string)>): seq<(Provider, string)> {
    ByProvider(ms, OpenAi) + ByProvider(ms, Gemini) + ByProvider(ms, Claude) + ByProvider(ms, Grok)
  }

  /** Grouping by provider is a rearrangement: every selected model, as often as it was selected. */
  lemma {:induction false} GroupedIsPermutation(ms: seq<(Provider, string)>)
    ensures multiset(Grouped(ms)) == multiset(ms)
  {
    if |ms| > 0 {
      var init := ms[..|ms| - 1];
      var x := ms[|ms| - 1];
      assert ms == init + [x];
      calc {
        multiset(Grouped(ms));
        multiset(Grouped(init + [x]));
        { GroupedSnoc(init, x); }
        multiset(Grouped(init)) + multiset{x};
        { GroupedIsPermutation(init); }
        multiset(init) + multiset{x};
        multiset(ms);
      }
    }
  }

  /** Appending a model adds it once to the grouped queue. */
  lemma GroupedSnoc(init: seq<(Provider, string)>, x: (Provider, string))
    ensures multiset(Grouped(init + [x])) == multiset(Grouped(init)) + multiset{x}
  {
    var a, b, c, d := ByProvider(init, OpenAi), ByProvider(init, Gemini), ByProvider(init, Claude),
                      ByProvider(init, Grok);
    ByProviderSnoc(init, x, x.0);
    InsertIntoGroup(a, b, c, d, x);
    match x.0
    case OpenAi =>
      ByProviderSnoc(init, x, Gemini); ByProviderSnoc(init, x, Claude); ByProviderSnoc(init, x, Grok);
    case Gemini =>
      ByProviderSnoc(init, x, OpenAi); ByProviderSnoc(init, x, Claude); ByProviderSnoc(init, x, Grok);
    case Claude =>
      ByProviderSnoc(init, x, OpenAi); ByProviderSnoc(init, x, Gemini); ByProviderSnoc(init, x, Grok);
    case Grok =>
      ByProviderSnoc(init, x, OpenAi); ByProviderSnoc(init, x, Gemini); ByProviderSnoc(init, x, Claude);
  }

  /** Adding an element to any one of four groups adds it once to the whole. */
  lemma InsertIntoGroup<T>(a: seq<T>, b: seq<T>, c: seq<T>, d: seq<T>, x: T)
    ensures multiset((a + [x]) + b + c + d) == multiset(a + b + c + d) + multiset{x}
    ensures multiset(a + (b + [x]) + c + d) == multiset(a + b + c + d) + multiset{x}
    ensures multiset(a + b + (c + [x]) + d) == multiset(a + b + c + d) + multiset{x}
    ensures multiset(a + b + c + (d + [x])) == multiset(a + b + c + d) + multiset{x}
  {
  }

  /** Appending a model adds it to its own provider's group and to no other. */
  lemma ByProviderSnoc(init: seq<(Provider, string)>, x: (Provider, string), p: Provider)
    ensures ByProvider(init + [x], p) == if x.0 == p then ByProvider(init, p) + [x] else ByProvider(init, p)
  {
    assert (init + [x])[..|init|] == init;
  }

  datatype RunAllResponse = RunAllResponse(message: string, theme: Theme, puzzleCount: nat, totalModels: nat)

  /**
   * The clock readings taken for the j-th queued model: when its run starts and ends, and the
   * `lastRunAt` of the summary written after it.
   */
  datatype Stamps = Stamps(started: int, completed: int, summarized: int)

  /**
   * The run-all step: top the set up, pick the models, and run each model on the puzzles to run,
   * provider by provider. Every model run ends up stored and is folded into its model's summary;
   * every other summary is left alone. `now` is the clock reading of the top-up and `clock(j)` the
   * readings taken for the j-th queued model.
   */
  method RunAllPuzzleBenchmarks(store: PuzzleStore, theme: Theme, count: nat, rerunCompleted: bool, now: int,
                                clock: nat -> Stamps, fetch: (Theme, nat) -> seq<LichessPuzzle>, ids: nat -> string,
                                ask: (Provider, string) -> (LichessPuzzle, nat) -> Result<Answer>,
                                responseTimes: nat -> int)
    returns (response: Response<RunAllResponse>, store': PuzzleStore)
    requires 1 <= count <= 100
    ensures TopUpPuzzleSet(SetOf(store, theme), theme, count, now, fetch).NothingFetched? <==>
      response == Status400("Failed to fetch any puzzles")
    ensures response.Status400? ==> store' == store
    ensures response.Status200? ==>
      RanAll(store, store', response.body, theme, TopUpPuzzleSet(SetOf(store, theme), theme, count, now, fetch).set_,
             count, rerunCompleted, clock, ids, ask, responseTimes)
  {
    var topUp := TopUpPuzzleSet(SetOf(store, theme), theme, count, now, fetch);
    if topUp.NothingFetched? {
      return Status400("Failed to fetch any puzzles"), store;
    }
    var body;
    body, store' := RunAllOnSet(store, theme, topUp.set_, count, rerunCompleted, clock, ids, ask, responseTimes);
    response := Status200(body);
  }

  /**
   * What a successful run-all leaves behind: the response counts the models picked; the topped-up
   * set is stored for the theme; the run table holds one run per picked model, in provider-grouped
   * order, over the puzzles to run; each picked model's summary is its earlier summary updated
   * with its own run's accuracy at its own clock reading, so it is marked as done on the theme;
   * every other summary is as before.
   */
  ghost predicate RanAll(store: PuzzleStore, store': PuzzleStore, body: RunAllResponse, theme: Theme, set_: PuzzleSet,
                         count: nat, rerunCompleted: bool, clock: nat -> Stamps, ids: nat -> string,
                         ask: (Provider, string) -> (LichessPuzzle, nat) -> Result<Answer>, responseTimes: nat -> int)
  {
    var models := ModelsToBenchmark(theme, rerunCompleted, store.summaries);
    var runs := ModelRuns(Grouped(models), theme, set_.id, PuzzlesToRun(set_, count), clock, ids, ask, responseTimes);
    && body.totalModels == |models| && body.puzzleCount == count && body.theme == theme
    && body.message == "Puzzle benchmark completed for " + NatToString(|models|) + " models"
    && store'.sets == store.sets[theme := set_]
    && HoldsRuns(store.runs, store'.runs, runs)
    && SummariesUpdated(store.summaries, store'.summaries, runs, clock)
    && (forall x :: x in models ==> ShouldSkipModel(theme, SummaryOf(store'.summaries, x)))
    && (forall x :: x !in models ==> SummaryOf(store'.summaries, x) == SummaryOf(store.summaries, x))
  }

  /** The run-all step once the topped-up set `set_` is known. */
  method RunAllOnSet(store: PuzzleStore, theme: Theme, set_: PuzzleSet, count: nat, rerunCompleted: bool,
                     clock: nat -> Stamps, ids: nat -> string,
                     ask: (Provider, string) -> (LichessPuzzle, nat) -> Result<Answer>, responseTimes: nat -> int)
    returns (body: RunAllResponse, store': PuzzleStore)
    ensures RanAll(store, store', body, theme, set_, count, rerunCompleted, clock, ids, ask, responseTimes)
  {
    var s := store.(sets := store.sets[theme := set_]);
    var puzzles := PuzzlesToRun(set_, count);
    var models := ModelsToBenchmark(theme, rerunCompleted, store.summaries);
    var queue := Grouped(models);
    GroupedIsPermutation(models);
    ModelsToBenchmarkDistinct(theme, rerunCompleted, store.summaries);
    s := RunQueue(s, queue, theme, set_.id, puzzles, clock, ids, ask, responseTimes);
    assert forall x :: x in models <==> x in multiset(queue);
    body := RunAllResponse("Puzzle benchmark completed for " + NatToString(|models|) + " models", theme, count, |models|);
    store' := s;
  }

  /**
   * The run-all step as written: the set is topped up and stored as in the corrected step, but
   * `getAllModels` is not exported by the AI models module, so the next call throws a TypeError:
   * no model runs and no summary changes. Only a top-up that fetched nothing answers, with 400.
   */
  function RunAllPuzzleBenchmarksAsWritten(store: PuzzleStore, theme: Theme, count: nat, now: int,
                                           fetch: (Theme, nat) -> seq<LichessPuzzle>)
    : (r: (Result<Response<RunAllResponse>>, PuzzleStore))
    requires 1 <= count <= 100
    ensures var topUp := TopUpPuzzleSet(SetOf(store, theme), theme, count, now, fetch);
      && (topUp.NothingFetched? ==> r.0 == Ok(Status400("Failed to fetch any puzzles")) && r.1 == store)
      && (!topUp.NothingFetched? ==>
            && r.0 == Err("getAllModels is not a function")
            && r.1.sets == store.sets[theme := topUp.set_])
    ensures r.1.runs == store.runs && r.1.summaries == store.summaries
  {
    match TopUpPuzzleSet(SetOf(store, theme), theme, count, now, fetch)
    case NothingFetched => (Ok(Status400("Failed to fetch any puzzles")), store)
    case Kept(set_) => (Err("getAllModels is not a function"), store.(sets := store.sets[theme := set_]))
    case Replaced(set_) => (Err("getAllModels is not a function"), store.(sets := store.sets[theme := set_]))
  }

  /**
   * Runs each queued model on the puzzles, in queue order, then stores each run and folds it into
   * the model's summary. A run does not read the store, so storing each run right after it ends
   * gives the same store.
   */
  method RunQueue(store: PuzzleStore, queue: seq<(Provider, string)>, theme: Theme, setId: string,
                  puzzles: seq<LichessPuzzle>, clock: nat -> Stamps, ids: nat -> string,
                  ask: (Provider, string) -> (LichessPuzzle, nat) -> Result<Answer>, responseTimes: nat -> int)
    returns (s: PuzzleStore)
    ensures s.sets == store.sets
    ensures HoldsRuns(store.runs, s.runs, ModelRuns(queue, theme, setId, puzzles, clock, ids, ask, responseTimes))
    ensures DistinctPairs(queue) ==>
      SummariesUpdated(store.summaries, s.summaries, ModelRuns(queue, theme, setId, puzzles, clock, ids, ask, responseTimes), clock)
    ensures forall x :: x in queue ==> ShouldSkipModel(theme, SummaryOf(s.summaries, x))
    ensures forall x :: x !in queue ==> SummaryOf(s.summaries, x) == SummaryOf(store.summaries, x)
  {
    var runs := ModelRuns(queue, theme, setId, puzzles, clock, ids, ask, responseTimes);
    assert RunKeys(runs) == queue;
    s := RecordRuns(store, runs, clock);
    RecordRunsMarks(store, runs, theme, clock);
    RecordRunsHolds(store, runs, clock);
    if DistinctPairs(queue) {
      RecordRunsSummaries(store, runs, clock);
    }
  }

  /** The queued models' runs, in queue order; the j-th run gets run id `ids(j)` and the readings `clock(j)`. */
  function ModelRuns(queue: seq<(Provider, string)>, theme: Theme, setId: string, puzzles: seq<LichessPuzzle>,
                     clock: nat -> Stamps, ids: nat -> string,
                     ask: (Provider, string) -> (LichessPuzzle, nat) -> Result<Answer>,
                     responseTimes: nat -> int): (runs: seq<PuzzleRun>)
    ensures |runs| == |queue|
    ensures forall j :: 0 <= j < |queue| ==>
      runs[j] == ModelRun(ids(j), clock(j), puzzles, setId, theme, queue[j].0, queue[j].1, ask, responseTimes)
  {
    if |queue| == 0 then []
    else
      var k := |queue| - 1;
      ModelRuns(queue[..k], theme, setId, puzzles, clock, ids, ask, responseTimes)
        + [ModelRun(ids(k), clock(k), puzzles, setId, theme, queue[k].0, queue[k].1, ask, responseTimes)]
  }

  /** The provider and model a run belongs to, the key of its summary. */
  function RunKey(run: PuzzleRun): (Provider, string) {
    (run.provider, run.model)
  }

  function RunKeys(runs: seq<PuzzleRun>): (r: seq<(Provider, string)>)
    ensures |r| == |runs| && forall j :: 0 <= j < |runs| ==> r[j] == RunKey(runs[j])
  {
    if |runs| == 0 then [] else RunKeys(runs[..|runs| - 1]) + [RunKey(runs[|runs| - 1])]
  }

  /** The store after storing the runs one after the other, the j-th summary stamped `clock(j).summarized`. */
  function RecordRuns(store: PuzzleStore, runs: seq<PuzzleRun>, clock: nat -> Stamps): (s: PuzzleStore)
    ensures s.sets == store.sets
  {
    if |runs| == 0 then store
    else
      var k := |runs| - 1;
      RecordPuzzleRun(RecordRuns(store, runs[..k], clock), runs[k], clock(k).summarized)
  }

  /** Storing runs one after the other leaves the run table as `HoldsRuns` describes. */
  lemma {:induction false} RecordRunsHolds(store: PuzzleStore, runs: seq<PuzzleRun>, clock: nat -> Stamps)
    ensures HoldsRuns(store.runs, RecordRuns(store, runs, clock).runs, runs)
  {
    if |runs| > 0 {
      var k := |runs| - 1;
      var before := RecordRuns(store, runs[..k], clock);
      assert RecordRuns(store, runs, clock).runs == before.runs[runs[k].id := runs[k]];
      RecordRunsHolds(store, runs[..k], clock);
      HoldsRunsSnoc(store.runs, before.runs, runs[..k], runs[k]);
      assert runs[..k] + [runs[k]] == runs;
    }
  }

  /** The ids of some runs. */
  function RunIds(runs: seq<PuzzleRun>): set<string> {
    set j | 0 <= j < |runs| :: runs[j].id
  }

  /** No later run reuses the id of run `j`, so run `j` is the one stored under it. */
  predicate LastOfId(runs: seq<PuzzleRun>, j: nat)
    requires j < |runs|
  {
    forall i :: j < i < |runs| ==> runs[i].id != runs[j].id
  }

  /**
   * `after` is `before` with `runs` stored in order: it holds the old ids and the runs' ids,
   * each run not overwritten by a later one with its id, and every other stored run unchanged.
   */
  predicate HoldsRuns(before: map<string, PuzzleRun>, after: map<string, PuzzleRun>, runs: seq<PuzzleRun>) {
    && after.Keys == before.Keys + RunIds(runs)
    && (forall j :: 0 <= j < |runs| && LastOfId(runs, j) ==> after[runs[j].id] == runs[j])
    && (forall id :: id in before && id !in RunIds(runs) ==> after[id] == before[id])
  }

  /** Storing one more run keeps `HoldsRuns`. */
  lemma HoldsRunsSnoc(before: map<string, PuzzleRun>, after: map<string, PuzzleRun>, init: seq<PuzzleRun>,
                      run: PuzzleRun)
    requires HoldsRuns(before, after, init)
    ensures HoldsRuns(before, after[run.id := run], init + [run])
  {
    var runs := init + [run];
    assert RunIds(runs) == RunIds(init) + {run.id} by {
      forall id | id in RunIds(runs) ensures id in RunIds(init) + {run.id} {
        var j :| 0 <= j < |runs| && runs[j].id == id;
        if j < |init| {
          assert init[j].id == id;
        }
      }
      forall id | id in RunIds(init) ensures id in RunIds(runs) {
        var j :| 0 <= j < |init| && init[j].id == id;
        assert runs[j].id == id;
      }
      assert runs[|init|].id == run.id;
    }
    forall j | 0 <= j < |runs| && LastOfId(runs, j) ensures after[run.id := run][runs[j].id] == runs[j] {
      if j < |init| {
        assert runs[|init|].id != runs[j].id;
        assert LastOfId(init, j) by {
          forall i | j < i < |init| ensures init[i].id != init[j].id {
            assert runs[i] == init[i];
          }
        }
      }
    }
  }

  /**
   * After runs of one theme are stored, every model that ran is marked as done on the theme and
   * every other model's summary is as before.
   */
  lemma {:induction false} RecordRunsMarks(store: PuzzleStore, runs: seq<PuzzleRun>, theme: Theme, clock: nat -> Stamps)
    requires forall j :: 0 <= j < |runs| ==> runs[j].theme == theme
    ensures forall x :: x in RunKeys(runs) ==> ShouldSkipModel(theme, SummaryOf(RecordRuns(store, runs, clock).summaries, x))
    ensures forall x :: x !in RunKeys(runs) ==>
      SummaryOf(RecordRuns(store, runs, clock).summaries, x) == SummaryOf(store.summaries, x)
  {
    if |runs| > 0 {
      var k := |runs| - 1;
      var init := runs[..k];
      RecordRunsMarks(store, init, theme, clock);
      var before := RecordRuns(store, init, clock);
      var s := RecordPuzzleRun(before, runs[k], clock(k).summarized);
      assert RecordRuns(store, runs, clock) == s;
      assert RunKeys(runs) == RunKeys(init) + [RunKey(runs[k])];
      forall x | x in RunKeys(runs) ensures ShouldSkipModel(theme, SummaryOf(s.summaries, x)) {
        if x != RunKey(runs[k]) {
          assert x in RunKeys(init);
        }
      }
    }
  }

  /**
   * Each run's model has as its summary the summary it had before the runs, updated with that
   * run's theme and accuracy and stamped with that run's clock reading.
   */
  predicate SummariesUpdated(before: map<(Provider, string), PuzzleSummary>, after: map<(Provider, string), PuzzleSummary>,
                             runs: seq<PuzzleRun>, clock: nat -> Stamps) {
    forall j :: 0 <= j < |runs| ==>
      SummaryOf(after, RunKey(runs[j]))
        == Some(UpdatePuzzleSummary(SummaryOf(before, RunKey(runs[j])), runs[j].provider, runs[j].model,
                                    runs[j].theme, runs[j].accuracy, clock(j).summarized))
  }

  /** When no two runs belong to the same model, storing them writes each model's summary from its own run. */
  lemma RecordRunsSummaries(store: PuzzleStore, runs: seq<PuzzleRun>, clock: nat -> Stamps)
    requires DistinctPairs(RunKeys(runs))
    ensures SummariesUpdated(store.summaries, RecordRuns(store, runs, clock).summaries, runs, clock)
  {
    forall j | 0 <= j < |runs|
      ensures SummaryOf(RecordRuns(store, runs, clock).summaries, RunKey(runs[j]))
           == Some(UpdatePuzzleSummary(SummaryOf(store.summaries, RunKey(runs[j])), runs[j].provider, runs[j].model,
                                       runs[j].theme, runs[j].accuracy, clock(j).summarized))
    {
      RecordRunsSummaryAt(store, runs, clock, j);
    }
  }

  /** The summary of the model of run `j`, when no other run belongs to that model. */
  lemma {:induction false} RecordRunsSummaryAt(store: PuzzleStore, runs: seq<PuzzleRun>, clock: nat -> Stamps, j: nat)
    requires j < |runs| && DistinctPairs(RunKeys(runs))
    ensures SummaryOf(RecordRuns(store, runs, clock).summaries, RunKey(runs[j]))
         == Some(UpdatePuzzleSummary(SummaryOf(store.summaries, RunKey(runs[j])), runs[j].provider, runs[j].model,
                                     runs[j].theme, runs[j].accuracy, clock(j).summarized))
  {
    var k := |runs| - 1;
    var init := runs[..k];
    var before := RecordRuns(store, init, clock);
    var key := RunKey(runs[k]);
    var v := UpdatePuzzleSummary(SummaryOf(before.summaries, key), runs[k].provider, runs[k].model, runs[k].theme,
                                 runs[k].accuracy, clock(k).summarized);
    assert RecordRuns(store, runs, clock).summaries == before.summaries[key := v];
    SummaryOfUpdate(before.summaries, key, v, RunKey(runs[j]));
    assert RunKeys(init) == RunKeys(runs)[..k];
    if j == k {
      RecordRunsKeepsOthers(store, init, clock);
      assert key !in RunKeys(init) by {
        forall q | 0 <= q < k ensures RunKeys(init)[q] != key {
          assert RunKeys(runs)[q] == RunKeys(init)[q];
        }
      }
    } else {
      assert RunKeys(runs)[j] != RunKeys(runs)[k];
      assert init[j] == runs[j];
      RecordRunsSummaryAt(store, init, clock, j);
    }
  }

  /** Looking a key up after one entry of the map is written. */
  lemma SummaryOfUpdate(m: map<(Provider, string), PuzzleSummary>, key: (Provider, string), v: PuzzleSummary,
                        y: (Provider, string))
    ensures SummaryOf(m[key := v], y) == if y == key then Some(v) else SummaryOf(m, y)
  {
  }

  /** Storing runs leaves the summary of every model without a run as it was. */
  lemma {:induction false} RecordRunsKeepsOthers(store: PuzzleStore, runs: seq<PuzzleRun>, clock: nat -> Stamps)
    ensures forall x :: x !in RunKeys(runs) ==>
      SummaryOf(RecordRuns(store, runs, clock).summaries, x) == SummaryOf(store.summaries, x)
  {
    if |runs| > 0 {
      var k := |runs| - 1;
      RecordRunsKeepsOthers(store, runs[..k], clock);
      assert RunKeys(runs) == RunKeys(runs[..k]) + [RunKey(runs[k])];
    }
  }

  /** The picked models are listed once each, and so they are once grouped by provider. */
  lemma ModelsToBenchmarkDistinct(theme: Theme, rerunCompleted: bool, summaries: map<(Provider, string), PuzzleSummary>)
    ensures DistinctPairs(ModelsToBenchmark(theme, rerunCompleted, summaries))
    ensures DistinctPairs(Grouped(ModelsToBenchmark(theme, rerunCompleted, summaries)))
  {
    AllModelsDistinct();
    SelectedDistinct(AllModels(), theme, summaries);
    GroupedDistinct(ModelsToBenchmark(theme, rerunCompleted, summaries));
  }

  lemma {:induction false} SelectedDistinct(ms: seq<(Provider, string)>, theme: Theme,
                                            summaries: map<(Provider, string), PuzzleSummary>)
    requires DistinctPairs(ms)
    ensures DistinctPairs(Selected(ms, theme, summaries))
  {
    if |ms| > 0 {
      var init := ms[..|ms| - 1];
      SelectedDistinct(init, theme, summaries);
      LastIsNew(ms);
      ConcatDistinct(Selected(init, theme, summaries), [ms[|ms| - 1]]);
    }
  }

  lemma {:induction false} ByProviderDistinct(ms: seq<(Provider, string)>, p: Provider)
    requires DistinctPairs(ms)
    ensures DistinctPairs(ByProvider(ms, p))
  {
    if |ms| > 0 {
      var init := ms[..|ms| - 1];
      ByProviderDistinct(init, p);
      LastIsNew(ms);
      ConcatDistinct(ByProvider(init, p), [ms[|ms| - 1]]);
    }
  }

  /** In a list without repeats, the last entry does not occur before it. */
  lemma LastIsNew(ms: seq<(Provider, string)>)
    requires |ms| > 0 && DistinctPairs(ms)
    ensures DistinctPairs(ms[..|ms| - 1]) && ms[|ms| - 1] !in ms[..|ms| - 1]
  {
    assert forall q :: 0 <= q < |ms| - 1 ==> ms[..|ms| - 1][q] == ms[q];
  }

  /** Grouping a list without repeats by provider gives a list without repeats. */
  lemma GroupedDistinct(ms: seq<(Provider, string)>)
    requires DistinctPairs(ms)
    ensures DistinctPairs(Grouped(ms))
  {
    var a, b, c, d := ByProvider(ms, OpenAi), ByProvider(ms, Gemini), ByProvider(ms, Claude), ByProvider(ms, Grok);
    ByProviderDistinct(ms, OpenAi);
    ByProviderDistinct(ms, Gemini);
    ByProviderDistinct(ms, Claude);
    ByProviderDistinct(ms, Grok);
    assert forall k :: 0 <= k < |b| ==> b[k].0 == Gemini;
    ConcatDistinct(a, b);
    assert forall x :: x in a + b ==> x.0 == OpenAi || x.0 == Gemini;
    assert forall k :: 0 <= k < |c| ==> c[k].0 == Claude;
    ConcatDistinct(a + b, c);
    assert forall x :: x in a + b + c ==> x.0 != Grok;
    assert forall k :: 0 <= k < |d| ==> d[k].0 == Grok;
    ConcatDistinct(a + b + c, d);
  }

  /** One model's run in the run-all step. */
  function ModelRun(runId: string, at: Stamps, puzzles: seq<LichessPuzzle>, setId: string, theme: Theme,
                    p: Provider, m: string, ask: (Provider, string) -> (LichessPuzzle, nat) -> Result<Answer>,
                    responseTimes: nat -> int): (run: PuzzleRun)
    ensures run.provider == p && run.model == m && run.theme == theme
  {
    RunPuzzleBenchmark(runId, at.started, at.completed, puzzles, setId, theme, p, m, ask(p, m), responseTimes)
  }

  function SetOf(store: PuzzleStore, theme: Theme): Option<PuzzleSet> {
    if theme in store.sets then Some(store.sets[theme]) else None
  }
}

=== FILE: retry.dfy ===
/**
 * Retrying a model call after a transient failure (`withRetries`, `withRetriesNoTimeout`):
 * which errors count as transient, how long to wait (a `Retry-After` header, or an exponential
 * backoff capped at 30 seconds, plus up to 249 ms of jitter), and how many calls are made.
 * The call, the clock readings and the random jitter are oracles indexed by when they happen.
 */
module Retry {
  import opened Wrappers
  import opened Strings
  import opened Numbers

  function Min(a: int, b: int): int {
    if a <= b then a else b
  }

  function Max(a: int, b: int): int {
    if a >= b then a else b
  }

  /** `parseRetryAfterMs`: whole seconds, or an HTTP date as the time left until it (RFC 9110 section 10.2.3). */
  function ParseRetryAfterMs(value: Option<string>, parseDate: string -> Option<int>, now: int): (r: Option<int>)
    ensures r.Some? ==> r.value >= 0
    ensures value.None? ==> r.None?
    ensures value.Some? && ParseInt(Trim(value.value)).Some? && ParseInt(Trim(value.value)).value >= 0 ==>
      r == Some(ParseInt(Trim(value.value)).value * 1000)
    ensures value.Some? && !(ParseInt(Trim(value.value)).Some? && ParseInt(Trim(value.value)).value >= 0) ==>
      var date := parseDate(Trim(value.value));
      && (date.Some? ==> r == Some(if date.value > now then date.value - now else 0))
      && (date.None? ==> r.None?)
  {
    if value.None? then None
    else
      var trimmed := Trim(value.value);
      var seconds := ParseInt(trimmed);
      if seconds.Some? && seconds.value >= 0 then Some(seconds.value * 1000)
      else
        match parseDate(trimmed)
        case Some(dateMs) => var delta := dateMs - now; Some(if delta > 0 then delta else 0)
        case None => None
  }

  /** Text without whitespace at either end is left as it is by `trim`. */
  lemma {:induction false} TrimUnpadded(s: string)
    requires |s| > 0 && !IsSpace(s[0]) && !IsSpace(s[|s| - 1])
    ensures Trim(s) == s
  {
  }

  /** A header of whole seconds waits that many thousand milliseconds. */
  lemma {:induction false} RetryAfterSeconds(n: nat, parseDate: string -> Option<int>, now: int)
    ensures ParseRetryAfterMs(Some(NatToString(n)), parseDate, now) == Some(n * 1000)
  {
    var s := NatToString(n);
    assert IsDigit(s[0]) && IsDigit(s[|s| - 1]);
    TrimUnpadded(s);
    ParseIntOfIntToString(n);
    assert IntToString(n) == s;
  }

  /** What a failed call threw, as far as the retry logic looks at it. */
  datatype Failure = Failure(
    statusCode: Option<int>,
    causeStatusCode: Option<int>,
    message: Option<string>,
    responseHeaders: Option<map<string, string>>,
    causeResponseHeaders: Option<map<string, string>>)

  /** `getStatusCode`: the error's own status code, else its cause's. */
  function StatusCode(e: Failure): Option<int> {
    if e.statusCode.Some? then e.statusCode else e.causeStatusCode
  }

  /** The `Retry-After` header of the error's response (lower-case spelling first), if any. */
  function RetryAfterHeader(e: Failure): Option<string> {
    var headers := if e.responseHeaders.Some? then e.responseHeaders else e.causeResponseHeaders;
    if headers.None? then None
    else if "retry-after" in headers.value then Some(headers.value["retry-after"])
    else if "Retry-After" in headers.value then Some(headers.value["Retry-After"])
    else None
  }

  /** The statuses worth another try: timeouts, too early, rate limits and server overload. */
  const TransientStatuses: set<int> := {408, 425, 429, 500, 502, 503, 504, 529}

  /**
   * `isTransientError`: a transient status, or an `Error` whose message tells of a headers
   * timeout or a failed connection. `message` is absent for a thrown value that is not an `Error`.
   */
  function IsTransientError(e: Failure): (r: bool)
    ensures r <==>
      || (StatusCode(e).Some? && StatusCode(e).value in TransientStatuses)
      || Contains(e.message.GetOr(""), "Headers Timeout")
      || Contains(e.message.GetOr(""), "Cannot connect to API")
  {
    var status := StatusCode(e);
    if status.Some? && status.value != 0 && status.value in [408, 425, 429, 500, 502, 503, 504, 529] then true
    else
      var msg := if e.message.Some? then e.message.value else "";
      Contains(msg, "Headers Timeout") || Contains(msg, "Cannot connect to API")
  }

  function Pow2(k: nat): (p: nat)
    ensures p >= 1
  {
    if k == 0 then 1 else 2 * Pow2(k - 1)
  }

  lemma {:induction false} Pow2Monotone(a: nat, b: nat)
    requires a <= b
    ensures Pow2(a) <= Pow2(b)
    decreases b
  {
    if a < b {
      Pow2Monotone(a, b - 1);
    }
  }

  /** `Math.min(30_000, base * 2 ** (attempt - 1))`: the wait after the `attempt`-th failure. */
  function Backoff(base: int, attempt: nat): (ms: int)
    requires attempt >= 1
    ensures ms <= 30000
    ensures base >= 0 ==> ms >= 0
  {
    Min(30000, base * Pow2(attempt - 1))
  }

  /** With a non-negative base, each backoff is at least the one before. */
  lemma BackoffMonotone(base: int, a: nat, b: nat)
    requires base >= 0 && 1 <= a <= b
    ensures Backoff(base, a) <= Backoff(base, b)
  {
    Pow2Monotone(a - 1, b - 1);
    MulMonotone(base, Pow2(a - 1), Pow2(b - 1));
  }

  lemma MulMonotone(x: int, p: int, q: int)
    requires x >= 0 && p <= q
    ensures x * p <= x * q
  {
  }

  /** `Math.floor(Math.random() * 250)`. */
  type Jitter = j: int | 0 <= j < 250

  /**
   * One wait between calls. `wanted` is the Retry-After time or the backoff, plus jitter;
   * `remaining` is the time left before the deadline when the wait starts (absent without a
   * deadline); `slept` is how long the wait lasts.
   */
  datatype Pause = Pause(wanted: int, fromHeader: bool, remaining: Option<int>, slept: int)

  /** How a retried call ends. */
  datatype Outcome<T> = Returned(value: T) | Threw(error: Failure) | TimedOutBeforeStart

  /** A call's result: its value or what it threw. */
  datatype Attempt<T> = Succeeded(value: T) | Failed(error: Failure)

  /** One call: the time budget of its abort signal (absent when it gets none) and its result. */
  datatype Call<T> = Call(budget: Option<int>, result: Attempt<T>)

  /** Everything a run went through: its outcome, its calls in order, and the waits between them. */
  datatype RetryRun<T> = RetryRun(outcome: Outcome<T>, calls: seq<Call<T>>, pauses: seq<Pause>)

  /**
   * The world a run sees. `call(k, budget)` is what the `k`-th call gives with that abort
   * signal; `clock(i)` is the `i`-th reading of `Date.now()` (three per loop turn: before the
   * call, in `parseRetryAfterMs`, and before the wait); `jitter(k)` is the `k`-th random draw.
   */
  datatype Environment<T> = Environment(
    call: (nat, Option<int>) -> Attempt<T>,
    clock: nat -> int,
    jitter: nat -> Jitter,
    parseDate: string -> Option<int>)

  /** The calls were made in order, as the oracle answered them. */
  predicate Recorded<T(==)>(calls: seq<Call<T>>, env: Environment<T>, attempt: nat) {
    forall k :: 0 <= k < |calls| ==> calls[k].result == env.call(attempt + k, calls[k].budget)
  }

  /** Every call but the last failed with a transient error. */
  predicate RetriedOnlyTransient<T(==)>(calls: seq<Call<T>>) {
    forall k :: 0 <= k < |calls| - 1 ==> calls[k].result.Failed? && IsTransientError(calls[k].result.error)
  }

  /** The outcome is what the last call gave. */
  predicate EndsWithLast<T(==)>(r: RetryRun<T>) {
    && (r.outcome.Returned? ==> |r.calls| >= 1 && r.calls[|r.calls| - 1].result == Succeeded(r.outcome.value))
    && (r.outcome.Threw? ==> |r.calls| >= 1 && r.calls[|r.calls| - 1].result == Failed(r.outcome.error))
  }

  /** Every call was given an abort signal with time left on it. */
  predicate BudgetsPositive<T>(calls: seq<Call<T>>) {
    forall k :: 0 <= k < |calls| ==> calls[k].budget.Some? && calls[k].budget.value > 0
  }

  /** No call was given an abort signal. */
  predicate NoBudgets<T>(calls: seq<Call<T>>) {
    forall k :: 0 <= k < |calls| ==> calls[k].budget.None?
  }

  /** Every wait started with time left and ended 100 ms before the deadline, or at once. */
  predicate PausesWithinDeadline(pauses: seq<Pause>) {
    forall k :: 0 <= k < |pauses| ==> WithinDeadline(pauses[k])
  }

  /** A wait without deadline: slept in full, and a backoff wait is at most 30249 ms. */
  predicate SleptInFull(p: Pause) {
    p.slept == p.wanted && (!p.fromHeader ==> p.wanted <= 30249)
  }

  predicate PausesSleptInFull(pauses: seq<Pause>) {
    forall k :: 0 <= k < |pauses| ==> SleptInFull(pauses[k])
  }

  /** Putting a transiently failed call (and the wait after it) in front of the rest of a run. */
  function Prepend<T(==)>(first: Call<T>, pause: Pause, rest: RetryRun<T>, env: Environment<T>, attempt: nat)
    : (r: RetryRun<T>)
    requires first.result == env.call(attempt, first.budget)
    requires first.result.Failed? && IsTransientError(first.result.error)
    requires Recorded(rest.calls, env, attempt + 1) && RetriedOnlyTransient(rest.calls) && EndsWithLast(rest)
    requires !rest.outcome.TimedOutBeforeStart? ==> |rest.calls| >= 1
    ensures r.outcome == rest.outcome && |r.calls| == |rest.calls| + 1 && |r.pauses| == |rest.pauses| + 1
    ensures r.calls[0] == first && r.calls[1..] == rest.calls
    ensures r.pauses[0] == pause && r.pauses[1..] == rest.pauses && r.pauses == [pause] + rest.pauses
    ensures Recorded(r.calls, env, attempt) && RetriedOnlyTransient(r.calls) && EndsWithLast(r)
    ensures PausesWithinDeadline(r.pauses) <==> WithinDeadline(pause) && PausesWithinDeadline(rest.pauses)
    ensures PausesSleptInFull(r.pauses) <==> SleptInFull(pause) && PausesSleptInFull(rest.pauses)
    ensures BudgetsPositive(r.calls) <==> first.budget.Some? && first.budget.value > 0 && BudgetsPositive(rest.calls)
    ensures NoBudgets(r.calls) <==> first.budget.None? && NoBudgets(rest.calls)
  {
    var calls := [first] + rest.calls;
    PrependCall(first, rest.calls, env, attempt);
    PrependPause(pause, rest.pauses);
    assert |rest.calls| >= 1 ==> calls[|calls| - 1] == rest.calls[|rest.calls| - 1];
    RetryRun(rest.outcome, calls, [pause] + rest.pauses)
  }

  /** A transiently failed call in front of recorded, transiently retried calls. */
  lemma PrependCall<T>(first: Call<T>, rest: seq<Call<T>>, env: Environment<T>, attempt: nat)
    requires first.result == env.call(attempt, first.budget)
    requires first.result.Failed? && IsTransientError(first.result.error)
    requires Recorded(rest, env, attempt + 1) && RetriedOnlyTransient(rest)
    ensures Recorded([first] + rest, env, attempt) && RetriedOnlyTransient([first] + rest)
    ensures BudgetsPositive([first] + rest) <==> first.budget.Some? && first.budget.value > 0 && BudgetsPositive(rest)
    ensures NoBudgets([first] + rest) <==> first.budget.None? && NoBudgets(rest)
  {
    var calls := [first] + rest;
    assert forall k :: 1 <= k < |calls| ==> calls[k] == rest[k - 1];
    if BudgetsPositive(calls) {
      assert calls[0] == first;
      forall k | 0 <= k < |rest| ensures rest[k].budget.Some? && rest[k].budget.value > 0 {
        assert rest[k] == calls[k + 1];
      }
    }
    if NoBudgets(calls) {
      assert calls[0] == first;
      forall k | 0 <= k < |rest| ensures rest[k].budget.None? {
        assert rest[k] == calls[k + 1];
      }
    }
  }

  /** A wait in front of other waits. */
  lemma PrependPause(pause: Pause, rest: seq<Pause>)
    ensures PausesWithinDeadline([pause] + rest) <==> WithinDeadline(pause) && PausesWithinDeadline(rest)
    ensures PausesSleptInFull([pause] + rest) <==> SleptInFull(pause) && PausesSleptInFull(rest)
  {
    var ps := [pause] + rest;
    assert ps[0] == pause;
    assert forall k :: 0 <= k < |rest| ==> rest[k] == ps[k + 1];
  }

  /**
   * Each wait knew the time left as the deadline minus the clock's third reading of its turn,
   * the turn of call number `attempt + k` for the `k`-th wait.
   */
  predicate RemainingFromClock<T>(pauses: seq<Pause>, deadline: int, env: Environment<T>, attempt: nat) {
    forall k :: 0 <= k < |pauses| ==> pauses[k].remaining == Some(deadline - env.clock(3 * (attempt + k) + 2))
  }

  /** A wait of turn `attempt` in front of the waits of the later turns. */
  lemma PrependRemaining<T>(pause: Pause, rest: seq<Pause>, deadline: int, env: Environment<T>, attempt: nat)
    requires pause.remaining == Some(deadline - env.clock(3 * attempt + 2))
    requires RemainingFromClock(rest, deadline, env, attempt + 1)
    ensures RemainingFromClock([pause] + rest, deadline, env, attempt)
  {
    var ps := [pause] + rest;
    forall k | 0 <= k < |ps| ensures ps[k].remaining == Some(deadline - env.clock(3 * (attempt + k) + 2)) {
      if k > 0 {
        assert ps[k] == rest[k - 1] && attempt + k == (attempt + 1) + (k - 1);
      }
    }
  }

  /** A run without deadline that threw a transient error made every call it was allowed. */
  predicate RetriedUntilExhausted<T>(r: RetryRun<T>, retries: int, attempt: nat) {
    r.outcome.Threw? && IsTransientError(r.outcome.error) ==> |r.calls| == Max(retries - attempt, 0) + 1
  }

  /**
   * A run before a deadline that threw a transient error made every call it was allowed, or
   * found no time left when it was about to wait after its last call.
   */
  predicate RetriedUntilExhaustedOrLate<T>(r: RetryRun<T>, retries: int, attempt: nat, deadline: int, env: Environment<T>) {
    r.outcome.Threw? && IsTransientError(r.outcome.error) ==>
      |r.calls| >= 1 &&
      (|r.calls| == Max(retries - attempt, 0) + 1 || deadline - env.clock(3 * (attempt + |r.calls| - 1) + 2) <= 0)
  }

  /** A run that timed out before a call found no time left at the start of that turn. */
  predicate TimedOutAtStart<T>(r: RetryRun<T>, attempt: nat, deadline: int, env: Environment<T>) {
    r.outcome.TimedOutBeforeStart? ==> deadline - env.clock(3 * (attempt + |r.calls|)) <= 0
  }

  /** The wait after the `attempt`-th failure: the Retry-After time if it parses, else the backoff. */
  function Wanted<T(==)>(e: Failure, base: int, attempt: nat, env: Environment<T>, now: int): (p: (int, bool))
    requires attempt >= 1
    ensures !p.1 ==> p.0 <= 30000 + 249
    ensures base >= 0 ==> p.0 >= 0
  {
    var retryAfter := ParseRetryAfterMs(RetryAfterHeader(e), env.parseDate, now);
    if retryAfter.Some? then (retryAfter.value + env.jitter(attempt - 1), true)
    else (Backoff(base, attempt) + env.jitter(attempt - 1), false)
  }

  /** A wait before a deadline: started with time left, and ending 100 ms before it or at once. */
  predicate WithinDeadline(p: Pause) {
    p.remaining.Some? && p.remaining.value > 0 && p.slept <= Max(0, p.remaining.value - 100) && p.slept <= p.wanted
  }

  /** The wait before the deadline: as long as wanted, but ending 100 ms before the deadline. */
  function DeadlinePause(wanted: int, fromHeader: bool, remaining: int): (p: Pause)
    requires remaining > 0
    ensures WithinDeadline(p) && p.wanted == wanted && p.fromHeader == fromHeader
    ensures p.slept == wanted || p.slept == Max(0, remaining - 100)
  {
    Pause(wanted, fromHeader, Some(remaining), Min(wanted, Max(0, remaining - 100)))
  }

  /** What a run before a deadline keeps, from call number `attempt` on. */
  predicate DeadlineRun<T(==)>(r: RetryRun<T>, deadline: int, retries: int, env: Environment<T>, attempt: nat) {
    && |r.calls| <= Max(retries - attempt, 0) + 1
    && (r.outcome.TimedOutBeforeStart? ==> |r.pauses| == |r.calls|)
    && (!r.outcome.TimedOutBeforeStart? ==> |r.calls| >= 1 && |r.pauses| == |r.calls| - 1)
    && BudgetsPositive(r.calls)
    && Recorded(r.calls, env, attempt) && RetriedOnlyTransient(r.calls) && EndsWithLast(r)
    && PausesWithinDeadline(r.pauses) && RemainingFromClock(r.pauses, deadline, env, attempt)
    && RetriedUntilExhaustedOrLate(r, retries, attempt, deadline, env)
    && TimedOutAtStart(r, attempt, deadline, env)
  }

  /** The calls of a run, from call number `attempt` on, made before a deadline. */
  function WithRetriesFrom<T(==)>(deadline: int, retries: int, base: int, env: Environment<T>, attempt: nat)
    : (r: RetryRun<T>)
    ensures |r.calls| == 0 <==> deadline - env.clock(3 * attempt) <= 0
    ensures DeadlineRun(r, deadline, retries, env, attempt)
    decreases Max(retries - attempt, 0)
  {
    var remaining := deadline - env.clock(3 * attempt);
    if remaining <= 0 then StartTooLate(deadline, retries, env, attempt)
    else
      var first := Call(Some(remaining), env.call(attempt, Some(remaining)));
      match first.result
      case Succeeded(v) => LastCall(first, Returned(v), deadline, retries, env, attempt)
      case Failed(e) =>
        var next := attempt + 1;
        if next > retries || !IsTransientError(e) then LastCall(first, Threw(e), deadline, retries, env, attempt)
        else
          var (wanted, fromHeader) := Wanted(e, base, next, env, env.clock(3 * attempt + 1));
          var remainingAfterWait := deadline - env.clock(3 * attempt + 2);
          if remainingAfterWait <= 0 then LastCall(first, Threw(e), deadline, retries, env, attempt)
          else
            var pause := DeadlinePause(wanted, fromHeader, remainingAfterWait);
            var rest := WithRetriesFrom(deadline, retries, base, env, next);
            DeadlineTurn(first, pause, rest, deadline, retries, env, attempt)
  }

  /** No time left at the start of turn `attempt`: no call is made. */
  function StartTooLate<T(==)>(deadline: int, retries: int, env: Environment<T>, attempt: nat): (r: RetryRun<T>)
    requires deadline - env.clock(3 * attempt) <= 0
    ensures r.calls == [] && DeadlineRun(r, deadline, retries, env, attempt)
  {
    RetryRun(TimedOutBeforeStart, [], [])
  }

  /**
   * The last call of a run before a deadline, with a time budget: it succeeded, or it threw
   * what it failed with, a transient failure only once the retries are spent or no time is
   * left to wait.
   */
  function LastCall<T(==)>(first: Call<T>, outcome: Outcome<T>, deadline: int, retries: int, env: Environment<T>,
                           attempt: nat): (r: RetryRun<T>)
    requires first.result == env.call(attempt, first.budget) && first.budget.Some? && first.budget.value > 0
    requires outcome.Returned? ==> first.result == Succeeded(outcome.value)
    requires outcome.Threw? ==> first.result == Failed(outcome.error)
    requires outcome.Threw? && IsTransientError(outcome.error) ==>
      attempt + 1 > retries || deadline - env.clock(3 * attempt + 2) <= 0
    requires !outcome.TimedOutBeforeStart?
    ensures r.calls == [first] && DeadlineRun(r, deadline, retries, env, attempt)
  {
    RetryRun(outcome, [first], [])
  }

  /**
   * A call that failed transiently with a retry left and time left to wait, the wait after it,
   * and the rest of the run: the whole keeps what a run before a deadline keeps.
   */
  function DeadlineTurn<T(==)>(first: Call<T>, pause: Pause, rest: RetryRun<T>,
                               deadline: int, retries: int, env: Environment<T>, attempt: nat)
    : (r: RetryRun<T>)
    requires first.result == env.call(attempt, first.budget) && first.budget.Some? && first.budget.value > 0
    requires first.result.Failed? && IsTransientError(first.result.error) && attempt + 1 <= retries
    requires pause.remaining == Some(deadline - env.clock(3 * attempt + 2)) && WithinDeadline(pause)
    requires DeadlineRun(rest, deadline, retries, env, attempt + 1)
    ensures r.outcome == rest.outcome && |r.calls| == |rest.calls| + 1
    ensures DeadlineRun(r, deadline, retries, env, attempt)
  {
    PrependRemaining(pause, rest.pauses, deadline, env, attempt);
    var r := Prepend(first, pause, rest, env, attempt);
    ShiftDeadlineCounts(r, rest, deadline, retries, env, attempt);
    r
  }

  /** The counting parts of `DeadlineRun` carry over from the later turns to one more turn in front. */
  lemma ShiftDeadlineCounts<T>(r: RetryRun<T>, rest: RetryRun<T>, deadline: int, retries: int, env: Environment<T>,
                               attempt: nat)
    requires r.outcome == rest.outcome && |r.calls| == |rest.calls| + 1 && attempt + 1 <= retries
    requires |rest.calls| <= Max(retries - (attempt + 1), 0) + 1
    requires RetriedUntilExhaustedOrLate(rest, retries, attempt + 1, deadline, env)
    requires TimedOutAtStart(rest, attempt + 1, deadline, env)
    ensures |r.calls| <= Max(retries - attempt, 0) + 1
    ensures RetriedUntilExhaustedOrLate(r, retries, attempt, deadline, env)
    ensures TimedOutAtStart(r, attempt, deadline, env)
  {
    assert attempt + |r.calls| == (attempt + 1) + |rest.calls|;
  }

  /**
   * `withRetries`: call until a success, a non-transient error, the `transientRetries`-th retry
   * or the deadline. No call is made when the deadline has already passed; otherwise at most
   * `transientRetries + 1` calls are made, every call but the last failed transiently, each
   * call gets a positive time budget, and no wait runs past 100 ms before the deadline.
   */
  function WithRetries<T(==)>(deadline: int, transientRetries: int, base: int, env: Environment<T>): (r: RetryRun<T>)
    ensures |r.calls| <= Max(transientRetries, 0) + 1
    ensures |r.calls| == 0 <==> deadline - env.clock(0) <= 0
    ensures forall k :: 0 <= k < |r.calls| ==> r.calls[k].budget.Some? && r.calls[k].budget.value > 0
    ensures Recorded(r.calls, env, 0) && RetriedOnlyTransient(r.calls) && EndsWithLast(r)
    ensures forall p :: p in r.pauses ==> WithinDeadline(p)
    ensures forall k :: 0 <= k < |r.pauses| ==> r.pauses[k].remaining == Some(deadline - env.clock(3 * k + 2))
    ensures r.outcome.Threw? && IsTransientError(r.outcome.error) ==>
      |r.calls| >= 1 &&
      (|r.calls| == Max(transientRetries, 0) + 1 || deadline - env.clock(3 * (|r.calls| - 1) + 2) <= 0)
    ensures r.outcome.TimedOutBeforeStart? ==> deadline - env.clock(3 * |r.calls|) <= 0
  {
    WithRetriesFrom(deadline, transientRetries, base, env, 0)
  }

  /** What a run without deadline keeps, from call number `attempt` on. */
  predicate FreeRun<T(==)>(r: RetryRun<T>, retries: int, env: Environment<T>, attempt: nat) {
    && 1 <= |r.calls| <= Max(retries - attempt, 0) + 1
    && !r.outcome.TimedOutBeforeStart? && |r.pauses| == |r.calls| - 1
    && NoBudgets(r.calls)
    && Recorded(r.calls, env, attempt) && RetriedOnlyTransient(r.calls) && EndsWithLast(r)
    && PausesSleptInFull(r.pauses)
    && RetriedUntilExhausted(r, retries, attempt)
  }

  /** A wait without deadline, slept in full. */
  function FullPause(wanted: int, fromHeader: bool): (p: Pause)
    requires !fromHeader ==> wanted <= 30249
    ensures SleptInFull(p) && p.wanted == wanted && p.fromHeader == fromHeader && p.remaining.None?
  {
    Pause(wanted, fromHeader, None, wanted)
  }

  /** The calls of a run without deadline, from call number `attempt` on. */
  function NoTimeoutFrom<T(==)>(retries: int, base: int, env: Environment<T>, attempt: nat): (r: RetryRun<T>)
    ensures FreeRun(r, retries, env, attempt)
    decreases Max(retries - attempt, 0)
  {
    var first := Call(None, env.call(attempt, None));
    match first.result
    case Succeeded(v) => FreeLastCall(first, Returned(v), retries, env, attempt)
    case Failed(e) =>
      var next := attempt + 1;
      if next > retries || !IsTransientError(e) then FreeLastCall(first, Threw(e), retries, env, attempt)
      else
        FreeRetry(first, base, NoTimeoutFrom(retries, base, env, next), retries, env, attempt)
  }

  /**
   * The last call of a run without deadline: it succeeded, or it threw what it failed with, a
   * transient failure only once the retries are spent.
   */
  function FreeLastCall<T(==)>(first: Call<T>, outcome: Outcome<T>, retries: int, env: Environment<T>, attempt: nat)
    : (r: RetryRun<T>)
    requires first.result == env.call(attempt, first.budget) && first.budget.None?
    requires outcome.Returned? ==> first.result == Succeeded(outcome.value)
    requires outcome.Threw? ==> first.result == Failed(outcome.error)
    requires outcome.Threw? && IsTransientError(outcome.error) ==> attempt + 1 > retries
    requires !outcome.TimedOutBeforeStart?
    ensures r.calls == [first] && FreeRun(r, retries, env, attempt)
  {
    RetryRun(outcome, [first], [])
  }

  /**
   * A call that failed transiently with a retry left, the full wait after it, and the rest of
   * the run: the whole keeps what a run without deadline keeps.
   */
  function FreeTurn<T(==)>(first: Call<T>, pause: Pause, rest: RetryRun<T>, retries: int, env: Environment<T>,
                           attempt: nat): (r: RetryRun<T>)
    requires first.result == env.call(attempt, first.budget) && first.budget.None?
    requires first.result.Failed? && IsTransientError(first.result.error) && attempt + 1 <= retries
    requires SleptInFull(pause)
    requires FreeRun(rest, retries, env, attempt + 1)
    ensures r.outcome == rest.outcome && |r.calls| == |rest.calls| + 1
    ensures FreeRun(r, retries, env, attempt)
  {
    Prepend(first, pause, rest, env, attempt)
  }

  /**
   * A call that failed transiently with a retry left, followed by the wait it asks for, slept
   * in full, and the rest of the run.
   */
  function FreeRetry<T(==)>(first: Call<T>, base: int, rest: RetryRun<T>, retries: int, env: Environment<T>,
                            attempt: nat): (r: RetryRun<T>)
    requires first.result == env.call(attempt, first.budget) && first.budget.None?
    requires first.result.Failed? && IsTransientError(first.result.error) && attempt + 1 <= retries
    requires FreeRun(rest, retries, env, attempt + 1)
    ensures r.outcome == rest.outcome && |r.calls| == |rest.calls| + 1
    ensures FreeRun(r, retries, env, attempt)
  {
    var w := Wanted(first.result.error, base, attempt + 1, env, env.clock(attempt));
    FreeTurn(first, FullPause(w.0, w.1), rest, retries, env, attempt)
  }

  /**
   * `withRetriesNoTimeout`: the same loop with no deadline and no abort signal, each wait slept
   * in full. The function is called at least once and at most `transientRetries + 1` times,
   * and a non-transient error ends the run at once.
   */
  function WithRetriesNoTimeout<T(==)>(transientRetries: int, base: int, env: Environment<T>): (r: RetryRun<T>)
    ensures 1 <= |r.calls| <= Max(transientRetries, 0) + 1
    ensures Recorded(r.calls, env, 0) && RetriedOnlyTransient(r.calls) && EndsWithLast(r)
    ensures !r.outcome.TimedOutBeforeStart?
    ensures forall p :: p in r.pauses ==> !p.fromHeader ==> p.wanted <= 30249
    ensures r.outcome.Threw? && IsTransientError(r.outcome.error) ==> |r.calls| == Max(transientRetries, 0) + 1
  {
    NoTimeoutFrom(transientRetries, base, env, 0)
  }
}

=== FILE: score_normalizer.dfy ===
/**
 * Mapping an engine score onto [-1, 1]: centipawns scaled by 1/1000 and clipped, mate
 * scores onto 0.8 + 0.2/|n| with the sign of the mate distance.
 */
module ScoreNormalizer {
  import opened Wrappers
  import opened Chess

  function Abs(n: int): nat {
    if n < 0 then -n else n
  }

  /** Python `max(lo, min(hi, x))`. */
  function Clamp(lo: real, hi: real, x: real): (r: real)
    requires lo <= hi
    ensures lo <= r <= hi
    ensures lo <= x <= hi ==> r == x
    ensures x < lo ==> r == lo
    ensures x > hi ==> r == hi
  {
    var m := if hi < x then hi else x;
    if lo < m then m else lo
  }

  /** The centipawn branch: `cp / 1000` clipped to [-1, 1]. */
  function NormalizeCentipawns(cp: int): (r: real)
    ensures -1.0 <= r <= 1.0
    ensures cp >= 1000 ==> r == 1.0
    ensures cp <= -1000 ==> r == -1.0
    ensures -1000 <= cp <= 1000 ==> r * 1000.0 == cp as real
  {
    Clamp(-1.0, 1.0, cp as real / 1000.0)
  }

  /** A larger centipawn score never normalises lower. */
  lemma NormalizeCentipawnsMonotone(a: int, b: int)
    requires a <= b
    ensures NormalizeCentipawns(a) <= NormalizeCentipawns(b)
  {
    assert a as real / 1000.0 <= b as real / 1000.0;
  }

  /** The magnitude of a mate score, `0.8 + 0.2 / |n|`; undefined for mate 0. */
  function MateMagnitude(n: int): (r: real)
    requires n != 0
    ensures 0.8 < r <= 1.0
    ensures r == 1.0 <==> Abs(n) == 1
  {
    0.8 + 0.2 * (1.0 / Abs(n) as real)
  }

  /** A nearer mate has a strictly larger magnitude. */
  lemma MateMagnitudeDecreasing(a: int, b: int)
    requires 0 < Abs(a) < Abs(b)
    ensures MateMagnitude(a) > MateMagnitude(b)
  {
    var x, y := Abs(a) as real, Abs(b) as real;
    assert 1.0 / x > 1.0 / y by {
      assert (1.0 / x) * x == 1.0 && (1.0 / y) * y == 1.0;
      assert 0.0 < x < y;
      ReciprocalDecreasing(x, y);
    }
  }

  lemma ReciprocalDecreasing(x: real, y: real)
    requires 0.0 < x < y
    ensures 1.0 / x > 1.0 / y
  {
    assert 1.0 / x - 1.0 / y == (y - x) / (x * y);
  }

  /**
   * `normalize_score` as the source writes it. A mate score of 0, which is what the engine
   * reports for a position whose side to move is already checkmated, divides by zero.
   */
  function NormalizeScoreAsWritten(s: Score): (r: Result<real>)
    ensures r.Err? <==> s == Mate(0)
  {
    match s
    case Mate(n) =>
      if n == 0 then Err("float division by zero")
      else var m := MateMagnitude(n); Ok(if n > 0 then m else -m)
    case Cp(c) => Ok(NormalizeCentipawns(c))
  }

  /** The position right after a checkmating move has no normalised score as written. */
  lemma CheckmatedPositionHasNoScore()
    ensures NormalizeScoreAsWritten(Mate(0)).Err?
    ensures forall n: int :: n != 0 ==> NormalizeScoreAsWritten(Mate(n)).Ok?
  {
  }

  /**
   * The evidently intended normalisation: mate 0 means the side to move has been mated, so
   * it is the worst score, -1; everything else is as written.
   */
  function NormalizeScore(s: Score): (r: real)
    ensures -1.0 <= r <= 1.0
    ensures s.Cp? ==> r == NormalizeCentipawns(s.cp)
    ensures s.Mate? ==> (r > 0.0 <==> s.moves > 0)
    ensures s.Mate? ==> 0.8 < r || r < -0.8
    ensures s == Mate(0) ==> r == -1.0
  {
    match s
    case Mate(n) =>
      if n == 0 then -1.0
      else var m := MateMagnitude(n); if n > 0 then m else -m
    case Cp(c) => NormalizeCentipawns(c)
  }

  /** The corrected normalisation agrees with the source wherever the source has a value. */
  lemma NormalizeScoreAgrees(s: Score)
    ensures NormalizeScoreAsWritten(s).Ok? ==> NormalizeScoreAsWritten(s).value == NormalizeScore(s)
  {
  }

  /**
   * A winning mate normalises above every centipawn score up to 800; beyond that a distant
   * mate can rank below a large centipawn advantage (mate in 10 is 0.82, 900 cp is 0.9).
   */
  lemma MateOutranksCentipawns(n: int, cp: int)
    requires n > 0
    requires cp <= 800
    ensures NormalizeScore(Mate(n)) > NormalizeScore(Cp(cp))
  {
  }

  /** The distant-mate inversion: mate in 10 normalises below a 900-centipawn lead. */
  lemma DistantMateBelowLargeLead()
    ensures NormalizeScore(Mate(10)) < NormalizeScore(Cp(900))
  {
  }
}

=== FILE: sorting.dfy ===
/** Stable insertion sort, the model of `Array.prototype.sort` with a comparator. */
module Sorting {

  /** `le` is total and transitive, as every comparator the source passes to `sort` is. */
  ghost predicate TotalPreorder<T(!new)>(le: (T, T) -> bool) {
    && (forall a, b :: le(a, b) || le(b, a))
    && (forall a, b, c :: le(a, b) && le(b, c) ==> le(a, c))
  }

  ghost predicate SortedBy<T>(s: seq<T>, le: (T, T) -> bool) {
    forall i, j :: 0 <= i < j < |s| ==> le(s[i], s[j])
  }

  /** Inserts `x` before the first element it is ordered before, so it stays ahead of its equals. */
  function Insert<T>(x: T, s: seq<T>, le: (T, T) -> bool): (r: seq<T>)
    ensures multiset(r) == multiset(s) + multiset{x}
    ensures |r| == |s| + 1
    decreases |s|
  {
    if |s| == 0 || le(x, s[0]) then [x] + s
    else
      assert s == [s[0]] + s[1..];
      [s[0]] + Insert(x, s[1..], le)
  }

  lemma {:induction false} InsertSorted<T(!new)>(x: T, s: seq<T>, le: (T, T) -> bool)
    requires TotalPreorder(le)
    requires SortedBy(s, le)
    ensures SortedBy(Insert(x, s, le), le)
    decreases |s|
  {
    if |s| > 0 && !le(x, s[0]) {
      InsertSorted(x, s[1..], le);
      var r := Insert(x, s, le);
      var t := Insert(x, s[1..], le);
      assert r == [s[0]] + t;
      forall k | 0 <= k < |t|
        ensures le(s[0], t[k])
      {
        assert t[k] in multiset(t);
        assert t[k] in multiset(s[1..]) + multiset{x};
        if t[k] in multiset(s[1..]) {
          var m :| 0 <= m < |s[1..]| && s[1..][m] == t[k];
          assert s[m + 1] == t[k];
        }
      }
    }
  }

  /** `s.sort(cmp)`: an ordered permutation of `s`. */
  function SortBy<T(!new)>(s: seq<T>, le: (T, T) -> bool): (r: seq<T>)
    requires TotalPreorder(le)
    ensures SortedBy(r, le)
    ensures multiset(r) == multiset(s)
    ensures |r| == |s|
    decreases |s|
  {
    if |s| == 0 then []
    else
      var rest := SortBy(s[1..], le);
      InsertSorted(s[0], rest, le);
      assert s == [s[0]] + s[1..];
      Insert(s[0], rest, le)
  }

  /** `a` and `b` are equal under `le`: neither may be ordered before the other alone. */
  predicate Tied<T>(le: (T, T) -> bool, a: T, b: T) {
    le(a, b) && le(b, a)
  }

  /** The elements of `s` tied with `e`, in their order in `s`. */
  function TiedWith<T>(s: seq<T>, le: (T, T) -> bool, e: T): (r: seq<T>)
    ensures |r| <= |s|
    decreases |s|
  {
    if |s| == 0 then []
    else (if Tied(le, s[0], e) then [s[0]] else []) + TiedWith(s[1..], le, e)
  }

  lemma TiedWithCons<T>(a: T, t: seq<T>, le: (T, T) -> bool, e: T)
    ensures TiedWith([a] + t, le, e) == (if Tied(le, a, e) then [a] else []) + TiedWith(t, le, e)
  {
    assert ([a] + t)[0] == a && ([a] + t)[1..] == t;
  }

  /** Inserting `x` puts it ahead of every element tied with it, and moves nothing else. */
  lemma {:induction false} InsertTied<T(!new)>(x: T, s: seq<T>, le: (T, T) -> bool, e: T)
    requires TotalPreorder(le)
    ensures TiedWith(Insert(x, s, le), le, e) == (if Tied(le, x, e) then [x] else []) + TiedWith(s, le, e)
    decreases |s|
  {
    if |s| == 0 || le(x, s[0]) {
      TiedWithCons(x, s, le, e);
    } else {
      var t := s[1..];
      assert s == [s[0]] + t;
      InsertTied(x, t, le, e);
      TiedWithCons(s[0], Insert(x, t, le), le, e);
      TiedWithCons(s[0], t, le, e);
      assert !(Tied(le, x, e) && Tied(le, s[0], e));
    }
  }

  /** The sort is stable: the elements tied with any `e` keep their order. */
  lemma {:induction false} SortByIsStable<T(!new)>(s: seq<T>, le: (T, T) -> bool, e: T)
    requires TotalPreorder(le)
    ensures TiedWith(SortBy(s, le), le, e) == TiedWith(s, le, e)
    decreases |s|
  {
    if |s| > 0 {
      SortByIsStable(s[1..], le, e);
      InsertTied(s[0], SortBy(s[1..], le), le, e);
    }
  }
}

=== FILE: stats.dfy ===
/** The numeric helpers of the scoring code: median, average, highest, lowest and rounding. */
module Stats {
  import opened Wrappers
  import opened Sorting

  function Sum(s: seq<int>): int {
    if |s| == 0 then 0 else Sum(s[..|s| - 1]) + s[|s| - 1]
  }

  /** `average`: the sum over the length; an empty array divides 0 by 0, giving NaN (`None`). */
  function Average(s: seq<int>): (r: Option<real>)
    ensures r.None? <==> |s| == 0
    ensures r.Some? ==> r.value * |s| as real == Sum(s) as real
  {
    if |s| == 0 then None else Some(Sum(s) as real / |s| as real)
  }

  lemma {:induction false} SumBounds(s: seq<int>, lo: int, hi: int)
    requires forall k :: 0 <= k < |s| ==> lo <= s[k] <= hi
    ensures lo * |s| <= Sum(s) <= hi * |s|
  {
    if |s| > 0 {
      var n := |s| - 1;
      var init := s[..n];
      forall k | 0 <= k < |init| ensures lo <= init[k] <= hi {
        assert init[k] == s[k];
      }
      SumBounds(init, lo, hi);
      assert Sum(s) == Sum(init) + s[n];
      assert lo * |s| == lo * n + lo && hi * |s| == hi * n + hi;
    }
  }

  /** The mean of values that all lie in [lo, hi] lies in [lo, hi] too. */
  lemma AverageWithinBounds(s: seq<int>, lo: int, hi: int)
    requires |s| > 0
    requires forall k :: 0 <= k < |s| ==> lo <= s[k] <= hi
    ensures lo as real <= Average(s).value <= hi as real
  {
    SumBounds(s, lo, hi);
    var n := |s| as real;
    var a := Average(s).value;
    assert a * n == Sum(s) as real;
    assert lo as real * n <= a * n <= hi as real * n;
    ScaledOrder(lo as real, a, n);
    ScaledOrder(a, hi as real, n);
  }

  function SumReals(xs: seq<real>): real {
    if |xs| == 0 then 0.0 else SumReals(xs[..|xs| - 1]) + xs[|xs| - 1]
  }

  /** The mean of JavaScript numbers: `reduce((a, b) => a + b, 0) / length`, NaN (`None`) when empty. */
  function Mean(xs: seq<real>): (r: Option<real>)
    ensures r.None? <==> |xs| == 0
    ensures r.Some? ==> r.value * |xs| as real == SumReals(xs)
  {
    if |xs| == 0 then None else Some(SumReals(xs) / |xs| as real)
  }

  /** Summing keeps a pointwise order. */
  lemma {:induction false} SumRealsPointwise(xs: seq<real>, ys: seq<real>)
    requires |xs| == |ys|
    requires forall k :: 0 <= k < |xs| ==> xs[k] <= ys[k]
    ensures SumReals(xs) <= SumReals(ys)
  {
    if |xs| > 0 {
      SumRealsPointwise(xs[..|xs| - 1], ys[..|ys| - 1]);
    }
  }

  lemma {:induction false} SumRealsBounds(xs: seq<real>, lo: real, hi: real)
    requires forall k :: 0 <= k < |xs| ==> lo <= xs[k] <= hi
    ensures lo * |xs| as real <= SumReals(xs) <= hi * |xs| as real
  {
    if |xs| > 0 {
      var n := |xs| - 1;
      var init := xs[..n];
      forall k | 0 <= k < |init| ensures lo <= init[k] <= hi {
        assert init[k] == xs[k];
      }
      SumRealsBounds(init, lo, hi);
      assert SumReals(xs) == SumReals(init) + xs[n];
      assert lo * |xs| as real == lo * n as real + lo && hi * |xs| as real == hi * n as real + hi;
    }
  }

  lemma {:induction false} SumRealsNonNegative(xs: seq<real>)
    requires forall k :: 0 <= k < |xs| ==> xs[k] >= 0.0
    ensures SumReals(xs) >= 0.0
  {
    if |xs| > 0 {
      SumRealsNonNegative(xs[..|xs| - 1]);
    }
  }

  lemma MeanNonNegative(xs: seq<real>)
    requires |xs| > 0 && SumReals(xs) >= 0.0
    ensures Mean(xs).value >= 0.0
  {
    ScaledOrder(0.0, Mean(xs).value, |xs| as real);
  }

  /** Multiplying by a positive factor keeps the order. */
  lemma ScaledOrder(a: real, b: real, n: real)
    requires n > 0.0 && a * n <= b * n
    ensures a <= b
  {
    assert (b - a) * n >= 0.0;
  }

  /** Means of equally long lists keep the order of their sums. */
  lemma MeanMonotone(xs: seq<real>, ys: seq<real>)
    requires |xs| == |ys| > 0
    requires SumReals(xs) <= SumReals(ys)
    ensures Mean(xs).value <= Mean(ys).value
  {
    ScaledOrder(Mean(xs).value, Mean(ys).value, |xs| as real);
  }

  /** The mean of values that all lie in [lo, hi] lies in [lo, hi] too. */
  lemma MeanWithinBounds(xs: seq<real>, lo: real, hi: real)
    requires |xs| > 0
    requires forall k :: 0 <= k < |xs| ==> lo <= xs[k] <= hi
    ensures lo <= Mean(xs).value <= hi
  {
    SumRealsBounds(xs, lo, hi);
    var n := |xs| as real;
    ScaledOrder(lo, Mean(xs).value, n);
    ScaledOrder(Mean(xs).value, hi, n);
  }

  /** The running mean kept by the benchmark summaries: the mean of `count` values, then one value more. */
  function RunningMean(mean: real, count: nat, x: real): (m: real)
    ensures m * (count + 1) as real == mean * count as real + x
  {
    (mean * count as real + x) / (count + 1) as real
  }

  /** The running mean folded over a list, from the mean 0 of no values. */
  function FoldRunningMean(xs: seq<real>): real {
    if |xs| == 0 then 0.0 else RunningMean(FoldRunningMean(xs[..|xs| - 1]), |xs| - 1, xs[|xs| - 1])
  }

  /** Folding the running mean over a list gives the list's mean. */
  lemma FoldRunningMeanIsMean(xs: seq<real>)
    requires |xs| > 0
    ensures FoldRunningMean(xs) == Mean(xs).value
  {
    FoldRunningMeanTimesLength(xs);
    var m := Mean(xs).value;
    assert (FoldRunningMean(xs) - m) * |xs| as real == 0.0;
  }

  lemma {:induction false} FoldRunningMeanTimesLength(xs: seq<real>)
    ensures FoldRunningMean(xs) * |xs| as real == SumReals(xs)
  {
    if |xs| > 0 {
      var init := xs[..|xs| - 1];
      FoldRunningMeanTimesLength(init);
      var count: nat := |xs| - 1;
      assert (count + 1) as real == |xs| as real;
    }
  }

  /** `highest`: a fold of `Math.max` seeded with 0. */
  function Highest(s: seq<int>): (r: int)
    ensures r >= 0
    ensures forall k :: 0 <= k < |s| ==> s[k] <= r
    ensures r == 0 || r in s
  {
    if |s| == 0 then 0
    else
      var m := Highest(s[..|s| - 1]);
      assert forall x :: x in s[..|s| - 1] ==> x in s;
      if s[|s| - 1] > m then s[|s| - 1] else m
  }

  /** `lowest`: a fold of `Math.min` seeded with -10000, so it never exceeds -10000. */
  function Lowest(s: seq<int>): (r: int)
    ensures r <= -10000
    ensures forall k :: 0 <= k < |s| ==> r <= s[k]
    ensures r == -10000 || r in s
  {
    if |s| == 0 then -10000
    else
      var m := Lowest(s[..|s| - 1]);
      assert forall x :: x in s[..|s| - 1] ==> x in s;
      if s[|s| - 1] < m then s[|s| - 1] else m
  }

  /** The seeds make `highest` of negative values and `lowest` of values above -10000 constant. */
  lemma SeedsDominate(s: seq<int>)
    ensures (forall k :: 0 <= k < |s| ==> s[k] <= 0) ==> Highest(s) == 0
    ensures (forall k :: 0 <= k < |s| ==> s[k] >= -10000) ==> Lowest(s) == -10000
  {
  }

  /** The numeric comparator `(a, b) => a - b`, read as "sorts no later than". */
  predicate NumericLe(a: int, b: int) {
    a <= b
  }

  lemma NumericLeIsTotalPreorder()
    ensures TotalPreorder(NumericLe)
  {
  }

  function NumericSort(s: seq<int>): (t: seq<int>)
    ensures multiset(t) == multiset(s) && |t| == |s|
    ensures forall i, j :: 0 <= i < j < |t| ==> t[i] <= t[j]
  {
    NumericLeIsTotalPreorder();
    var t := SortBy(s, NumericLe);
    assert forall i, j :: 0 <= i < j < |t| ==> NumericLe(t[i], t[j]);
    t
  }

  /**
   * `median`: the numeric sort, then the element at index floor(n / 2), the upper middle
   * for an even length; reading index 0 of an empty array gives `undefined`.
   */
  function Median(s: seq<int>): (r: Option<int>)
    ensures r.None? <==> |s| == 0
  {
    if |s| == 0 then None else Some(NumericSort(s)[|s| / 2])
  }

  /** Splitting a sorted sequence around position `m` into `below`, `t[m]` and `above`. */
  lemma {:induction false} SortedSplit(t: seq<int>, m: nat, below: seq<int>, above: seq<int>)
    requires m < |t| && below == t[..m] && above == t[m + 1..]
    requires forall i, j :: 0 <= i < j < |t| ==> t[i] <= t[j]
    ensures multiset(t) == multiset(below) + multiset{t[m]} + multiset(above)
    ensures |multiset(below)| == m
    ensures forall x :: x in multiset(below) ==> x <= t[m]
    ensures forall x :: x in multiset(above) ==> x >= t[m]
  {
    assert t == below + [t[m]] + above;
    forall x | x in multiset(below) ensures x <= t[m] {
      assert x in below;
    }
    forall x | x in multiset(above) ensures x >= t[m] {
      assert x in above;
    }
  }

  /**
   * `v` splits the values: with `lower` and `upper` it makes up all of them, `lower` holds `n / 2`
   * of them, none above `v`, and `upper` none below `v`.
   */
  ghost predicate SplitsAround(s: seq<int>, v: int, lower: multiset<int>, upper: multiset<int>) {
    && multiset(s) == lower + multiset{v} + upper
    && |lower| == |s| / 2
    && (forall x :: x in lower ==> x <= v)
    && (forall x :: x in upper ==> x >= v)
  }

  /** The median is one of the values and splits them. */
  lemma MedianSplitsValues(s: seq<int>)
    requires |s| > 0
    ensures Median(s).value in s
    ensures exists lower: multiset<int>, upper: multiset<int> :: SplitsAround(s, Median(s).value, lower, upper)
  {
    var t := NumericSort(s);
    SortedSplitsAround(s, t);
    assert SplitsAround(s, t[|s| / 2], multiset(t[..|s| / 2]), multiset(t[|s| / 2 + 1..]));
  }

  /** The middle element of a sorted permutation of `s` is in `s` and splits it. */
  lemma SortedSplitsAround(s: seq<int>, t: seq<int>)
    requires |s| > 0 && |t| == |s| && multiset(t) == multiset(s)
    requires forall i, j :: 0 <= i < j < |t| ==> t[i] <= t[j]
    ensures t[|s| / 2] in s
    ensures SplitsAround(s, t[|s| / 2], multiset(t[..|s| / 2]), multiset(t[|s| / 2 + 1..]))
  {
    var m := |s| / 2;
    SortedSplit(t, m, t[..m], t[m + 1..]);
    assert t[m] in multiset(s);
  }

  /** `Math.round`: the nearest integer, halves rounding up. */
  function Round(x: real): (r: int)
    ensures r as real - 0.5 <= x < r as real + 0.5
  {
    (x + 0.5).Floor
  }

  /** `Math.round` applied to a NaN-or-number. */
  function RoundOption(x: Option<real>): Option<int> {
    match x
    case None => None
    case Some(v) => Some(Round(v))
  }
}

=== FILE: stockfish_benchmark.dfy ===
/**
 * The API step that benchmarks one model against Stockfish: two games, the model playing white
 * and then black. It tallies wins, losses and draws, pools the two games' centipawn losses into
 * an overall ACPL (average centipawn loss), stores the run and folds it into the model's
 * summary. The games run after the response is sent, so the response carries the run as it
 * starts. The clock is the parameter `clock`, read at start, completion and summary time.
 */
module StockfishBenchmarkStep {
  import opened Wrappers
  import opened Stats
  import opened AiModels
  import opened Api
  import opened Chess
  import opened ChessJs
  import opened StockfishGame

  /** Wins, losses and draws, from the model's side. */
  datatype Record = Record(wins: nat, losses: nat, draws: nat)

  datatype BenchmarkRun = BenchmarkRun(
    id: string,
    createdAt: int,
    completedAt: Option<int>,
    status: GameStatus,
    provider: Provider,
    model: string,
    stockfishLevel: int,
    gameAsWhite: Option<StockfishGameResult>,
    gameAsBlack: Option<StockfishGameResult>,
    gamesPlayed: nat,
    wins: nat,
    losses: nat,
    draws: nat,
    overallAcpl: Option<real>)

  datatype StockfishSummary = StockfishSummary(
    id: string,
    provider: Provider,
    model: string,
    runsCompleted: nat,
    averageAcpl: real,
    bestAcpl: real,
    wins: nat,
    losses: nat,
    draws: nat,
    lastRunAt: int)

  datatype StockfishStore = StockfishStore(runs: map<string, BenchmarkRun>, summaries: map<string, StockfishSummary>)

  /** The skill level when the request gives none. */
  const DefaultLevel: int := 10

  /**
   * One more game: an AI win is a win, a Stockfish win a loss, and any other result, a draw,
   * an illegal-move loss or no result at all, is a draw.
   */
  function AddGame(t: Record, g: StockfishGameResult): (r: Record)
    ensures r.wins + r.losses + r.draws == t.wins + t.losses + t.draws + 1
    ensures r.wins >= t.wins && r.losses >= t.losses && r.draws >= t.draws
    ensures r.wins > t.wins <==> g.result == Some(AiWin)
    ensures r.losses > t.losses <==> g.result == Some(StockfishWin)
  {
    if g.result == Some(AiWin) then t.(wins := t.wins + 1)
    else if g.result == Some(StockfishWin) then t.(losses := t.losses + 1)
    else t.(draws := t.draws + 1)
  }

  /** The tally of games played in order, from no games. */
  function Tally(games: seq<StockfishGameResult>): (r: Record)
    ensures r.wins + r.losses + r.draws == |games|
  {
    if |games| == 0 then Record(0, 0, 0) else AddGame(Tally(games[..|games| - 1]), games[|games| - 1])
  }

  /** The number of games that ended with `outcome`. */
  function CountResult(games: seq<StockfishGameResult>, outcome: GameOutcome): (n: nat)
    ensures n <= |games|
  {
    if |games| == 0 then 0
    else CountResult(games[..|games| - 1], outcome) + (if games[|games| - 1].result == Some(outcome) then 1 else 0)
  }

  /** The tally counts the AI's wins and Stockfish's wins, and every other game as a draw. */
  lemma {:induction false} TallyCountsResults(games: seq<StockfishGameResult>)
    ensures Tally(games).wins == CountResult(games, AiWin)
    ensures Tally(games).losses == CountResult(games, StockfishWin)
    ensures Tally(games).draws == |games| - CountResult(games, AiWin) - CountResult(games, StockfishWin)
  {
    if |games| > 0 {
      TallyCountsResults(games[..|games| - 1]);
    }
  }

  /** The tally of the two games of a run. */
  lemma TallyOfTwo(white: StockfishGameResult, black: StockfishGameResult)
    ensures Tally([white, black]) == AddGame(AddGame(Record(0, 0, 0), white), black)
  {
    assert [white, black][..1] == [white];
    assert [white][..0] == [];
  }

  /** A count read from a game record, 0 when the game left it unset. */
  function OrZero(n: Option<nat>): nat {
    if n.Some? then n.value else 0
  }

  /** The AI moves of both games together. */
  function PooledMoves(white: StockfishGameResult, black: StockfishGameResult): nat {
    OrZero(white.aiMoveCount) + OrZero(black.aiMoveCount)
  }

  /** The centipawn loss of both games together. */
  function PooledLoss(white: StockfishGameResult, black: StockfishGameResult): nat {
    OrZero(white.totalCentipawnLoss) + OrZero(black.totalCentipawnLoss)
  }

  /** The overall ACPL: the pooled loss per pooled AI move, 0 when the AI made no move. */
  function OverallAcpl(white: StockfishGameResult, black: StockfishGameResult): (r: real)
    ensures PooledMoves(white, black) == 0 ==> r == 0.0
    ensures PooledMoves(white, black) > 0 ==>
      r * PooledMoves(white, black) as real == PooledLoss(white, black) as real
  {
    Acpl(PooledLoss(white, black), PooledMoves(white, black))
  }

  /** Pooling two non-empty samples gives a mean between the two samples' means. */
  lemma PooledAcplBetween(lossA: nat, movesA: nat, lossB: nat, movesB: nat)
    requires movesA > 0 && movesB > 0
    ensures Min(Acpl(lossA, movesA), Acpl(lossB, movesB)) <= Acpl(lossA + lossB, movesA + movesB)
    ensures Acpl(lossA + lossB, movesA + movesB) <= Max(Acpl(lossA, movesA), Acpl(lossB, movesB))
  {
    var a, b := Acpl(lossA, movesA), Acpl(lossB, movesB);
    var p := Acpl(lossA + lossB, movesA + movesB);
    var na, nb := movesA as real, movesB as real;
    assert p * (na + nb) == a * na + b * nb;
    var lo, hi := Min(a, b), Max(a, b);
    assert lo * na <= a * na && lo * nb <= b * nb by { ScaleBelow(lo, a, na); ScaleBelow(lo, b, nb); }
    assert a * na <= hi * na && b * nb <= hi * nb by { ScaleBelow(a, hi, na); ScaleBelow(b, hi, nb); }
    assert lo * (na + nb) == lo * na + lo * nb && hi * (na + nb) == hi * na + hi * nb;
    assert lo * (na + nb) <= p * (na + nb) <= hi * (na + nb);
    ScaledOrder(lo, p, na + nb);
    ScaledOrder(p, hi, na + nb);
  }

  lemma ScaleBelow(x: real, y: real, n: real)
    requires x <= y && n >= 0.0
    ensures x * n <= y * n
  {
    assert (y - x) * n >= 0.0;
  }

  function Min(a: real, b: real): real { if a <= b then a else b }
  function Max(a: real, b: real): real { if a <= b then b else a }

  /**
   * When both games completed and the AI moved in each, the overall ACPL lies between the two
   * games' own ACPLs.
   */
  lemma OverallAcplBetweenGames(white: StockfishGameResult, black: StockfishGameResult)
    requires white.aiMoveCount.Some? && white.aiMoveCount.value > 0
    requires black.aiMoveCount.Some? && black.aiMoveCount.value > 0
    requires white.totalCentipawnLoss.Some? && black.totalCentipawnLoss.Some?
    requires white.averageCentipawnLoss == Some(Acpl(white.totalCentipawnLoss.value, white.aiMoveCount.value))
    requires black.averageCentipawnLoss == Some(Acpl(black.totalCentipawnLoss.value, black.aiMoveCount.value))
    ensures Min(white.averageCentipawnLoss.value, black.averageCentipawnLoss.value) <= OverallAcpl(white, black)
    ensures OverallAcpl(white, black) <= Max(white.averageCentipawnLoss.value, black.averageCentipawnLoss.value)
  {
    PooledAcplBetween(white.totalCentipawnLoss.value, white.aiMoveCount.value,
                      black.totalCentipawnLoss.value, black.aiMoveCount.value);
  }

  /**
   * The summary after one more run: one more run, the running mean of the overall ACPL, the
   * lowest ACPL seen (no previous summary counts as no bound), and the run's wins, losses and
   * draws added to the previous ones (0 without a summary).
   */
  function UpdateSummary(existing: Option<StockfishSummary>, provider: Provider, model: string,
                         acpl: real, t: Record, now: int)
    : (s: StockfishSummary)
    ensures s.id == ModelId(provider, model) && s.provider == provider && s.model == model && s.lastRunAt == now
    ensures s.runsCompleted == (if existing.Some? then existing.value.runsCompleted else 0) + 1
    ensures existing.None? ==> s.averageAcpl == s.bestAcpl == acpl
    ensures existing.Some? ==>
      s.averageAcpl == RunningMean(existing.value.averageAcpl, existing.value.runsCompleted, acpl)
    ensures s.bestAcpl <= acpl && (existing.Some? ==> s.bestAcpl <= existing.value.bestAcpl)
    ensures s.bestAcpl == acpl || (existing.Some? && s.bestAcpl == existing.value.bestAcpl)
    ensures var before := if existing.Some? then Record(existing.value.wins, existing.value.losses, existing.value.draws)
                          else Record(0, 0, 0);
      s.wins == before.wins + t.wins && s.losses == before.losses + t.losses && s.draws == before.draws + t.draws
  {
    if existing.None? then StockfishSummary(ModelId(provider, model), provider, model, 1, acpl, acpl,
                                            t.wins, t.losses, t.draws, now)
    else
      var e := existing.value;
      StockfishSummary(ModelId(provider, model), provider, model, e.runsCompleted + 1,
                       RunningMean(e.averageAcpl, e.runsCompleted, acpl),
                       if e.bestAcpl <= acpl then e.bestAcpl else acpl,
                       e.wins + t.wins, e.losses + t.losses, e.draws + t.draws, now)
  }

  /** The summary left by a model's runs, with these ACPLs and tallies in order, from no summary. */
  function SummaryAfter(provider: Provider, model: string, runs: seq<(real, Record)>, now: int)
    : (s: Option<StockfishSummary>)
    ensures s.None? <==> |runs| == 0
    ensures s.Some? ==> s.value.runsCompleted == |runs|
  {
    if |runs| == 0 then None
    else Some(UpdateSummary(SummaryAfter(provider, model, runs[..|runs| - 1], now), provider, model,
                            runs[|runs| - 1].0, runs[|runs| - 1].1, now))
  }

  /** The ACPLs of a list of runs. */
  function Acpls(runs: seq<(real, Record)>): (r: seq<real>)
    ensures |r| == |runs| && forall k :: 0 <= k < |runs| ==> r[k] == runs[k].0
  {
    if |runs| == 0 then [] else Acpls(runs[..|runs| - 1]) + [runs[|runs| - 1].0]
  }

  /** The games of a list of runs, counted over their tallies. */
  function GamesOf(runs: seq<(real, Record)>): nat {
    if |runs| == 0 then 0
    else
      var t := runs[|runs| - 1].1;
      GamesOf(runs[..|runs| - 1]) + t.wins + t.losses + t.draws
  }

  /** Folding runs into a summary keeps the mean of every run's ACPL. */
  lemma SummaryAverageIsMean(provider: Provider, model: string, runs: seq<(real, Record)>, now: int)
    requires |runs| > 0
    ensures SummaryAfter(provider, model, runs, now).value.averageAcpl == Mean(Acpls(runs)).value
  {
    SummaryAverageIsRunningMean(provider, model, runs, now);
    FoldRunningMeanIsMean(Acpls(runs));
  }

  lemma {:induction false} SummaryAverageIsRunningMean(provider: Provider, model: string, runs: seq<(real, Record)>,
                                                       now: int)
    requires |runs| > 0
    ensures SummaryAfter(provider, model, runs, now).value.averageAcpl == FoldRunningMean(Acpls(runs))
  {
    var n := |runs|;
    var init := runs[..n - 1];
    assert Acpls(runs)[..n - 1] == Acpls(init);
    if n > 1 {
      SummaryAverageIsRunningMean(provider, model, init, now);
    } else {
      assert RunningMean(0.0, 0, runs[0].0) * 1.0 == runs[0].0;
    }
  }

  /** Folding runs into a summary keeps the lowest ACPL of all runs. */
  lemma {:induction false} SummaryBestIsMinimum(provider: Provider, model: string, runs: seq<(real, Record)>, now: int)
    requires |runs| > 0
    ensures var best := SummaryAfter(provider, model, runs, now).value.bestAcpl;
      (forall k :: 0 <= k < |runs| ==> best <= runs[k].0) && exists k :: 0 <= k < |runs| && best == runs[k].0
  {
    var n := |runs|;
    var init := runs[..n - 1];
    var best := SummaryAfter(provider, model, runs, now).value.bestAcpl;
    if n > 1 {
      SummaryBestIsMinimum(provider, model, init, now);
      forall k | 0 <= k < n ensures best <= runs[k].0 {
        if k < n - 1 {
          assert init[k] == runs[k];
        }
      }
      var previous := SummaryAfter(provider, model, init, now).value.bestAcpl;
      if best == previous {
        var j :| 0 <= j < n - 1 && previous == init[j].0;
        assert runs[j] == init[j];
      } else {
        assert best == runs[n - 1].0;
      }
    } else {
      assert best == runs[0].0;
    }
  }

  /** Folding runs into a summary adds up their games: wins, losses and draws total every game played. */
  lemma {:induction false} SummaryCountsGames(provider: Provider, model: string, runs: seq<(real, Record)>, now: int)
    requires |runs| > 0
    ensures var s := SummaryAfter(provider, model, runs, now).value;
      s.wins + s.losses + s.draws == GamesOf(runs)
  {
    if |runs| > 1 {
      SummaryCountsGames(provider, model, runs[..|runs| - 1], now);
    }
  }

  /** The run as the request starts it, and as the response reports it. */
  function StartedRun(runId: string, createdAt: int, provider: Provider, model: string, level: int): BenchmarkRun {
    BenchmarkRun(runId, createdAt, None, Running, provider, model, level, None, None, 0, 0, 0, 0, None)
  }

  /** The run once both games are over: two games, their tally and the overall ACPL. */
  function CompleteRun(run: BenchmarkRun, white: StockfishGameResult, black: StockfishGameResult, completedAt: int)
    : (r: BenchmarkRun)
    requires run.gamesPlayed == 0 && run.wins == run.losses == run.draws == 0
    ensures r.status == Completed && r.completedAt == Some(completedAt)
    ensures r.id == run.id && r.provider == run.provider && r.model == run.model
    ensures r.stockfishLevel == run.stockfishLevel && r.createdAt == run.createdAt
    ensures r.gameAsWhite == Some(white) && r.gameAsBlack == Some(black)
    ensures r.gamesPlayed == 2 && r.wins + r.losses + r.draws == r.gamesPlayed
    ensures Record(r.wins, r.losses, r.draws) == Tally([white, black])
    ensures r.overallAcpl == Some(OverallAcpl(white, black))
  {
    var t := AddGame(AddGame(Record(0, 0, 0), white), black);
    TallyOfTwo(white, black);
    run.(gameAsWhite := Some(white), gameAsBlack := Some(black), gamesPlayed := run.gamesPlayed + 2,
         wins := t.wins, losses := t.losses, draws := t.draws, overallAcpl := Some(OverallAcpl(white, black)),
         status := Completed, completedAt := Some(completedAt))
  }

  /** The stored summary of a key, if any. */
  function LookupSummary(summaries: map<string, StockfishSummary>, key: string): Option<StockfishSummary> {
    if key in summaries then Some(summaries[key]) else None
  }

  /**
   * Storing a finished run: the completed run under its id, and the model's summary updated
   * with its overall ACPL and tally; every other run and summary is kept.
   */
  function RecordRun(store: StockfishStore, run: BenchmarkRun, white: StockfishGameResult, black: StockfishGameResult,
                     completedAt: int, summaryAt: int)
    : (s: StockfishStore)
    requires run.gamesPlayed == 0 && run.wins == run.losses == run.draws == 0
    ensures s.runs.Keys == store.runs.Keys + {run.id}
    ensures forall k :: k in store.runs && k != run.id ==> s.runs[k] == store.runs[k]
    ensures s.runs[run.id] == CompleteRun(run, white, black, completedAt)
    ensures s.summaries.Keys == store.summaries.Keys + {ModelId(run.provider, run.model)}
    ensures forall k :: k in store.summaries && k != ModelId(run.provider, run.model) ==>
      s.summaries[k] == store.summaries[k]
    ensures s.summaries[ModelId(run.provider, run.model)]
         == UpdateSummary(LookupSummary(store.summaries, ModelId(run.provider, run.model)), run.provider, run.model,
                          OverallAcpl(white, black), Tally([white, black]), summaryAt)
  {
    var done := CompleteRun(run, white, black, completedAt);
    var key := ModelId(run.provider, run.model);
    StockfishStore(store.runs[run.id := done],
                   store.summaries[key := UpdateSummary(LookupSummary(store.summaries, key), run.provider, run.model,
                                                        OverallAcpl(white, black), Tally([white, black]), summaryAt)])
  }

  /**
   * The step. The request body has already been checked: a level, when given, lies in 1..20,
   * and a missing one defaults to 10. An unsupported model is refused with 400, no game is
   * played and nothing is stored; otherwise the model plays white and then black (`llm`, `engines` and `enginePath`
   * are each game's model, engine process and binary path), the finished run is recorded, and
   * the response is the run as started. `games` are the games played, in order. `scoring` is
   * `AsWritten` for the program's scoring of AI moves and `Corrected` for the intended one.
   */
  method RunStockfishBenchmark<G>(lib: Library<G>, llm: Color -> (string, nat) -> Option<string>,
                                  engines: Color -> StockfishOracle, scoring: Scoring, enginePath: Option<string>,
                                  provider: Provider, model: string, level: Option<int>,
                                  runId: string, clock: nat -> int, store: StockfishStore)
    returns (response: Response<BenchmarkRun>, store': StockfishStore, games: seq<StockfishGameResult>)
    requires level.None? || 1 <= level.value <= 20
    ensures !IsSupported(provider, model) ==>
      response == Status400("Model " + model + " is not supported for provider " + ProviderName(provider))
      && store' == store && games == []
    ensures IsSupported(provider, model) ==>
      var run := StartedRun(runId, clock(0), provider, model, if level.Some? then level.value else DefaultLevel);
      && response == Status200(run)
      && |games| == 2
      && GameRecord(games[0], enginePath, White, run.stockfishLevel)
      && GameRecord(games[1], enginePath, Black, run.stockfishLevel)
      && store' == RecordRun(store, run, games[0], games[1], clock(1), clock(2))
  {
    if !IsSupported(provider, model) {
      return Status400("Model " + model + " is not supported for provider " + ProviderName(provider)), store, [];
    }
    var run := StartedRun(runId, clock(0), provider, model, if level.Some? then level.value else DefaultLevel);
    response := Status200(run);
    var white, _, _ := PlayGame(lib, llm(White), engines(White), scoring, enginePath, White, run.stockfishLevel);
    var black, _, _ := PlayGame(lib, llm(Black), engines(Black), scoring, enginePath, Black, run.stockfishLevel);
    games := [white, black];
    store' := RecordRun(store, run, white, black, clock(1), clock(2));
  }

  /**
   * A game that fails, such as one with no engine binary configured, has no result and no AI
   * moves: two of them make a completed run of two draws with an overall ACPL of 0, which
   * then becomes the model's best ACPL whenever its previous best was not negative.
   */
  lemma FailedGamesCountAsDraws(white: StockfishGameResult, black: StockfishGameResult,
                                existing: Option<StockfishSummary>, provider: Provider, model: string, now: int)
    requires white.status == Failed && black.status == Failed
    requires white.result.None? && white.aiMoveCount.None? && black.result.None? && black.aiMoveCount.None?
    requires existing.Some? ==> existing.value.bestAcpl >= 0.0
    ensures Tally([white, black]) == Record(0, 0, 2)
    ensures OverallAcpl(white, black) == 0.0
    ensures UpdateSummary(existing, provider, model, OverallAcpl(white, black), Record(0, 0, 2), now).bestAcpl == 0.0
  {
    TallyOfTwo(white, black);
  }
}

=== FILE: stockfish_engine.dfy ===
/**
 * The pure parts of the `StockfishEngine` wrapper: reading a score out of the engine's
 * output, the skill-level clamp, and splitting a UCI move into squares.
 */
module StockfishEngine {
  import opened Wrappers
  import opened Chess

  /**
   * What the engine printed for one `go depth 15` request: the score of every `info` line
   * that carried one, in the order printed (depth 1 first), and the `bestmove` text.
   */
  datatype EngineOutput = EngineOutput(scores: seq<Score>, bestMove: Option<string>)

  /** A mate distance as centipawns: a mate for the side to move near +10000, against it near -10000. */
  function MateToCentipawns(n: int): int {
    if n > 0 then 10000 - n * 100 else -10000 - n * 100
  }

  /**
   * The mapping is antisymmetric away from mate 0, puts a nearer winning mate higher, and
   * gives a winning mate within 99 moves a positive score. Mate 0 (already mated) is -10000.
   */
  lemma MateToCentipawnsShape(a: int, b: int)
    ensures a != 0 ==> MateToCentipawns(-a) == -MateToCentipawns(a)
    ensures 0 < a < b ==> MateToCentipawns(a) > MateToCentipawns(b)
    ensures 0 < a < 100 ==> 0 < MateToCentipawns(a) < 10000
    ensures MateToCentipawns(0) == -10000
  {
  }

  /** The centipawn value of one score line. */
  function LineCentipawns(s: Score): int {
    match s
    case Cp(c) => c
    case Mate(n) => MateToCentipawns(n)
  }

  /** The first mate distance printed, if any. */
  function FirstMate(scores: seq<Score>): (r: Option<int>)
    ensures r.Some? <==> exists k :: 0 <= k < |scores| && scores[k].Mate?
    ensures r.Some? && scores != [] && scores[0].Mate? ==> r == Some(scores[0].moves)
  {
    if |scores| == 0 then None
    else if scores[0].Mate? then Some(scores[0].moves)
    else
      var r := FirstMate(scores[1..]);
      assert forall k :: 1 <= k < |scores| ==> scores[k] == scores[1..][k - 1];
      r
  }

  /** The first centipawn value printed, if any. */
  function FirstCp(scores: seq<Score>): (r: Option<int>)
    ensures r.Some? <==> exists k :: 0 <= k < |scores| && scores[k].Cp?
  {
    if |scores| == 0 then None
    else if scores[0].Cp? then Some(scores[0].cp)
    else
      var r := FirstCp(scores[1..]);
      assert forall k :: 1 <= k < |scores| ==> scores[k] == scores[1..][k - 1];
      r
  }

  /**
   * `evaluate` as written: the regular expressions match the FIRST `score mate` and the
   * FIRST `score cp` in the whole output, a mate wins over a centipawn value, and with
   * neither the score is 0. The best move is '' when none was printed.
   */
  function EvaluateAsWritten(out: EngineOutput): (r: (int, string))
    ensures FirstMate(out.scores).Some? ==> r.0 == MateToCentipawns(FirstMate(out.scores).value)
    ensures FirstMate(out.scores).None? && FirstCp(out.scores).Some? ==> r.0 == FirstCp(out.scores).value
    ensures out.scores == [] ==> r.0 == 0
    ensures r.1 == out.bestMove.GetOr("")
  {
    var score :=
      match FirstMate(out.scores)
      case Some(n) => MateToCentipawns(n)
      case None => FirstCp(out.scores).GetOr(0);
    (score, out.bestMove.GetOr(""))
  }

  /**
   * The earliest line is the depth-1 estimate: a search whose depth-1 line says +30 and
   * whose depth-15 line says -200 is reported as +30.
   */
  lemma EvaluateAsWrittenReadsShallowestLine()
    ensures EvaluateAsWritten(EngineOutput([Cp(30), Cp(-200)], Some("e2e4"))).0 == 30
    ensures Evaluate(EngineOutput([Cp(30), Cp(-200)], Some("e2e4"))).0 == -200
  {
  }

  /**
   * The evidently intended `evaluate`: the score of the last line printed before
   * `bestmove`, which is the one for the full requested depth; 0 when no line had a score.
   */
  function Evaluate(out: EngineOutput): (r: (int, string))
    ensures out.scores != [] ==> r.0 == LineCentipawns(out.scores[|out.scores| - 1])
    ensures out.scores == [] ==> r.0 == 0
    ensures r.1 == out.bestMove.GetOr("")
  {
    var score := if |out.scores| == 0 then 0 else LineCentipawns(out.scores[|out.scores| - 1]);
    (score, out.bestMove.GetOr(""))
  }

  /** Shallower lines printed before the final one do not change the evaluation. */
  lemma EvaluateIgnoresShallowerLines(earlier: seq<Score>, out: EngineOutput)
    requires out.scores != []
    ensures Evaluate(EngineOutput(earlier + out.scores, out.bestMove)) == Evaluate(out)
  {
    var all := earlier + out.scores;
    assert all[|all| - 1] == out.scores[|out.scores| - 1];
  }

  /** With a single score line the two readings agree. */
  lemma EvaluateAgreesOnOneLine(s: Score, best: Option<string>)
    ensures EvaluateAsWritten(EngineOutput([s], best)) == Evaluate(EngineOutput([s], best))
  {
    if s.Cp? {
      assert FirstMate([s]) == FirstMate([s][1..]);
      assert [s][1..] == [];
    }
  }

  /** `setLevel`: the skill value sent is the requested level clamped to [0, 20]. */
  function SkillLevel(level: int): (r: int)
    ensures 0 <= r <= 20
    ensures 0 <= level <= 20 ==> r == level
    ensures level < 0 ==> r == 0
    ensures level > 20 ==> r == 20
  {
    var m := if 20 < level then 20 else level;
    if 0 < m then m else 0
  }

  /** Clamping is idempotent and monotone. */
  lemma SkillLevelIdempotentMonotone(a: int, b: int)
    ensures SkillLevel(SkillLevel(a)) == SkillLevel(a)
    ensures a <= b ==> SkillLevel(a) <= SkillLevel(b)
  {
  }

  function Min(a: int, b: int): int {
    if a < b then a else b
  }

  /** JavaScript `s.slice(i, j)` for 0 <= i <= j. */
  function Slice(s: string, i: nat, j: nat): (r: string)
    requires i <= j
    ensures |r| == Min(j, |s|) - Min(i, |s|)
  {
    s[Min(i, |s|)..Min(j, |s|)]
  }

  /**
   * A UCI move as origin square, destination square and optional promotion letter:
   * characters 0-1, 2-3, and character 4 when the text is longer than four characters.
   */
  function SplitUci(u: string): (r: (string, string, Option<char>))
    ensures |u| >= 4 ==> |r.0| == 2 && |r.1| == 2
    ensures r.2.Some? <==> |u| > 4
  {
    (Slice(u, 0, 2), Slice(u, 2, 4), if |u| > 4 then Some(u[4]) else None)
  }

  /** Gluing the pieces back together gives the first five characters of a UCI text back. */
  lemma SplitUciRoundTrip(u: string)
    requires |u| >= 4
    ensures var (from, to, promo) := SplitUci(u);
      from + to + (if promo.Some? then [promo.value] else []) == u[..Min(|u|, 5)]
  {
    var (from, to, promo) := SplitUci(u);
    assert from == u[..2] && to == u[2..4];
    if |u| > 4 {
      assert u[..5] == u[..2] + u[2..4] + [u[4]];
    } else {
      assert u[..4] == u[..2] + u[2..4];
    }
  }
}

=== FILE: stockfish_game.dfy ===
/**
 * `playGameAgainstStockfish`: one game between a language model and Stockfish. The model's
 * moves are scored by centipawn loss; three failed attempts in a row lose the game by
 * illegal moves; the game ends at checkmate, a draw, or 200 half-moves.
 */
module StockfishGame {
  import opened Wrappers
  import opened Chess
  import opened ChessJs
  import opened EngineSession
  import opened StockfishEngine
  import opened Json

  const MaxMoves: nat := 200
  const MaxIllegalAttempts: nat := 3

  /** A score seen from the AI's side: a white-relative number, negated for black. */
  function AiPerspective(score: int, aiColor: Color): int {
    if aiColor == White then score else -score
  }

  /**
   * The centipawn loss as the source computes it: it treats both engine scores as
   * white-relative and flips both for a black AI. The engine's scores are relative to the
   * side to move, which is the AI before the move and its opponent after it.
   */
  function CentipawnLossAsWritten(before: int, after: int, aiColor: Color): (r: nat)
    ensures r >= AiPerspective(before, aiColor) - AiPerspective(after, aiColor)
    ensures r == 0 || r == AiPerspective(before, aiColor) - AiPerspective(after, aiColor)
  {
    var d := AiPerspective(before, aiColor) - AiPerspective(after, aiColor);
    if d > 0 then d else 0
  }

  /**
   * A move that keeps White's 60-centipawn edge (the engine says +60 with White to move,
   * then -60 with Black to move) is charged 120, a blunder, as written; it loses nothing.
   */
  lemma CentipawnLossAsWrittenChargesKeptEdge()
    ensures CentipawnLossAsWritten(60, -60, White) == 120
    ensures CentipawnLoss(60, -60) == 0
  {
  }

  /**
   * The evidently intended loss, from side-to-move-relative scores: the AI's score before
   * the move is `before`; after it, the opponent is to move, so the AI's score is `-after`.
   */
  function CentipawnLoss(before: int, after: int): (r: nat)
    ensures r >= before - (-after)
    ensures r == 0 || r == before + after
    ensures r == 0 <==> -after >= before
  {
    var d := before - (-after);
    if d > 0 then d else 0
  }

  /** A score relative to `toMove`, seen from White's side. */
  function WhiteView(relative: int, toMove: Color): int {
    if toMove == White then relative else -relative
  }

  /**
   * The source's formula is right for white-relative scores: converting the engine's
   * relative scores to White's view first gives exactly the intended loss, for either colour.
   */
  lemma CentipawnLossFromWhiteView(before: int, after: int, aiColor: Color)
    ensures CentipawnLoss(before, after)
         == CentipawnLossAsWritten(WhiteView(before, aiColor), WhiteView(after, aiColor.Opponent()), aiColor)
  {
  }

  datatype Severity = Blunder | Mistake | Inaccuracy | Sound {
    function Rank(): nat {
      match this
      case Sound => 0
      case Inaccuracy => 1
      case Mistake => 2
      case Blunder => 3
    }
  }

  /** The loss bands: over 100 a blunder, over 50 a mistake, over 25 an inaccuracy. */
  function Classify(loss: nat): (r: Severity)
    ensures r == Blunder <==> loss > 100
    ensures r == Mistake <==> 50 < loss <= 100
    ensures r == Inaccuracy <==> 25 < loss <= 50
    ensures r == Sound <==> loss <= 25
  {
    if loss > 100 then Blunder
    else if loss > 50 then Mistake
    else if loss > 25 then Inaccuracy
    else Sound
  }

  /** A larger loss is never classified as less severe. */
  lemma ClassifyMonotone(a: nat, b: nat)
    requires a <= b
    ensures Classify(a).Rank() <= Classify(b).Rank()
  {
  }

  /** Average centipawn loss, 0 when the AI made no move. */
  function Acpl(total: nat, count: nat): (r: real)
    ensures count == 0 ==> r == 0.0
    ensures count > 0 ==> r * count as real == total as real
  {
    if count > 0 then total as real / count as real else 0.0
  }

  /** One recorded half-move. AI moves carry their score, the engine's best move and their loss. */
  datatype GameMoveRecord = GameMoveRecord(
    moveNumber: nat,
    player: Color,
    moveSan: string,
    fen: string,
    centipawnScore: Option<int>,
    bestMove: Option<string>,
    centipawnLoss: Option<nat>,
    isAiMove: bool)

  function LossOf(m: GameMoveRecord): nat {
    if m.isAiMove then m.centipawnLoss.GetOr(0) else 0
  }

  function CountAi(moves: seq<GameMoveRecord>): nat {
    if |moves| == 0 then 0
    else CountAi(moves[..|moves| - 1]) + (if moves[|moves| - 1].isAiMove then 1 else 0)
  }

  function SumLoss(moves: seq<GameMoveRecord>): nat {
    if |moves| == 0 then 0 else SumLoss(moves[..|moves| - 1]) + LossOf(moves[|moves| - 1])
  }

  function CountSeverity(moves: seq<GameMoveRecord>, s: Severity): nat {
    if |moves| == 0 then 0
    else
      CountSeverity(moves[..|moves| - 1], s)
      + (if moves[|moves| - 1].isAiMove && Classify(LossOf(moves[|moves| - 1])) == s then 1 else 0)
  }

  /** Every AI move lands in at most one band, so the three counts never exceed the AI moves. */
  lemma {:induction false} SeverityCountsBounded(moves: seq<GameMoveRecord>)
    ensures CountSeverity(moves, Blunder) + CountSeverity(moves, Mistake)
            + CountSeverity(moves, Inaccuracy) <= CountAi(moves)
    decreases |moves|
  {
    if |moves| > 0 {
      SeverityCountsBounded(moves[..|moves| - 1]);
    }
  }

  /** The number of failed attempts since the last successful one. */
  function TrailingFailures(attempts: seq<bool>): nat {
    if |attempts| == 0 || attempts[|attempts| - 1] then 0
    else 1 + TrailingFailures(attempts[..|attempts| - 1])
  }

  datatype GameStatus = Running | Completed | Failed
  datatype GameOutcome = AiWin | StockfishWin | Draw | AiIllegalMove

  datatype StockfishGameResult = StockfishGameResult(
    status: GameStatus,
    result: Option<GameOutcome>,
    resultReason: Option<string>,
    aiColor: Color,
    stockfishLevel: int,
    moves: seq<GameMoveRecord>,
    totalMoves: nat,
    aiMoveCount: Option<nat>,
    totalCentipawnLoss: Option<nat>,
    averageCentipawnLoss: Option<real>,
    blunders: Option<nat>,
    mistakes: Option<nat>,
    inaccuracies: Option<nat>)

  /**
   * The engine process: whether `init` and `setLevel` complete, an evaluation per request
   * and a best move per request (either may time out), indexed by the request's position
   * in the session.
   */
  datatype StockfishOracle = StockfishOracle(
    starts: bool,
    evaluate: (string, nat) -> Result<EngineOutput>,
    bestMove: (string, nat) -> Result<string>)

  /** The outcome read off the final position when the loop set none. */
  function FinalOutcome<G>(lib: Library<G>, g: G, moveNumber: nat, aiColor: Color)
    : (r: (Option<GameOutcome>, Option<string>))
    ensures lib.isCheckmate(g) ==>
      r.0 == Some(if lib.turn(g) != aiColor then AiWin else StockfishWin)
    ensures !lib.isCheckmate(g) && (lib.IsDraw(g) || moveNumber >= MaxMoves) ==> r.0 == Some(Draw)
    ensures r.0.None? <==> !lib.IsGameOver(g) && moveNumber < MaxMoves
  {
    if lib.isCheckmate(g) then
      var winner := if lib.turn(g) == White then Black else White;
      (Some(if winner == aiColor then AiWin else StockfishWin), Some("Checkmate"))
    else if lib.IsDraw(g) then
      (Some(Draw), Some(
        if lib.isStalemate(g) then "Stalemate"
        else if lib.isThreefoldRepetition(g) then "Threefold repetition"
        else if lib.isInsufficientMaterial(g) then "Insufficient material"
        else "50-move rule"))
    else if moveNumber >= MaxMoves then (Some(Draw), Some("Max moves reached"))
    else (None, None)
  }

  /**
   * How a game reads the engine's two evaluations of an AI move: as the program does (the
   * first score line of each output, both taken as White's view and flipped for a black AI,
   * the stored score being the flipped second one), or corrected (the last line of each,
   * relative to the side to move, so the AI's score after its move is the negated second one).
   */
  datatype Scoring = AsWritten | Corrected

  /** The AI's score before its move and after it, as the chosen reading gives them. */
  function AiScores(scoring: Scoring, outBefore: EngineOutput, outAfter: EngineOutput, aiColor: Color): (int, int) {
    match scoring
    case AsWritten =>
      (AiPerspective(EvaluateAsWritten(outBefore).0, aiColor), AiPerspective(EvaluateAsWritten(outAfter).0, aiColor))
    case Corrected => (Evaluate(outBefore).0, -Evaluate(outAfter).0)
  }

  /** Both readings charge exactly the drop in the AI's own score, never a negative amount. */
  lemma LossIsScoreDrop(scoring: Scoring, outBefore: EngineOutput, outAfter: EngineOutput, aiColor: Color)
    ensures var (before, after) := AiScores(scoring, outBefore, outAfter, aiColor);
      MoveLoss(scoring, outBefore, outAfter, aiColor) == if before > after then before - after else 0
  {
  }

  /** The centipawn loss of an AI move under the chosen reading. */
  function MoveLoss(scoring: Scoring, outBefore: EngineOutput, outAfter: EngineOutput, aiColor: Color): nat {
    match scoring
    case AsWritten => CentipawnLossAsWritten(EvaluateAsWritten(outBefore).0, EvaluateAsWritten(outAfter).0, aiColor)
    case Corrected => CentipawnLoss(Evaluate(outBefore).0, Evaluate(outAfter).0)
  }

  /**
   * One AI attempt from position `g` with the model's answer `san`: evaluate, play the SAN,
   * evaluate again (the inner `try`). Returns the position afterwards (which has advanced
   * if the move was played even when the second evaluation then failed), the record when
   * everything succeeded, and the positions sent to the engine. The record stores the AI's
   * score after the move, the engine's best move before it and the move's loss.
   */
  function AiAttempt<G>(lib: Library<G>, engine: StockfishOracle, scoring: Scoring, g: G, san: Option<string>,
                        moveNumber: nat, aiColor: Color, firstRequest: nat)
    : (r: (G, Option<GameMoveRecord>, seq<string>))
    ensures !Filled(san) ==> r == (g, None, [])
    ensures |r.2| <= 2 && (r.1.Some? ==> |r.2| == 2)
    ensures r.1.Some? ==>
      (&& r.1.value.isAiMove && r.1.value.moveNumber == moveNumber
       && r.1.value.player == lib.turn(g) && r.1.value.moveSan == san.value
       && r.2[0] == lib.fen(g) && r.2[1] == r.1.value.fen
       && lib.moveSan(g, san.value).Some? && r.0 == lib.moveSan(g, san.value).value.0
       && engine.evaluate(r.2[0], firstRequest).Ok? && engine.evaluate(r.2[1], firstRequest + 1).Ok?
       && var (before, after) := AiScores(scoring, engine.evaluate(r.2[0], firstRequest).value,
                                          engine.evaluate(r.2[1], firstRequest + 1).value, aiColor);
          && r.1.value.centipawnScore == Some(after)
          && r.1.value.centipawnLoss == Some(if before > after then before - after else 0)
          && r.1.value.bestMove == Some(engine.evaluate(r.2[0], firstRequest).value.bestMove.GetOr("")))
  {
    if !Filled(san) then (g, None, [])
    else
      var fenBefore := lib.fen(g);
      match engine.evaluate(fenBefore, firstRequest)
      case Err(_) => (g, None, [fenBefore])
      case Ok(outBefore) =>
        match lib.moveSan(g, san.value)
        case None => (g, None, [fenBefore])
        case Some((next, _)) =>
          var fenAfter := lib.fen(next);
          match engine.evaluate(fenAfter, firstRequest + 1)
          case Err(_) => (next, None, [fenBefore, fenAfter])
          case Ok(outAfter) =>
            var (_, scoreAfter) := AiScores(scoring, outBefore, outAfter, aiColor);
            LossIsScoreDrop(scoring, outBefore, outAfter, aiColor);
            var record := GameMoveRecord(moveNumber, lib.turn(g), san.value, fenAfter, Some(scoreAfter),
                                         Some(outBefore.bestMove.GetOr("")),
                                         Some(MoveLoss(scoring, outBefore, outAfter, aiColor)), true);
            (next, Some(record), [fenBefore, fenAfter])
  }

  /**
   * `JSON.stringify({from, to, promotion})` for the move object chess.js 1.x is handed: keys in
   * the order `from`, `to`, `promotion`, the last left out when undefined.
   */
  function MoveObject(from: string, to: string, promotion: Option<char>): (r: string)
    ensures |r| >= 2 && r[0] == '{' && r[|r| - 1] == '}'
    ensures promotion.None? ==> r[|r| - 2] == '"'
  {
    "{\"from\":" + JsonString(from) + ",\"to\":" + JsonString(to)
      + (if promotion.Some? then ",\"promotion\":" + JsonString([promotion.value]) else "") + "}"
  }

  /** The message chess.js 1.x throws for a move object it cannot play: `Invalid move: ` and the object's JSON. */
  function InvalidMoveMessage(from: string, to: string, promotion: Option<char>): (r: string)
    ensures |r| > 14 && r[..14] == "Invalid move: " && r[14..] == MoveObject(from, to, promotion)
  {
    "Invalid move: " + MoveObject(from, to, promotion)
  }

  /** Squares that need no escaping appear verbatim between quotes, as in `{"from":"e2","to":"e9"}`. */
  lemma InvalidMoveOfPlainSquares(from: string, to: string)
    requires forall k :: 0 <= k < |from| ==> !NeedsEscape(from[k])
    requires forall k :: 0 <= k < |to| ==> !NeedsEscape(to[k])
    ensures InvalidMoveMessage(from, to, None)
      == "Invalid move: " + ("{\"from\":" + ("\"" + from + "\"") + ",\"to\":" + ("\"" + to + "\"") + "}")
  {
    EscapePlain(from);
    EscapePlain(to);
    var x := "{\"from\":" + JsonString(from) + ",\"to\":" + JsonString(to);
    assert x + "" == x;
  }

  /**
   * Stockfish's turn: ask for a best move, split its UCI text and play it. A timeout, or a move
   * chess.js rejects, is an error that ends the game as failed with the error's message.
   */
  function StockfishTurn<G>(lib: Library<G>, engine: StockfishOracle, g: G, moveNumber: nat, request: nat)
    : (r: Result<(G, GameMoveRecord)>)
    ensures engine.bestMove(lib.fen(g), request).Err? ==> r == Err(engine.bestMove(lib.fen(g), request).message)
    ensures engine.bestMove(lib.fen(g), request).Ok? ==>
      var (from, to, promotion) := SplitUci(engine.bestMove(lib.fen(g), request).value);
      && (lib.moveSquares(g, from, to, promotion).None? ==> r == Err(InvalidMoveMessage(from, to, promotion)))
      && (lib.moveSquares(g, from, to, promotion).Some? ==>
            var (next, m) := lib.moveSquares(g, from, to, promotion).value;
            r.Ok? && r.value.0 == next && r.value.1.moveSan == m.san && r.value.1.fen == lib.fen(next))
    ensures r.Ok? ==>
      (!r.value.1.isAiMove && r.value.1.moveNumber == moveNumber && r.value.1.player == lib.turn(g))
  {
    match engine.bestMove(lib.fen(g), request)
    case Err(e) => Err(e)
    case Ok(uci) =>
      var (from, to, promotion) := SplitUci(uci);
      match lib.moveSquares(g, from, to, promotion)
      case None => Err(InvalidMoveMessage(from, to, promotion))
      case Some((next, m)) =>
        Ok((next, GameMoveRecord(moveNumber, lib.turn(g), m.san, lib.fen(next), None, None, None, false)))
  }

  /** The AI-move statistics of a record list, kept incrementally by the loop. */
  datatype Tally = Tally(aiMoveCount: nat, totalLoss: nat, blunders: nat, mistakes: nat, inaccuracies: nat)

  function TallyOf(moves: seq<GameMoveRecord>): Tally {
    Tally(CountAi(moves), SumLoss(moves), CountSeverity(moves, Blunder),
          CountSeverity(moves, Mistake), CountSeverity(moves, Inaccuracy))
  }

  /** Adding one record to the tally of a list gives the tally of the longer list. */
  function AddRecord(t: Tally, moves: seq<GameMoveRecord>, m: GameMoveRecord): (r: Tally)
    requires t == TallyOf(moves)
    ensures r == TallyOf(moves + [m])
  {
    AppendRecord(moves, m);
    var loss := LossOf(m);
    var sev := Classify(loss);
    if !m.isAiMove then t
    else Tally(t.aiMoveCount + 1, t.totalLoss + loss,
               t.blunders + (if sev == Blunder then 1 else 0),
               t.mistakes + (if sev == Mistake then 1 else 0),
               t.inaccuracies + (if sev == Inaccuracy then 1 else 0))
  }

  /**
   * What any finished game record of `aiColor` at `level` satisfies: it is no longer running;
   * without a binary path it failed for that reason; a failed game has no result, no moves and
   * no aggregates; a completed one has a result, numbered moves within the limit, and
   * aggregates that are the counts, the total loss, the ACPL and the severity counts of its
   * records.
   */
  predicate GameRecord(r: StockfishGameResult, enginePath: Option<string>, aiColor: Color, level: int) {
    && (!Filled(enginePath) ==>
          r.status == Failed && r.resultReason == Some("STOCKFISH_BIN_PATH not set") && r.moves == [])
    && r.status != Running && r.aiColor == aiColor && r.stockfishLevel == level
    && (r.status == Failed ==> r.result.None? && r.moves == [] && r.aiMoveCount.None?)
    && (r.status == Completed ==>
          && r.result.Some?
          && r.totalMoves == |r.moves| <= MaxMoves
          && (forall k :: 0 <= k < |r.moves| ==> r.moves[k].moveNumber == k + 1)
          && r.aiMoveCount == Some(CountAi(r.moves))
          && r.totalCentipawnLoss == Some(SumLoss(r.moves))
          && r.averageCentipawnLoss == Some(Acpl(SumLoss(r.moves), CountAi(r.moves)))
          && r.blunders == Some(CountSeverity(r.moves, Blunder))
          && r.mistakes == Some(CountSeverity(r.moves, Mistake))
          && r.inaccuracies == Some(CountSeverity(r.moves, Inaccuracy)))
  }

  /**
   * The game. `llm(fen, k)` is the model's SAN answer to its k-th prompt (absent when the
   * call fails or returns nothing); `engine` answers evaluations and best moves; `scoring`
   * picks the program's or the corrected reading of the evaluations. Returns the
   * result record, the engine log, and the AI's attempt history (true for a played move).
   */
  method PlayGame<G>(lib: Library<G>, llm: (string, nat) -> Option<string>, engine: StockfishOracle, scoring: Scoring,
                     enginePath: Option<string>, aiColor: Color, level: int)
    returns (r: StockfishGameResult, log: seq<Event<string>>, attempts: seq<bool>)
    ensures GameRecord(r, enginePath, aiColor, level)
    ensures !Filled(enginePath) ==> log == []
    ensures Filled(enginePath) ==>
      Scoped(log, Analysed(log)) && CountSpawns(log) == 1 && CountQuits(log) == 1
    ensures r.result == Some(AiIllegalMove) <==>
      r.status == Completed && TrailingFailures(attempts) == MaxIllegalAttempts
    ensures TrailingFailures(attempts) <= MaxIllegalAttempts
  {
    attempts := [];
    var initial := StockfishGameResult(Running, None, None, aiColor, level, [], 0, None, None, None, None, None, None);
    if !Filled(enginePath) {
      return initial.(status := Failed, resultReason := Some("STOCKFISH_BIN_PATH not set")), [], [];
    }
    var requests: seq<string> := [];
    if !engine.starts {
      r := initial.(status := Failed, resultReason := Some("Timeout waiting for: uciok"));
      log := SessionLog(requests);
      return;
    }

    var g, moves, tally, outcome, reason, failure, asked, tried := PlayMoves(lib, llm, engine, scoring, aiColor);
    requests, attempts := asked, tried;
    var moveNumber := |moves|;

    log := SessionLog(requests);
    if failure.Some? {
      r := initial.(status := Failed, resultReason := failure);
      return;
    }
    if outcome.None? {
      var (o, why) := FinalOutcome(lib, g, moveNumber, aiColor);
      outcome, reason := o, why;
    }
    SeverityCountsBounded(moves);
    r := initial.(
      status := Completed,
      result := outcome,
      resultReason := reason,
      moves := moves,
      totalMoves := |moves|,
      aiMoveCount := Some(tally.aiMoveCount),
      totalCentipawnLoss := Some(tally.totalLoss),
      averageCentipawnLoss := Some(Acpl(tally.totalLoss, tally.aiMoveCount)),
      blunders := Some(tally.blunders),
      mistakes := Some(tally.mistakes),
      inaccuracies := Some(tally.inaccuracies));
  }

  /**
   * The move loop of the game, from the starting position until the game is over, the move
   * limit is reached, the AI has failed too often in a row, or the engine fails. Returns the
   * final position, the records, their tally, the early outcome and its reason, the engine
   * failure, the positions sent to the engine and the AI's attempt history.
   */
  method PlayMoves<G>(lib: Library<G>, llm: (string, nat) -> Option<string>, engine: StockfishOracle, scoring: Scoring,
                      aiColor: Color)
    returns (g: G, moves: seq<GameMoveRecord>, tally: Tally, outcome: Option<GameOutcome>,
             reason: Option<string>, failure: Option<string>, requests: seq<string>, attempts: seq<bool>)
    ensures |moves| <= MaxMoves
    ensures forall k :: 0 <= k < |moves| ==> moves[k].moveNumber == k + 1
    ensures tally == TallyOf(moves)
    ensures !(outcome.Some? && failure.Some?)
    ensures outcome.None? && failure.None? ==> lib.IsGameOver(g) || |moves| >= MaxMoves
    ensures outcome.Some? ==> outcome.value == AiIllegalMove
    ensures outcome == Some(AiIllegalMove) <==> TrailingFailures(attempts) == MaxIllegalAttempts
    ensures TrailingFailures(attempts) <= MaxIllegalAttempts
  {
    g := lib.start;
    moves := [];
    tally := TallyOf(moves);
    var moveNumber: nat := 0;
    var illegalAttempts: nat := 0;
    var llmCalls: nat := 0;
    outcome := None;
    reason := None;
    failure := None;
    requests := [];
    attempts := [];

    while !lib.IsGameOver(g) && moveNumber < MaxMoves
      invariant moveNumber <= MaxMoves
      invariant illegalAttempts < MaxIllegalAttempts
      invariant illegalAttempts == TrailingFailures(attempts)
      invariant moveNumber == |moves|
      invariant forall k :: 0 <= k < |moves| ==> moves[k].moveNumber == k + 1
      invariant tally == TallyOf(moves)
      invariant outcome.None? && failure.None?
      decreases MaxMoves - moveNumber, MaxIllegalAttempts - illegalAttempts
    {
      if lib.turn(g) == aiColor {
        var san := llm(lib.fen(g), llmCalls);
        llmCalls := llmCalls + 1;
        var (next, record, asked) := AiAttempt(lib, engine, scoring, g, san, moveNumber + 1, aiColor, |requests|);
        g := next;
        requests := requests + asked;
        if record.Some? {
          tally := AddRecord(tally, moves, record.value);
          moves := moves + [record.value];
          moveNumber := moveNumber + 1;
          illegalAttempts := 0;
          attempts := attempts + [true];
        } else {
          illegalAttempts := illegalAttempts + 1;
          attempts := attempts + [false];
          if illegalAttempts >= MaxIllegalAttempts {
            outcome := Some(AiIllegalMove);
            reason := Some(if Filled(san) then "Too many illegal moves (last: " + san.value + ")"
                           else "AI failed to return valid move");
            break;
          }
        }
      } else {
        var turn := StockfishTurn(lib, engine, g, moveNumber + 1, |requests|);
        requests := requests + [lib.fen(g)];
        if turn.Err? {
          failure := Some(turn.message);
          break;
        }
        tally := AddRecord(tally, moves, turn.value.1);
        moves := moves + [turn.value.1];
        g := turn.value.0;
        moveNumber := moveNumber + 1;
      }
    }

  }

  /** The running tallies over records extend one record at a time. */
  lemma AppendRecord(moves: seq<GameMoveRecord>, m: GameMoveRecord)
    ensures CountAi(moves + [m]) == CountAi(moves) + (if m.isAiMove then 1 else 0)
    ensures SumLoss(moves + [m]) == SumLoss(moves) + LossOf(m)
    ensures forall s :: (CountSeverity(moves + [m], s)
      == CountSeverity(moves, s) + (if m.isAiMove && Classify(LossOf(m)) == s then 1 else 0))
  {
    assert (moves + [m])[..|moves|] == moves;
  }
}

=== FILE: strings.dfy ===
/** String helpers with the semantics of the JavaScript / Python built-ins the source calls. */
module Strings {

  /** `s.startsWith(p)`. */
  predicate StartsWith(s: string, p: string) {
    |p| <= |s| && s[..|p|] == p
  }

  /** `s.includes(sub)` / Python `sub in s`: some suffix of `s` starts with `sub`. */
  predicate Contains(s: string, sub: string)
    decreases |s|
  {
    StartsWith(s, sub) || (|s| > 0 && Contains(s[1..], sub))
  }

  /** `sub` occurs in `s` starting at index `i`. */
  predicate OccursAt(s: string, sub: string, i: int) {
    0 <= i <= |s| - |sub| && s[i..i + |sub|] == sub
  }

  /** `Contains` is the usual "occurs at some index" relation. */
  lemma {:induction false} ContainsAt(s: string, sub: string)
    ensures Contains(s, sub) <==> exists i :: OccursAt(s, sub, i)
    decreases |s|
  {
    if Contains(s, sub) {
      var i := ContainsWitness(s, sub);
    }
    if exists i :: OccursAt(s, sub, i) {
      var i :| OccursAt(s, sub, i);
      OccursAtContains(s, sub, i);
    }
  }

  lemma {:induction false} ContainsWitness(s: string, sub: string) returns (i: int)
    requires Contains(s, sub)
    ensures OccursAt(s, sub, i)
    decreases |s|
  {
    if StartsWith(s, sub) {
      i := 0;
      assert s[0..|sub|] == s[..|sub|];
    } else {
      var j := ContainsWitness(s[1..], sub);
      i := j + 1;
      assert s[i..i + |sub|] == s[1..][j..j + |sub|];
    }
  }

  lemma {:induction false} OccursAtContains(s: string, sub: string, i: int)
    requires OccursAt(s, sub, i)
    ensures Contains(s, sub)
    decreases |s|
  {
    if i == 0 {
      assert s[..|sub|] == s[0..|sub|];
    } else {
      assert s[1..][i - 1..i - 1 + |sub|] == s[i..i + |sub|];
      OccursAtContains(s[1..], sub, i - 1);
    }
  }

  /** A string containing `a + b` also contains `a`. */
  lemma {:induction false} ContainsPrefixOfPattern(s: string, a: string, b: string)
    requires Contains(s, a + b)
    ensures Contains(s, a)
    decreases |s|
  {
    if StartsWith(s, a + b) {
      assert s[..|a|] == (a + b)[..|a|] == a;
    } else {
      ContainsPrefixOfPattern(s[1..], a, b);
    }
  }

  /** A one-character pattern occurs exactly when the character is in the string. */
  lemma {:induction false} ContainsChar(s: string, c: char)
    ensures Contains(s, [c]) <==> c in s
    decreases |s|
  {
    if |s| > 0 {
      ContainsChar(s[1..], c);
      assert s == [s[0]] + s[1..];
    }
  }

  /** `parts.join(sep)`. */
  function Join(parts: seq<string>, sep: string): string
    decreases |parts|
  {
    if |parts| == 0 then ""
    else if |parts| == 1 then parts[0]
    else parts[0] + sep + Join(parts[1..], sep)
  }

  /** `s.split(c)` for a one-character separator. */
  function Split(s: string, c: char): (parts: seq<string>)
    ensures |parts| >= 1
    decreases |s|
  {
    if |s| == 0 then [""]
    else
      var rest := Split(s[1..], c);
      if s[0] == c then [""] + rest
      else [[s[0]] + rest[0]] + rest[1..]
  }

  /** Splitting never leaves the separator inside a part. */
  lemma {:induction false} SplitPartsAvoidSeparator(s: string, c: char)
    ensures forall k :: 0 <= k < |Split(s, c)| ==> c !in Split(s, c)[k]
    decreases |s|
  {
    if |s| > 0 {
      SplitPartsAvoidSeparator(s[1..], c);
    }
  }

  /** Joining the parts of a split with the separator gives back the string. */
  lemma {:induction false} JoinSplit(s: string, c: char)
    ensures Join(Split(s, c), [c]) == s
    decreases |s|
  {
    if |s| > 0 {
      var rest := Split(s[1..], c);
      JoinSplit(s[1..], c);
      if s[0] == c {
        assert Split(s, c) == [""] + rest;
        assert ([""] + rest)[1..] == rest;
      } else {
        var parts := [[s[0]] + rest[0]] + rest[1..];
        assert Split(s, c) == parts;
        if |rest| == 1 {
          assert Join(rest, [c]) == rest[0];
        } else {
          assert Join(rest, [c]) == rest[0] + [c] + Join(rest[1..], [c]);
          assert parts[1..] == rest[1..];
        }
      }
    }
  }

  /** Text without the separator stays in the part it starts. */
  lemma {:induction false} SplitAfter(t: string, rest: string, c: char)
    requires c !in t
    ensures Split(t + rest, c) == [t + Split(rest, c)[0]] + Split(rest, c)[1..]
    decreases |t|
  {
    if |t| > 0 {
      var s := t + rest;
      assert s[0] == t[0] && t[0] in t && s[1..] == t[1..] + rest;
      SplitAfter(t[1..], rest, c);
      var r := Split(s[1..], c);
      var parts := Split(rest, c);
      assert Split(s, c) == [[s[0]] + r[0]] + r[1..];
      assert r == [t[1..] + parts[0]] + parts[1..];
      assert r[0] == t[1..] + parts[0] && r[1..] == parts[1..];
      assert [t[0]] + t[1..] == t;
      assert [t[0]] + (t[1..] + parts[0]) == t + parts[0];
    } else {
      var parts := Split(rest, c);
      assert t + rest == rest && t + parts[0] == parts[0];
      assert parts == [parts[0]] + parts[1..];
    }
  }

  /** Parts that avoid the separator are what splitting their join gives back. */
  lemma {:induction false} SplitJoin(parts: seq<string>, c: char)
    requires |parts| >= 1
    requires forall k :: 0 <= k < |parts| ==> c !in parts[k]
    ensures Split(Join(parts, [c]), c) == parts
    decreases |parts|
  {
    if |parts| == 1 {
      SplitAfter(parts[0], "", c);
      assert parts[0] + "" == parts[0];
    } else {
      var rest := Join(parts[1..], [c]);
      SplitJoin(parts[1..], c);
      assert Join(parts, [c]) == parts[0] + ([c] + rest);
      SplitAfter(parts[0], [c] + rest, c);
      assert ([c] + rest)[1..] == rest;
      assert Split([c] + rest, c) == [""] + parts[1..];
      assert parts[0] + "" == parts[0];
    }
  }

  /** Every `"` replaced by `""` (`str.replace(/"/g, '""')`). */
  function DoubleQuotes(s: string): (r: string)
    decreases |s|
  {
    if |s| == 0 then ""
    else (if s[0] == '"' then "\"\"" else [s[0]]) + DoubleQuotes(s[1..])
  }

  /** Every `""` read back as `"`: the CSV reader's side of `DoubleQuotes`. */
  function UndoubleQuotes(s: string): string
    decreases |s|
  {
    if |s| >= 2 && s[0] == '"' && s[1] == '"' then "\"" + UndoubleQuotes(s[2..])
    else if |s| == 0 then ""
    else [s[0]] + UndoubleQuotes(s[1..])
  }

  /** Undoubling inverts doubling. */
  lemma {:induction false} UndoubleDouble(s: string)
    ensures UndoubleQuotes(DoubleQuotes(s)) == s
    decreases |s|
  {
    if |s| > 0 {
      UndoubleDouble(s[1..]);
      var d := DoubleQuotes(s);
      if s[0] == '"' {
        assert d == "\"\"" + DoubleQuotes(s[1..]);
        assert d[2..] == DoubleQuotes(s[1..]);
        assert s == "\"" + s[1..];
      } else {
        assert d == [s[0]] + DoubleQuotes(s[1..]);
        assert d[1..] == DoubleQuotes(s[1..]);
        assert s == [s[0]] + s[1..];
      }
    }
  }

  /** Doubling adds exactly one character per quote and leaves a quote-free string unchanged. */
  lemma {:induction false} DoubleQuotesIdentity(s: string)
    requires '"' !in s
    ensures DoubleQuotes(s) == s
    decreases |s|
  {
    if |s| > 0 {
      DoubleQuotesIdentity(s[1..]);
      assert s == [s[0]] + s[1..];
    }
  }

  /** Whitespace removed by `String.prototype.trim` (the ASCII part of it). */
  predicate IsSpace(c: char) {
    c == ' ' || c == '\t' || c == '\n' || c == '\r' || c == '\U{000B}' || c == '\U{000C}'
  }

  /** Every character is whitespace. */
  predicate AllSpace(t: string) {
    forall k :: 0 <= k < |t| ==> IsSpace(t[k])
  }

  lemma AllSpaceCons(c: char, t: string)
    requires IsSpace(c) && AllSpace(t)
    ensures AllSpace([c] + t)
  {
    assert forall k :: 1 <= k < |t| + 1 ==> ([c] + t)[k] == t[k - 1];
  }

  lemma AllSpaceSnoc(t: string, c: char)
    requires AllSpace(t) && IsSpace(c)
    ensures AllSpace(t + [c])
  {
    assert forall k :: 0 <= k < |t| ==> (t + [c])[k] == t[k];
  }

  function TrimStart(s: string): (r: string)
    ensures |r| <= |s| && r == s[|s| - |r|..]
    ensures |r| > 0 ==> !IsSpace(r[0])
    ensures AllSpace(s[..|s| - |r|])
    decreases |s|
  {
    if |s| > 0 && IsSpace(s[0]) then
      var r := TrimStart(s[1..]);
      assert s[..|s| - |r|] == [s[0]] + s[1..][..|s| - 1 - |r|];
      AllSpaceCons(s[0], s[1..][..|s| - 1 - |r|]);
      r
    else s
  }

  function TrimEnd(s: string): (r: string)
    ensures |r| <= |s| && r == s[..|r|]
    ensures |r| > 0 ==> !IsSpace(r[|r| - 1])
    ensures AllSpace(s[|r|..])
    decreases |s|
  {
    if |s| > 0 && IsSpace(s[|s| - 1]) then
      var init := s[..|s| - 1];
      var r := TrimEnd(init);
      assert s[|r|..] == init[|r|..] + [s[|s| - 1]];
      AllSpaceSnoc(init[|r|..], s[|s| - 1]);
      r
    else s
  }

  /** `r` is `s` with some whitespace dropped at its start and some at its end. */
  predicate TrimmedFrom(r: string, s: string) {
    exists i, j :: 0 <= i <= j <= |s| && r == s[i..j] && AllSpace(s[..i]) && AllSpace(s[j..])
  }

  /**
   * `s.trim()`: the part of `s` left once the whitespace at both ends is dropped; what is
   * left neither starts nor ends with whitespace.
   */
  function Trim(s: string): (r: string)
    ensures |r| <= |s|
    ensures |r| > 0 ==> !IsSpace(r[0]) && !IsSpace(r[|r| - 1])
    ensures TrimmedFrom(r, s)
  {
    var t := TrimStart(s);
    var u := TrimEnd(t);
    assert |u| > 0 ==> u[0] == t[0];
    var i := |s| - |t|;
    var j := i + |u|;
    assert u == s[i..j];
    assert s[j..] == t[|u|..];
    u
  }

  /** Trimming twice is trimming once. */
  lemma TrimIdempotent(s: string)
    ensures Trim(Trim(s)) == Trim(s)
  {
    var r := Trim(s);
    if |r| > 0 {
      assert TrimStart(r) == r;
      assert TrimEnd(r) == r;
    }
  }

  /** `c.toLowerCase()` for ASCII letters. */
  function ToLower(c: char): (r: char)
    ensures 'A' <= c <= 'Z' ==> 'a' <= r <= 'z' && r as int - c as int == 32
    ensures !('A' <= c <= 'Z') ==> r == c
  {
    if 'A' <= c <= 'Z' then (c as int + 32) as char else c
  }

  predicate IsDigit(c: char) {
    '0' <= c <= '9'
  }

  function DigitValue(c: char): (d: nat)
    requires IsDigit(c)
    ensures d <= 9
  {
    c as int - '0' as int
  }

  /** Lexicographic order on code units, as the default `Array.prototype.sort` compares strings. */
  predicate LexLe(a: string, b: string)
    decreases |a|
  {
    if |a| == 0 then true
    else if |b| == 0 then false
    else if a[0] < b[0] then true
    else if a[0] > b[0] then false
    else LexLe(a[1..], b[1..])
  }

  lemma {:induction false} LexLeTotal(a: string, b: string)
    ensures LexLe(a, b) || LexLe(b, a)
    decreases |a|
  {
    if |a| > 0 && |b| > 0 && a[0] == b[0] {
      LexLeTotal(a[1..], b[1..]);
    }
  }

  lemma {:induction false} LexLeTransitive(a: string, b: string, c: string)
    requires LexLe(a, b) && LexLe(b, c)
    ensures LexLe(a, c)
    decreases |a|
  {
    if |a| > 0 && |b| > 0 && |c| > 0 && a[0] == b[0] && b[0] == c[0] {
      LexLeTransitive(a[1..], b[1..], c[1..]);
    }
  }

  /** Decimal digits of a natural number, most significant first. */
  function NatToString(n: nat): (r: string)
    ensures |r| >= 1
    ensures forall k :: 0 <= k < |r| ==> IsDigit(r[k])
    decreases n
  {
    var d := ['0' + ((n % 10) as char)];
    if n < 10 then d else NatToString(n / 10) + d
  }

  /** Reading the decimal digits back gives the number. */
  function DigitsValue(s: string): nat
    requires forall k :: 0 <= k < |s| ==> IsDigit(s[k])
    decreases |s|
  {
    if |s| == 0 then 0 else DigitsValue(s[..|s| - 1]) * 10 + DigitValue(s[|s| - 1])
  }

  lemma {:induction false} NatToStringValue(n: nat)
    ensures DigitsValue(NatToString(n)) == n
    decreases n
  {
    var r := NatToString(n);
    if n >= 10 {
      NatToStringValue(n / 10);
      assert r[..|r| - 1] == NatToString(n / 10);
    }
  }

  /** `String(n)` for an integer-valued number. */
  function IntToString(n: int): (r: string)
    ensures |r| >= 1
    ensures forall k :: 0 <= k < |r| ==> IsDigit(r[k]) || (k == 0 && r[k] == '-')
  {
    if n < 0 then "-" + NatToString(-n) else NatToString(n)
  }
}

=== FILE: swing_evaluation.dfy ===
/**
 * The queue-triggered `EvaluatePlayerMove` step: analyse the position before the move, the
 * position after it and the position after the engine's best move, all from the moving
 * player's side, and store the evaluation swing and blunder flag on the move record.
 */
module SwingEvaluation {
  import opened Wrappers
  import opened Chess
  import opened EngineSession
  import opened GameTypes

  /** How much worse the played move is than the best move, never negative. */
  function EvaluationSwing(bestCp: int, playedCp: int): (r: nat)
    ensures r >= bestCp - playedCp
    ensures playedCp >= bestCp ==> r == 0
    ensures playedCp < bestCp ==> r + playedCp == bestCp
  {
    if bestCp - playedCp > 0 then bestCp - playedCp else 0
  }

  /** A swing of more than a pawn is a blunder. */
  predicate IsBlunder(swing: int) {
    swing > 100
  }

  /** Blunders are exactly the moves more than 100 centipawns worse than the best move. */
  lemma BlunderIffMoreThanAPawnWorse(bestCp: int, playedCp: int)
    ensures IsBlunder(EvaluationSwing(bestCp, playedCp)) <==> bestCp - playedCp > 100
    ensures !IsBlunder(EvaluationSwing(bestCp, bestCp - 100))
  {
  }

  /** A stored evaluation: the score in centipawns and the best move's UCI text. */
  datatype Evaluation<M> = Evaluation(centipawnScore: int, bestMove: Option<M>)

  /**
   * The analysis's centipawn score from `player`'s side (python-chess `white()` or
   * `black()` of the side-relative score); a mate score has no centipawn value and counts
   * as 0.
   */
  function PlayerCentipawns(relative: Score, toMove: Color, player: Color): (cp: int)
    ensures relative.Mate? ==> cp == 0
    ensures relative.Cp? && player == toMove ==> cp == relative.cp
    ensures relative.Cp? && player != toMove ==> cp == -relative.cp
  {
    ScoreFor(relative, toMove, player).Centipawns().GetOr(0)
  }

  /** The two sides read the same centipawn score with opposite signs. */
  lemma PlayerCentipawnsAntisymmetric(relative: Score, toMove: Color, player: Color)
    ensures PlayerCentipawns(relative, toMove, player.Opponent())
         == -PlayerCentipawns(relative, toMove, player)
  {
  }

  /** `evaluate_position`: an empty principal variation has no first move and raises. */
  function EvaluatePosition<P, M>(rules: Rules<P, M>, board: P, player: Color,
                                  answer: Result<Analysis<M>>): (r: Result<Evaluation<M>>)
    ensures answer.Err? ==> r.Err?
    ensures answer.Ok? ==> (r.Err? <==> answer.value.pv == Some([]))
    ensures r.Ok? ==> r.value.centipawnScore
                      == PlayerCentipawns(answer.value.relative, rules.turn(board), player)
    ensures r.Ok? ==> (r.value.bestMove.None? <==> answer.value.pv.None?)
    ensures r.Ok? && answer.value.pv.Some? ==> r.value.bestMove == Some(answer.value.pv.value[0])
  {
    match answer
    case Err(e) => Err(e)
    case Ok(a) =>
      match a.pv
      case Some(pv) =>
        if |pv| == 0 then Err("list index out of range")
        else Ok(Evaluation(PlayerCentipawns(a.relative, rules.turn(board), player), Some(pv[0])))
      case None => Ok(Evaluation(PlayerCentipawns(a.relative, rules.turn(board), player), None))
  }

  /** The validated queue payload. */
  datatype SwingInput = SwingInput(
    fenBefore: string,
    fenAfter: string,
    gameId: string,
    moveId: string,
    player: Color)

  /** The first analysis succeeds but names no best move. */
  predicate NoBestMoveBefore<P, M>(rules: Rules<P, M>, analyse: (P, nat) -> Result<Analysis<M>>,
                                   input: SwingInput) {
    && rules.parse(input.fenBefore).Some?
    && var before := rules.parse(input.fenBefore).value;
       var first := EvaluatePosition(rules, before, input.player, analyse(before, 0));
       first.Ok? && first.value.bestMove.None?
  }

  /**
   * The `try` block: the analyses it requested, in order, and the move record it writes.
   * `stored` is what the move stream holds for the game and move ids.
   */
  method EvaluateSwing<P, M>(rules: Rules<P, M>, analyse: (P, nat) -> Result<Analysis<M>>,
                                input: SwingInput, stored: Option<GameMove>)
    returns (outcome: Result<GameMove>, analysed: seq<P>)
    ensures |analysed| <= 3
    ensures rules.parse(input.fenBefore).None? || rules.parse(input.fenAfter).None? ==> analysed == []
    ensures 1 <= |analysed| ==> analysed[0] == rules.parse(input.fenBefore).value
    ensures 2 <= |analysed| ==> analysed[1] == rules.parse(input.fenAfter).value
    ensures 3 == |analysed| ==>
      var before := rules.parse(input.fenBefore).value;
      var first := EvaluatePosition(rules, before, input.player, analyse(before, 0));
      first.Ok? && first.value.bestMove.Some? && analysed[2] == rules.push(before, first.value.bestMove.value)
    ensures outcome.Ok? ==> |analysed| == 3 && stored.Some? && outcome.value == stored.value.(evaluation := outcome.value.evaluation)
    ensures NoBestMoveBefore(rules, analyse, input) ==> outcome.Err? && |analysed| <= 2
    ensures outcome.Ok? ==> outcome.value.evaluation.Some?
    ensures outcome.Ok? ==> (
      var e := outcome.value.evaluation.value;
      var played := EvaluatePosition(rules, analysed[1], input.player, analyse(analysed[1], 1));
      var best := EvaluatePosition(rules, analysed[2], input.player, analyse(analysed[2], 2));
      && played.Ok? && best.Ok?
      && e.centipawnScore == played.value.centipawnScore
      && e.evaluationSwing >= best.value.centipawnScore - played.value.centipawnScore
      && (e.evaluationSwing == 0 || e.evaluationSwing == best.value.centipawnScore - played.value.centipawnScore)
      && (e.blunder <==> e.evaluationSwing > 100))
    ensures outcome.Ok? ==> (
      var before := rules.parse(input.fenBefore).value;
      var first := EvaluatePosition(rules, before, input.player, analyse(before, 0));
      && first.Ok? && first.value.bestMove.Some?
      && outcome.value.evaluation.value.bestMove == rules.uci(first.value.bestMove.value))
    ensures stored.None? ==> outcome.Err?
  {
    analysed := [];
    var parsedBefore := rules.parse(input.fenBefore);
    var parsedAfter := rules.parse(input.fenAfter);
    if parsedBefore.None? || parsedAfter.None? {
      return Err("invalid fen"), [];
    }
    var before, after := parsedBefore.value, parsedAfter.value;

    analysed := [before];
    var evalBefore := EvaluatePosition(rules, before, input.player, analyse(before, 0));
    if evalBefore.Err? {
      return Err(evalBefore.message), analysed;
    }
    analysed := analysed + [after];
    var evalAfter := EvaluatePosition(rules, after, input.player, analyse(after, 1));
    if evalAfter.Err? {
      return Err(evalAfter.message), analysed;
    }
    if evalBefore.value.bestMove.None? {
      return Err("Unable to determine best move from analysis"), analysed;
    }
    var best := evalBefore.value.bestMove.value;
    var afterBest := rules.push(before, best);
    analysed := analysed + [afterBest];
    var evalBest := EvaluatePosition(rules, afterBest, input.player, analyse(afterBest, 2));
    if evalBest.Err? {
      return Err(evalBest.message), analysed;
    }

    var swing := EvaluationSwing(evalBest.value.centipawnScore, evalAfter.value.centipawnScore);
    var evaluation := MoveEvaluation(evalAfter.value.centipawnScore, rules.uci(best), swing, IsBlunder(swing));
    if stored.None? {
      return Err("Move not found"), analysed;
    }
    outcome := Ok(stored.value.(evaluation := Some(evaluation)));
  }

  /**
   * The handler: a missing engine path fails before spawning; otherwise the engine session
   * is well scoped whether the evaluation succeeds or raises.
   */
  method HandleSwing<P, M>(rules: Rules<P, M>, analyse: (P, nat) -> Result<Analysis<M>>,
                              input: SwingInput, stockfishBinPath: Option<string>,
                              stored: Option<GameMove>)
    returns (outcome: Result<GameMove>, log: seq<Event<P>>)
    ensures !Filled(stockfishBinPath) ==> outcome.Err? && log == []
    ensures Filled(stockfishBinPath) ==>
      Scoped(log, Analysed(log)) && CountSpawns(log) == 1 && CountQuits(log) == 1
    ensures outcome.Ok? ==> |Analysed(log)| == 3 && stored.Some? && outcome.value == stored.value.(evaluation := outcome.value.evaluation)
    ensures outcome.Ok? ==> outcome.value.evaluation.Some?
  {
    if !Filled(stockfishBinPath) {
      return Err("STOCKFISH_BIN_PATH environment variable not set"), [];
    }
    var analysed;
    outcome, analysed := EvaluateSwing(rules, analyse, input, stored);
    log := SessionLog(analysed);
  }
}

=== FILE: wrappers.dfy ===
/** Optional values and results with an error message, shared by every module. */
module Wrappers {

  /** A value that may be absent (JavaScript `undefined` / `null`, Python `None`). */
  datatype Option<+T> = None | Some(value: T) {
    function GetOr(default: T): T {
      match this
      case Some(v) => v
      case None => default
    }
  }

  /** Either a value or the message of the exception the source raises. */
  datatype Result<+T> = Ok(value: T) | Err(message: string)

  /** JavaScript `+` on numbers where `None` is NaN: NaN absorbs everything. */
  function Plus(a: Option<int>, b: Option<int>): (r: Option<int>)
    ensures r.Some? <==> a.Some? && b.Some?
    ensures r.Some? ==> r.value - a.value == b.value
  {
    if a.Some? && b.Some? then Some(a.value + b.value) else None
  }

  /** A string that is present and non-empty: the truthiness test of Python and JavaScript. */
  predicate Filled(o: Option<string>) {
    o.Some? && o.value != ""
  }
}
